=== FILE: README.md ===
# Quoridor game and chat system: a verified Dafny model

This project models the logic core of a Unity Quoridor game with an AI opponent and a
set of chatbots, together with the Python knowledge server the game talks to. Every
part is a pure function over immutable values; the scene, the network, files, the clock
and the random number generator become parameters.

The modules follow the program's components:

- **Game rules and learning.** `QuoridorRules` holds the static rule kernel of
  `QuoridorAI.cs`: move generation and application, the game-over test, wall blocking,
  the phase features, the rule-priority strategy classifier and the move filter.
  `QLearning` covers `QLearningAgent.cs`: the state and action keys, the Q update, the
  epsilon schedule, the epsilon-greedy choice and the parallel-list save format.
  `SelfPlay` is the episode loop of `QuoridorSelfPlayTrainer.cs`.
- **Board state machines.** `GameManager` covers turns, the win test, the AI's move
  history, the direct step, the blocking wall and the slot index. `PathSearch` is its
  A* search. `WallPlacer` covers wall slots and placement, `ChessPlayer` the pawn,
  `BoardSquare` a square's occupancy and click, and `MoveValidator` the wall-grid check.
  Whatever the code asks the scene ("is there a wall between these squares?") is a
  `blocked(from, to)` parameter.
- **Chat.**
  - `KnowledgeEngine` is the Python server `simple_quoridor_ai.py`: four response tiers,
    learning, saving, and the Flask handlers as plain operations on a document.
  - `ChatService` and `JsonText` are the Rasa and Gemini reply scanners and the JSON
    escaping.
  - `ChatUI`, `HybridChat`, `EnhancedChat` and `AIChatManager` are the chat managers:
    bounded histories, keyword cascades and the local/API tiering.
  - `SimpleChatbotSystem`, `SimpleChatbotModel` and `TrainedChatbot` are the three
    trained matchers. `FoldedText` and `WordText` hold their normalisers, and `Scoring`
    the Jaccard ratio and the best-score scan they share.
- **Audio.** `WavUtility` decodes a RIFF WAVE file: the header fields, the chunk walk
  to the "data" chunk and the 16-bit samples.
- **Library models.** `Strings`, `Seqs`, `Dicts`, `Numbers` and `Optional` model the .NET
  and Python library calls the code relies on. C# `Dictionary` and Python `dict` become
  association lists that keep insertion order. A random draw from a list becomes a
  `pick: nat` parameter, and the contracts state that the result is a member of the list.
  An exception becomes `None` or an explicit failure value.

## Model

| member | source | states |
|---|---|---|
| KnowledgeEngine.KeywordResponse | AI_Final/simple_quoridor_ai.py:150-174 | the cascade order: a game word with a rules word gives a rules fact; a game word with a strategy word gives a strategy; then a wall fact, a movement fact, the fixed win sentence, the fixed start sentence; anything else gives None |
| KnowledgeEngine.KeywordResponseFromKnowledge | AI_Final/simple_quoridor_ai.py:150-174 | every keyword answer is non-empty and is drawn from the built-in knowledge lists or is one of the two fixed sentences |
| KnowledgeEngine.GameNameGivesRules | AI_Final/simple_quoridor_ai.py:153-155 | any input containing "trò chơi" gets a rules fact, since "trò chơi" is a game word and contains the rules word "chơi" |
| KnowledgeEngine.CommonAnswer | AI_Final/simple_quoridor_ai.py:121-125 | an answer exists iff some table question is a substring of the cleaned input, and it is the answer of the first such question in table order |
| KnowledgeEngine.FittingKey | AI_Final/simple_quoridor_ai.py:128-130 | the index of the first learned key all of whose words occur in the input, or -1 exactly when no key fits |
| KnowledgeEngine.Respond | AI_Final/simple_quoridor_ai.py:116-148 | the confidence is one of 0.9, 0.8, 0.7, 0.3 (never the initial 0.5); 0.9 iff a table question matches; 0.8 with a member of the first fitting key's list; 0.7 with the keyword answer; 0.3 with one of the four apologies exactly when the keyword tier has nothing; an empty learned list makes `random.choice` raise |
| KnowledgeEngine.LearnedTier | AI_Final/simple_quoridor_ai.py:127-148 | tiers 2 to 4 as above, for a given learned map |
| KnowledgeEngine.KeywordTier | AI_Final/simple_quoridor_ai.py:134-148 | 0.7 with the keyword answer exactly when there is one, otherwise 0.3 with an apology |
| KnowledgeEngine.LongWords | AI_Final/simple_quoridor_ai.py:99-100 | exactly the whitespace-split words of the lower-cased input longer than three characters |
| KnowledgeEngine.Learn | AI_Final/simple_quoridor_ai.py:103-110 | the response is appended under the key (duplicates kept, a new key goes last) and no other key changes |
| KnowledgeEngine.Save | AI_Final/simple_quoridor_ai.py:75-85 | a successful save stores the last 100 conversations and the learned patterns; a failed write changes nothing |
| KnowledgeEngine.Train | AI_Final/simple_quoridor_ai.py:87-114 | exactly one conversation with the lower-cased input is appended; with no long word the patterns are unchanged, otherwise the response is learned under the first three long words joined by spaces; a save happens exactly when the history length is a multiple of 10 |
| KnowledgeEngine.Load | AI_Final/simple_quoridor_ai.py:61-73 | a readable file restores the conversations, and the learned patterns when non-empty; a missing or malformed file leaves the engine empty |
| KnowledgeEngine.SaveLoadRoundTrip | AI_Final/simple_quoridor_ai.py:61-85 | loading what was saved gives back the last 100 conversations and every learned pattern |
| KnowledgeEngine.GetStats | AI_Final/simple_quoridor_ai.py:176-183 | the counts of conversations and learned keys, five categories plus one once `learned_patterns` exists, and the last timestamp exactly when there is a conversation |
| KnowledgeEngine.Chat | AI_Final/simple_quoridor_ai.py:189-210 | an empty message is rejected with 400 before any change; otherwise the answer is returned and the exchange is learned; a raised error gives 500 with the state unchanged |
| KnowledgeEngine.TrainHandler | AI_Final/simple_quoridor_ai.py:212-232 | an empty input or response is rejected with no change; otherwise the pair is recorded and then a save is forced |
| KnowledgeEngine.Reset | AI_Final/simple_quoridor_ai.py:247-263 | no conversations and no learned keys remain, the `learned_patterns` key itself survives, and the file is gone |
| KnowledgeEngine.ResetStats | AI_Final/simple_quoridor_ai.py:176-183 | after a reset the statistics report 0 conversations, 0 learned patterns and no last conversation |
| KnowledgeEngine.ExportData | AI_Final/simple_quoridor_ai.py:265-275 | the knowledge base and exactly the last 50 conversations (or all when fewer), without changing the engine |
| KnowledgeEngine.PatternKeyFits | AI_Final/simple_quoridor_ai.py:99-106 | the key learned from an input fits that input's cleaned form |
| KnowledgeEngine.TrainedKeyFits | AI_Final/simple_quoridor_ai.py:87-110 | after training on an input with a long word, some learned key fits that input |
| KnowledgeEngine.TrainedInputRecalled | AI_Final/simple_quoridor_ai.py:87-132 | after training on an input, asking it again is answered by the question table or the learned patterns, never by the keyword tier or an apology |
| QLearning.EncodeAction | AI_Final/Assets/scripts/QLearningAgent.cs:119-125 | a step code starts "M:" and a wall code starts "W:", so the two kinds never share a code |
| QLearning.DecodeEncodeAction | AI_Final/Assets/scripts/QLearningAgent.cs:119-125 | the action code reads back as the move it encodes |
| QLearning.EncodeActionInjective | AI_Final/Assets/scripts/QLearningAgent.cs:119-125 | two generated moves with the same code are the same move |
| QLearning.WallTexts | AI_Final/Assets/scripts/QLearningAgent.cs:113 | one "x,z,True/False" text per placed wall, in order |
| QLearning.StateKeyIsJoin | AI_Final/Assets/scripts/QLearningAgent.cs:110-116 | the state key is "ax,ay", "hx,hy", the two wall counts and the walls joined by "\|", joined by "-" |
| QLearning.DecodeEncodeState | AI_Final/Assets/scripts/QLearningAgent.cs:110-116 | a state key with no negative number reads back as the state it encodes |
| QLearning.EncodeStateInjective | AI_Final/Assets/scripts/QLearningAgent.cs:110-116 | two states without negative numbers that share a key are equal, so they never share a Q-table row |
| QLearning.WallsPartRoundTrip | AI_Final/Assets/scripts/QLearningAgent.cs:113 | the walls part of a key reads back as the wall list |
| QLearning.ParseWallTexts | AI_Final/Assets/scripts/QLearningAgent.cs:113 | the wall texts read back as the walls |
| QLearning.SetQEffect | AI_Final/Assets/scripts/QLearningAgent.cs:171-172 | writing (s, a) makes that entry the value and leaves every other (state, action) entry as it was |
| QLearning.MaxOrZero | AI_Final/Assets/scripts/QLearningAgent.cs:178 | `DefaultIfEmpty(0).Max()`: 0 for no values, else a stored value bounding all of them |
| QLearning.MaxQNext | AI_Final/Assets/scripts/QLearningAgent.cs:174-180 | the bootstrap term is 0 when there are no next moves or the next state is unseen |
| QLearning.MaxQNextIsRowMaximum | AI_Final/Assets/scripts/QLearningAgent.cs:174-180 | otherwise it is the largest value stored for the next state |
| QLearning.RowMaximum | AI_Final/Assets/scripts/QLearningAgent.cs:178 | the row maximum is stored under some action and bounds every action's value |
| QLearning.UpdateTable | AI_Final/Assets/scripts/QLearningAgent.cs:167-183 | the table stays well-formed and keeps every row non-empty |
| QLearning.UpdateQ | AI_Final/Assets/scripts/QLearningAgent.cs:167-183 | only the Q-table changes, and it stays well-formed with non-empty rows |
| QLearning.UpdateTableEffect | AI_Final/Assets/scripts/QLearningAgent.cs:167-183 | the (s, a) entry exists afterwards with its prior value (0 when new) moved by alpha towards reward + gamma * maxQNext, read after the entry exists; no other entry changes |
| QLearning.UpdatedValueMovesTowardsTarget | AI_Final/Assets/scripts/QLearningAgent.cs:182 | the new value lies between the prior value and the target, and equals the prior value exactly when that already is the target |
| QLearning.SetQRowsNonEmpty | AI_Final/Assets/scripts/QLearningAgent.cs:170-172 | a write never leaves an empty row behind |
| QLearning.Lerp | AI_Final/Assets/scripts/QLearningAgent.cs:47 | `Mathf.Lerp` clamps its parameter: at 1 or above it gives the end, at 0 or below the start |
| QLearning.Clamp01 | AI_Final/Assets/scripts/QLearningAgent.cs:46 | the parameter clamped to [0, 1] |
| QLearning.DecayEpsilonStep | AI_Final/Assets/scripts/QLearningAgent.cs:41-56 | one more step; epsilon never below the minimum, and at the minimum once `decaySteps` steps are done; nothing else changes |
| QLearning.DecayEpsilonEpisode | AI_Final/Assets/scripts/QLearningAgent.cs:59-67 | one more episode; epsilon is max(minEpsilon, epsilon * rate), so never below the minimum and never growing when the rate is at most 1 |
| QLearning.ResetEpsilon | AI_Final/Assets/scripts/QLearningAgent.cs:70-77 | epsilon back to its initial value and both counters zero, nothing else changed |
| QLearning.ResetForgetsDecay | AI_Final/Assets/scripts/QLearningAgent.cs:41-77 | a reset undoes any step or episode decay made before it |
| QLearning.BestAction | AI_Final/Assets/scripts/QLearningAgent.cs:155 | the key of the first action of highest value in row order, as the stable `OrderByDescending(...).First()` picks it |
| QLearning.BestIndex | AI_Final/Assets/scripts/QLearningAgent.cs:155 | the first index of a maximal value |
| QLearning.ChooseAction | AI_Final/Assets/scripts/QLearningAgent.cs:128-164 | null iff there are no moves, and then nothing changes; otherwise one epsilon step and a member of the list; exploiting a known row picks the move whose code is the best action when one exists; an empty row makes `First()` throw |
| QLearning.ChooseNeverThrowsOnUpdatedTables | AI_Final/Assets/scripts/QLearningAgent.cs:150-155 | on tables built by `UpdateQ` the exploit branch never throws |
| Dicts.FromLists | AI_Final/Assets/scripts/QLearningAgent.cs:435-441 | `ToDictionary` pairs only the first min(\|keys\|, \|values\|) entries, and a later duplicate key overwrites an earlier one |
| Dicts.FromListsRoundTrip | AI_Final/Assets/scripts/QLearningAgent.cs:429-441 | a dictionary rebuilt from its key and value lists is the same dictionary |
| QLearning.SerializeTable | AI_Final/Assets/scripts/QLearningAgent.cs:453-463 | one key and one row list per state |
| QLearning.TableRoundTrip | AI_Final/Assets/scripts/QLearningAgent.cs:445-499 | `new QTableSerialization(t).ToDictionary()` gives back t, entry order included |
| QLearning.LoadQTable | AI_Final/Assets/scripts/QLearningAgent.cs:320-417 | a missing, empty or unreadable file gives an empty table; a readable one gives the rebuilt table; more than 1000 states switch to epsilon 0.1 with 1000 steps and episodes |
| QLearning.SaveLoadRoundTrip | AI_Final/Assets/scripts/QLearningAgent.cs:274-417 | a saved table loads back unchanged |
| Dicts.Put | AI_Final/Assets/scripts/QLearningAgent.cs:170-172 | `d[k] = v` overwrites in place or appends a new key, keeping keys distinct |
| Dicts.PutGet | AI_Final/Assets/scripts/QLearningAgent.cs:170-172 | after `d[k] = v`, `k` gives `v` and every other key is unaffected |
| QuoridorRules.Neighbours | AI_Final/Assets/scripts/QuoridorAI.cs:1329-1332 | the four neighbours up, down, left, right of a square, in that order |
| QuoridorRules.WallOrientation | AI_Final/Assets/scripts/QuoridorAI.cs:1402-1417 | a horizontal wall stops only vertical steps and a vertical wall only sideways ones |
| QuoridorRules.BlockingSymmetric | AI_Final/Assets/scripts/QuoridorAI.cs:1392-1417 | a wall that blocks a step also blocks the step back |
| QuoridorRules.StepMoves | AI_Final/Assets/scripts/QuoridorAI.cs:1329-1336 | exactly the movement moves to the listed squares that are on the board and not blocked |
| QuoridorRules.WallCandidateOnto | AI_Final/Assets/scripts/QuoridorAI.cs:1341-1351 | every on-board wall is produced by exactly one pass of the x, y, orientation loop |
| QuoridorRules.WallMovesFrom | AI_Final/Assets/scripts/QuoridorAI.cs:1339-1352 | exactly the on-board candidate walls that are not already on the board |
| QuoridorRules.WallMoveIsCandidate | AI_Final/Assets/scripts/QuoridorAI.cs:1419-1428 | a wall is offered exactly when it is on the board and no identical wall has been placed |
| QuoridorRules.CandidateOnBoard | AI_Final/Assets/scripts/QuoridorAI.cs:1341-1346 | each loop pass names a wall on the 9x9 board |
| QuoridorRules.GenerateMoves | AI_Final/Assets/scripts/QuoridorAI.cs:1322-1355 | a move is generated exactly when it is legal: an unblocked on-board neighbour step, or a new on-board wall while the mover has walls left |
| QuoridorRules.GeneratedAreLegal | AI_Final/Assets/scripts/QuoridorAI.cs:1322-1355 | the steps and the wall candidates together are exactly the legal moves |
| QuoridorRules.ApplyMove | AI_Final/Assets/scripts/QuoridorAI.cs:1357-1377 | a step moves only the mover's pawn; a wall appends that wall and uses one of the mover's walls; nothing else changes |
| QuoridorRules.GeneratedWallKeepsCountsAndWalls | AI_Final/Assets/scripts/QuoridorAI.cs:1338-1377 | placing a generated wall never makes a wall count negative and never repeats a wall |
| QuoridorRules.GameOverOnlyByReachingGoal | AI_Final/Assets/scripts/QuoridorAI.cs:1379-1385 | a wall never ends a running game; a step ends it only when the AI reaches row 0 or the human row 8 |
| QuoridorRules.ExtractFeatures | AI_Final/Assets/scripts/QuoridorAI.cs:1066-1086 | exactly one of early, mid and end game holds, split at more than 14 and at most 6 walls in total; the distance advantage is positive iff the AI is nearer its goal |
| QuoridorRules.InsertByPriority | AI_Final/Assets/scripts/QuoridorAI.cs:1800 | one longer, and the new rule goes first exactly when its priority is at least the current head's |
| QuoridorRules.SortByPriority | AI_Final/Assets/scripts/QuoridorAI.cs:1800 | the stable descending sort keeps the length |
| QuoridorRules.InsertIsPermutation | AI_Final/Assets/scripts/QuoridorAI.cs:1800 | inserting adds exactly the one rule |
| QuoridorRules.SortIsPermutation | AI_Final/Assets/scripts/QuoridorAI.cs:1800 | the sort is a permutation of its input |
| QuoridorRules.SortHead | AI_Final/Assets/scripts/QuoridorAI.cs:1800-1806 | the head of the sort is the earliest rule of the highest priority |
| QuoridorRules.Matching | AI_Final/Assets/scripts/QuoridorAI.cs:1799 | exactly the rules whose condition holds, in the order they were added |
| QuoridorRules.PredictPicksBestRule | AI_Final/Assets/scripts/QuoridorAI.cs:1796-1810 | Balanced when no rule holds, else the decision of the earliest holding rule of highest priority |
| QuoridorRules.EndGameIsDefensive | AI_Final/Assets/scripts/QuoridorAI.cs:1747-1753 | in the end game the answer is always Defensive, the only priority-3 rule |
| QuoridorRules.TopPriorityRule | AI_Final/Assets/scripts/QuoridorAI.cs:1736-1792 | the end-game rule is the only rule of priority 3 or more |
| QuoridorRules.SingleMatch | AI_Final/Assets/scripts/QuoridorAI.cs:1796-1810 | when exactly one rule holds, its decision is the answer |
| QuoridorRules.EarlyGameIsBalanced | AI_Final/Assets/scripts/AITestScript.cs:49-66 | the test's early-game features give Balanced |
| QuoridorRules.LeadingIsBlocking | AI_Final/Assets/scripts/AITestScript.cs:70-85 | the test's leading features give Blocking |
| QuoridorRules.BehindIsAggressive | AI_Final/Assets/scripts/AITestScript.cs:89-104 | the test's behind features give Aggressive |
| QuoridorRules.BehindTestStateIsEndGame | AI_Final/Assets/scripts/AITestScript.cs:89-104 | no real position has the behind test's features: with 3 walls left on each side the extracted features are end-game ones, and the answer is Defensive |
| QuoridorRules.FilterMovesByStrategy | AI_Final/Assets/scripts/QuoridorAI.cs:1090-1115 | a subsequence of the moves: all of them for Balanced; walls and forward steps for Aggressive; steps and walls nearer the AI for Defensive; the walls, or the steps when there are none, for Blocking |
| SelfPlay.Rewards | AI_Final/Assets/scripts/QuoridorSelfPlayTrainer.cs:150-164 | on game over the mover gets +1 and the other -1; otherwise the rewards stay |
| SelfPlay.Moved | AI_Final/Assets/scripts/QuoridorSelfPlayTrainer.cs:146-181 | after a move the state is the applied move, the turn passes, the count grows by one, and the game has ended exactly when the new state is over |
| SelfPlay.MovedConsistent | AI_Final/Assets/scripts/QuoridorSelfPlayTrainer.cs:117-181 | a move keeps the loop invariant |
| SelfPlay.StepFacts | AI_Final/Assets/scripts/QuoridorSelfPlayTrainer.cs:117-181 | a pass keeps the loop invariant, changes only the agent whose turn it was, and counts a move exactly when it neither stopped for lack of moves nor aborted on an empty Q-row, in which case the state is unchanged |
| SelfPlay.StepPlaysLegalMove | AI_Final/Assets/scripts/QuoridorSelfPlayTrainer.cs:119-146 | each pass that moves plays a legal move of the side to play |
| SelfPlay.PlayFacts | AI_Final/Assets/scripts/QuoridorSelfPlayTrainer.cs:117-181 | an episode plays at most maxMovesPerGame moves, stops at the first game-over state and rewards the final mover +1, the other -1 |
| SelfPlay.EpisodeFacts | AI_Final/Assets/scripts/QuoridorSelfPlayTrainer.cs:101-181 | the same for an episode from the initial position (AI1 at (4,8), AI2 at (4,0), 10 walls each) |
| SelfPlay.PrepareAgents | AI_Final/Assets/scripts/QuoridorSelfPlayTrainer.cs:68-97 | both agents start alike; fresh without preserving; loaded from the file with preserving; switched to epsilon 0.1 when more than 1000 states load |
| SelfPlay.StartTraining | AI_Final/Assets/scripts/QuoridorSelfPlayTrainer.cs:37-48 | nothing happens while training is already running |
| SelfPlay.StopTraining | AI_Final/Assets/scripts/QuoridorSelfPlayTrainer.cs:54-61 | only the training flag is cleared |
| SelfPlay.EpisodesFacts | AI_Final/Assets/scripts/QuoridorSelfPlayTrainer.cs:99-194 | the run either stops on an aborted episode with the flag still set, or clears it; the file then holds agent 2's last save, or is unchanged when no episode ran |
| SelfPlay.TrainingRunFacts | AI_Final/Assets/scripts/QuoridorSelfPlayTrainer.cs:37-194 | a started run that clears the flag leaves the file unchanged or holding agent 2's final table |
| GameManager.EndGame | AI_Final/Assets/scripts/GameManager.cs:1055-1074 | the game is over with the given winner, the turn untouched |
| GameManager.SwitchTurn | AI_Final/Assets/scripts/GameManager.cs:233-255 | the turn passes to the other player; handing it to the AI in a game against it either ends the game at once (the AI already on row 0) or starts the AI thinking; nothing else changes |
| GameManager.OnPlayerMove | AI_Final/Assets/scripts/GameManager.cs:200-218 | nothing happens when the game is over, the AI is thinking or the sender is not on turn; a move onto the mover's goal row ends the game with the mover as winner and no switch; any other move switches the turn |
| GameManager.OnWallPlaced | AI_Final/Assets/scripts/GameManager.cs:220-231 | the same gating, and an accepted wall always switches the turn |
| GameManager.HumanMoveWakesAI | AI_Final/Assets/scripts/GameManager.cs:200-255 | against the AI, a human move that does not win hands the turn to the AI, which is then thinking or, already on row 0, the winner |
| GameManager.AddToAIHistory | AI_Final/Assets/scripts/GameManager.cs:405-414 | the new position is last and the history never holds more than four entries |
| GameManager.HistoryKeepsLastFour | AI_Final/Assets/scripts/GameManager.cs:405-414 | starting empty, the history is always the last four positions added |
| GameManager.OscillationMeaning | AI_Final/Assets/scripts/GameManager.cs:416-423 | oscillation means the last three entries go target, elsewhere, target |
| GameManager.GetDirectMoveTowardsGoal | AI_Final/Assets/scripts/GameManager.cs:627-653 | away from the goal, one step that brings it one closer, along y while the rows differ; (0, 0) at the goal |
| GameManager.DirectMoveSentinelClash | AI_Final/Assets/scripts/GameManager.cs:598-653 | the real step from (0, 1) towards (4, 0) is (0, 0), which the caller takes for "no move" |
| GameManager.DirectMoveTowardsGoal | AI_Final/Assets/scripts/GameManager.cs:627-653 | the same step with "no move" kept apart from every square: none exactly at the goal |
| GameManager.DirectMoveAgrees | AI_Final/Assets/scripts/GameManager.cs:627-653 | the two agree on every real step, the one to (0, 0) included |
| GameManager.GetNeighbors | AI_Final/Assets/scripts/GameManager.cs:1610-1630 | exactly the on-board squares one step away |
| GameManager.CalculateWallToBlockMovement | AI_Final/Assets/scripts/GameManager.cs:1879-1901 | no wall exactly when neither coordinate of the step is a unit; a vertical unit step gets a horizontal wall |
| GameManager.BlockingWallBlocks | AI_Final/Assets/scripts/GameManager.cs:1879-1901 | for every single orthogonal step the computed wall blocks it under the static wall test |
| GameManager.CalculateWallSlotIndex | AI_Final/Assets/scripts/GameManager.cs:969-994 | sixteen slots a row: horizontal walls at row*16+x, vertical at row*16+8+x |
| GameManager.CalculateWallSlotIndexInjective | AI_Final/Assets/scripts/GameManager.cs:969-994 | different walls of the 8 x 8 grid get different indices |
| GameManager.IsWallAlreadyPlacedAsWritten | AI_Final/Assets/scripts/GameManager.cs:867-924 | as written: the placer's query, the array read at the 16-per-row index, or the scene; any of them makes the wall taken, and where the two numberings agree the array read adds nothing |
| GameManager.SlotIndexMismatch | AI_Final/Assets/scripts/GameManager.cs:969-994 | the placer puts vertical (0, 0) at 72, not 8; with only the horizontal wall of slot 8 placed, vertical (0, 0) reads as taken |
| GameManager.IsWallAlreadyPlaced | AI_Final/Assets/scripts/GameManager.cs:867-924 | corrected to the placer's numbering: a wall reads as taken exactly when the placer says so or the scene shows it |
| GameManager.AlreadyPlacedMeansPlaced | AI_Final/Assets/scripts/GameManager.cs:867-924 | with the placer's numbering a wall reads as taken exactly when the placer says so or the scene shows it |
| WallPlacer.CountMarked | AI_Final/Assets/scripts/WallPlacer.cs:581 | the number of marked slots, at most the number of slots |
| WallPlacer.GetSlotIndex | AI_Final/Assets/scripts/WallPlacer.cs:538-554 | horizontal (row, col) on 8 x 9 at row*9+col, vertical on 9 x 8 at 72+row*8+col, -1 off the grid |
| WallPlacer.SlotIndexRoundTrip | AI_Final/Assets/scripts/WallPlacer.cs:538-554 | every index in [0, 144) names exactly one slot, and that slot's index is it |
| WallPlacer.SlotIndexInjective | AI_Final/Assets/scripts/WallPlacer.cs:538-554 | different slots have different indices |
| WallPlacer.ToggleWallPlaceMode | AI_Final/Assets/scripts/WallPlacer.cs:83-106 | nothing without walls left, otherwise only the mode flips |
| WallPlacer.ToggleTwice | AI_Final/Assets/scripts/WallPlacer.cs:83-106 | toggling twice restores the placer |
| WallPlacer.UnmarkedCountsZero | AI_Final/Assets/scripts/WallPlacer.cs:484-487 | no marks, no count |
| WallPlacer.IsWallPlacedAt | AI_Final/Assets/scripts/WallPlacer.cs:620-624 | only a wall on the grid can read as placed, and nothing does on a placer with no marked slot |
| WallPlacer.ResetWalls | AI_Final/Assets/scripts/WallPlacer.cs:473-510 | no slot marked; on a full-size placer that is the state after `Start`: ten walls, none placed, placement mode off |
| WallPlacer.ExecuteWallPlacement | AI_Final/Assets/scripts/WallPlacer.cs:559-615 | placed exactly when a wall is left, the slot is on the array and free, and the path check passes; then one mark more, one wall less and the wall appended; otherwise nothing changes |
| WallPlacer.MarkAddsOne | AI_Final/Assets/scripts/WallPlacer.cs:581 | marking a free slot adds one mark |
| WallPlacer.PlacementKeepsValid | AI_Final/Assets/scripts/WallPlacer.cs:559-615 | any placement attempt keeps one mark per wall spent |
| WallPlacer.PlaceWall | AI_Final/Assets/scripts/WallPlacer.cs:321-362 | nothing off the grid; otherwise a placement at the recomputed slot, leaving placement mode only for a player's click on the matching slot |
| WallPlacer.PlaceWallForAI | AI_Final/Assets/scripts/WallPlacer.cs:515-533 | the placement mode is as it was before the call |
| WallPlacer.PlaceWallForAIEffect | AI_Final/Assets/scripts/WallPlacer.cs:515-533 | an AI wall is seen at its own slot and no other, and succeeds exactly when the slot is on the grid and free, a wall is left and the path check passes |
| PathSearch.FirstCheapest | AI_Final/Assets/scripts/GameManager.cs:1548-1550 | the first open node of least f-cost |
| PathSearch.Cells | AI_Final/Assets/scripts/GameManager.cs:1532-1589 | every square of the board is listed |
| PathSearch.CloseLowersCount | AI_Final/Assets/scripts/GameManager.cs:1551-1558 | closing a square never raises the number of unclosed squares, and closing an unclosed one lowers it |
| PathSearch.RemoveAt | AI_Final/Assets/scripts/GameManager.cs:1557 | one node fewer, no node of the removed square left, no new node, still no duplicates |
| PathSearch.ImproveKeepsInv | AI_Final/Assets/scripts/GameManager.cs:1560-1586 | recording a shorter route from a closed square to an unclosed neighbour keeps the search invariant |
| PathSearch.ImproveKeepsOpen | AI_Final/Assets/scripts/GameManager.cs:1576-1585 | the open list stays free of duplicates and closed squares |
| PathSearch.Relax | AI_Final/Assets/scripts/GameManager.cs:1560-1586 | the neighbour loop keeps the invariant and closes nothing |
| PathSearch.CloseKeepsInv | AI_Final/Assets/scripts/GameManager.cs:1548-1558 | closing any open node keeps the invariant with that node ranked last |
| PathSearch.LinkFacts | AI_Final/Assets/scripts/GameManager.cs:1580 | every recorded predecessor is closed, one valid AI step away, and ranked before its square |
| PathSearch.ReconstructPath | AI_Final/Assets/scripts/GameManager.cs:1632-1643 | a path from the start to the goal in valid AI steps, just the goal when it has no predecessor |
| PathSearch.OpenFacts | AI_Final/Assets/scripts/GameManager.cs:1546-1586 | an open node is unclosed, reached, and on the board unless it is the start |
| PathSearch.CloseLowersRemaining | AI_Final/Assets/scripts/GameManager.cs:1546-1558 | each round lowers the number of squares left to close, so the loop ends |
| PathSearch.CloseAt | AI_Final/Assets/scripts/GameManager.cs:1557-1558 | the node leaves the open list and its square joins the closed set; nothing else changes |
| PathSearch.CloseStep | AI_Final/Assets/scripts/GameManager.cs:1548-1558 | closing a non-goal node keeps the invariant and lowers the measure |
| PathSearch.Expand | AI_Final/Assets/scripts/GameManager.cs:1546-1587 | one round keeps the invariant and lowers the measure |
| PathSearch.InitialInv | AI_Final/Assets/scripts/GameManager.cs:1540-1544 | the start alone open satisfies the invariant |
| PathSearch.PathToOpen | AI_Final/Assets/scripts/GameManager.cs:1553-1556 | the goal, once open and cheapest, yields a valid path to it |
| PathSearch.FindPathToGoal | AI_Final/Assets/scripts/GameManager.cs:1532-1589 | any path returned runs from the start to the goal in valid AI steps; the start itself gives just [start] |
| BoardSquare.IsEmpty | AI_Final/Assets/scripts/BoardSquare.cs:269-272 | empty exactly when clearing the occupant would change nothing |
| BoardSquare.IsValidMoveFor | AI_Final/Assets/scripts/BoardSquare.cs:197-205 | a target exactly one orthogonal step from the pawn |
| BoardSquare.ValidMoveIsUnitStep | AI_Final/Assets/scripts/BoardSquare.cs:197-205 | the two-case test is exactly a single orthogonal step |
| BoardSquare.SetHighlight | AI_Final/Assets/scripts/BoardSquare.cs:210-238 | only the highlight flag is set |
| BoardSquare.ToggleHighlight | AI_Final/Assets/scripts/BoardSquare.cs:243-246 | only the highlight flag flips |
| BoardSquare.ToggleHighlightTwice | AI_Final/Assets/scripts/BoardSquare.cs:243-246 | toggling twice restores the square |
| BoardSquare.SetOccupyingPiece | AI_Final/Assets/scripts/BoardSquare.cs:251-255 | the square holds the piece and is occupied exactly when there is one |
| BoardSquare.ClearOccupyingPiece | AI_Final/Assets/scripts/BoardSquare.cs:260-264 | the square is empty afterwards and keeps its place and highlight |
| BoardSquare.IsValidMoveTarget | AI_Final/Assets/scripts/BoardSquare.cs:310-313 | a target exactly when empty |
| BoardSquare.TryMoveAsWritten | AI_Final/Assets/scripts/BoardSquare.cs:132-192 | on an empty adjacent square the old square is cleared and this one takes the pawn whether or not the pawn moved; otherwise the pawn is deselected |
| BoardSquare.OccupancyDesync | AI_Final/Assets/scripts/BoardSquare.cs:153-179 | a walled-off step leaves the pawn on (4, 0) while (4, 1) claims it and (4, 0) reads empty |
| BoardSquare.TryMove | AI_Final/Assets/scripts/BoardSquare.cs:132-192 | the squares change only when the pawn actually moved |
| BoardSquare.TryMoveKeepsOccupancy | AI_Final/Assets/scripts/BoardSquare.cs:132-192 | after the corrected click the target holds the pawn exactly when the pawn stands there, and a vacated square is empty |
| ChessPlayer.IsValidPosition | AI_Final/Assets/scripts/ChessPlayer.cs:255-258 | on the 9 x 9 board exactly when at most four squares from the centre (4, 4) along each axis |
| ChessPlayer.NewPiece | AI_Final/Assets/scripts/ChessPlayer.cs:31 | four valid-move entries, unselected, at (0, 0) |
| ChessPlayer.Direction | AI_Final/Assets/scripts/ChessPlayer.cs:220-226 | each of the four directions is a unit step |
| ChessPlayer.IsHorizontalWall | AI_Final/Assets/scripts/ChessPlayer.cs:499-539 | a name with a horizontal marker is horizontal, otherwise one with a vertical marker is vertical, and only then the shape decides |
| ChessPlayer.HorizontalMarkerRedundant | AI_Final/Assets/scripts/ChessPlayer.cs:499-539 | the "horiz" marker never decides anything that "horizontal" does not |
| ChessPlayer.WallNameCaseInsensitive | AI_Final/Assets/scripts/ChessPlayer.cs:499-539 | a name in capitals gives the same orientation |
| ChessPlayer.HorizontalMarkerWins | AI_Final/Assets/scripts/ChessPlayer.cs:499-539 | a name with both markers is horizontal whatever its shape |
| ChessPlayer.AnyWallBlocks | AI_Final/Assets/scripts/ChessPlayer.cs:544-622 | true exactly when some present wall stands in the way of the step |
| ChessPlayer.IsBlockedByWall | AI_Final/Assets/scripts/ChessPlayer.cs:437-494 | nothing blocks on a board without walls; with walls any step that is not one orthogonal square is blocked; otherwise a present wall must stand in the way |
| ChessPlayer.CalculateValidMoves | AI_Final/Assets/scripts/ChessPlayer.cs:217-250 | entry i is the neighbour in direction i, or (-1, -1) when it is off the board or walled off |
| ChessPlayer.ValidMovesAreSteps | AI_Final/Assets/scripts/ChessPlayer.cs:217-250 | every offered move is one unblocked orthogonal step onto the board; with no walls every on-board neighbour is offered |
| ChessPlayer.SelectPiece | AI_Final/Assets/scripts/ChessPlayer.cs:178-193 | selected, with its moves recomputed |
| ChessPlayer.DeselectPiece | AI_Final/Assets/scripts/ChessPlayer.cs:198-212 | deselected, nothing else changed |
| ChessPlayer.MoveTo | AI_Final/Assets/scripts/ChessPlayer.cs:325-365 | a target among the valid moves is taken, the piece deselected and the game manager told; any other target changes nothing |
| ChessPlayer.SelectedMoveIsStep | AI_Final/Assets/scripts/ChessPlayer.cs:325-365 | after selection a move onto the board is one unblocked orthogonal step, or nothing |
| ChessPlayer.SetPosition | AI_Final/Assets/scripts/ChessPlayer.cs:370-397 | outside initialisation a jump of more than one square changes nothing; everything else is applied |
| ChessPlayer.SetPositionStepsAtMostOne | AI_Final/Assets/scripts/ChessPlayer.cs:370-397 | outside initialisation the piece never moves more than one square |
| ChessPlayer.SetInitialPosition | AI_Final/Assets/scripts/ChessPlayer.cs:402-415 | always placed at the new square; nothing else changes |
| MoveValidator.IsValidMove | AI_Final/QuoridorAI/Assets/Scripts/Utils/MoveValidator.cs:5-31 | false for anything but a unit step; otherwise the negated grid cell the step consults, or the out-of-range exception |
| MoveValidator.IsValidMoveSymmetric | AI_Final/QuoridorAI/Assets/Scripts/Utils/MoveValidator.cs:15-28 | a step is allowed exactly when the step back is |
| MoveValidator.StepsConsultDistinctCells | AI_Final/QuoridorAI/Assets/Scripts/Utils/MoveValidator.cs:15-28 | the four steps out of a square consult four different cells |
| MoveValidator.LeftFromEdgeRaises | AI_Final/QuoridorAI/Assets/Scripts/Utils/MoveValidator.cs:20 | a step left from column 0 reads index -1 and raises |
| ChatService.QuoteFrom | AI_Final/Assets/scripts/ChatService.cs:428-429 | `IndexOf('"', from)`: -1 or the position of a quote at or after `from` |
| ChatService.QuoteFromFirst | AI_Final/Assets/scripts/ChatService.cs:428-429 | no quote lies between `from` and the one found, nor after `from` when none is found |
| ChatService.ParseRasaAsWritten | AI_Final/Assets/scripts/ChatService.cs:421-435 | the loop as written yields a result exactly when it ends |
| ChatService.MarkerWithoutValueHangs | AI_Final/Assets/scripts/ChatService.cs:426-432 | on `"text":` with no quote after it, `start` is 0, `end` lands back on the marker, and the loop never ends |
| ChatService.UnclosedValueThrows | AI_Final/Assets/scripts/ChatService.cs:426-432 | on `"text":"hi` the closing quote is missing, `idx` becomes -1 and the next `IndexOf` throws |
| ChatService.NextValue | AI_Final/Assets/scripts/ChatService.cs:426-429 | a found value lies after the marker and ends at a quote |
| ChatService.ValueIsQuoteFree | AI_Final/Assets/scripts/ChatService.cs:428-431 | a value found holds no double quote |
| ChatService.NextValueFinds | AI_Final/Assets/scripts/ChatService.cs:426 | the step starts from the first marker `IndexOf` finds |
| ChatService.Values | AI_Final/Assets/scripts/ChatService.cs:426-432 | the collected texts are non-empty and quote-free |
| ChatService.ParseTexts | AI_Final/Assets/scripts/ChatService.cs:421-435 | the intended parse: every text non-empty and quote-free |
| ChatService.RasaStepValue | AI_Final/Assets/scripts/ChatService.cs:426-432 | one iteration adds a found value when it is not empty and goes on from its closing quote |
| ChatService.RasaStepNone | AI_Final/Assets/scripts/ChatService.cs:426 | the loop ends at once where no marker follows |
| ChatService.ParseTextsStep | AI_Final/Assets/scripts/ChatService.cs:426-432 | one step of the intended parse |
| ChatService.RasaLoopAgrees | AI_Final/Assets/scripts/ChatService.cs:426-432 | when every marker has a quoted value, the loop ends with exactly the intended texts |
| ChatService.ValueAdvances | AI_Final/Assets/scripts/ChatService.cs:432 | past a value the scan has moved forward and the rest is still well quoted |
| ChatService.RasaValueCase | AI_Final/Assets/scripts/ChatService.cs:426-432 | the loop's value step agrees with the intended parse |
| ChatService.WellQuotedSteps | AI_Final/Assets/scripts/ChatService.cs:426-432 | a well-quoted reply never meets a marker without a value |
| ChatService.RasaAsWrittenAgrees | AI_Final/Assets/scripts/ChatService.cs:421-435 | on every well-quoted reply the loop as written ends and returns the intended texts joined by spaces |
| ChatService.NonEmpty | AI_Final/Assets/scripts/ChatService.cs:430-431 | the non-empty texts, each from the input |
| ChatService.ParseFrame | AI_Final/Assets/scripts/ChatService.cs:423 | one `{"recipient_id":…,"text":"t"}` object contributes `t` when it is not empty |
| ChatService.RasaJsonParsed | AI_Final/Assets/scripts/ChatService.cs:423 | a reply in the REST channel's format parses to its non-empty texts and is well quoted |
| ChatService.RasaRoundTrip | AI_Final/Assets/scripts/ChatService.cs:421-435 | reading a reply built from quote-free texts gives back the non-empty texts, and the loop as written returns them joined by spaces |
| ChatService.ParseGemini | AI_Final/Assets/scripts/ChatService.cs:437-449 | a found reply is non-empty, quote-free and part of the JSON |
| ChatService.GeminiRoundTrip | AI_Final/Assets/scripts/ChatService.cs:437-449 | reading `{"reply":"t"}` gives `t` back, or nothing when `t` is empty |
| ChatService.IsDefaultRasaReply | AI_Final/Assets/scripts/ChatService.cs:457-478 | a reply counts as a default exactly when the message and the reply are not both about the game |
| ChatService.Switch | AI_Final/Assets/scripts/ChatService.cs:414-418 | the other chat model |
| ChatService.SwitchTwice | AI_Final/Assets/scripts/ChatService.cs:414-418 | switching twice restores the model |
| JsonText.EscapeJson | AI_Final/Assets/scripts/ChatService.cs:451-454 | text with no quote or backslash is left as it is |
| JsonText.EscapeChars | AI_Final/Assets/scripts/ChatService.cs:451-454 | the one-pass escape never shortens the text |
| JsonText.EscapeJsonOnePass | AI_Final/Assets/scripts/ChatService.cs:453 | the two chained replacements equal escaping each character once |
| JsonText.UnescapeEscapeChars | AI_Final/Assets/scripts/ChatService.cs:451-454 | unescaping the one-pass escape gives the text back |
| JsonText.EscapeJsonRoundTrip | AI_Final/Assets/scripts/AIChatManager.cs:840-843 | unescaping the escaped text gives it back, so escaping loses nothing |
| JsonText.EscapedQuotesArePreceded | AI_Final/Assets/scripts/ChatService.cs:451-454 | every quote of the escaped text has a backslash right before it |
| ChatUI.AnyIndicator | AI_Final/Assets/scripts/ChatUIManager.cs:174-184 | true exactly when some indicator occurs in the lower-cased text |
| ChatUI.IsDefaultResponse | AI_Final/Assets/scripts/ChatUIManager.cs:174-184 | a reply is a fallback exactly when its lower-cased text contains one of the indicators |
| ChatUI.DefaultInsideText | AI_Final/Assets/scripts/ChatUIManager.cs:174-184 | a fallback reply stays a fallback inside any longer text |
| ChatUI.AddMessage | AI_Final/Assets/scripts/ChatUIManager.cs:204-233 | the new line goes last; a panel below the cap grows by it; a full panel loses its oldest line first; an empty panel with a cap of zero or less throws |
| ChatUI.AddMessageKeepsNewest | AI_Final/Assets/scripts/ChatUIManager.cs:204-233 | within the cap the panel is the newest `cap` lines and never grows past the cap |
| ChatUI.RecordChat | AI_Final/Assets/scripts/ChatUIManager.cs:246-261 | the interaction is appended, source "API" while processing, and past 100 entries the oldest goes |
| ChatUI.RecordChatKeepsNewest | AI_Final/Assets/scripts/ChatUIManager.cs:246-261 | the log is the newest 100 interactions |
| ChatUI.LastAIMessage | AI_Final/Assets/scripts/ChatUIManager.cs:309-350 | the newest non-empty logged reply, none exactly when every reply is empty |
| ChatUI.FinalResponse | AI_Final/Assets/scripts/ChatUIManager.cs:98-172 | never empty; the trained reply when the trained model is on and sure; else a delivered non-empty remote reply; else the trained reply or the apology |
| ChatUI.ApologyWhenNothingUsable | AI_Final/Assets/scripts/ChatUIManager.cs:98-172 | the apology appears exactly when neither model produced a usable text |
| ChatUI.FailedApiKeepsTrainedReply | AI_Final/Assets/scripts/ChatUIManager.cs:98-172 | when the remote model fails, a low-confidence trained reply is shown all the same |
| ChatUI.Exchange | AI_Final/Assets/scripts/ChatUIManager.cs:83-172 | a blank input changes nothing; otherwise the log gains the interaction with the reply shown |
| ChatUI.ExchangePanel | AI_Final/Assets/scripts/ChatUIManager.cs:83-233 | the panel gains the player's line and the reply within the cap; the typing indicator leaves no trace |
| ChatUI.ExchangeLog | AI_Final/Assets/scripts/ChatUIManager.cs:159-261 | the log stays within 100, every source is "API", and the reply is what the read-aloud button speaks |
| ChatUI.ExchangeInvariant | AI_Final/Assets/scripts/ChatUIManager.cs:83-172 | an exchange keeps the panel within the cap, ends it with the reply, logs only "API" sources and makes the reply the message read aloud |
| ChatUI.OddLines | AI_Final/Assets/scripts/ChatUIManager.cs:284-287 | half the lines, those at odd positions, in order |
| ChatUI.DestroyKeepsOddLines | AI_Final/Assets/scripts/ChatUIManager.cs:284-287 | the index-based destroy loop keeps exactly the lines at odd positions |
| ChatUI.Clear | AI_Final/Assets/scripts/ChatUIManager.cs:282-292 | as written: the log is emptied and the panel ends with the welcome lines; within the cap it is the odd-position lines followed by the two welcome lines; with fewer than two lines left and a cap of zero or less it throws |
| ChatUI.ClearKeepsEveryOtherLine | AI_Final/Assets/scripts/ChatUIManager.cs:284-287 | clearing four lines keeps the second and the fourth |
| ChatUI.ClearIntended | AI_Final/Assets/scripts/ChatUIManager.cs:282-292 | as intended: only the two welcome lines and an empty log |
| HybridChat.AddLine | AI_Final/Assets/scripts/HybridChatDemo.cs:99-110 | the newest lines ending in the new one, never more than `maxLines`; all of them while they fit |
| HybridChat.RemoveLast | AI_Final/Assets/scripts/HybridChatDemo.cs:112-125 | everything but the newest line, or nothing from an empty queue |
| HybridChat.Clear | AI_Final/Assets/scripts/HybridChatDemo.cs:149-154 | just the notice, or nothing when no line fits |
| HybridChat.AddToEmpty | AI_Final/Assets/scripts/HybridChatDemo.cs:99-110 | a line added to an empty queue is its only line unless none fits |
| HybridChat.AddAllKeepsNewest | AI_Final/Assets/scripts/HybridChatDemo.cs:99-110 | after any run of additions the queue is the newest `maxLines` lines ever added |
| HybridChat.LastNOfLastN | AI_Final/Assets/scripts/HybridChatDemo.cs:104-107 | trimming early does not change the newest lines later |
| HybridChat.IndicatorRoundTrip | AI_Final/Assets/scripts/HybridChatDemo.cs:79-97 | showing and removing the thinking line is invisible while there is room, and on a full queue costs the oldest line |
| HybridChat.AddRemoveLast | AI_Final/Assets/scripts/HybridChatDemo.cs:99-125 | adding a line and removing the newest again gives the queue back, less its oldest line when it was full |
| HybridChat.ExchangeLeavesNoIndicator | AI_Final/Assets/scripts/HybridChatDemo.cs:64-97 | an exchange leaves the queue as if only the player's line and the reply had been added |
| HybridChat.RouteOf | AI_Final/Assets/scripts/HybridChatDemo.cs:210-247 | the first knowledge key the lower-cased input contains, else the greeting test, else the help test, else the fallback pool |
| HybridChat.Reply | AI_Final/Assets/scripts/HybridChatDemo.cs:210-247 | the answer of the chosen branch |
| HybridChat.LateBranchesNarrowed | AI_Final/Assets/scripts/HybridChatDemo.cs:169-247 | since "chào" and "help" are keys, the greeting branch is reached only through "hello" or "hi" and the help branch only through "giúp" or "hỗ trợ" |
| EnhancedChat.LocalTableUsable | AI_Final/Assets/scripts/EnhancedAIChatManager.cs:424-456 | the table has the keys "luật chơi", "chiến thuật", "chào", "default", each with non-empty sentences |
| EnhancedChat.Category | AI_Final/Assets/scripts/EnhancedAIChatManager.cs:458-474 | the first category in table order that occurs in the lower-cased input, -1 exactly when none does |
| EnhancedChat.LocalResponse | AI_Final/Assets/scripts/EnhancedAIChatManager.cs:458-474 | never empty: a sentence of the first category mentioned, or of the "default" list |
| EnhancedChat.ApiReply | AI_Final/Assets/scripts/EnhancedAIChatManager.cs:190-207 | every provider but Ollama answers with a non-empty notice |
| EnhancedChat.AIResponse | AI_Final/Assets/scripts/EnhancedAIChatManager.cs:147-188 | never empty: local first when preferred; else a non-empty remote reply; else local; else the apology |
| EnhancedChat.PreferredLocalIgnoresApi | AI_Final/Assets/scripts/EnhancedAIChatManager.cs:155-166 | with the local responder preferred the remote reply never matters |
| EnhancedChat.ApologyOnlyWithoutAnswers | AI_Final/Assets/scripts/EnhancedAIChatManager.cs:147-188 | the apology appears only with the local responder off and no remote reply |
| EnhancedChat.NonOllamaProviderAnswers | AI_Final/Assets/scripts/EnhancedAIChatManager.cs:161-207 | with the remote model on and local not preferred, a provider other than Ollama shows its notice |
| AIChatManager.AddUserMessage | AI_Final/Assets/scripts/AIChatManager.cs:258-274 | the history grows to at most the cap, keeps entry 0 (the system prompt) and ends with the user turn; a cap below 1 throws |
| AIChatManager.AddAIMessage | AI_Final/Assets/scripts/AIChatManager.cs:276-286 | the assistant turn is appended without any cap |
| AIChatManager.HistoryCapKeepsPrompt | AI_Final/Assets/scripts/AIChatManager.cs:258-286 | a history within the cap with the prompt first stays so across user turns; an assistant turn can push it one past the cap |
| AIChatManager.GetGamePhase | AI_Final/Assets/scripts/AIChatManager.cs:429-445 | early above a total distance of 12, end at 6 or less, mid between; unknown without pawns |
| AIChatManager.PhaseMonotone | AI_Final/Assets/scripts/AIChatManager.cs:429-445 | the phase only moves forward as the pawns approach their goals; the opening is the early game |
| AIChatManager.GameStanding | AI_Final/Assets/scripts/AIChatManager.cs:633-655 | the AI leads exactly when its row is smaller, the player exactly when theirs is |
| AIChatManager.GameStandingSwap | AI_Final/Assets/scripts/AIChatManager.cs:633-655 | swapping the rows swaps who leads; level exactly on equal rows |
| AIChatManager.GetGameSpecificHint | AI_Final/Assets/scripts/AIChatManager.cs:604-631 | the general hint exactly without pawns; the near-goal warning when the human is past row 6; the AI-near-goal warning exactly when the human is at row 6 or below and the AI below row 2; the early-phase hint exactly when, beyond that, the human is below row 4; the mid-phase hint exactly when the human is on rows 4 to 6 |
| AIChatManager.NormalizeInput | AI_Final/Assets/scripts/AIChatManager.cs:460-470 | null or empty gives ""; otherwise only lower-case letters, digits and white space, trimmed. The kept characters of the lower-cased input survive in order, and the result is empty exactly when the input has no kept character other than white space |
| AIChatManager.NormalizeIdempotent | AI_Final/Assets/scripts/AIChatManager.cs:460-470 | normalising twice is normalising once |
| AIChatManager.NormalizeFixpoint | AI_Final/Assets/scripts/AIChatManager.cs:460-470 | a trimmed text of lower-case letters, digits and white space normalises to itself |
| AIChatManager.GetLocalResponse | AI_Final/Assets/scripts/AIChatManager.cs:472-510 | when it answers, the answer is the fallback cascade's |
| AIChatManager.LocalResponseGate | AI_Final/Assets/scripts/AIChatManager.cs:472-510 | the whole-word test adds nothing: it answers exactly when a normalised topic occurs in the normalised input |
| AIChatManager.TopicsMatchWhenContained | AI_Final/Assets/scripts/AIChatManager.cs:494-500 | over any topic list, some topic matches exactly when one occurs in the input |
| AIChatManager.GetEnhancedFallbackResponse | AI_Final/Assets/scripts/AIChatManager.cs:512-602 | the answer is drawn from inside its pool |
| AIChatManager.CascadeFollowsTiers | AI_Final/Assets/scripts/AIChatManager.cs:512-602 | the first branch in order whose keywords occur decides; with none, the default pool answers |
| AIChatManager.EarlyTierKeywords | AI_Final/Assets/scripts/AIChatManager.cs:518-550 | the keyword tests of the first four branches |
| AIChatManager.LateTierKeywords | AI_Final/Assets/scripts/AIChatManager.cs:551-602 | the keyword tests of the later branches |
| AIChatManager.HiShadowsLaterTiers | AI_Final/Assets/scripts/AIChatManager.cs:512-602 | any input containing "hi" (also inside "chiến", "khi", "nhiều") is answered by one of the first five branches |
| AIChatManager.GetGameEventReaction | AI_Final/Assets/scripts/AIChatManager.cs:716-745 | the reaction of the entry named by the upper-cased event, or the generic one when none is |
| AIChatManager.EventReactionIgnoresCase | AI_Final/Assets/scripts/AIChatManager.cs:716-745 | the reaction ignores letter case |
| AIChatManager.HumanWinAliases | AI_Final/Assets/scripts/AIChatManager.cs:716-745 | "human_win" and "PLAYER_WIN" react alike |
| SimpleChatbotModel.SlangTableShape | AI_Final/Assets/scripts/SimpleChatbotModel.cs:73-80 | the abbreviations are words and their expansions words and spaces |
| SimpleChatbotModel.SlangPattern | AI_Final/Assets/scripts/SimpleChatbotModel.cs:83 | the verbatim pattern `$@"\\b{key}\\b"` begins with a literal backslash, which ordinary words never contain |
| SimpleChatbotModel.SlangAsWrittenInert | AI_Final/Assets/scripts/SimpleChatbotModel.cs:81-84 | as written, the slang loop changes nothing in text without a backslash |
| SimpleChatbotModel.SlangAsWrittenKeepsBn | AI_Final/Assets/scripts/SimpleChatbotModel.cs:75-84 | as written, "bn" stays "bn" |
| SimpleChatbotModel.SlangExpandsWords | AI_Final/Assets/scripts/SimpleChatbotModel.cs:73-84 | with the intended `\b{key}\b` pattern every whole-word abbreviation is replaced by the words of its expansion, in table order |
| SimpleChatbotModel.SlangExpandsBn | AI_Final/Assets/scripts/SimpleChatbotModel.cs:75-84 | with the intended pattern the lone word "bn" becomes "bao nhiêu" |
| SimpleChatbotModel.NormalizeInputIsWords | AI_Final/Assets/scripts/SimpleChatbotModel.cs:68-109 | the normalised input is its kept words joined by single spaces |
| SimpleChatbotModel.NormalWordsShape | AI_Final/Assets/scripts/SimpleChatbotModel.cs:89-106 | every kept word is a lower-case word of word characters and no stop word |
| SimpleChatbotModel.SlangNeverExpandsInput | AI_Final/Assets/scripts/SimpleChatbotModel.cs:68-109 | the kept words of an input are those of the input itself, abbreviations included |
| SimpleChatbotModel.TokenizeKeepsLongWords | AI_Final/Assets/scripts/SimpleChatbotModel.cs:112-120 | the tokens are the kept words longer than one character, in order |
| SimpleChatbotModel.MatchCount | AI_Final/Assets/scripts/SimpleChatbotModel.cs:165-177 | at most the number of tokens; all of them exactly when every token matches, none exactly when no token does |
| SimpleChatbotModel.KeywordScore | AI_Final/Assets/scripts/SimpleChatbotModel.cs:160-179 | a share in [0, 1]: 1 exactly when there are tokens and keywords and every token matches, 0 exactly when there are no keywords or no token matches |
| SimpleChatbotModel.Similarity | AI_Final/Assets/scripts/SimpleChatbotModel.cs:182-194 | Jaccard similarity in [0, 1]: 1 exactly when the token sets are equal and non-empty, 0 exactly when they share nothing |
| SimpleChatbotModel.SimilaritySymmetric | AI_Final/Assets/scripts/SimpleChatbotModel.cs:182-194 | the similarity does not depend on the order of its arguments |
| SimpleChatbotModel.Scores | AI_Final/Assets/scripts/SimpleChatbotModel.cs:133-150 | one score per question, the larger of the keyword score and the similarity |
| SimpleChatbotModel.BestAnswer | AI_Final/Assets/scripts/SimpleChatbotModel.cs:130-156 | an answer exactly when some score exceeds 0.3, and then the answer of the first pair of highest score |
| SimpleChatbotModel.GetAnswer | AI_Final/Assets/scripts/SimpleChatbotModel.cs:123-157 | nothing for empty input or input without tokens; otherwise the best answer for the tokens' scores |
| SimpleChatbotSystem.TrainStores | AI_Final/Assets/scripts/SimpleChatbotSystem.cs:461-517 | training stores every phrase under its normalisation and loses no key |
| SimpleChatbotSystem.TrainAnswering | AI_Final/Assets/scripts/SimpleChatbotSystem.cs:461-517 | training with non-empty lists free of the default answer keeps every stored list so |
| SimpleChatbotSystem.PutValues | AI_Final/Assets/scripts/SimpleChatbotSystem.cs:515 | after `responses[k] = v` the key is stored, no key is lost, and every value is `v` or was stored before |
| SimpleChatbotSystem.Initialize | AI_Final/Assets/scripts/SimpleChatbotSystem.cs:461-517 | every trained phrase is stored, and an answering dictionary stays answering |
| SimpleChatbotSystem.Scores | AI_Final/Assets/scripts/SimpleChatbotSystem.cs:535-545 | one score per stored phrase, against its normalisation |
| SimpleChatbotSystem.ScanAnswer | AI_Final/Assets/scripts/SimpleChatbotSystem.cs:533-548 | the default when no phrase reaches the threshold; otherwise a draw from the list of the first phrase of highest score |
| SimpleChatbotSystem.BestIsFirstMaximum | AI_Final/Assets/scripts/SimpleChatbotSystem.cs:533-548 | the chosen phrase reaches the threshold, scores at least as high as every phrase and strictly higher than every earlier one; none exactly when no phrase reaches the threshold |
| SimpleChatbotSystem.GetResponse | AI_Final/Assets/scripts/SimpleChatbotSystem.cs:519-549 | the default for empty input; a guide answer when a guide phrase occurs and the guide is stored; otherwise the scan's answer; always the default or a stored answer |
| SimpleChatbotSystem.GuideWordOccurs | AI_Final/Assets/scripts/SimpleChatbotSystem.cs:530 | the whole-word test adds nothing to the substring test |
| SimpleChatbotSystem.SimilaritySelf | AI_Final/Assets/scripts/SimpleChatbotSystem.cs:607-614 | a string scores 1 against itself |
| SimpleChatbotSystem.AnsweredWhenMatched | AI_Final/Assets/scripts/SimpleChatbotSystem.cs:519-549 | with no default answer stored, an input on the guide route or reaching the threshold gets a real answer |
| SimpleChatbotSystem.TrainedPhrasesAnswered | AI_Final/Assets/scripts/SimpleChatbotSystem.cs:461-549 | every trained phrase typed back gets a real answer |
| SimpleChatbotSystem.ApiResponse | AI_Final/Assets/scripts/SimpleChatbotSystem.cs:632-666 | first match in order: weather gives the weather text; otherwise health the health text; otherwise a name the name text; otherwise an age the age text; a casual line exactly when no topic word occurs |
| SimpleChatbotSystem.IsDefaultResponse | AI_Final/Assets/scripts/SimpleChatbotSystem.cs:761-764 | the model's own default answer reads as a default, and no text shorter than nine characters does |
| SimpleChatbotSystem.DefaultAnswerIsRecognised | AI_Final/Assets/scripts/SimpleChatbotSystem.cs:761-764 | the default answer reads as a default |
| SimpleChatbotSystem.ProcessResponse | AI_Final/Assets/scripts/SimpleChatbotSystem.cs:726-759 | the off-topic answer exactly when the trained reply reads like a default (always when it is the default answer); any other trained reply is kept unchanged |
| SimpleChatbotSystem.OnSendClicked | AI_Final/Assets/scripts/SimpleChatbotSystem.cs:713-724 | a blank input is ignored; otherwise the trimmed input is processed |
| TrainedChatbot.AddKeyword | AI_Final/Assets/scripts/TrainedChatbotModel.cs:65-71 | one keyword step keeps the index's keys distinct |
| TrainedChatbot.BuildIndex | AI_Final/Assets/scripts/TrainedChatbotModel.cs:61-73 | the rebuilt index has distinct keys |
| TrainedChatbot.AddKeywordsGet | AI_Final/Assets/scripts/TrainedChatbotModel.cs:65-71 | one pattern's keywords add exactly their lower-cased forms, each gaining the pattern's responses once per listing |
| TrainedChatbot.AddPatternsGet | AI_Final/Assets/scripts/TrainedChatbotModel.cs:63-72 | the patterns add exactly their lower-cased keywords, each gaining the responses of every pattern listing it, in order |
| TrainedChatbot.IndexLookup | AI_Final/Assets/scripts/TrainedChatbotModel.cs:61-73 | the index maps exactly the lower-cased keywords, each to the responses of every pattern listing it, in pattern order |
| TrainedChatbot.SharedKeywordCollectsBoth | AI_Final/Assets/scripts/TrainedChatbotModel.cs:61-73 | a keyword shared by two patterns collects the responses of both |
| TrainedChatbot.MatchCountIsMatched | AI_Final/Assets/scripts/TrainedChatbotModel.cs:127-131 | the count is the number of keyword positions occurring in the input, so a keyword listed twice counts twice |
| TrainedChatbot.Confidence | AI_Final/Assets/scripts/TrainedChatbotModel.cs:122-138 | never negative; 0 exactly when no keyword occurs and the name is absent; times the keyword count it is the matches plus the name bonus of 2 |
| TrainedChatbot.ConfidenceRange | AI_Final/Assets/scripts/TrainedChatbotModel.cs:122-138 | at most (n + 2) / n and above 1 exactly when matches plus bonus exceed the keyword count, as naming the pattern and all its keywords does |
| TrainedChatbot.Confidences | AI_Final/Assets/scripts/TrainedChatbotModel.cs:109-117 | one confidence per pattern |
| TrainedChatbot.FindBestPattern | AI_Final/Assets/scripts/TrainedChatbotModel.cs:104-120 | the first pattern of highest confidence, none exactly when every confidence is 0 |
| TrainedChatbot.PatternTierAnswersIff | AI_Final/Assets/scripts/TrainedChatbotModel.cs:85-89 | the pattern tier answers as soon as any one pattern reaches 0.6 |
| TrainedChatbot.Gather | AI_Final/Assets/scripts/TrainedChatbotModel.cs:140-152 | exactly the responses the index holds for the input's space-separated words |
| TrainedChatbot.KeywordResponse | AI_Final/Assets/scripts/TrainedChatbotModel.cs:140-152 | one of the gathered responses, none exactly when there are none |
| TrainedChatbot.RandomResponse | AI_Final/Assets/scripts/TrainedChatbotModel.cs:170-179 | one of the responses, or a fallback when there are none |
| TrainedChatbot.LearnedPattern | AI_Final/Assets/scripts/TrainedChatbotModel.cs:161-166 | the learned pattern's one keyword is the whole input |
| TrainedChatbot.Learn | AI_Final/Assets/scripts/TrainedChatbotModel.cs:154-168 | a new pattern exactly when fewer than 1000 exist and the input mentions the game; the index is rebuilt; nothing else changes |
| TrainedChatbot.Clean | AI_Final/Assets/scripts/TrainedChatbotModel.cs:79 | the lower-cased, trimmed input is lower-case |
| TrainedChatbot.Respond | AI_Final/Assets/scripts/TrainedChatbotModel.cs:75-102 | an empty input gets a fallback and changes nothing; any other is answered on its lower-cased, trimmed form, and the bot stays well formed |
| TrainedChatbot.Answer | AI_Final/Assets/scripts/TrainedChatbotModel.cs:79-101 | the input is recorded once at the call's time. When the pattern tier answers, the reply is one of the best pattern's responses (a fallback if it has none) and nothing is learned. Otherwise a non-empty keyword reply is given as is; failing that, a fallback is given and `Learn` runs on the recorded bot. A pattern is learned exactly when neither the pattern tier nor the keyword tier answers, fewer than 1000 patterns exist and the input mentions the game |
| TrainedChatbot.ReplyIsScripted | AI_Final/Assets/scripts/TrainedChatbotModel.cs:75-102 | the bot only says a fallback or a response of one of its patterns |
| TrainedChatbot.KeywordReplyIsScripted | AI_Final/Assets/scripts/TrainedChatbotModel.cs:140-152 | a keyword reply is a response of some pattern |
| TrainedChatbot.LearnedInputIsAnswered | AI_Final/Assets/scripts/TrainedChatbotModel.cs:85-168 | once learned, the same input is answered by the pattern tier |
| TrainedChatbot.Initialize | AI_Final/Assets/scripts/TrainedChatbotModel.cs:23-59 | the default patterns and fallbacks are appended and the index rebuilt; the history is kept |
| TrainedChatbot.Fresh | AI_Final/Assets/scripts/TrainedChatbotModel.cs:23-59 | a new bot has five patterns and no history |
| TrainedChatbot.GetAnalytics | AI_Final/Assets/scripts/TrainedChatbotModel.cs:181-195 | the pattern and conversation counts, the last input's time (the minimum time with none), and the first five index keys in insertion order (all of them when fewer) |
| TrainedChatbot.AnalyticsAfterRespond | AI_Final/Assets/scripts/TrainedChatbotModel.cs:75-190 | a non-empty input adds exactly one conversation at the call's time; an empty one changes nothing |
| TrainedChatbot.PopularKeywordsAreKeywords | AI_Final/Assets/scripts/TrainedChatbotModel.cs:192-195 | every reported keyword is a lower-cased keyword of some pattern |
| Scoring.Jaccard | AI_Final/Assets/scripts/SimpleChatbotSystem.cs:607-614 | a ratio in [0, 1]: 1 exactly for equal non-empty sets, 0 exactly for disjoint ones |
| Scoring.JaccardSymmetric | AI_Final/Assets/scripts/SimpleChatbotSystem.cs:607-614 | the order of the arguments does not matter |
| Scoring.BestIndex | AI_Final/Assets/scripts/SimpleChatbotSystem.cs:535-545 | the kept position scores above 0 and at least the floor, at least as high as all and strictly higher than every earlier one; none exactly when no score qualifies |
| Scoring.BestIndexIsFirstMaximum | AI_Final/Assets/scripts/TrainedChatbotModel.cs:104-120 | the first position of the maximum is the one chosen |
| WavUtility.ReadInt16 | AI_Final/Assets/scripts/WavUtility.cs:10-12 | `BitConverter.ToInt16` answers exactly when both bytes are inside the array, with a signed 16-bit value |
| WavUtility.ReadInt32 | AI_Final/Assets/scripts/WavUtility.cs:11 | `BitConverter.ToInt32` answers exactly when all four bytes are inside the array, with a signed 32-bit value |
| WavUtility.Int16RoundTrip | AI_Final/Assets/scripts/WavUtility.cs:28 | a 16-bit value written low byte first anywhere in a file reads back as itself |
| WavUtility.Int32RoundTrip | AI_Final/Assets/scripts/WavUtility.cs:19 | a 32-bit value written low byte first anywhere in a file reads back as itself |
| WavUtility.Int16AtEncodes | AI_Final/Assets/scripts/WavUtility.cs:28 | writing back a 16-bit value read from a file gives the bytes it came from |
| WavUtility.Int32AtEncodes | AI_Final/Assets/scripts/WavUtility.cs:19 | writing back a 32-bit value read from a file gives the bytes it came from |
| WavUtility.Add32 | AI_Final/Assets/scripts/WavUtility.cs:18-20 | `pos` arithmetic wraps into the 32-bit range, and equals the plain sum when that fits |
| WavUtility.TagAt | AI_Final/Assets/scripts/WavUtility.cs:16 | the short-circuit loop test: exactly whether "data" starts at `pos` when the four bytes are inside the array, and an answer only when `pos` is inside the array |
| WavUtility.WalkAsWritten | AI_Final/Assets/scripts/WavUtility.cs:15-21 | a walk that stops only with its position on a "data" tag inside the file |
| WavUtility.FindData | AI_Final/Assets/scripts/WavUtility.cs:15-21 | the intended walk stops only on a "data" tag at or after its start, and gives up otherwise |
| WavUtility.FindDataAfterChunks | AI_Final/Assets/scripts/WavUtility.cs:15-21 | over well-formed chunks the intended walk finds the "data" tag right after them |
| WavUtility.WalkAfterChunks | AI_Final/Assets/scripts/WavUtility.cs:15-21 | the loop as written finds the same tag, when the file fits 32-bit offsets and it may make one iteration per chunk |
| WavUtility.LoopingWaveHangs | AI_Final/Assets/scripts/WavUtility.cs:15-21 | a chunk whose size field holds -8 makes the loop as written run forever, while the intended walk gives up |
| WavUtility.CsDiv | AI_Final/Assets/scripts/WavUtility.cs:24-32 | C#'s `/`: the remainder is smaller than the divisor and carries the dividend's sign |
| WavUtility.Amplitude | AI_Final/Assets/scripts/WavUtility.cs:29 | `value / 32768f` lies in [-1, 1) |
| WavUtility.AmplitudeInjective | AI_Final/Assets/scripts/WavUtility.cs:29 | distinct samples give distinct amplitudes |
| WavUtility.Samples | AI_Final/Assets/scripts/WavUtility.cs:26-30 | one amplitude per sample, the i-th read from the two bytes at `pos + 2i` |
| WavUtility.DecodeFrom | AI_Final/Assets/scripts/WavUtility.cs:22-30 | fails exactly when the tag leaves fewer than two bytes after it (a negative array size); the header fields come from offsets 22 and 24; the samples cover every whole byte pair after the size field |
| WavUtility.ToAudioData | AI_Final/Assets/scripts/WavUtility.cs:7-31 | a file shorter than the header fails; a decoded file is the decoding from some "data" tag inside it |
| WavUtility.ToAudioDataAsWritten | AI_Final/Assets/scripts/WavUtility.cs:7-31 | a file shorter than the header fails |
| WavUtility.ClipLength | AI_Final/Assets/scripts/WavUtility.cs:32 | no clip length exactly when no channels are declared; for positive channels the quotient of samples by channels, rounded down |
| WavUtility.DecodeLayout | AI_Final/Assets/scripts/WavUtility.cs:10-30 | a file laid out as header, "fmt " chunk, other chunks and "data" decodes to the "fmt " fields and its samples |
| WavUtility.ReadsWrittenFile | AI_Final/Assets/scripts/WavUtility.cs:7-31 | decoding a written file gives back its channels, rate, bit depth and samples, with any bytes after the "data" chunk read as further samples |
| WavUtility.AsWrittenReadsWrittenFile | AI_Final/Assets/scripts/WavUtility.cs:7-31 | the method as written decodes such a file the same way when it fits 32-bit offsets |
| Strings.Lower | AI_Final/Assets/scripts/AIChatManager.cs:460-470 | `ToLower()` maps each character, keeping the length |
| Strings.LowerIdempotent | AI_Final/Assets/scripts/AIChatManager.cs:460-470 | lower-casing an already lower-cased string changes nothing |
| Strings.ToLowerChar | AI_Final/Assets/scripts/AIChatManager.cs:460-470 | a lower-cased character is never upper-case, upper-case letters become their lower-case partner, everything else is kept |
| Strings.ToUpperChar | AI_Final/Assets/scripts/SimpleChatbotSystem.cs:551-597 | upper-casing undoes lower-casing on the paired letters and keeps everything else |
| Strings.Trim | AI_Final/simple_quoridor_ai.py:117-118 | `strip()` / `Trim()` returns a slice of the input that neither starts nor ends with white space |
| Strings.TrimIdempotent | AI_Final/Assets/scripts/AIChatManager.cs:460-470 | trimming twice is trimming once |
| Strings.IndexOf | AI_Final/Assets/scripts/ChatService.cs:426-429 | `IndexOf(t, from)` is the first occurrence at or after `from`, and -1 exactly when there is none |
| Strings.IndexOfContains | AI_Final/Assets/scripts/ChatService.cs:426-429 | `IndexOf` finds something exactly when `Contains` holds |
| Strings.Split | AI_Final/Assets/scripts/TrainedChatbotModel.cs:142 | `Split(' ')` gives at least one piece, and no piece holds the separator |
| Strings.JoinSplit | AI_Final/Assets/scripts/TrainedChatbotModel.cs:142 | joining the pieces of a split with the separator gives the string back |
| Strings.SplitJoin | AI_Final/Assets/scripts/TrainedChatbotModel.cs:142 | splitting a join of separator-free pieces gives the pieces back |
| Strings.SplitWords | AI_Final/simple_quoridor_ai.py:99 | Python `split()` yields non-empty pieces without white space |
| Strings.SplitWordsJoin | AI_Final/simple_quoridor_ai.py:99 | splitting words joined by single spaces gives the words back |
| WordText.Unpunctuate | AI_Final/Assets/scripts/SimpleChatbotModel.cs:90 | `[^\w\s]` → space keeps the length, keeps every word or space character and leaves text that has nothing else unchanged |
| WordText.SquashJoinsWords | AI_Final/Assets/scripts/SimpleChatbotModel.cs:93 | `\s+` → space then `Trim()` leaves exactly the words, one space apart |
| WordText.SquashIdempotent | AI_Final/Assets/scripts/SimpleChatbotModel.cs:93-106 | collapsing and trimming twice is doing it once |
| WordText.ReplaceWordWords | AI_Final/Assets/scripts/SimpleChatbotModel.cs:102 | on clean text, `\b{w}\b` → `rep` replaces exactly the whole words equal to `w` by the words of `rep` |
| WordText.RemoveWords | AI_Final/Assets/scripts/SimpleChatbotModel.cs:99-103 | the stop-word loop removes exactly the words in the stop list and keeps the rest in order |
| FoldedText.RemoveDiacriticsMaps | AI_Final/Assets/scripts/SimpleChatbotSystem.cs:551-597 | the nested `Replace` loops act as one character map, folding each accented letter to its base letter |
| FoldedText.FoldCharLow | AI_Final/Assets/scripts/SimpleChatbotSystem.cs:551-597 | characters below U+00C0, ASCII among them, are never touched |
| FoldedText.NormalizeInputNormalized | AI_Final/Assets/scripts/SimpleChatbotSystem.cs:599-605 | the result is trimmed and made only of kept, non-upper-case characters without diacritics |
| FoldedText.NormalizeIdempotent | AI_Final/Assets/scripts/SimpleChatbotSystem.cs:529-605 | normalising a normalised key again changes nothing |
| Numbers.ParseIntToString | AI_Final/Assets/scripts/QLearningAgent.cs:110-125 | the integers written into state and action keys read back as themselves |
| Numbers.IntToStringInjective | AI_Final/Assets/scripts/QLearningAgent.cs:110-125 | different integers are written differently, so distinct positions give distinct keys |
| Numbers.ParseBoolToString | AI_Final/Assets/scripts/QLearningAgent.cs:119-125 | a wall's orientation written as "True"/"False" reads back as itself |
| Seqs.Choose | AI_Final/Assets/scripts/TrainedChatbotModel.cs:170-179 | `xs[Random.Range(0, xs.Length)]` is always an element of the list |
| Seqs.ChooseCovers | AI_Final/Assets/scripts/TrainedChatbotModel.cs:170-179 | every element is the draw for some random value |
| Seqs.LastN | AI_Final/simple_quoridor_ai.py:79 | `xs[-n:]` is the suffix of length `n`, or everything when shorter |

## Definitions specified by lemmas

Some functions carry no contract of their own, because what they promise relates
them to another function or to a later step. Each is specified by the rows of the
table above that name it. The list below says which rows cover which definition.

- AIChatManager.GetGameStateResponse: AIChatManager.GameStanding and AIChatManager.GameStandingSwap say who is said to lead. The sentence around the rows is fixed text.
- AIChatManager.StandingText, AIChatManager.HintText, AIChatManager.ReplyText, AIChatManager.ReactionText: the source's fixed wording for a standing, a hint, a reply and a reaction. What picks the standing, hint, reply or reaction is stated by AIChatManager.GameStanding, AIChatManager.GetGameSpecificHint, AIChatManager.GetEnhancedFallbackResponse, AIChatManager.CascadeFollowsTiers and AIChatManager.GetGameEventReaction.
- QLearning.EncodeState: QLearning.StateKeyIsJoin, QLearning.DecodeEncodeState and QLearning.EncodeStateInjective.
- QLearning.DecodeState: QLearning.DecodeEncodeState.
- QLearning.DecodeAction: QLearning.DecodeEncodeAction.
- QLearning.PairText, QLearning.ParsePair, QLearning.ParseWall: QLearning.WallTexts, QLearning.ParseWallTexts and QLearning.DecodeEncodeState, which read the texts back.
- QLearning.SerializeRow, QLearning.RowFromLists, QLearning.SaveQTable: QLearning.TableRoundTrip and QLearning.SaveLoadRoundTrip.
- QuoridorRules.IsGameOver: QuoridorRules.GameOverOnlyByReachingGoal.
- QuoridorRules.Predict: QuoridorRules.PredictPicksBestRule and the per-situation rows that follow it.
- SelfPlay.Step: SelfPlay.StepFacts and SelfPlay.StepPlaysLegalMove.
- SelfPlay.Learn: SelfPlay.StepFacts, which says only the mover's agent learns, together with QLearning.UpdateQ.
- SelfPlay.Play: SelfPlay.PlayFacts and SelfPlay.EpisodeFacts.
- SelfPlay.Episodes: SelfPlay.EpisodesFacts.
- SelfPlay.Trained: SelfPlay.PrepareAgents.
- FoldedText.NormalizeInput: FoldedText.NormalizeInputNormalized and FoldedText.NormalizeIdempotent.
- FoldedText.RemoveDiacritics, FoldedText.ReplaceRow, FoldedText.ReplaceRows: FoldedText.RemoveDiacriticsMaps.
- SimpleChatbotModel.NormalizeInput: SimpleChatbotModel.NormalizeInputIsWords and SimpleChatbotModel.SlangNeverExpandsInput.
- SimpleChatbotModel.Tokenize: SimpleChatbotModel.TokenizeKeepsLongWords.
- SimpleChatbotModel.SlangAsWritten: SimpleChatbotModel.SlangAsWrittenInert and SimpleChatbotModel.SlangAsWrittenKeepsBn.
- SimpleChatbotModel.Slang: SimpleChatbotModel.SlangExpandsWords and SimpleChatbotModel.SlangExpandsBn.
- ChatService.ParseRasa: ChatService.RasaAsWrittenAgrees and ChatService.RasaJsonParsed.
- ChatService.RasaLoop: ChatService.ParseRasaAsWritten, ChatService.RasaLoopAgrees and ChatService.MarkerWithoutValueHangs.
- HybridChat.Exchange: HybridChat.ExchangeLeavesNoIndicator.
- HybridChat.AddAll: HybridChat.AddAllKeepsNewest.
- SimpleChatbotSystem.Train: SimpleChatbotSystem.TrainStores and SimpleChatbotSystem.TrainAnswering.
- GameManager.CheckWinCondition: GameManager.OnPlayerMove and GameManager.HumanMoveWakesAI.
- GameManager.IsOscillating: GameManager.OscillationMeaning.
- GameManager.AddAll: GameManager.HistoryKeepsLastFour.
- GameManager.IsValidAIMove: GameManager.GetNeighbors for its one-step, on-board part; the rest is a plain conjunction of the source's checks.
- MoveValidator.Read: MoveValidator.IsValidMove and MoveValidator.LeftFromEdgeRaises.
- JsonText.Unescape: JsonText.UnescapeEscapeChars and JsonText.EscapeJsonRoundTrip.
- WordText.ReplaceWord, WordText.ReplaceScan: WordText.ReplaceWordWords.
- WordText.ReplaceText: SimpleChatbotModel.SlangAsWrittenInert, which shows that the patterns the source passes to it never match.
- WordText.Collapse: WordText.SquashJoinsWords.
- WavUtility.WaveFile: WavUtility.ReadsWrittenFile and WavUtility.AsWrittenReadsWrittenFile.
- WavUtility.Layout: WavUtility.DecodeLayout.
- WallPlacer.SlotOf: WallPlacer.SlotIndexRoundTrip.
- Numbers.ParseBool: Numbers.ParseBoolToString.
- TrainedChatbot.MentionsGame: TrainedChatbot.Learn and TrainedChatbot.Answer.

The other definitions without a row are predicates and helpers: loop invariants,
well-formedness conditions and character classes. They are stated inside the
contracts of the rows that use them.

## Left out

Each line names what the program does and the model does not, and why.

**Floating point.** C# `float` and Python `float` values become exact `real`s. Rounding is
lost, and so are ties that rounding would create or break.
- QLearning.UpdateQ: the learning rate, the discount and the Q-values
  (`QLearningAgent.cs:8-16`) are reals, so the update is exact where the program rounds.
- QLearning.BestAction: compares exact Q-values; two values that differ here can be equal
  floats, which would change which action comes first.
- QLearning.ChooseAction: inherits the exact comparison of `BestAction`. The exploration
  test `Random.value < epsilon` becomes a boolean parameter.
- QLearning.DecayEpsilonStep: the linear epsilon decay is computed exactly.
- TrainedChatbot.Confidence: `(float)matchCount / keywords.Length` is an exact quotient, so
  the 0.6 threshold is decided without rounding.
- Scoring.Jaccard: the ratio is exact, so the strict maximum of the score scan is taken
  over exact values.
- SimpleChatbotModel.KeywordScore: an exact quotient, like `Similarity`.
- SimpleChatbotModel.Similarity: an exact quotient, compared exactly against 0.3.
- KnowledgeEngine.Respond: the confidences 0.9, 0.8, 0.7 and 0.3 are exact reals.

**Unicode.** The character classes are subsets of Unicode's. They cover ASCII, Latin-1,
the Latin extensions and the Vietnamese letters that the tables use.
- WordText.IsWordChar: .NET `\w` is `\p{L}\p{Mn}\p{Nd}\p{Pc}`. This predicate misses
  letters outside the Latin blocks (π), digits other than ASCII (²), combining marks and
  connector punctuation other than `_`.
- Strings.ToLowerChar: leaves U+0139–0148, U+0178–017E, most of U+0180–024F and
  U+1E00–1E9F unchanged, where .NET and Python lower-case them. For example, U+017D stays
  as it is.
- Strings.IsWhiteSpace: lacks U+001C–001F, which Python's `strip()` and `split()` treat as
  white space (`simple_quoridor_ai.py:118`). `KnowledgeEngine` therefore keeps them where
  Python would drop them.
- SimpleChatbotModel.NormalizeInput: `Normalize(NormalizationForm.FormC)`
  (`SimpleChatbotModel.cs:87`) is the identity, so decomposed input stays decomposed.
- Culture-sensitive comparison: `string.IndexOf(string)` and `ToLower()` are taken as
  ordinal and culture-free.

**Integer widths.** 32-bit arithmetic is modelled where a proof depends on it: the WAV
walk's `pos` and chunk sizes, C#'s truncating division and the 16/32-bit reads. Elsewhere,
such as step and episode counters or wall counts, `int` is unbounded, because reaching
2^31 needs more moves than a game or a training run makes.
- HybridChat.AddLine, HybridChat.AddAll, HybridChat.Clear: `maxLines` is a `nat`. A
  negative `maxDisplayLines`, which makes `Dequeue` on an empty queue throw
  (`HybridChatDemo.cs:99-110`), is not modelled.

**Bounded loops.** Loops that may not end take an iteration bound.
- ChatService.ParseRasaAsWritten: runs the `ParseRasaReply` loop with a budget of
  iterations and reports running out as "does not end". The proofs show that the budget
  `|json| + 1` suffices on every well-quoted reply.
- WavUtility.WalkAsWritten: runs the chunk walk for at most `fuel` iterations, in the same
  way.
- WavUtility.ToAudioData: the corrected walk reads each chunk size as unsigned and never
  moves backwards. On a file where a negative signed size sends the walk as written back
  onto an earlier "data" tag (a 40-byte file whose "JUNK" body reads "data", followed by a
  chunk of size -16), the code as written decodes and the corrected member fails. The
  two are proved to agree only on files written as well-formed chunks that fit 32-bit
  offsets (`WavUtility.AsWrittenReadsWrittenFile`).
- ChatService.ParseTexts: the corrected scan is proved to agree with the loop as written
  on well-quoted replies (`ChatService.RasaAsWrittenAgrees`), not on every reply where
  that loop happens to end.

**Concurrency.** Unity coroutines run to completion, one at a time, in the model.
- HybridChat: the one-second wait between the "thinking" line and the answer
  (`HybridChatDemo.cs:80-90`) is not interleaved with other calls. A `ClearChat` during
  that wait would make `RemoveLastLine` delete the cleared-chat notice; the model does not
  represent that race.
- The `isProcessing` flags and `StartCoroutine` calls of the chat managers are sequential
  calls.

**Null.** Strings, arrays, lists and scene components are never null, except where the
source tests for null or empty input explicitly; there an `Option` or the empty string
stands for it.

**I/O and engine calls.**
- Network requests to Rasa, Gemini, Ollama and the TTS servers are left out. Their replies
  are string parameters, and their failures are `None`.
- Files are left out: the Python server's JSON file and the Q-table file are in-memory
  documents. Reading a missing or malformed file gives the empty store.
- The clock is a `now` parameter; `Random.Range`, `random.choice` and `Random.value` are
  `pick` parameters.
- Scene objects are left out: GameObjects, Transforms, TextMeshPro, highlights'
  materials, wall prefabs and their world positions.
- `Debug.Log` and the Flask routing, JSON bodies and HTTP status codes are left out.
- The `AudioClip` is left out: `ToAudioClip` is modelled up to the clip length and the
  sample array handed to `AudioClip.Create`. The RIFF pad byte after odd-sized chunks
  is not modelled either, because the source never skips it.
- The world-space wall-distance checks (`ChessPlayer.IsWallBlocking`,
  `GameManager`'s wall world positions) are left out; they become the `blocked` predicate.
- The scoring of moves by softmax, entropy and minimax is left out, as is
  `EvaluateWallImpact`. These are floating-point heuristics whose only contract is the
  value they compute.
- `GameState.Clone` is not a member, because game states are immutable values and
  `ApplyMove` builds a new one.

## Findings

| source | as written | input that shows it | evidently intended | confidence | as-written member | corrected member |
|---|---|---|---|---|---|---|
| AI_Final/Assets/scripts/ChatService.cs:426-433 | `ParseRasaReply` sets `idx = end`. If a `"text":` marker has no quote after it, `start` is 0 and `end` is the position of the reply's first quote, so the loop replays from the first marker. If a value is unclosed, `idx` becomes -1 and `IndexOf` throws | `"text":` hangs; `"text":"hi` throws | a scan that ends on every reply and skips markers without a value | not executed | ChatService.ParseRasaAsWritten, ChatService.MarkerWithoutValueHangs, ChatService.UnclosedValueThrows | ChatService.ParseTexts, ChatService.RasaAsWrittenAgrees, ChatService.RasaRoundTrip |
| AI_Final/Assets/scripts/GameManager.cs:969-994 | `CalculateWallSlotIndex` numbers slots 16 per row, with vertical walls after horizontal ones. `WallPlacer.GetSlotIndex` (`WallPlacer.cs:538-554`) numbers them differently, yet the same `placedWalls` array is read with both | the vertical wall (0, 0) is slot 8 here and slot 72 in the placer; with only the horizontal wall at column 8 of row 0 placed, it reads as taken | the placer's own numbering | not executed | GameManager.CalculateWallSlotIndex, GameManager.SlotIndexMismatch | GameManager.IsWallAlreadyPlaced, GameManager.AlreadyPlacedMeansPlaced |
| AI_Final/Assets/scripts/GameManager.cs:627-653 | `GetDirectMoveTowardsGoal` returns `Vector2Int.zero` for "no move", and the caller at :598-599 discards a zero result | from (0, 1) towards the goal (4, 0) the real step is (0, 0), which the caller throws away | an optional result that tells "no move" apart from the step to (0, 0) | not executed | GameManager.GetDirectMoveTowardsGoal, GameManager.DirectMoveSentinelClash | GameManager.DirectMoveTowardsGoal, GameManager.DirectMoveAgrees |
| AI_Final/Assets/scripts/BoardSquare.cs:160-179 | the click clears the old square and marks this one occupied before checking whether `MoveTo` succeeded | a pawn at (4, 0) whose step up is walled off: after a click on (4, 1) the pawn stays, yet (4, 1) holds it and (4, 0) reads empty | update the squares only after a successful move | not executed | BoardSquare.TryMoveAsWritten, BoardSquare.OccupancyDesync | BoardSquare.TryMove, BoardSquare.TryMoveKeepsOccupancy |
| AI_Final/Assets/scripts/SimpleChatbotModel.cs:81-84 | the slang pattern `$@"\\b{key}\\b"` is verbatim, so it asks for a literal backslash followed by "b" and never matches a word | "bn" stays "bn" instead of becoming "bao nhiêu" | the word-boundary pattern `\b{key}\b` | not executed | SimpleChatbotModel.SlangAsWritten, SimpleChatbotModel.SlangAsWrittenKeepsBn | SimpleChatbotModel.Slang, SimpleChatbotModel.SlangExpandsBn |
| AI_Final/Assets/scripts/WavUtility.cs:15-21 | the chunk walk reads the size as a signed 32-bit number and has no bounds check | a "JUNK" chunk whose size field holds -8 moves `pos` from 12 to 16 and back forever | the unsigned RIFF size, giving up when the next header is not in the file | not executed | WavUtility.WalkAsWritten, WavUtility.LoopingWaveHangs | WavUtility.FindData, WavUtility.ReadsWrittenFile |
| AI_Final/Assets/scripts/ChatUIManager.cs:284-287 | `foreach (Transform child in chatContent) DestroyImmediate(child.gameObject)` destroys children while enumerating them by index, so every other line survives | a panel of four lines keeps the second and the fourth | an empty panel followed by the two welcome lines | not executed | ChatUI.Clear, ChatUI.ClearKeepsEveryOtherLine | ChatUI.ClearIntended |

The models of the programs' operations follow the code as written wherever it runs to
completion: `SimpleChatbotModel.NormalizeInput` and `GetAnswer` use the inert slang
loop, and `ChatUI.Clear` keeps every other line. The corrected members state what the
authors evidently meant. Where the code as written hangs or throws (the Rasa scan, the
chunk walk), the operation the rest of the model calls is the corrected one. The lemmas
above show that the two agree on well-quoted Rasa replies (`ChatService.RasaAsWrittenAgrees`)
and on WAV files written as well-formed chunks that fit 32-bit offsets
(`WavUtility.AsWrittenReadsWrittenFile`); "## Left out" names the inputs outside those.

=== FILE: ai_chat_manager.dfy ===
/** The local side of the in-game chat (AI_Final/Assets/scripts/AIChatManager.cs): the
    bounded conversation history, the input normaliser, the trained-topic gate, the
    keyword cascade of canned answers and the reactions to game events.

    The pawns are optional in the source (`quoridorAI?.aiPlayer`); here they are an
    `Option<Rows>`. `Random.Range` over a pool is `Seqs.Choose` with a `pick`. */
module AIChatManager {
  import opened Optional
  import opened Strings
  import opened Numbers
  import opened Seqs
  import opened Dicts

  // ---------------------------------------------------------------------------
  // Conversation history
  // ---------------------------------------------------------------------------

  datatype ChatMessage = ChatMessage(role: String, content: String)

  /** `AddUserMessage`: append the user turn; above the cap, `RemoveRange(1, count - cap)`
      drops the oldest turns after entry 0, the system prompt. With a cap below 1 that
      range runs past the end and the runtime raises: `None`. */
  function AddUserMessage(history: seq<ChatMessage>, message: String, maxChatHistory: int): (r: Option<seq<ChatMessage>>)
    ensures r.None? <==> maxChatHistory < 1
    ensures r.Some? ==> |r.value| == Min(|history| + 1, maxChatHistory)
    ensures r.Some? ==> r.value[0] == (history + [ChatMessage("user", message)])[0]
    ensures r.Some? && (maxChatHistory >= 2 || history == []) ==> r.value[|r.value| - 1] == ChatMessage("user", message)
    ensures r.Some? ==> var h := history + [ChatMessage("user", message)];
                        r.value[1..] == h[|h| - (|r.value| - 1)..]
  {
    var h := history + [ChatMessage("user", message)];
    if |h| <= maxChatHistory then Some(h)
    else if maxChatHistory < 1 then None
    else
      var kept := h[..1] + h[1 + (|h| - maxChatHistory)..];
      assert maxChatHistory >= 2 ==> kept[|kept| - 1] == h[|h| - 1];
      Some(kept)
  }

  function Min(a: int, b: int): int {
    if a < b then a else b
  }

  /** `AddAIMessage`: the assistant turn is appended with no cap at all. */
  function AddAIMessage(history: seq<ChatMessage>, message: String): (r: seq<ChatMessage>)
    ensures |r| == |history| + 1 && r[..|history|] == history
    ensures r[|history|] == ChatMessage("assistant", message)
  {
    history + [ChatMessage("assistant", message)]
  }

  /** A history kept within the cap, with the system prompt first, stays so across any
      user turn; an assistant turn can push it one past the cap. */
  lemma HistoryCapKeepsPrompt(history: seq<ChatMessage>, message: String, cap: int)
    requires 1 <= cap && 1 <= |history| <= cap
    ensures var r := AddUserMessage(history, message, cap);
            r.Some? && |r.value| <= cap && r.value[0] == history[0]
    ensures |history| == cap ==> |AddAIMessage(history, message)| == cap + 1
  {
  }

  // ---------------------------------------------------------------------------
  // Game phase and standing
  // ---------------------------------------------------------------------------

  /** The rows of the two pawns: the AI heads for row 0, the human for row 8. */
  datatype Rows = Rows(aiRow: int, humanRow: int)

  datatype Phase = EarlyGame | MidGame | EndGame | Unknown

  function DistanceLeft(p: Rows): nat {
    Abs(p.aiRow - 0) + Abs(p.humanRow - 8)
  }

  /** `GetGamePhase`: the pawns' total distance to their goals, above 12 early, above 6
      mid, else end; `Unknown` without pawns. */
  function GetGamePhase(players: Option<Rows>): (r: Phase)
    ensures r == Unknown <==> players.None?
    ensures players.Some? ==> (r == EarlyGame <==> DistanceLeft(players.value) > 12)
    ensures players.Some? ==> (r == EndGame <==> DistanceLeft(players.value) <= 6)
  {
    match players
    case None => Unknown
    case Some(p) =>
      var total := DistanceLeft(p);
      if total > 12 then EarlyGame else if total > 6 then MidGame else EndGame
  }

  function PhaseRank(p: Phase): nat {
    match p
    case EarlyGame => 0
    case MidGame => 1
    case EndGame => 2
    case Unknown => 0
  }

  /** The phase only moves forward as the pawns close in on their goals; the opening
      position (AI on row 8, human on row 0) is the early game. */
  lemma PhaseMonotone(a: Rows, b: Rows)
    requires DistanceLeft(b) <= DistanceLeft(a)
    ensures PhaseRank(GetGamePhase(Some(a))) <= PhaseRank(GetGamePhase(Some(b)))
    ensures GetGamePhase(Some(Rows(8, 0))) == EarlyGame
  {
  }

  /** Who leads in `GetGameStateResponse`. */
  datatype Standing = AiLeading(aiRow: int, humanRow: int) | PlayerLeading(humanRow: int, aiRow: int)
                    | Level(row: int) | InProgress

  /** The row closer to its own goal leads: the AI leads iff its row is the smaller. */
  function GameStanding(players: Option<Rows>): (r: Standing)
    ensures r.InProgress? <==> players.None?
    ensures players.Some? ==> (r.AiLeading? <==> players.value.aiRow < players.value.humanRow)
    ensures players.Some? ==> (r.PlayerLeading? <==> players.value.humanRow < players.value.aiRow)
  {
    match players
    case None => InProgress
    case Some(p) =>
      if p.aiRow < p.humanRow then AiLeading(p.aiRow, p.humanRow)
      else if p.humanRow < p.aiRow then PlayerLeading(p.humanRow, p.aiRow)
      else Level(p.aiRow)
  }

  /** Exchanging the two rows exchanges who leads. */
  lemma GameStandingSwap(a: int, h: int)
    ensures GameStanding(Some(Rows(a, h))).AiLeading? <==> GameStanding(Some(Rows(h, a))).PlayerLeading?
    ensures GameStanding(Some(Rows(a, h))).Level? <==> a == h
  {
  }

  /** The sentences `GetGameStateResponse` interpolates the rows into. */
  function StandingText(s: Standing): String {
    match s
    case AiLeading(a, h) =>
      "😏 Tôi đang dẫn trước! AI ở hàng " + IntToString(a) + ", bạn ở hàng " + IntToString(h) + ". Cố lên nhé! 💪"
    case PlayerLeading(h, a) =>
      "😮 Bạn đang dẫn trước! Bạn ở hàng " + IntToString(h) + ", tôi ở hàng " + IntToString(a) + ". Tôi phải bắt kịp thôi! 🏃‍♀️"
    case Level(row) =>
      "⚖️ Chúng ta đang ngang bằng! Cả hai đều ở hàng " + IntToString(row) + ". Cuộc đua gay cấn! 🔥"
    case InProgress =>
      "🎮 Game đang diễn ra! Tôi đang tập trung phân tích từng nước đi! 🤖"
  }

  function GetGameStateResponse(players: Option<Rows>): String {
    StandingText(GameStanding(players))
  }

  datatype HintKind = PlayerNearGoal | AiNearGoal | EarlyPhase | MidPhase | GeneralHint

  /** `GetGameSpecificHint`: the human close to the goal first, then the AI close to
      its goal, then the early and the mid game; a general hint without pawns. */
  function GetGameSpecificHint(players: Option<Rows>): (r: HintKind)
    ensures players.None? <==> r == GeneralHint
    ensures players.Some? && players.value.humanRow > 6 ==> r == PlayerNearGoal
    ensures r == AiNearGoal <==> players.Some? && players.value.humanRow <= 6 && players.value.aiRow < 2
    ensures r == EarlyPhase <==>
              players.Some? && players.value.humanRow < 4 && players.value.aiRow >= 2
    ensures r == MidPhase <==>
              players.Some? && 4 <= players.value.humanRow <= 6 && players.value.aiRow >= 2
  {
    match players
    case None => GeneralHint
    case Some(p) =>
      if p.humanRow > 6 then PlayerNearGoal
      else if p.aiRow < 2 then AiNearGoal
      else if p.humanRow < 4 then EarlyPhase
      else MidPhase
  }

  function HintText(h: HintKind): String {
    match h
    case PlayerNearGoal => "😱 Bạn đang rất gần đích! Tôi phải cản bạn lại thôi! Hãy cẩn thận với những bức tường! 🧱"
    case AiNearGoal => "😏 Hehe, tôi sắp thắng rồi! Bạn có thể dùng tường để làm chậm tôi đấy! 🏃‍♀️"
    case EarlyPhase => "💡 **Gợi ý:** Giai đoạn đầu nên tập trung di chuyển về phía đích. Đừng vội đặt tường! 🚶"
    case MidPhase => "🎯 **Gợi ý:** Giờ là lúc cân nhắc đặt tường! Hãy chặn đường ngắn nhất của đối thủ! 🧱"
    case GeneralHint => "💡 **Gợi ý chung:** Luôn tính toán đường đi ngắn nhất và cẩn thận với những bức tường! 🤔"
  }


  // ---------------------------------------------------------------------------
  // Normalisation and the trained-topic gate
  // ---------------------------------------------------------------------------

  predicate Kept(c: char) {
    IsLetterOrDigit(c) || IsWhiteSpace(c)
  }

  /** `NormalizeInput`: null or empty gives ""; otherwise lower-case, keep letters, digits
      and white space, and trim. The kept characters survive in order, and the result is
      empty exactly when the input has no kept character other than white space. */
  function NormalizeInput(input: Option<String>): (r: String)
    ensures input.None? || input.value == [] ==> r == []
    ensures forall i :: 0 <= i < |r| ==> Kept(r[i]) && !IsUpper(r[i])
    ensures r == [] || (!IsWhiteSpace(r[0]) && !IsWhiteSpace(r[|r| - 1]))
    ensures input.Some? ==> forall c :: c in r ==> c in Lower(input.value)
    ensures input.Some? ==> IsSubsequence(r, Lower(input.value))
    ensures input.Some? ==>
              (r == [] <==> forall c :: c in Lower(input.value) && Kept(c) ==> IsWhiteSpace(c))
  {
    if input.None? || input.value == [] then []
    else
      var low := Lower(input.value);
      var f := FilterChars(low, Kept);
      var r := Trim(f);
      TrimChars(f);
      NormalChars(low, f, r);
      NormalOrder(low, f, r);
      NormalEmpty(low, f, r);
      r
  }

  /** Filtering keeps the order of what it keeps. */
  lemma {:induction false} FilterCharsSubsequence(s: String, keep: char -> bool)
    ensures IsSubsequence(FilterChars(s, keep), s)
    decreases |s|
  {
    if |s| > 0 {
      var rest := FilterChars(s[1..], keep);
      FilterCharsSubsequence(s[1..], keep);
      if keep(s[0]) {
        assert FilterChars(s, keep) == [s[0]] + rest;
        assert ([s[0]] + rest)[1..] == rest;
      } else {
        assert FilterChars(s, keep) == rest;
        SubsequenceCons(rest, s);
      }
    }
  }

  /** The trimmed filter is an ordered selection from the lower-cased input. */
  lemma NormalOrder(low: String, f: String, r: String)
    requires f == FilterChars(low, Kept) && r == Trim(f)
    ensures IsSubsequence(r, low)
  {
    var i, j :| 0 <= i <= j <= |f| && r == f[i..j];
    SliceSubsequence(f, i, j);
    FilterCharsSubsequence(low, Kept);
    SubsequenceTrans(r, f, low);
  }

  /** Trimming the filter leaves nothing exactly when every kept character is white space. */
  lemma NormalEmpty(low: String, f: String, r: String)
    requires f == FilterChars(low, Kept) && r == Trim(f)
    ensures r == [] <==> forall c :: c in low && Kept(c) ==> IsWhiteSpace(c)
  {
    if r == [] {
      TrimEmptyIsWhiteSpace(f);
      forall c | c in low && Kept(c) ensures IsWhiteSpace(c) {
        var k :| 0 <= k < |f| && f[k] == c;
      }
    } else {
      TrimChars(f);
      assert r[0] in f;
    }
  }

  /** What survives filtering a lower-cased string and trimming is kept, lower-case
      and taken from that string. */
  lemma NormalChars(low: String, f: String, r: String)
    requires forall i :: 0 <= i < |low| ==> !IsUpper(low[i])
    requires f == FilterChars(low, Kept) && forall c :: c in r ==> c in f
    ensures forall i :: 0 <= i < |r| ==> Kept(r[i]) && !IsUpper(r[i])
    ensures forall c :: c in r ==> c in low
  {
    forall i | 0 <= i < |r| ensures Kept(r[i]) && !IsUpper(r[i]) {
      assert r[i] in f;
      var k :| 0 <= k < |f| && f[k] == r[i];
      assert r[i] in low;
    }
  }

  /** A trimmed string of kept, non-upper-case characters is its own normalisation. */
  lemma NormalizeFixpoint(s: String)
    requires forall i :: 0 <= i < |s| ==> Kept(s[i]) && !IsUpper(s[i])
    requires s == [] || (!IsWhiteSpace(s[0]) && !IsWhiteSpace(s[|s| - 1]))
    ensures NormalizeInput(Some(s)) == s
  {
    if s != [] {
      assert Lower(s) == s;
      FilterKeepsAll(s, Kept);
      TrimNoOp(s);
    }
  }

  /** Normalising a normalised string changes nothing. */
  lemma NormalizeIdempotent(input: Option<String>)
    ensures NormalizeInput(Some(NormalizeInput(input))) == NormalizeInput(input)
  {
    NormalizeFixpoint(NormalizeInput(input));
  }

  /** The topics of the local knowledge base, in the source's order. */
  const TrainedTopics: seq<String> := [
    "cách chơi", "hướng dẫn", "luật", "rule",
    "chiến thuật", "strategy", "tactic",
    "gợi ý", "hint", "tip", "mẹo",
    "help", "giúp", "trợ giúp",
    "xin chào", "chào", "hello", "hi",
    "tình hình", "thế nào", "game", "trận đấu",
    "giỏi", "thông minh", "hay", "clever",
    "khó", "dễ", "difficult", "easy",
    "quoridor", "tường", "wall", "di chuyển", "move",
    "thắng", "thua", "win", "lose",
    "ai", "robot", "bot"
  ]

  /** The source's test for one topic: a substring of the normalised input, or equal to
      one of its space-separated words. */
  predicate TopicMatches(normalized: String, topic: String) {
    var t := NormalizeInput(Some(topic));
    Contains(normalized, t) || t in Split(normalized, ' ')
  }

  /** `GetLocalResponse`: the fallback answer when some trained topic matches, `None`
      (the source's null, "ask the API") otherwise. */
  function GetLocalResponse(userMessage: Option<String>, players: Option<Rows>, pick: nat): (r: Option<Reply>)
    ensures r.Some? ==> r.value == GetEnhancedFallbackResponse(userMessage, players, pick)
  {
    var m := NormalizeInput(userMessage);
    if exists i :: 0 <= i < |TrainedTopics| && TopicMatches(m, TrainedTopics[i]) then
      Some(GetEnhancedFallbackResponse(userMessage, players, pick))
    else None
  }

  /** The whole-word test adds nothing to the substring test, so the gate opens exactly
      when a normalised topic occurs somewhere in the normalised input. */
  lemma LocalResponseGate(userMessage: Option<String>, players: Option<Rows>, pick: nat)
    ensures var m := NormalizeInput(userMessage);
            GetLocalResponse(userMessage, players, pick).None? <==>
              forall i :: 0 <= i < |TrainedTopics| ==> !Contains(m, NormalizeInput(Some(TrainedTopics[i])))
  {
    var m := NormalizeInput(userMessage);
    if forall i :: 0 <= i < |TrainedTopics| ==> !Contains(m, NormalizeInput(Some(TrainedTopics[i]))) {
      GateClosed(userMessage, players, pick);
    } else {
      GateOpen(userMessage, players, pick);
    }
  }

  lemma GateClosed(userMessage: Option<String>, players: Option<Rows>, pick: nat)
    requires forall i :: 0 <= i < |TrainedTopics| ==> !Contains(NormalizeInput(userMessage), NormalizeInput(Some(TrainedTopics[i])))
    ensures GetLocalResponse(userMessage, players, pick).None?
  {
    TopicsMatchWhenContained(NormalizeInput(userMessage), TrainedTopics);
  }

  lemma GateOpen(userMessage: Option<String>, players: Option<Rows>, pick: nat)
    requires exists i :: 0 <= i < |TrainedTopics| && Contains(NormalizeInput(userMessage), NormalizeInput(Some(TrainedTopics[i])))
    ensures GetLocalResponse(userMessage, players, pick).Some?
  {
    TopicsMatchWhenContained(NormalizeInput(userMessage), TrainedTopics);
  }

  /** Over any topic list, some topic matches exactly when some normalised topic occurs
      in the normalised input. */
  lemma TopicsMatchWhenContained(m: String, topics: seq<String>)
    ensures (exists i :: 0 <= i < |topics| && TopicMatches(m, topics[i]))
            <==> exists i :: 0 <= i < |topics| && Contains(m, NormalizeInput(Some(topics[i])))
  {
    forall i | 0 <= i < |topics| && TopicMatches(m, topics[i])
      ensures Contains(m, NormalizeInput(Some(topics[i])))
    {
      var t := NormalizeInput(Some(topics[i]));
      var words := Split(m, ' ');
      if t in words {
        var k :| 0 <= k < |words| && words[k] == t;
        SplitPiecesOccur(m, ' ', k);
      }
    }
  }

  // ---------------------------------------------------------------------------
  // The canned-answer cascade
  // ---------------------------------------------------------------------------

  /** The answers of `GetEnhancedFallbackResponse`, by branch; a pool answer carries the
      index `Random.Range` drew. `ReplyText` gives the source's wording. */
  datatype Reply = Tutorial | StrategyTips | HintReply(hint: HintKind) | HelpMenu
                 | Greeting(index: nat) | GameStateReply(standing: Standing)
                 | Compliment(index: nat) | DifficultyRemark(index: nat) | Banter(index: nat)

  const Greetings: seq<String> := [
    "Chào bạn! Sẵn sàng thách thức tôi chưa? 😊",
    "Hi! Tôi là AI đối thủ của bạn. Let's play! 🎮",
    "Xin chào! Hy vọng bạn đã chuẩn bị chiến thuật tốt! 😏",
    "Chào! Tôi rất mong được chơi với bạn!"
  ]

  const Compliments: seq<String> := [
    "Cảm ơn! Nhưng bạn cũng chơi rất hay đấy! 😊",
    "Hehe, tôi chỉ dùng thuật toán Minimax thôi mà! 🤖",
    "Thanks! Nhưng đừng đánh giá thấp bản thân nhé!"
  ]

  const DifficultyRemarks: seq<String> := [
    "Quoridor dễ học nhưng khó thành thạo! 🧠",
    "Tôi sẽ không đi dễ với bạn đâu! 😈",
    "Game này càng chơi càng thấy hay! 📚"
  ]

  const BanterLines: seq<String> := [
    "Thú vị! Mình đang chờ nước đi tiếp theo của bạn 🎮",
    "Haha, bạn nghĩ mình sẽ để bạn thắng dễ dàng sao? 😄",
    "Tập trung vào game thôi! Ai sẽ thắng nhỉ? 🏆",
    "Mình thích cách bạn chơi! Nhưng mình vẫn sẽ cố gắng thắng 💪",
    "Hmm, thú vị! Còn gì khác không? 🤔",
    "Được rồi! Hãy xem ai giỏi hơn nào! 😏",
    "Ồ, bạn đang cố làm tôi mất tập trung à? 😄"
  ]

  /** A pool answer draws an index inside its pool. */
  predicate ValidReply(r: Reply) {
    match r
    case Greeting(i) => i < |Greetings|
    case Compliment(i) => i < |Compliments|
    case DifficultyRemark(i) => i < |DifficultyRemarks|
    case Banter(i) => i < |BanterLines|
    case _ => true
  }

  function ReplyText(r: Reply): String
    requires ValidReply(r)
  {
    match r
    case Tutorial =>
      "🎮 **CÁCH CHƠI QUORIDOR:**\n\n" +
      "🎯 **Mục tiêu:** Đưa quân cờ đến đầu bên kia trước tôi!\n" +
      "🚶 **Di chuyển:** Click vào ô bạn muốn đi\n" +
      "🧱 **Đặt tường:** Click giữa các ô để chặn đường\n" +
      "💡 **Mẹo:** Mỗi lượt chỉ được di chuyển HOẶC đặt tường!"
    case StrategyTips =>
      "🧠 **CHIẾN THUẬT:**\n\n" +
      "• Tập trung về đích ở giai đoạn đầu\n" +
      "• Dùng tường để chặn đường ngắn nhất của đối thủ\n" +
      "• Đừng lãng phí tường quá sớm!\n" +
      "• Luôn đảm bảo mình có đường đi về đích 😉"
    case HintReply(h) => HintText(h)
    case HelpMenu =>
      "🆘 **TÔI CÓ THỂ GIÚP:**\n\n" +
      "• 'cách chơi' - Hướng dẫn cơ bản\n" +
      "• 'chiến thuật' - Mẹo chơi hay\n" +
      "• 'gợi ý' - Lời khuyên cho nước đi\n" +
      "• Chat tự do với tôi!"
    case Greeting(i) => Greetings[i]
    case GameStateReply(s) => StandingText(s)
    case Compliment(i) => Compliments[i]
    case DifficultyRemark(i) => DifficultyRemarks[i]
    case Banter(i) => BanterLines[i]
  }

  /** The branches of `GetEnhancedFallbackResponse`, in the order they are tried. */
  datatype Tier = TutorialTier | StrategyTier | HintTier | HelpTier | GreetingTier
                | GameStateTier | ComplimentTier | DifficultyTier

  /** The keywords each branch tests for, in the source's order. */
  const Tiers: seq<(Tier, seq<String>)> := [
    (TutorialTier, ["cách chơi", "hướng dẫn"]),
    (StrategyTier, ["chiến thuật", "strategy"]),
    (HintTier, ["gợi ý", "hint"]),
    (HelpTier, ["help", "giúp"]),
    (GreetingTier, ["xin chào", "chào", "hello", "hi"]),
    (GameStateTier, ["tình hình", "thế nào", "game"]),
    (ComplimentTier, ["giỏi", "thông minh", "hay"]),
    (DifficultyTier, ["khó", "dễ"])
  ]

  predicate AnyContained(m: String, keywords: seq<String>) {
    exists k :: k in keywords && Contains(m, k)
  }

  /** The answer a branch gives. */
  function TierAnswer(t: Tier, players: Option<Rows>, pick: nat): Reply {
    match t
    case TutorialTier => Tutorial
    case StrategyTier => StrategyTips
    case HintTier => HintReply(GetGameSpecificHint(players))
    case HelpTier => HelpMenu
    case GreetingTier => Greeting(pick % |Greetings|)
    case GameStateTier => GameStateReply(GameStanding(players))
    case ComplimentTier => Compliment(pick % |Compliments|)
    case DifficultyTier => DifficultyRemark(pick % |DifficultyRemarks|)
  }

  /** `GetEnhancedFallbackResponse`: the cascade runs on the normalised input. */
  function GetEnhancedFallbackResponse(userMessage: Option<String>, players: Option<Rows>, pick: nat): (r: Reply)
    ensures ValidReply(r)
  {
    Cascade(NormalizeInput(userMessage), players, pick)
  }

  /** The cascade branch by branch as the source writes it, on a normalised input `m`. */
  function Cascade(m: String, players: Option<Rows>, pick: nat): (r: Reply)
    ensures ValidReply(r)
  {
    if Contains(m, "cách chơi") || Contains(m, "hướng dẫn") then Tutorial
    else if Contains(m, "chiến thuật") || Contains(m, "strategy") then StrategyTips
    else if Contains(m, "gợi ý") || Contains(m, "hint") then HintReply(GetGameSpecificHint(players))
    else if Contains(m, "help") || Contains(m, "giúp") then HelpMenu
    else LateCascade(m, players, pick)
  }

  /** The branches after the help branch. */
  function LateCascade(m: String, players: Option<Rows>, pick: nat): (r: Reply)
    ensures ValidReply(r)
  {
    if Contains(m, "xin chào") || Contains(m, "chào") || Contains(m, "hello") || Contains(m, "hi") then
      Greeting(pick % |Greetings|)
    else if Contains(m, "tình hình") || Contains(m, "thế nào") || Contains(m, "game") then
      GameStateReply(GameStanding(players))
    else if Contains(m, "giỏi") || Contains(m, "thông minh") || Contains(m, "hay") then
      Compliment(pick % |Compliments|)
    else if Contains(m, "khó") || Contains(m, "dễ") then DifficultyRemark(pick % |DifficultyRemarks|)
    else Banter(pick % |BanterLines|)
  }

  /** The first branch, in table order, whose keywords occur in the input decides the
      answer; with none, the default pool answers. */
  lemma CascadeFollowsTiers(m: String, players: Option<Rows>, pick: nat)
    ensures forall k :: 0 <= k < |Tiers| && AnyContained(m, Tiers[k].1)
                          && (forall j :: 0 <= j < k ==> !AnyContained(m, Tiers[j].1)) ==>
              Cascade(m, players, pick) == TierAnswer(Tiers[k].0, players, pick)
    ensures (forall j :: 0 <= j < |Tiers| ==> !AnyContained(m, Tiers[j].1)) ==>
              Cascade(m, players, pick) == Banter(pick % |BanterLines|)
  {
    forall k | 0 <= k < |Tiers| && AnyContained(m, Tiers[k].1)
                && (forall j :: 0 <= j < k ==> !AnyContained(m, Tiers[j].1))
      ensures Cascade(m, players, pick) == TierAnswer(Tiers[k].0, players, pick)
    {
      if k < 4 {
        EarlyTierAnswers(m, players, pick, k);
      } else {
        LateTierAnswers(m, players, pick, k);
      }
    }
    EarlyTierKeywords(m);
    LateTierKeywords(m);
  }

  lemma EarlyTierAnswers(m: String, players: Option<Rows>, pick: nat, k: nat)
    requires k < 4 && AnyContained(m, Tiers[k].1)
    requires forall j :: 0 <= j < k ==> !AnyContained(m, Tiers[j].1)
    ensures Cascade(m, players, pick) == TierAnswer(Tiers[k].0, players, pick)
  {
    EarlyTierKeywords(m);
  }

  lemma LateTierAnswers(m: String, players: Option<Rows>, pick: nat, k: nat)
    requires 4 <= k < |Tiers| && AnyContained(m, Tiers[k].1)
    requires forall j :: 0 <= j < k ==> !AnyContained(m, Tiers[j].1)
    ensures Cascade(m, players, pick) == TierAnswer(Tiers[k].0, players, pick)
  {
    EarlyTierKeywords(m);
    assert Cascade(m, players, pick) == LateCascade(m, players, pick) by {
      assert forall j :: 0 <= j < 4 ==> !AnyContained(m, Tiers[j].1);
    }
    LateTierKeywords(m);
    LateCascadeByFlags(m, players, pick, AnyContained(m, Tiers[4].1), AnyContained(m, Tiers[5].1),
                       AnyContained(m, Tiers[6].1), AnyContained(m, Tiers[7].1));
  }

  /** The later branches in terms of which of their keyword lists occur. */
  lemma LateCascadeByFlags(m: String, players: Option<Rows>, pick: nat, greet: bool, state: bool, praise: bool, level: bool)
    requires greet <==> Contains(m, "xin chào") || Contains(m, "chào") || Contains(m, "hello") || Contains(m, "hi")
    requires state <==> Contains(m, "tình hình") || Contains(m, "thế nào") || Contains(m, "game")
    requires praise <==> Contains(m, "giỏi") || Contains(m, "thông minh") || Contains(m, "hay")
    requires level <==> Contains(m, "khó") || Contains(m, "dễ")
    ensures LateCascade(m, players, pick)
            == if greet then TierAnswer(GreetingTier, players, pick)
               else if state then TierAnswer(GameStateTier, players, pick)
               else if praise then TierAnswer(ComplimentTier, players, pick)
               else if level then TierAnswer(DifficultyTier, players, pick)
               else Banter(pick % |BanterLines|)
  {
  }

  /** The tests of the first branches, read off the table. */
  lemma EarlyTierKeywords(m: String)
    ensures AnyContained(m, Tiers[0].1) <==> Contains(m, "cách chơi") || Contains(m, "hướng dẫn")
    ensures AnyContained(m, Tiers[1].1) <==> Contains(m, "chiến thuật") || Contains(m, "strategy")
    ensures AnyContained(m, Tiers[2].1) <==> Contains(m, "gợi ý") || Contains(m, "hint")
    ensures AnyContained(m, Tiers[3].1) <==> Contains(m, "help") || Contains(m, "giúp")
  {
    AnyOfTwo(m, "cách chơi", "hướng dẫn");
    AnyOfTwo(m, "chiến thuật", "strategy");
    AnyOfTwo(m, "gợi ý", "hint");
    AnyOfTwo(m, "help", "giúp");
  }

  /** The tests of the later branches, read off the table. */
  lemma LateTierKeywords(m: String)
    ensures AnyContained(m, Tiers[4].1) <==>
              Contains(m, "xin chào") || Contains(m, "chào") || Contains(m, "hello") || Contains(m, "hi")
    ensures AnyContained(m, Tiers[5].1) <==> Contains(m, "tình hình") || Contains(m, "thế nào") || Contains(m, "game")
    ensures AnyContained(m, Tiers[6].1) <==> Contains(m, "giỏi") || Contains(m, "thông minh") || Contains(m, "hay")
    ensures AnyContained(m, Tiers[7].1) <==> Contains(m, "khó") || Contains(m, "dễ")
  {
    AnyOfFour(m, "xin chào", "chào", "hello", "hi");
    AnyOfThree(m, "tình hình", "thế nào", "game");
    AnyOfThree(m, "giỏi", "thông minh", "hay");
    AnyOfTwo(m, "khó", "dễ");
  }

  lemma AnyOfTwo(m: String, a: String, b: String)
    ensures AnyContained(m, [a, b]) <==> Contains(m, a) || Contains(m, b)
  {
    if Contains(m, a) { assert a in [a, b]; }
    if Contains(m, b) { assert b in [a, b]; }
  }

  lemma AnyOfThree(m: String, a: String, b: String, c: String)
    ensures AnyContained(m, [a, b, c]) <==> Contains(m, a) || Contains(m, b) || Contains(m, c)
  {
    if Contains(m, a) { assert a in [a, b, c]; }
    if Contains(m, b) { assert b in [a, b, c]; }
    if Contains(m, c) { assert c in [a, b, c]; }
  }

  lemma AnyOfFour(m: String, a: String, b: String, c: String, d: String)
    ensures AnyContained(m, [a, b, c, d]) <==> Contains(m, a) || Contains(m, b) || Contains(m, c) || Contains(m, d)
  {
    if Contains(m, a) { assert a in [a, b, c, d]; }
    if Contains(m, b) { assert b in [a, b, c, d]; }
    if Contains(m, c) { assert c in [a, b, c, d]; }
    if Contains(m, d) { assert d in [a, b, c, d]; }
  }

  /** "hi" hides inside many Vietnamese words ("chiến", "khi", "nhiều", "thi"): any input
      containing it is answered by one of the first five branches, never with the game
      state, a compliment, a difficulty remark or a default line. */
  lemma HiShadowsLaterTiers(m: String, players: Option<Rows>, pick: nat)
    requires Contains(m, "hi")
    ensures var r := Cascade(m, players, pick);
            r.Tutorial? || r.StrategyTips? || r.HintReply? || r.HelpMenu? || r.Greeting?
  {
  }

  // ---------------------------------------------------------------------------
  // Game-event reactions
  // ---------------------------------------------------------------------------

  datatype GameEvent = AiWin | HumanWin | AiMove | WallPlaced | CloseGame | GoodMove | BadMove | OtherEvent

  /** The case labels of `GetGameEventReaction`'s switch. */
  const EventNames: seq<(String, GameEvent)> := [
    ("AI_WIN", AiWin), ("HUMAN_WIN", HumanWin), ("PLAYER_WIN", HumanWin), ("AI_MOVE", AiMove),
    ("WALL_PLACED", WallPlaced), ("CLOSE_GAME", CloseGame), ("GOOD_MOVE", GoodMove), ("BAD_MOVE", BadMove)
  ]

  /** `GetGameEventReaction`: a switch on the upper-cased event name. */
  function GetGameEventReaction(eventType: String): (r: GameEvent)
    ensures r == OtherEvent <==> forall i :: 0 <= i < |EventNames| ==> EventNames[i].0 != Upper(eventType)
    ensures r != OtherEvent ==> exists i :: 0 <= i < |EventNames| && EventNames[i] == (Upper(eventType), r)
  {
    var i := KeyIndex(EventNames, Upper(eventType));
    if i < 0 then OtherEvent else EventNames[i].1
  }

  function ReactionText(e: GameEvent): String {
    match e
    case AiWin => "🏆 Yayyy! Tôi đã thắng! Good game bạn nhé! 😄 Chơi lại không?"
    case HumanWin => "😮 Wow! Bạn đã thắng tôi! Chúc mừng nhé! 👏 Lần sau tôi sẽ cẩn thận hơn!"
    case AiMove => "😏 Đó là nước đi của tôi! Bạn nghĩ sao? 🤔"
    case WallPlaced => "🧱 Ồ, có tường mới! Chiến thuật thay đổi rồi đây! 😈"
    case CloseGame => "😰 Game này căng thẳng quá! Ai sẽ thắng nhỉ? 💓"
    case GoodMove => "👏 Nước đi hay đấy! Tôi phải cẩn thận rồi! 🧠"
    case BadMove => "🤨 Hmm, bạn chắc chắn với nước đi đó không? 😏"
    case OtherEvent => "🎮 Game đang diễn ra! Tôi đang chú ý từng nước đi của bạn! 👀"
  }

  /** The switch ignores letter case. */
  lemma EventReactionIgnoresCase(eventType: String)
    ensures GetGameEventReaction(eventType) == GetGameEventReaction(Upper(eventType))
  {
    UpperIdempotent(eventType);
  }

  /** The two names of a human win react alike, in either letter case. */
  lemma HumanWinAliases()
    ensures GetGameEventReaction("human_win") == GetGameEventReaction("PLAYER_WIN") == HumanWin
  {
    UpperHumanWin("human_win");
    ReactionAt("human_win", "HUMAN_WIN", 1);
    UpperPlayerWin("PLAYER_WIN");
    ReactionAt("PLAYER_WIN", "PLAYER_WIN", 2);
  }

  lemma UpperHumanWin(name: String)
    requires name == "human_win"
    ensures Upper(name) == "HUMAN_WIN"
  {
  }

  lemma UpperPlayerWin(name: String)
    requires name == "PLAYER_WIN"
    ensures Upper(name) == name
  {
  }

  /** The reaction of the first entry whose name is the upper-cased event name. */
  lemma ReactionAt(eventType: String, upper: String, i: nat)
    requires Upper(eventType) == upper && i < |EventNames| && EventNames[i].0 == upper
    requires forall j :: 0 <= j < i ==> EventNames[j].0 != upper
    ensures GetGameEventReaction(eventType) == EventNames[i].1
  {
    KeyIndexAt(EventNames, upper, i);
  }
}

=== FILE: board_square.dfy ===
/** One square of the board (AI_Final/Assets/scripts/BoardSquare.cs): its occupant,
    its highlight, and the click that moves the selected pawn onto it.

    A piece object is named by its player id. The old square of a moving pawn is
    `None` when the board manager has no square there. */
module BoardSquare {
  import opened Optional
  import opened ChessPlayer
  import opened Numbers

  datatype Square = Square(row: int, col: int, isOccupied: bool, isHighlighted: bool, occupant: Option<int>)

  /** `IsEmpty`: no flag and no piece, so clearing the square changes nothing. */
  function IsEmpty(s: Square): (r: bool)
    ensures r <==> s.(isOccupied := false, occupant := None) == s
  {
    !s.isOccupied && s.occupant.None?
  }

  /** `IsValidMoveFor`: the square lies one column or one row away from the pawn, not
      both: a single orthogonal step. */
  function IsValidMoveFor(s: Square, chessCol: int, chessRow: int): (r: bool)
    ensures r <==> Abs(s.col - chessCol) + Abs(s.row - chessRow) == 1
  {
    var dCol := Abs(s.col - chessCol);
    var dRow := Abs(s.row - chessRow);
    (dCol == 1 && dRow == 0) || (dCol == 0 && dRow == 1)
  }

  /** The two-case test is the single orthogonal step of the rest of the game. */
  lemma ValidMoveIsUnitStep(s: Square, chessCol: int, chessRow: int)
    ensures IsValidMoveFor(s, chessCol, chessRow) <==> Abs(s.col - chessCol) + Abs(s.row - chessRow) == 1
  {
  }

  function SetHighlight(s: Square, highlight: bool): (r: Square)
    ensures r.isHighlighted == highlight && r.(isHighlighted := s.isHighlighted) == s
  {
    s.(isHighlighted := highlight)
  }

  function ToggleHighlight(s: Square): (r: Square)
    ensures r.isHighlighted == !s.isHighlighted
  {
    SetHighlight(s, !s.isHighlighted)
  }

  lemma ToggleHighlightTwice(s: Square)
    ensures ToggleHighlight(ToggleHighlight(s)) == s
  {
  }

  /** `SetOccupyingPiece`: the flag follows the piece. */
  function SetOccupyingPiece(s: Square, piece: Option<int>): (r: Square)
    ensures r.occupant == piece && (r.isOccupied <==> piece.Some?)
    ensures IsEmpty(r) <==> piece.None?
    ensures (r.row, r.col, r.isHighlighted) == (s.row, s.col, s.isHighlighted)
  {
    s.(occupant := piece, isOccupied := piece.Some?)
  }

  function ClearOccupyingPiece(s: Square): (r: Square)
    ensures IsEmpty(r) && (r.row, r.col, r.isHighlighted) == (s.row, s.col, s.isHighlighted)
  {
    s.(occupant := None, isOccupied := false)
  }

  /** `IsValidMoveTarget`: a square can be moved onto exactly when it is empty. */
  function IsValidMoveTarget(s: Square): (r: bool)
    ensures r <==> !s.isOccupied && s.occupant.None?
  {
    IsEmpty(s)
  }

  /** The outcome of a click on a square while a pawn is selected. */
  datatype Click = Click(target: Square, oldSquare: Option<Square>, piece: Piece)

  /** `TryMoveChessToThisSquare` as written: on an empty adjacent square the old square
      is cleared and this one takes the piece, whether or not `MoveTo` accepted the
      move; anywhere else the pawn is deselected. */
  function TryMoveAsWritten(target: Square, oldSquare: Option<Square>, piece: Piece, pieceId: int): (r: Click)
    ensures !(IsEmpty(target) && IsValidMoveFor(target, piece.col, piece.row)) ==>
              r == Click(target, oldSquare, DeselectPiece(piece))
    ensures IsEmpty(target) && IsValidMoveFor(target, piece.col, piece.row) ==>
              r.target.occupant == Some(pieceId) && r.piece == MoveTo(piece, target.col, target.row).0
  {
    if IsEmpty(target) && IsValidMoveFor(target, piece.col, piece.row) then
      var old' := if oldSquare.Some? then Some(ClearOccupyingPiece(oldSquare.value)) else None;
      Click(SetOccupyingPiece(target, Some(pieceId)), old', MoveTo(piece, target.col, target.row).0)
    else
      Click(target, oldSquare, DeselectPiece(piece))
  }

  /** A pawn at (4,0) whose step up is walled off: the click on (4,1) leaves the pawn
      where it was, yet the square (4,1) now holds it and (4,0) reads empty. */
  lemma OccupancyDesync()
    ensures var piece := Piece(1, 4, 0, false, true, [NoMove, NoMove, Cell(3, 0), Cell(5, 0)]);
            var target := Square(1, 4, false, false, None);
            var from := Square(0, 4, true, false, Some(1));
            var r := TryMoveAsWritten(target, Some(from), piece, 1);
            (r.piece.col, r.piece.row) == (4, 0) && r.target.occupant == Some(1)
            && r.oldSquare.Some? && IsEmpty(r.oldSquare.value)
  {
    var piece := Piece(1, 4, 0, false, true, [NoMove, NoMove, Cell(3, 0), Cell(5, 0)]);
    assert Cell(4, 1) !in piece.validMoves;
  }

  /** The click with the occupancy update made only when the pawn actually moved. */
  function TryMove(target: Square, oldSquare: Option<Square>, piece: Piece, pieceId: int): (r: Click)
    ensures !(IsEmpty(target) && IsValidMoveFor(target, piece.col, piece.row)) ==>
              r == Click(target, oldSquare, DeselectPiece(piece))
  {
    if IsEmpty(target) && IsValidMoveFor(target, piece.col, piece.row) then
      var (moved, accepted) := MoveTo(piece, target.col, target.row);
      if accepted then
        var old' := if oldSquare.Some? then Some(ClearOccupyingPiece(oldSquare.value)) else None;
        Click(SetOccupyingPiece(target, Some(pieceId)), old', moved)
      else
        Click(target, oldSquare, moved)
    else
      Click(target, oldSquare, DeselectPiece(piece))
  }

  /** The pawn stands on a square exactly when that square names it. */
  predicate Agrees(s: Square, piece: Piece, pieceId: int) {
    s.occupant == Some(pieceId) <==> (piece.col, piece.row) == (s.col, s.row)
  }

  /** The corrected click keeps both squares in step with the pawn: the target holds
      the pawn exactly when the pawn stands there, and a vacated old square is empty. */
  lemma TryMoveKeepsOccupancy(target: Square, oldSquare: Option<Square>, piece: Piece, pieceId: int)
    requires Agrees(target, piece, pieceId)
    requires oldSquare.Some? ==> Agrees(oldSquare.value, piece, pieceId)
    requires oldSquare.Some? ==> (oldSquare.value.col, oldSquare.value.row) == (piece.col, piece.row)
    ensures var r := TryMove(target, oldSquare, piece, pieceId);
            Agrees(r.target, r.piece, pieceId)
            && (r.oldSquare.Some? ==> Agrees(r.oldSquare.value, r.piece, pieceId))
            && ((r.piece.col, r.piece.row) != (piece.col, piece.row) ==>
                  (r.piece.col, r.piece.row) == (target.col, target.row)
                  && (r.oldSquare.Some? ==> IsEmpty(r.oldSquare.value)))
  {
  }
}

=== FILE: chat_service.dfy ===
/** The reply scanners and switches of `ChatService.cs`.

    The two bots answer in JSON, which the service does not parse: it searches for a
    field marker and takes the text between the next two double quotes. The scan for
    the Rasa reply is modelled twice. `RasaLoop` is the loop as written, run with an
    iteration budget so that a loop that never ends can be told apart from one that
    throws. `ParseTexts` is the scan as evidently intended, which stops at a marker
    without a quoted value. */
module ChatService {
  import opened Optional
  import opened Strings
  import opened Seqs

  /** The marker of a Rasa message text. */
  const Marker: String := "\"text\":"

  /** The marker of the Gemini relay's answer. */
  const ReplyMarker: String := "\"reply\":"

  /** `IndexOf('"', from)`: the first double quote at or after `from`, or -1. */
  function QuoteFrom(s: String, from: nat): (r: int)
    requires from <= |s|
    ensures r == -1 || (from <= r < |s| && s[r] == '"')
    decreases |s| - from
  {
    if from == |s| then -1 else if s[from] == '"' then from else QuoteFrom(s, from + 1)
  }

  /** No quote lies between `from` and the one found, or after `from` at all when none is. */
  lemma {:induction false} QuoteFromFirst(s: String, from: nat)
    requires from <= |s|
    ensures QuoteFrom(s, from) == -1 ==> forall i :: from <= i < |s| ==> s[i] != '"'
    ensures QuoteFrom(s, from) >= 0 ==> forall i :: from <= i < QuoteFrom(s, from) ==> s[i] != '"'
    decreases |s| - from
  {
    if from < |s| && s[from] != '"' {
      QuoteFromFirst(s, from + 1);
    }
  }

  /** A quote preceded by quote-free text is the one found. */
  lemma {:induction false} QuoteFromIs(s: String, from: nat, p: nat)
    requires from <= p < |s| && s[p] == '"'
    requires forall i :: from <= i < p ==> s[i] != '"'
    ensures QuoteFrom(s, from) == p
    decreases p - from
  {
    if from < p {
      QuoteFromIs(s, from + 1, p);
    }
  }

  // ---------------------------------------------------------------------------
  // ParseRasaReply as written
  // ---------------------------------------------------------------------------

  /** How the loop of `ParseRasaReply` ends within a budget of iterations. */
  datatype Run = Finished(texts: seq<String>) | Throws | OutOfBudget

  /** The `while` loop of `ParseRasaReply` from the given `idx`, with the texts collected
      so far. Each iteration finds the next marker, sets `start` one past the next quote
      after the marker (0 when there is none), `end` at the next quote from `start`, adds
      the text between them when `start > 0 && end > start`, and continues from
      `idx = end`. A negative `idx` makes the next `IndexOf` throw. */
  function RasaLoop(json: String, idx: int, texts: seq<String>, budget: nat): (r: Run)
    decreases budget
  {
    if idx < 0 || idx > |json| then Throws
    else
      var m := IndexOf(json, Marker, idx);
      if m < 0 then Finished(texts)
      else if budget == 0 then OutOfBudget
      else
        var start := QuoteFrom(json, m + |Marker|) + 1;
        var end := QuoteFrom(json, start);
        var text := if start > 0 && end > start then [json[start..end]] else [];
        RasaLoop(json, end, texts + text, budget - 1)
  }

  /** `string.Join(" ", texts)` over what the loop collected, when it ends. */
  function ParseRasaAsWritten(json: String, budget: nat): (r: Option<String>)
    ensures r.Some? <==> RasaLoop(json, 0, [], budget).Finished?
  {
    match RasaLoop(json, 0, [], budget)
    case Finished(texts) => Some(Join(texts, " "))
    case _ => None
  }

  /** A marker with nothing quoted after it: the search for the opening quote fails, so
      `start` is 0 and `end` is the position of the reply's first quote (here the
      marker's own), so the loop replays from the first marker forever. */
  lemma {:induction false} MarkerWithoutValueHangs(budget: nat)
    ensures RasaLoop("\"text\":", 0, [], budget) == OutOfBudget
  {
    var json := "\"text\":";
    assert OccursAt(json, Marker, 0);
    assert IndexOf(json, Marker, 0) == 0;
    assert QuoteFrom(json, 7) == -1;
    assert QuoteFrom(json, 0) == 0;
    if budget > 0 {
      var none: seq<String> := [];
      assert none + [] == none;
      MarkerWithoutValueHangs(budget - 1);
    }
  }

  /** A value whose closing quote is missing: `end` is -1 and the next `IndexOf` throws. */
  lemma UnclosedValueThrows(budget: nat)
    requires budget > 0
    ensures RasaLoop("\"text\":\"hi", 0, [], budget) == Throws
  {
    var json := "\"text\":\"hi";
    assert OccursAt(json, Marker, 0);
    assert IndexOf(json, Marker, 0) == 0;
    QuoteFromIs(json, 7, 7);
    assert QuoteFrom(json, 10) == -1;
  }

  // ---------------------------------------------------------------------------
  // The scan as intended
  // ---------------------------------------------------------------------------

  /** What one step of the scan finds from a position: no marker, a marker without a
      quoted value after it, or the value's bounds (`start` past the opening quote,
      `end` at the closing one). */
  datatype Scan = NoMarker | Unquoted | Value(start: nat, end: nat)

  /** The first `marker` at or after `idx` and the quoted value after it. */
  function NextValue(json: String, marker: String, idx: nat): (r: Scan)
    requires idx <= |json|
    ensures r.Value? ==> idx < r.start <= r.end < |json| && json[r.end] == '"'
    decreases |json| - idx
  {
    if idx + |marker| > |json| then NoMarker
    else if OccursAt(json, marker, idx) then ValueAfter(json, idx + |marker|)
    else NextValue(json, marker, idx + 1)
  }

  /** The quoted value after a marker ending at `from`, if there is one. */
  function ValueAfter(json: String, from: nat): (r: Scan)
    requires from <= |json|
    ensures r != NoMarker
    ensures r.Value? ==> from < r.start <= r.end < |json| && json[r.end] == '"'
  {
    var q := QuoteFrom(json, from);
    if q < 0 then Unquoted
    else
      var end := QuoteFrom(json, q + 1);
      if end < 0 then Unquoted else Value(q + 1, end)
  }

  /** A value found holds no double quote. */
  lemma {:induction false} ValueIsQuoteFree(json: String, marker: String, idx: nat)
    requires idx <= |json|
    ensures var r := NextValue(json, marker, idx);
            r.Value? ==> forall i :: r.start <= i < r.end ==> json[i] != '"'
    decreases |json| - idx
  {
    if idx + |marker| <= |json| {
      if OccursAt(json, marker, idx) {
        var q := QuoteFrom(json, idx + |marker|);
        if q >= 0 {
          QuoteFromFirst(json, q + 1);
        }
      } else {
        ValueIsQuoteFree(json, marker, idx + 1);
      }
    }
  }

  /** The step finds the first marker, as `IndexOf` does. */
  lemma {:induction false} NextValueFinds(json: String, marker: String, idx: nat)
    requires idx <= |json|
    ensures NextValue(json, marker, idx) == var m := IndexOf(json, marker, idx);
                                            if m < 0 then NoMarker else ValueAfter(json, m + |marker|)
    decreases |json| - idx
  {
    if idx + |marker| <= |json| && !OccursAt(json, marker, idx) {
      NextValueFinds(json, marker, idx + 1);
    }
  }

  /** Why the scan of `s` stops: no further marker, or a marker without a quoted value. */
  function Stop(s: String, marker: String): (r: Scan)
    ensures !r.Value?
    decreases |s|
  {
    match NextValue(s, marker, 0)
    case Value(_, end) => Stop(s[end..], marker)
    case other => other
  }

  /** Every marker the scan reaches is followed by an opening and a closing quote. */
  predicate WellQuoted(s: String) {
    Stop(s, Marker) == NoMarker
  }

  /** The quoted values after each `marker` of `s` that are not empty, stopping at the
      first marker without one. */
  function Values(s: String, marker: String): (r: seq<String>)
    ensures forall i :: 0 <= i < |r| ==> |r[i]| > 0 && '"' !in r[i]
    decreases |s|
  {
    match NextValue(s, marker, 0)
    case Value(start, end) =>
      var v := s[start..end];
      ValueIsQuoteFree(s, marker, 0);
      assert forall i :: 0 <= i < |v| ==> v[i] == s[start + i];
      (if end > start then [v] else []) + Values(s[end..], marker)
    case _ => []
  }

  /** The texts of a Rasa reply. */
  function ParseTexts(json: String): (r: seq<String>)
    ensures forall i :: 0 <= i < |r| ==> |r[i]| > 0 && '"' !in r[i]
  {
    Values(json, Marker)
  }

  /** `ParseRasaReply` as intended. */
  function ParseRasa(json: String): (r: String) {
    Join(ParseTexts(json), " ")
  }

  /** One iteration of the loop as written that finds a value: it adds the value when
      it is not empty and goes on from the closing quote. */
  lemma RasaStepValue(json: String, idx: nat, texts: seq<String>, rest: nat, start: nat, end: nat, kept: seq<String>)
    requires idx <= |json| && NextValue(json, Marker, idx) == Value(start, end)
    requires kept == if end > start then [json[start..end]] else []
    ensures RasaLoop(json, idx, texts, rest + 1) == RasaLoop(json, end, texts + kept, rest)
  {
    NextValueFinds(json, Marker, idx);
    var m := IndexOf(json, Marker, idx);
    assert start == QuoteFrom(json, m + |Marker|) + 1 && end == QuoteFrom(json, start);
  }

  /** The loop as written ends at once where no marker follows. */
  lemma RasaStepNone(json: String, idx: nat, texts: seq<String>, budget: nat)
    requires idx <= |json| && NextValue(json, Marker, idx) == NoMarker
    ensures RasaLoop(json, idx, texts, budget) == Finished(texts)
  {
    NextValueFinds(json, Marker, idx);
  }

  /** One step of the intended scan that finds a value. */
  lemma ParseTextsStep(y: String, start: nat, end: nat, kept: seq<String>)
    requires NextValue(y, Marker, 0) == Value(start, end)
    requires kept == if end > start then [y[start..end]] else []
    ensures ParseTexts(y) == kept + ParseTexts(y[end..])
  {
  }

  /** The suffix of a suffix. */
  lemma DropDrop<T>(x: seq<T>, i: nat, j: nat)
    requires i + j <= |x|
    ensures x[i..][j..] == x[i + j..]
  {
  }

  /** Where every marker the scan reaches has a quoted value, the loop as written ends,
      with enough budget, having added exactly the intended texts of what is left from
      `idx`; budget one more than the characters left is enough, since every iteration
      moves past its marker. */
  lemma {:induction false} RasaLoopAgrees(json: String, idx: nat, texts: seq<String>, budget: nat)
    requires idx <= |json| && WellQuoted(json[idx..])
    requires budget > |json| - idx
    ensures RasaLoop(json, idx, texts, budget) == Finished(texts + ParseTexts(json[idx..]))
    decreases |json| - idx
  {
    var y := json[idx..];
    NextValueDrop(json, y, idx, Marker, 0);
    WellQuotedSteps(y);
    match NextValue(y, Marker, 0)
    case NoMarker =>
      RasaStepNone(json, idx, texts, budget);
      assert texts + ParseTexts(y) == texts;
    case Value(start, end) =>
      var kept := if end > start then [y[start..end]] else [];
      var rest: nat :| rest + 1 == budget;
      var more := texts + kept;
      var next := idx + end;
      ValueAdvances(json, idx, start, end, next);
      RasaLoopAgrees(json, next, more, rest);
      RasaValueCase(json, idx, texts, budget, rest, start, end, kept, next, more);
  }

  /** Past a value the scan is further along and still well quoted. */
  lemma ValueAdvances(json: String, idx: nat, start: nat, end: nat, next: nat)
    requires idx <= |json| && WellQuoted(json[idx..])
    requires NextValue(json[idx..], Marker, 0) == Value(start, end)
    requires next == idx + end
    ensures idx < next <= |json| && WellQuoted(json[next..])
  {
    var y := json[idx..];
    WellQuotedSteps(y);
    DropDrop(json, idx, end);
  }

  /** The iteration of the loop as written that finds a value, given that the loop agrees
      with the intended scan from the value's closing quote on. */
  lemma RasaValueCase(json: String, idx: nat, texts: seq<String>, budget: nat, rest: nat, start: nat, end: nat,
                      kept: seq<String>, next: nat, more: seq<String>)
    requires idx <= |json| && budget == rest + 1 && NextValue(json[idx..], Marker, 0) == Value(start, end)
    requires NextValue(json, Marker, idx) == Shifted(NextValue(json[idx..], Marker, 0), idx)
    requires kept == if end > start then [json[idx..][start..end]] else []
    requires next == idx + end && more == texts + kept
    requires RasaLoop(json, next, more, rest) == Finished(more + ParseTexts(json[next..]))
    ensures RasaLoop(json, idx, texts, budget) == Finished(texts + ParseTexts(json[idx..]))
  {
    var y := json[idx..];
    DropDrop(json, idx, end);
    DropSlice(json, y, idx, start, end);
    RasaStepValue(json, idx, texts, rest, idx + start, idx + end, kept);
    ParseTextsStep(y, start, end, kept);
    AppendAssoc(texts, kept, ParseTexts(y[end..]));
  }

  /** A well-quoted reply steps to a value or to its end, and is well quoted past the value. */
  lemma WellQuotedSteps(y: String)
    requires WellQuoted(y)
    ensures NextValue(y, Marker, 0) != Unquoted
    ensures NextValue(y, Marker, 0).Value? ==> WellQuoted(y[NextValue(y, Marker, 0).end..])
  {
  }

  /** Whenever the reply is well quoted, the loop as written ends and agrees with the
      intended scan: the two differ only where the original hangs or throws. */
  lemma RasaAsWrittenAgrees(json: String)
    requires WellQuoted(json)
    ensures ParseRasaAsWritten(json, |json| + 1) == Some(ParseRasa(json))
  {
    assert json[0..] == json;
    RasaLoopAgrees(json, 0, [], |json| + 1);
    assert [] + ParseTexts(json) == ParseTexts(json);
  }

  // ---------------------------------------------------------------------------
  // Round trip over what the Rasa server sends
  // ---------------------------------------------------------------------------

  /** The start of the reply array up to the marker of the first text. */
  const HeadPrefix: String := "[{\"recipient_id\":\"unity\","

  /** From the closing quote of one text to the marker of the next. */
  const GapPrefix: String := "\"},{\"recipient_id\":\"unity\","

  /** From the closing quote of the last text to the end. */
  const Tail: String := "\"}]"

  /** The texts after the first, each opened by its frame, then `Tail`. */
  function Rest(texts: seq<String>): (r: String)
    ensures |r| > 0 && r[0] == '"'
    decreases |texts|
  {
    if |texts| == 0 then Tail else GapPrefix + Marker + "\"" + texts[0] + Rest(texts[1..])
  }

  /** The reply of the Rasa REST channel: `[{"recipient_id":"unity","text":"…"}, …]`. */
  function RasaJson(texts: seq<String>): String {
    if |texts| == 0 then "[]" else HeadPrefix + Marker + "\"" + texts[0] + Rest(texts[1..])
  }

  predicate QuoteFree(texts: seq<String>) {
    forall i :: 0 <= i < |texts| ==> '"' !in texts[i]
  }

  /** The texts that are not empty, in order. */
  function NonEmpty(texts: seq<String>): (r: seq<String>)
    ensures forall i :: 0 <= i < |r| ==> |r[i]| > 0 && r[i] in texts
    decreases |texts|
  {
    if |texts| == 0 then [] else (if |texts[0]| > 0 then [texts[0]] else []) + NonEmpty(texts[1..])
  }

  /** An occurrence with none before it is the one found. */
  lemma {:induction false} IndexOfIs(s: String, t: String, from: nat, p: nat)
    requires from <= p && OccursAt(s, t, p)
    requires forall i :: from <= i < p ==> !OccursAt(s, t, i)
    ensures IndexOf(s, t, from) == p
    decreases p - from
  {
    if from < p {
      IndexOfIs(s, t, from + 1, p);
    }
  }

  /** A pattern whose character `t[k]` occurs neither before it in the pattern nor in
      `x` occurs first right after `x`. */
  lemma OccursFirstAfter(x: String, t: String, rest: String, k: nat)
    requires k < |t| && t[k] !in x && t[k] !in t[..k]
    ensures OccursAt(x + t + rest, t, |x|)
    ensures forall i :: 0 <= i < |x| ==> !OccursAt(x + t + rest, t, i)
  {
    var s := x + t + rest;
    assert s[|x|..|x| + |t|] == t;
    forall i | 0 <= i < |x| ensures !OccursAt(s, t, i) {
      if i + |t| <= |s| {
        assert s[i..i + |t|][k] == s[i + k];
        if i + k < |x| {
          assert s[i + k] == x[i + k];
        } else {
          assert s[i + k] == t[i + k - |x|] == t[..k][i + k - |x|];
        }
      }
    }
  }

  /** The same pattern is what `IndexOf` finds. */
  lemma FirstAfter(x: String, t: String, rest: String, k: nat)
    requires k < |t| && t[k] !in x && t[k] !in t[..k]
    ensures IndexOf(x + t + rest, t, 0) == |x|
  {
    OccursFirstAfter(x, t, rest, k);
    IndexOfIs(x + t + rest, t, 0, |x|);
  }

  /** A marker with none before it is the one the step takes. */
  lemma {:induction false} NextValueAt(json: String, marker: String, from: nat, p: nat)
    requires from <= p && OccursAt(json, marker, p)
    requires forall i :: from <= i < p ==> !OccursAt(json, marker, i)
    ensures NextValue(json, marker, from) == ValueAfter(json, p + |marker|)
    decreases p - from
  {
    if from < p {
      NextValueAt(json, marker, from + 1, p);
    }
  }

  lemma ShiftedOccurrence(pre: String, s: String, t: String, j: nat)
    ensures OccursAt(pre + s, t, |pre| + j) <==> OccursAt(s, t, j)
  {
    if j + |t| <= |s| {
      assert (pre + s)[|pre| + j..|pre| + j + |t|] == s[j..j + |t|];
    }
  }

  lemma {:induction false} QuoteFromShift(pre: String, s: String, i: nat)
    requires i <= |s|
    ensures QuoteFrom(pre + s, |pre| + i) == (if QuoteFrom(s, i) < 0 then -1 else |pre| + QuoteFrom(s, i))
    decreases |s| - i
  {
    if i < |s| {
      assert (pre + s)[|pre| + i] == s[i];
      QuoteFromShift(pre, s, i + 1);
    }
  }

  /** A scan result moved `d` characters to the right. */
  function Shifted(r: Scan, d: nat): Scan {
    match r
    case Value(start, end) => Value(d + start, d + end)
    case other => other
  }

  /** The value after a marker, past a prefix, is the value in the rest, shifted. */
  lemma ValueAfterShift(pre: String, s: String, i: nat)
    requires i <= |s|
    ensures ValueAfter(pre + s, |pre| + i) == Shifted(ValueAfter(s, i), |pre|)
  {
    QuoteFromShift(pre, s, i);
    var q := QuoteFrom(s, i);
    if q >= 0 {
      QuoteFromShift(pre, s, q + 1);
    }
  }

  /** One step past a prefix finds what the same step finds in the rest, shifted. */
  lemma {:induction false} NextValueShift(pre: String, s: String, marker: String, i: nat)
    requires i <= |s|
    ensures NextValue(pre + s, marker, |pre| + i) == Shifted(NextValue(s, marker, i), |pre|)
    decreases |s| - i
  {
    if i + |marker| <= |s| {
      ShiftedOccurrence(pre, s, marker, i);
      if OccursAt(s, marker, i) {
        ValueAfterShift(pre, s, i + |marker|);
      } else {
        NextValueShift(pre, s, marker, i + 1);
      }
    }
  }

  /** One step in `x` from `d + i` is the step in `y` from `i`, shifted, when `y` is `x` past `d`. */
  lemma NextValueDrop(x: String, y: String, d: nat, marker: String, i: nat)
    requires i <= |y| && d <= |x| && x[d..] == y
    ensures NextValue(x, marker, d + i) == Shifted(NextValue(y, marker, i), d)
  {
    assert x == x[..d] + y;
    NextValueShift(x[..d], y, marker, i);
  }

  /** A slice of the rest is the slice of the whole, moved. */
  lemma DropSlice<T>(x: seq<T>, y: seq<T>, d: nat, a: nat, b: nat)
    requires d <= |x| && x[d..] == y && a <= b <= |y|
    ensures x[d + a..d + b] == y[a..b]
  {
    var l, r := x[d + a..d + b], y[a..b];
    assert |l| == |r|;
    forall k | 0 <= k < |l| ensures l[k] == r[k] {
      assert l[k] == x[d + a + k] && r[k] == y[a + k] == x[d..][a + k];
    }
  }

  /** A quote, a quote-free text and a quote delimit that text. */
  lemma QuotedAt(json: String, open: nat, t: String)
    requires open + |t| + 1 < |json| && json[open] == '"' && json[open + |t| + 1] == '"'
    requires '"' !in t && json[open + 1..open + 1 + |t|] == t
    ensures ValueAfter(json, open) == Value(open + 1, open + 1 + |t|)
  {
    QuoteFromIs(json, open, open);
    forall i | open + 1 <= i < open + 1 + |t| ensures json[i] != '"' {
      assert json[i] == t[i - open - 1];
    }
    QuoteFromIs(json, open + 1, open + 1 + |t|);
  }

  /** The pieces of one object: where the marker, the quotes and the text sit. */
  lemma FramePieces(pre: String, t: String, after: String)
    requires 'x' !in pre && |after| > 0 && after[0] == '"'
    ensures var json := pre + Marker + "\"" + t + after;
            var open := |pre| + |Marker|;
            && OccursAt(json, Marker, |pre|) && (forall i :: 0 <= i < |pre| ==> !OccursAt(json, Marker, i))
            && open + |t| + 1 < |json| && json[open] == '"' && json[open + |t| + 1] == '"'
            && json[open + 1..open + 1 + |t|] == t
  {
    var rest := "\"" + t + after;
    assert Marker[3] == 'x' && 'x' !in Marker[..3];
    OccursFirstAfter(pre, Marker, rest, 3);
    var json := pre + Marker + rest;
    assert json == pre + Marker + "\"" + t + after;
    var open := |pre| + |Marker|;
    assert json[open + 1..open + 1 + |t|] == t;
  }

  /** Once a step finds a value ending where `front` ends, the scan goes on in what follows. */
  lemma FrameRest(front: String, after: String, marker: String, start: nat)
    requires start <= |front| && NextValue(front + after, marker, 0) == Value(start, |front|)
    ensures Values(front + after, marker)
            == (if |front| > start then [(front + after)[start..|front|]] else []) + Values(after, marker)
    ensures Stop(front + after, marker) == Stop(after, marker)
  {
    assert (front + after)[|front|..] == after;
  }

  /** One object: a frame in which the marker's letter 'x' does not occur before the
      marker, an opening quote, a quote-free text, then whatever follows from its
      closing quote on. */
  lemma ParseFrame(pre: String, t: String, after: String)
    requires 'x' !in pre && '"' !in t && |after| > 0 && after[0] == '"'
    ensures ParseTexts(pre + Marker + "\"" + t + after) == (if |t| > 0 then [t] else []) + ParseTexts(after)
    ensures WellQuoted(pre + Marker + "\"" + t + after) == WellQuoted(after)
  {
    var front := pre + Marker + "\"" + t;
    var json := front + after;
    var open := |pre| + |Marker|;
    FramePieces(pre, t, after);
    NextValueAt(json, Marker, 0, |pre|);
    QuotedAt(json, open, t);
    FrameRest(front, after, Marker, open + 1);
  }

  lemma {:induction false} ParseRest(texts: seq<String>)
    requires QuoteFree(texts)
    ensures ParseTexts(Rest(texts)) == NonEmpty(texts)
    ensures WellQuoted(Rest(texts))
    decreases |texts|
  {
    if |texts| == 0 {
      assert NextValue(Tail, Marker, 0) == NoMarker;
    } else {
      FramesLackX();
      ParseRest(texts[1..]);
      ParseFrame(GapPrefix, texts[0], Rest(texts[1..]));
    }
  }

  lemma FramesLackX()
    ensures 'x' !in HeadPrefix && 'x' !in GapPrefix
  {
  }

  lemma RasaJsonParsed(texts: seq<String>)
    requires QuoteFree(texts)
    ensures ParseTexts(RasaJson(texts)) == NonEmpty(texts)
    ensures WellQuoted(RasaJson(texts))
  {
    if |texts| == 0 {
      assert NextValue("[]", Marker, 0) == NoMarker;
    } else {
      FramesLackX();
      ParseRest(texts[1..]);
      ParseFrame(HeadPrefix, texts[0], Rest(texts[1..]));
    }
  }

  /** Reading a reply of the Rasa REST channel gives back its non-empty texts, and the
      loop as written ends on it with the same result: the scan is correct on every
      reply whose texts contain no double quote. */
  lemma RasaRoundTrip(texts: seq<String>)
    requires QuoteFree(texts)
    ensures ParseTexts(RasaJson(texts)) == NonEmpty(texts)
    ensures ParseRasaAsWritten(RasaJson(texts), |RasaJson(texts)| + 1) == Some(Join(NonEmpty(texts), " "))
  {
    RasaJsonParsed(texts);
    RasaAsWrittenAgrees(RasaJson(texts));
  }

  // ---------------------------------------------------------------------------
  // ParseGeminiReply, IsDefaultRasaReply, SwitchChatModel
  // ---------------------------------------------------------------------------

  /** `ParseGeminiReply`: the text between the two quotes after the first reply marker,
      or none when there is no marker, no quote pair, or an empty text. */
  function ParseGemini(json: String): (r: Option<String>)
    ensures r.Some? ==> |r.value| > 0 && '"' !in r.value && Contains(json, r.value)
  {
    var idx := IndexOf(json, ReplyMarker, 0);
    if idx < 0 then None
    else
      var start := QuoteFrom(json, idx + |ReplyMarker|) + 1;
      var end := QuoteFrom(json, start);
      if start > 0 && end > start then
        var v := json[start..end];
        QuoteFromFirst(json, start);
        assert forall i :: 0 <= i < |v| ==> v[i] == json[start + i];
        ContainsSlice(json, start, end);
        Some(v)
      else None
  }

  /** Reading the relay's `{"reply":"…"}` gives the text back, unless it is empty. */
  lemma GeminiRoundTrip(t: String)
    requires '"' !in t
    ensures ParseGemini("{" + ReplyMarker + "\"" + t + "\"}") == if |t| > 0 then Some(t) else None
  {
    var json := "{" + ReplyMarker + ("\"" + t + "\"}");
    assert json == "{" + ReplyMarker + "\"" + t + "\"}";
    FirstAfter("{", ReplyMarker, "\"" + t + "\"}", 5);
    var open := 1 + |ReplyMarker|;
    QuoteFromIs(json, open, open);
    forall i | open + 1 <= i < open + 1 + |t| ensures json[i] != '"' {
      assert json[i] == t[i - open - 1];
    }
    QuoteFromIs(json, open + 1, open + 1 + |t|);
    assert json[open + 1..open + 1 + |t|] == t;
  }

  /** The words that make a message or a reply about the game. */
  const QuoridorKeywords: seq<String> := [
    "quoridor", "bàn cờ", "quân cờ", "tường", "chiến thuật", "luật chơi", "mục tiêu", "đối thủ", "di chuyển",
    "luật", "hướng dẫn", "game", "trò chơi", "cách chơi", "quy tắc", "thắng", "kết thúc", "đặt tường", "chiến thắng"
  ]

  predicate AboutGame(text: String) {
    exists i :: 0 <= i < |QuoridorKeywords| && Contains(Lower(text), QuoridorKeywords[i])
  }

  /** `IsDefaultRasaReply`: a reply about the game to a message that is not, or a reply
      not about the game at all. */
  function IsDefaultRasaReply(reply: String, message: String): (r: bool)
    ensures r <==> !(AboutGame(message) && AboutGame(reply))
  {
    var userRelated := AboutGame(message);
    var replyRelated := AboutGame(reply);
    if !userRelated && replyRelated then true
    else if !replyRelated then true
    else false
  }

  datatype ChatModel = Rasa | Gemini

  /** `SwitchChatModel`. */
  function Switch(m: ChatModel): (r: ChatModel)
    ensures r != m
  {
    if m == Rasa then Gemini else Rasa
  }

  /** Switching twice restores the model. */
  lemma SwitchTwice(m: ChatModel)
    ensures Switch(Switch(m)) == m
  {
  }
}

=== FILE: chat_ui.dfy ===
/** The chat panel of `ChatUIManager.cs`: the message list with its cap, the choice
    between the trained model's reply and the remote model's, the interaction log
    and the message read aloud.

    The panel is the sequence of displayed texts, oldest first. The trained model's
    reply and the remote model's outcome are parameters; the clock is `now`. */
module ChatUI {
  import opened Optional
  import opened Strings
  import opened Seqs

  // ---------------------------------------------------------------------------
  // Low-confidence replies
  // ---------------------------------------------------------------------------

  /** The phrases that mark a reply of the trained model as a fallback. */
  const DefaultIndicators: seq<String> := ["chưa hiểu", "chưa học", "thử hỏi", "không hiểu"]

  /** Whether the lower-cased text contains one of `indicators`, checked in order. */
  function AnyIndicator(lower: String, indicators: seq<String>): (r: bool)
    ensures r <==> exists i :: 0 <= i < |indicators| && Contains(lower, indicators[i])
    decreases |indicators|
  {
    if |indicators| == 0 then false
    else if Contains(lower, indicators[0]) then true
    else
      var r := AnyIndicator(lower, indicators[1..]);
      assert forall i :: 1 <= i < |indicators| ==> indicators[i] == indicators[1..][i - 1];
      r
  }

  /** `IsDefaultResponse` as written: the lower-cased reply contains an indicator. */
  function IsDefaultResponse(response: String): (r: bool)
    ensures r <==> exists i :: 0 <= i < |DefaultIndicators| && Contains(Lower(response), DefaultIndicators[i])
  {
    AnyIndicator(Lower(response), DefaultIndicators)
  }

  /** A reply marked as a fallback stays marked inside any longer text: lower-casing
      works character by character, so the indicator survives. */
  lemma DefaultInsideText(pre: String, response: String, post: String)
    requires IsDefaultResponse(response)
    ensures IsDefaultResponse(pre + response + post)
  {
    var i :| 0 <= i < |DefaultIndicators| && Contains(Lower(response), DefaultIndicators[i]);
    LowerAppend(pre + response, post);
    LowerAppend(pre, response);
    var whole := Lower(pre + response + post);
    assert whole[|pre|..|pre| + |response|] == Lower(response);
    ContainsSlice(whole, |pre|, |pre| + |response|);
    ContainsTrans(whole, Lower(response), DefaultIndicators[i]);
  }

  // ---------------------------------------------------------------------------
  // The message list
  // ---------------------------------------------------------------------------

  const UserPrefix: String := "👤 Bạn: "
  const AIPrefix: String := "🤖 AI: "
  const TypingLine: String := "🤖 AI đang suy nghĩ..."

  /** The displayed text of a message. */
  function Line(text: String, isUser: bool): String {
    (if isUser then UserPrefix else AIPrefix) + text
  }

  /** `AddMessage`: when the panel already holds `cap` messages or more, the oldest is
      destroyed first; the new line goes at the end. With nothing to destroy (an empty
      panel and a cap of zero or less) `GetChild(0)` throws, which is `None`. */
  function AddMessage(panel: seq<String>, text: String, isUser: bool, cap: int): (r: Option<seq<String>>)
    ensures r.None? <==> |panel| == 0 && cap <= 0
    ensures r.Some? ==> |r.value| > 0 && r.value[|r.value| - 1] == Line(text, isUser)
    ensures r.Some? && |panel| < cap ==> r.value == panel + [Line(text, isUser)]
    ensures r.Some? && |panel| >= cap ==> |r.value| == |panel| && r.value == panel[1..] + [Line(text, isUser)]
  {
    if |panel| >= cap then
      if |panel| == 0 then None else Some(panel[1..] + [Line(text, isUser)])
    else Some(panel + [Line(text, isUser)])
  }

  /** Within the cap, adding a message keeps the newest `cap` lines: the panel never
      grows past the cap. */
  lemma AddMessageKeepsNewest(panel: seq<String>, text: String, isUser: bool, cap: int)
    requires 1 <= cap && |panel| <= cap
    ensures AddMessage(panel, text, isUser, cap) == Some(LastN(panel + [Line(text, isUser)], cap as nat))
    ensures |AddMessage(panel, text, isUser, cap).value| <= cap
  {
    if |panel| == cap {
      assert (panel + [Line(text, isUser)])[1..] == panel[1..] + [Line(text, isUser)];
    }
  }

  const Welcome: seq<String> := [
    "Xin chào! Tôi là AI hỗ trợ Quoridor với khả năng học và API thông minh. Hãy hỏi tôi bất kỳ điều gì!",
    "💡 Tôi có thể: Giải thích luật chơi, đưa ra chiến thuật, phân tích nước đi, và học từ cuộc trò chuyện của chúng ta!"
  ]

  // ---------------------------------------------------------------------------
  // The interaction log
  // ---------------------------------------------------------------------------

  /** One logged interaction; `time` is the clock reading. */
  datatype Record = Record(user: String, ai: String, time: nat, source: String)

  const HistoryCap: nat := 100

  /** `RecordChatHistory`: append the interaction and, past 100 entries, drop the oldest.
      The source names the remote model while a reply is being processed. */
  function RecordChat(history: seq<Record>, user: String, ai: String, now: nat, processing: bool): (r: seq<Record>)
    ensures |r| > 0 && r[|r| - 1] == Record(user, ai, now, if processing then "API" else "Local")
    ensures |history| < HistoryCap ==> r == history + [r[|r| - 1]]
    ensures |history| >= HistoryCap ==> r == history[1..] + [r[|r| - 1]]
  {
    var h := history + [Record(user, ai, now, if processing then "API" else "Local")];
    if |h| > HistoryCap then h[1..] else h
  }

  /** Within the cap, the log is the newest 100 interactions. */
  lemma RecordChatKeepsNewest(history: seq<Record>, user: String, ai: String, now: nat, processing: bool)
    requires |history| <= HistoryCap
    ensures RecordChat(history, user, ai, now, processing)
            == LastN(history + [Record(user, ai, now, if processing then "API" else "Local")], HistoryCap)
  {
  }

  /** `OnTTSButtonClicked`'s choice: the newest logged reply that is not empty. */
  function LastAIMessage(history: seq<Record>): (r: Option<String>)
    ensures r.Some? ==> |r.value| > 0 &&
                        exists i :: 0 <= i < |history| && history[i].ai == r.value
                                    && forall j :: i < j < |history| ==> |history[j].ai| == 0
    ensures r.None? <==> forall i :: 0 <= i < |history| ==> |history[i].ai| == 0
    decreases |history|
  {
    if |history| == 0 then None
    else if |history[|history| - 1].ai| > 0 then Some(history[|history| - 1].ai)
    else
      var r := LastAIMessage(history[..|history| - 1]);
      assert forall i :: 0 <= i < |history| - 1 ==> history[i] == history[..|history| - 1][i];
      r
  }

  // ---------------------------------------------------------------------------
  // One exchange
  // ---------------------------------------------------------------------------

  /** The switches of the panel; `apiPresent` says whether a remote manager exists. */
  datatype Settings = Settings(useTrained: bool, useApi: bool, apiPresent: bool, showTyping: bool, cap: int)

  /** What the remote model delivered before the timeout: its reply and success flag,
      or nothing in time. A reply after the timeout no longer reaches the panel. */
  datatype ApiOutcome = Delivered(text: String, success: bool) | NotInTime

  const Apology: String := "Xin lỗi, tôi gặp khó khăn trong việc xử lý câu hỏi này. Bạn có thể thử hỏi lại không?"

  /** The reply `ProcessUserInput` shows: the trained model's when it is on and confident;
      else the remote model's when it is on, present and delivered a non-empty success;
      else whatever the trained model said; an empty result becomes the apology. */
  function FinalResponse(s: Settings, trained: String, api: ApiOutcome): (r: String)
    ensures |r| > 0
    ensures s.useTrained && !IsDefaultResponse(trained) ==> r == (if |trained| > 0 then trained else Apology)
    ensures (!(s.useTrained && !IsDefaultResponse(trained)) && s.useApi && s.apiPresent
             && api.Delivered? && api.success && |api.text| > 0) ==> r == api.text
    ensures r == trained || r == Apology || (api.Delivered? && r == api.text)
  {
    var response := if s.useTrained then trained else "";
    var found := s.useTrained && !IsDefaultResponse(trained);
    var response' := if !found && s.useApi && s.apiPresent && api.Delivered? && api.success && |api.text| > 0
                     then api.text else response;
    if |response'| == 0 then Apology else response'
  }

  /** The apology appears exactly when neither model produced a usable text. */
  lemma ApologyWhenNothingUsable(s: Settings, trained: String, api: ApiOutcome)
    requires trained != Apology && !(api.Delivered? && api.text == Apology)
    ensures FinalResponse(s, trained, api) == Apology
            <==> (!s.useTrained || |trained| == 0)
                 && !((!s.useTrained || IsDefaultResponse(trained)) && s.useApi && s.apiPresent
                      && api.Delivered? && api.success && |api.text| > 0)
  {
  }

  /** When the remote model fails, a low-confidence reply of the trained model is shown
      all the same. */
  lemma FailedApiKeepsTrainedReply(s: Settings, trained: String, api: ApiOutcome)
    requires s.useTrained && |trained| > 0
    requires api.NotInTime? || !api.success || |api.text| == 0
    ensures FinalResponse(s, trained, api) == trained
  {
  }

  /** The panel and the log. */
  datatype UI = UI(panel: seq<String>, history: seq<Record>)

  /** `OnSendClicked` followed by `ProcessUserInput`, starting while no reply is pending:
      a blank input changes nothing; otherwise the player's line is added, the typing
      indicator is shown and removed, the reply is added and the interaction is logged
      while the processing flag is still set. `None` when adding a message throws. */
  function Exchange(ui: UI, raw: String, s: Settings, trained: String, api: ApiOutcome, now: nat): (r: Option<UI>)
    ensures |Trim(raw)| == 0 ==> r == Some(ui)
    ensures r.Some? && |Trim(raw)| > 0 ==>
              r.value.history == RecordChat(ui.history, Trim(raw), FinalResponse(s, trained, api), now, true)
  {
    var input := Trim(raw);
    if |input| == 0 then Some(ui)
    else
      match AddMessage(ui.panel, input, true, s.cap)
      case None => None
      case Some(withUser) =>
        var typing := if s.showTyping then withUser + [TypingLine] else withUser;
        var cleared := if s.showTyping then typing[..|typing| - 1] else typing;
        var reply := FinalResponse(s, trained, api);
        match AddMessage(cleared, reply, false, s.cap)
        case None => None
        case Some(panel) => Some(UI(panel, RecordChat(ui.history, input, reply, now, true)))
  }

  /** Every logged interaction names the remote model as its source. */
  predicate AllFromApi(history: seq<Record>) {
    forall i :: 0 <= i < |history| ==> history[i].source == "API"
  }

  /** The panel after an exchange: the player's line and the reply added within the cap;
      the typing indicator leaves no trace. */
  lemma ExchangePanel(ui: UI, raw: String, s: Settings, trained: String, api: ApiOutcome, now: nat)
    requires 1 <= s.cap && |ui.panel| <= s.cap && |Trim(raw)| > 0
    ensures var r := Exchange(ui, raw, s, trained, api, now);
            var reply := FinalResponse(s, trained, api);
            var withUser := LastN(ui.panel + [Line(Trim(raw), true)], s.cap as nat);
            r.Some? && r.value.panel == LastN(withUser + [Line(reply, false)], s.cap as nat)
  {
    var input := Trim(raw);
    var withUser := AddMessage(ui.panel, input, true, s.cap).value;
    AddMessageKeepsNewest(ui.panel, input, true, s.cap);
    if s.showTyping {
      assert (withUser + [TypingLine])[..|withUser|] == withUser;
    }
    AddMessageKeepsNewest(withUser, FinalResponse(s, trained, api), false, s.cap);
  }

  /** An exchange logs the reply as the message read aloud, with the remote model as its
      source. */
  lemma ExchangeLog(history: seq<Record>, input: String, reply: String, now: nat)
    requires |reply| > 0 && |history| <= HistoryCap && AllFromApi(history)
    ensures var h := RecordChat(history, input, reply, now, true);
            |h| <= HistoryCap && AllFromApi(h) && LastAIMessage(h) == Some(reply)
  {
  }

  /** An exchange keeps the panel within its cap, ends the panel with the reply, logs
      only "API" sources, and leaves the reply as the message read aloud. */
  lemma ExchangeInvariant(ui: UI, raw: String, s: Settings, trained: String, api: ApiOutcome, now: nat)
    requires 1 <= s.cap && |ui.panel| <= s.cap && |ui.history| <= HistoryCap && AllFromApi(ui.history)
    ensures var r := Exchange(ui, raw, s, trained, api, now);
            r.Some? && |r.value.panel| <= s.cap && |r.value.history| <= HistoryCap && AllFromApi(r.value.history)
    ensures |Trim(raw)| > 0 ==>
              var r := Exchange(ui, raw, s, trained, api, now).value;
              r.panel[|r.panel| - 1] == Line(FinalResponse(s, trained, api), false)
              && LastAIMessage(r.history) == Some(FinalResponse(s, trained, api))
  {
    var reply := FinalResponse(s, trained, api);
    if |Trim(raw)| > 0 {
      var withUser := LastN(ui.panel + [Line(Trim(raw), true)], s.cap as nat);
      var panel := LastN(withUser + [Line(reply, false)], s.cap as nat);
      ExchangePanel(ui, raw, s, trained, api, now);
      ExchangeLog(ui.history, Trim(raw), reply, now);
      var r := Exchange(ui, raw, s, trained, api, now).value;
      assert r.panel == panel && r.history == RecordChat(ui.history, Trim(raw), reply, now, true);
      assert panel[|panel| - 1] == Line(reply, false);
    }
  }

  /** The lines at odd positions, in order. */
  function OddLines(s: seq<String>): (r: seq<String>)
    ensures |r| == |s| / 2
    ensures forall k :: 0 <= k < |r| ==> r[k] == s[2 * k + 1]
    decreases |s|
  {
    if |s| < 2 then []
    else
      var rest := OddLines(s[2..]);
      assert forall k :: 1 <= k < |rest| + 1 ==> ([s[1]] + rest)[k] == s[2..][2 * (k - 1) + 1];
      [s[1]] + rest
  }

  /** The destroy loop of `ClearChat`, from child `i` on. Unity's child enumerator walks
      by index and re-reads the child count, and `DestroyImmediate` removes the child
      at once, so after the child at `i` goes the walk resumes at `i + 1` of the
      shortened list, skipping the child that moved into place `i`. */
  function DestroyChildren(children: seq<String>, i: nat): (r: seq<String>)
    decreases |children| - i
  {
    if i >= |children| then children
    else DestroyChildren(children[..i] + children[i + 1..], i + 1)
  }

  /** The loop leaves the children before `i` and every second child from `i` on. */
  lemma {:induction false} DestroyKeepsOddLines(children: seq<String>, i: nat)
    requires i <= |children|
    ensures DestroyChildren(children, i) == children[..i] + OddLines(children[i..])
    decreases |children| - i
  {
    if i < |children| {
      var shorter := children[..i] + children[i + 1..];
      var next := i + 1;
      if next <= |shorter| {
        DestroyKeepsOddLines(shorter, next);
        DestroyStep(children, i, shorter);
      }
    }
  }

  /** One destroyed child: what the walk keeps of the shortened list is what it keeps
      of the original. */
  lemma DestroyStep(children: seq<String>, i: nat, shorter: seq<String>)
    requires i < |children| && shorter == children[..i] + children[i + 1..] && i + 1 <= |shorter|
    ensures shorter[..i + 1] + OddLines(shorter[i + 1..]) == children[..i] + OddLines(children[i..])
  {
    var tail := children[i..];
    assert |tail| >= 2 && shorter[..i + 1] == children[..i] + [tail[1]];
    assert shorter[i + 1..] == tail[2..];
    assert OddLines(tail) == [tail[1]] + OddLines(tail[2..]);
  }

  /** `ClearChat` as written: the destroy loop removes only every second line, then the
      two welcome lines are added and the log is emptied. With fewer than two lines
      left and a cap of zero or less, `GetChild(0)` throws: `None`. */
  function Clear(ui: UI, cap: int): (r: Option<UI>)
    ensures r.None? <==> |ui.panel| < 2 && cap <= 0
    ensures r.Some? ==> r.value.history == [] && |r.value.panel| > 0
                        && r.value.panel[|r.value.panel| - 1] == Line(Welcome[1], false)
    ensures |ui.panel| / 2 + 2 <= cap ==>
              r == Some(UI(OddLines(ui.panel) + [Line(Welcome[0], false), Line(Welcome[1], false)], []))
  {
    var kept := DestroyChildren(ui.panel, 0);
    DestroyKeepsOddLines(ui.panel, 0);
    assert ui.panel[..0] == [] && ui.panel[0..] == ui.panel;
    assert kept == OddLines(ui.panel) && |kept| == |ui.panel| / 2;
    match AddMessage(kept, Welcome[0], false, cap)
    case None => None
    case Some(p) =>
      assert |kept| + 2 <= cap ==> p == kept + [Line(Welcome[0], false)];
      match AddMessage(p, Welcome[1], false, cap)
      case None => None
      case Some(q) =>
        assert |kept| + 2 <= cap ==> q == kept + [Line(Welcome[0], false), Line(Welcome[1], false)];
        Some(UI(q, []))
  }

  /** Clearing a panel of four lines keeps the second and the fourth. */
  lemma ClearKeepsEveryOtherLine(a: String, b: String, c: String, d: String)
    ensures Clear(UI([a, b, c, d], []), 50)
            == Some(UI([b, d, Line(Welcome[0], false), Line(Welcome[1], false)], []))
  {
    var panel := [a, b, c, d];
    assert |panel| / 2 + 2 <= 50;
    var odd := OddLines(panel);
    assert |odd| == 2 && odd[0] == panel[1] && odd[1] == panel[3];
    assert odd == [b, d];
    var r := Clear(UI(panel, []), 50);
    assert r == Some(UI(odd + [Line(Welcome[0], false), Line(Welcome[1], false)], []));
    assert odd + [Line(Welcome[0], false), Line(Welcome[1], false)] == [b, d, Line(Welcome[0], false), Line(Welcome[1], false)];
  }

  /** `ClearChat` as evidently intended: an empty panel with the two welcome lines
      added, and an empty log; nothing shown before survives. */
  function ClearIntended(cap: int): (r: Option<UI>)
    ensures cap >= 2 ==> r == Some(UI([Line(Welcome[0], false), Line(Welcome[1], false)], []))
    ensures cap <= 0 ==> r.None?
  {
    match AddMessage([], Welcome[0], false, cap)
    case None => None
    case Some(p) =>
      assert p == [Line(Welcome[0], false)];
      match AddMessage(p, Welcome[1], false, cap)
      case None => None
      case Some(q) =>
        assert cap >= 2 ==> q == [Line(Welcome[0], false), Line(Welcome[1], false)];
        Some(UI(q, []))
  }
}

=== FILE: chess_player.dfy ===
/** A pawn on the 9x9 board (AI_Final/Assets/scripts/ChessPlayer.cs): its square, its
    selection, the four squares it may step to, and the wall test that decides them.

    The scene is abstract. The walls found under the two tags are two lists of wall
    objects, where `None` is a destroyed object. A wall object has its name and the
    orientation its scale and rotation give. Whether a wall's world position stands
    between two squares is the parameter `geometry`. */
module ChessPlayer {
  import opened Optional
  import opened Strings
  import opened Numbers

  const BoardSize := 9

  /** `Vector2Int`: `x` is the column, `y` the row. */
  datatype Cell = Cell(x: int, y: int)

  /** The marker of a direction that cannot be taken. */
  const NoMove := Cell(-1, -1)

  datatype Piece = Piece(playerId: int, col: int, row: int, isInitializing: bool, isSelected: bool,
                         validMoves: seq<Cell>)

  /** A wall object: its name and the orientation its shape and rotation give. */
  datatype WallObject = WallObject(name: String, shapeHorizontal: bool)

  /** Where the world-space test puts a wall relative to a step. */
  type Geometry = (WallObject, bool, int, int, int, int) -> bool

  /** A fresh piece: the array of valid moves holds four zero vectors. */
  function NewPiece(playerId: int): (p: Piece)
    ensures |p.validMoves| == 4 && !p.isSelected && (p.col, p.row) == (0, 0)
  {
    Piece(playerId, 0, 0, false, false, [Cell(0, 0), Cell(0, 0), Cell(0, 0), Cell(0, 0)])
  }

  /** `IsValidPosition`: on the 9 x 9 board, that is, at most four squares from the
      centre square (4, 4) along each axis. */
  function IsValidPosition(col: int, row: int): (r: bool)
    ensures r <==> Abs(col - 4) <= 4 && Abs(row - 4) <= 4
  {
    0 <= col < BoardSize && 0 <= row < BoardSize
  }

  /** The four directions in the order the piece tries them: up, down, left, right. */
  function Direction(i: nat): (d: Cell)
    requires i < 4
    ensures Abs(d.x) + Abs(d.y) == 1
  {
    [Cell(0, 1), Cell(0, -1), Cell(-1, 0), Cell(1, 0)][i]
  }

  function Neighbour(col: int, row: int, i: nat): Cell
    requires i < 4
  {
    Cell(col + Direction(i).x, row + Direction(i).y)
  }

  // ---------------------------------------------------------------------------
  // Wall names
  // ---------------------------------------------------------------------------

  predicate EndsWith(s: String, t: String) {
    |t| <= |s| && s[|s| - |t|..] == t
  }

  predicate HorizontalName(n: String) {
    Contains(n, "_h_") || EndsWith(n, "_h") || Contains(n, "horizontal") || Contains(n, "horiz")
  }

  predicate VerticalName(n: String) {
    Contains(n, "_v_") || EndsWith(n, "_v") || Contains(n, "vertical") || Contains(n, "vert")
  }

  /** `IsHorizontalWall`: the lower-cased name decides first, horizontal markers before
      vertical ones; only a name with neither falls back to the shape. */
  function IsHorizontalWall(w: WallObject): (r: bool)
    ensures HorizontalName(Lower(w.name)) ==> r
    ensures !HorizontalName(Lower(w.name)) && VerticalName(Lower(w.name)) ==> !r
    ensures !HorizontalName(Lower(w.name)) && !VerticalName(Lower(w.name)) ==> r == w.shapeHorizontal
  {
    var n := Lower(w.name);
    if HorizontalName(n) then true
    else if VerticalName(n) then false
    else w.shapeHorizontal
  }

  /** "horiz" is part of "horizontal", so the third marker never decides anything. */
  lemma HorizontalMarkerRedundant(n: String)
    ensures HorizontalName(n) <==> Contains(n, "_h_") || EndsWith(n, "_h") || Contains(n, "horiz")
  {
    if Contains(n, "horizontal") {
      assert OccursAt("horizontal", "horiz", 0);
      ContainsTrans(n, "horizontal", "horiz");
    }
  }

  /** The name test ignores case: a wall named in capitals reads as the same wall. */
  lemma WallNameCaseInsensitive(w: WallObject)
    ensures IsHorizontalWall(w.(name := Lower(w.name))) == IsHorizontalWall(w)
  {
    LowerIdempotent(w.name);
  }

  /** A name carrying both markers is horizontal whatever the shape says. */
  lemma HorizontalMarkerWins(w: WallObject)
    requires Contains(Lower(w.name), "horiz") && Contains(Lower(w.name), "vert")
    ensures IsHorizontalWall(w)
  {
  }

  // ---------------------------------------------------------------------------
  // Wall blocking
  // ---------------------------------------------------------------------------

  /** Some present wall stands in the way of the unit step (dCol, dRow) from (col, row). */
  function AnyWallBlocks(walls: seq<Option<WallObject>>, geometry: Geometry,
                         col: int, row: int, dCol: int, dRow: int): (r: bool)
    ensures r <==> exists i :: 0 <= i < |walls| && walls[i].Some?
                               && geometry(walls[i].value, IsHorizontalWall(walls[i].value), col, row, dCol, dRow)
  {
    if |walls| == 0 then false
    else if walls[0].Some? && geometry(walls[0].value, IsHorizontalWall(walls[0].value), col, row, dCol, dRow) then
      true
    else
      var rest := AnyWallBlocks(walls[1..], geometry, col, row, dCol, dRow);
      assert rest ==> exists i :: 1 <= i < |walls| && walls[i].Some?
                                  && geometry(walls[i].value, IsHorizontalWall(walls[i].value), col, row, dCol, dRow) by {
        if rest {
          var j :| 0 <= j < |walls[1..]| && walls[1..][j].Some?
                   && geometry(walls[1..][j].value, IsHorizontalWall(walls[1..][j].value), col, row, dCol, dRow);
          assert walls[j + 1] == walls[1..][j];
        }
      }
      rest
  }

  /** `IsBlockedByWall` over the walls of both tags: nothing blocks on an empty board,
      any step that is not a single orthogonal one is blocked once a wall exists, and
      otherwise a present wall must stand in the way. */
  function IsBlockedByWall(tagged1: seq<Option<WallObject>>, tagged2: seq<Option<WallObject>>, geometry: Geometry,
                           fromCol: int, fromRow: int, toCol: int, toRow: int): (r: bool)
    ensures |tagged1| + |tagged2| == 0 ==> !r
    ensures |tagged1| + |tagged2| > 0 && Abs(toCol - fromCol) + Abs(toRow - fromRow) != 1 ==> r
    ensures r && Abs(toCol - fromCol) + Abs(toRow - fromRow) == 1 ==>
              exists w :: w in tagged1 + tagged2 && w.Some?
  {
    var walls := tagged1 + tagged2;
    if |walls| == 0 then false
    else
      var dCol := toCol - fromCol;
      var dRow := toRow - fromRow;
      if Abs(dCol) + Abs(dRow) != 1 then true
      else
        var r := AnyWallBlocks(walls, geometry, fromCol, fromRow, dCol, dRow);
        assert r ==> exists i :: 0 <= i < |walls| && walls[i] in walls && walls[i].Some?;
        r
  }

  // ---------------------------------------------------------------------------
  // Moving
  // ---------------------------------------------------------------------------

  /** `CalculateValidMoves`: the neighbour in each direction, or `NoMove` when it is
      off the board or walled off. */
  function CalculateValidMoves(p: Piece, tagged1: seq<Option<WallObject>>, tagged2: seq<Option<WallObject>>,
                               geometry: Geometry): (r: Piece)
    ensures r == p.(validMoves := r.validMoves) && |r.validMoves| == 4
    ensures forall i :: 0 <= i < 4 ==>
              var n := Neighbour(p.col, p.row, i);
              r.validMoves[i] == (if IsValidPosition(n.x, n.y)
                                     && !IsBlockedByWall(tagged1, tagged2, geometry, p.col, p.row, n.x, n.y)
                                  then n else NoMove)
  {
    var moves := seq(4, i requires 0 <= i < 4 =>
      var n := Neighbour(p.col, p.row, i);
      if IsValidPosition(n.x, n.y) && !IsBlockedByWall(tagged1, tagged2, geometry, p.col, p.row, n.x, n.y)
      then n else NoMove);
    p.(validMoves := moves)
  }

  /** Every direction offered is a single orthogonal step onto the board that no wall
      blocks; on a board without walls every on-board neighbour is offered. */
  lemma ValidMovesAreSteps(p: Piece, tagged1: seq<Option<WallObject>>, tagged2: seq<Option<WallObject>>,
                           geometry: Geometry, i: nat)
    requires i < 4
    ensures var m := CalculateValidMoves(p, tagged1, tagged2, geometry).validMoves[i];
            m != NoMove ==>
              IsValidPosition(m.x, m.y) && Abs(m.x - p.col) + Abs(m.y - p.row) == 1
              && !IsBlockedByWall(tagged1, tagged2, geometry, p.col, p.row, m.x, m.y)
    ensures |tagged1| + |tagged2| == 0 ==>
              var n := Neighbour(p.col, p.row, i);
              CalculateValidMoves(p, tagged1, tagged2, geometry).validMoves[i]
                == if IsValidPosition(n.x, n.y) then n else NoMove
  {
    var d := Direction(i);
    assert Neighbour(p.col, p.row, i).x - p.col == d.x && Neighbour(p.col, p.row, i).y - p.row == d.y;
  }

  /** `SelectPiece`: selected, with its moves worked out afresh. */
  function SelectPiece(p: Piece, tagged1: seq<Option<WallObject>>, tagged2: seq<Option<WallObject>>,
                       geometry: Geometry): (r: Piece)
    ensures r.isSelected && (r.col, r.row) == (p.col, p.row)
    ensures r.validMoves == CalculateValidMoves(p, tagged1, tagged2, geometry).validMoves
  {
    CalculateValidMoves(p, tagged1, tagged2, geometry).(isSelected := true)
  }

  function DeselectPiece(p: Piece): (r: Piece)
    ensures !r.isSelected && r == p.(isSelected := false)
  {
    p.(isSelected := false)
  }

  /** `MoveTo`, with whether the game manager was told of the move: only a target
      listed among the valid moves is taken, and the piece is deselected. */
  function MoveTo(p: Piece, newCol: int, newRow: int): (r: (Piece, bool))
    ensures Cell(newCol, newRow) in p.validMoves ==>
              r.1 && r.0 == p.(col := newCol, row := newRow, isSelected := false)
    ensures Cell(newCol, newRow) !in p.validMoves ==> r == (p, false)
  {
    if Cell(newCol, newRow) in p.validMoves then (p.(col := newCol, row := newRow, isSelected := false), true)
    else (p, false)
  }

  /** After selection a move onto the board goes one unblocked orthogonal step, or
      nowhere. */
  lemma SelectedMoveIsStep(p: Piece, tagged1: seq<Option<WallObject>>, tagged2: seq<Option<WallObject>>,
                           geometry: Geometry, newCol: int, newRow: int)
    requires IsValidPosition(newCol, newRow)
    ensures var (q, moved) := MoveTo(SelectPiece(p, tagged1, tagged2, geometry), newCol, newRow);
            moved ==>
              (q.col, q.row) == (newCol, newRow) && Abs(newCol - p.col) + Abs(newRow - p.row) == 1
              && !IsBlockedByWall(tagged1, tagged2, geometry, p.col, p.row, newCol, newRow)
    ensures var (q, moved) := MoveTo(SelectPiece(p, tagged1, tagged2, geometry), newCol, newRow);
            !moved ==> (q.col, q.row) == (p.col, p.row)
  {
    var s := SelectPiece(p, tagged1, tagged2, geometry);
    if Cell(newCol, newRow) in s.validMoves {
      var i :| 0 <= i < 4 && s.validMoves[i] == Cell(newCol, newRow);
      ValidMovesAreSteps(p, tagged1, tagged2, geometry, i);
    }
  }

  /** `SetPosition`: outside initialisation a jump of more than one square is refused
      and changes nothing; everything else is applied. */
  function SetPosition(p: Piece, newCol: int, newRow: int): (r: Piece)
    ensures !p.isInitializing && Abs(newCol - p.col) + Abs(newRow - p.row) > 1 ==> r == p
    ensures p.isInitializing || Abs(newCol - p.col) + Abs(newRow - p.row) <= 1 ==>
              r == p.(col := newCol, row := newRow)
  {
    if !p.isInitializing && Abs(newCol - p.col) + Abs(newRow - p.row) > 1 then p
    else p.(col := newCol, row := newRow)
  }

  /** Outside initialisation the piece never travels more than one square. */
  lemma SetPositionStepsAtMostOne(p: Piece, newCol: int, newRow: int)
    requires !p.isInitializing
    ensures var r := SetPosition(p, newCol, newRow);
            Abs(r.col - p.col) + Abs(r.row - p.row) <= 1
            && ((r.col, r.row) == (newCol, newRow) || r == p)
  {
  }

  /** `SetInitialPosition`: always taken. */
  function SetInitialPosition(p: Piece, newCol: int, newRow: int): (r: Piece)
    ensures (r.col, r.row) == (newCol, newRow)
    ensures r.(col := p.col, row := p.row) == p
  {
    p.(col := newCol, row := newRow)
  }
}

=== FILE: dicts.dfy ===
/** Insertion-ordered dictionaries.

    Both C# `Dictionary<K,V>` (when nothing is ever removed) and Python `dict`
    enumerate their entries in insertion order, and several matchers in the system
    return the FIRST entry that matches, so a dictionary is modelled as an
    association list: assigning to an existing key overwrites its value in place,
    assigning to a new key appends an entry at the end. */
module Dicts {
  import opened Optional

  type Dict<K, V> = seq<(K, V)>

  function Keys<K, V>(d: Dict<K, V>): (r: seq<K>)
    ensures |r| == |d|
    ensures forall i :: 0 <= i < |d| ==> r[i] == d[i].0
  {
    seq(|d|, i requires 0 <= i < |d| => d[i].0)
  }

  function Values<K, V>(d: Dict<K, V>): (r: seq<V>)
    ensures |r| == |d|
    ensures forall i :: 0 <= i < |d| ==> r[i] == d[i].1
  {
    seq(|d|, i requires 0 <= i < |d| => d[i].1)
  }

  predicate Distinct<K(==,!new)>(ks: seq<K>) {
    forall i, j :: 0 <= i < j < |ks| ==> ks[i] != ks[j]
  }

  /** A well-formed dictionary: no key appears twice. */
  predicate Valid<K(==,!new), V>(d: Dict<K, V>) {
    Distinct(Keys(d))
  }

  /** Position of the entry for `k`, or -1. */
  function KeyIndex<K(==,!new), V>(d: Dict<K, V>, k: K): (r: int)
    ensures -1 <= r < |d|
    ensures r == -1 <==> k !in Keys(d)
    ensures r >= 0 ==> d[r].0 == k && forall i :: 0 <= i < r ==> d[i].0 != k
  {
    if |d| == 0 then -1
    else
      var j := KeyIndex(d[..|d| - 1], k);
      if j >= 0 then j
      else if d[|d| - 1].0 == k then |d| - 1
      else -1
  }

  /** `TryGetValue` / `dict.get`: the value stored under `k`. */
  function Get<K(==,!new), V>(d: Dict<K, V>, k: K): (r: Option<V>)
    ensures r.Some? <==> k in Keys(d)
    ensures r.Some? ==> (k, r.value) in d
  {
    var i := KeyIndex(d, k);
    if i < 0 then None else Some(d[i].1)
  }

  /** `d[k] = v`: overwrite in place, or append a new entry. */
  function Put<K(==,!new), V>(d: Dict<K, V>, k: K, v: V): (r: Dict<K, V>)
    ensures k in Keys(d) ==> Keys(r) == Keys(d)
    ensures k !in Keys(d) ==> r == d + [(k, v)]
    ensures Valid(d) ==> Valid(r)
  {
    var i := KeyIndex(d, k);
    if i < 0 then
      assert Keys(d + [(k, v)]) == Keys(d) + [k];
      d + [(k, v)]
    else
      assert Keys(d[i := (k, v)]) == Keys(d);
      d[i := (k, v)]
  }

  /** After `d[k] = v`, looking up `k` gives `v` and every other key is unaffected. */
  lemma PutGet<K(!new), V>(d: Dict<K, V>, k: K, v: V)
    ensures Get(Put(d, k, v), k) == Some(v)
    ensures forall k' :: k' != k ==> Get(Put(d, k, v), k') == Get(d, k')
  {
    var i := KeyIndex(d, k);
    var r := Put(d, k, v);
    if i < 0 {
      assert r[..|r| - 1] == d;
    } else {
      KeyIndexOverwrite(d, i, k, v);
    }
  }

  /** Overwriting the value of entry `i` moves no key. */
  lemma {:induction false} KeyIndexOverwrite<K(!new), V>(d: Dict<K, V>, i: int, k: K, v: V)
    requires 0 <= i < |d| && d[i].0 == k
    ensures forall k' :: KeyIndex(d[i := (k, v)], k') == KeyIndex(d, k')
    decreases |d|
  {
    var r := d[i := (k, v)];
    if i < |d| - 1 {
      assert r[..|r| - 1] == d[..|d| - 1][i := (k, v)];
      KeyIndexOverwrite(d[..|d| - 1], i, k, v);
    } else {
      assert r[..|r| - 1] == d[..|d| - 1];
    }
  }

  /** Index of the last `k` among the first `n` keys, or -1. */
  function LastIndex<K(==,!new)>(ks: seq<K>, k: K, n: nat): (r: int)
    requires n <= |ks|
    ensures -1 <= r < n
    ensures r >= 0 ==> ks[r] == k && forall j :: r < j < n ==> ks[j] != k
    ensures r == -1 ==> forall j :: 0 <= j < n ==> ks[j] != k
  {
    if n == 0 then -1 else if ks[n - 1] == k then n - 1 else LastIndex(ks, k, n - 1)
  }

  /** The C# loop `for (i = 0; i < min(|ks|, |vs|); i++) dict[ks[i]] = vs[i]` on an empty dictionary. */
  function FromLists<K(==,!new), V>(ks: seq<K>, vs: seq<V>): (r: Dict<K, V>)
    ensures Valid(r)
    ensures forall k :: Get(r, k).Some? <==> LastIndex(ks, k, Min(|ks|, |vs|)) >= 0
    ensures forall k :: LastIndex(ks, k, Min(|ks|, |vs|)) >= 0 ==>
              Get(r, k) == Some(vs[LastIndex(ks, k, Min(|ks|, |vs|))])
  {
    FromPrefix(ks, vs, Min(|ks|, |vs|))
  }

  function Min(a: int, b: int): int {
    if a < b then a else b
  }

  /** The first `n` iterations of the `FromLists` loop. */
  function FromPrefix<K(==,!new), V>(ks: seq<K>, vs: seq<V>, n: nat): (r: Dict<K, V>)
    requires n <= |ks| && n <= |vs|
    ensures Valid(r)
    ensures forall k :: Get(r, k).Some? <==> LastIndex(ks, k, n) >= 0
    ensures forall k :: LastIndex(ks, k, n) >= 0 ==> Get(r, k) == Some(vs[LastIndex(ks, k, n)])
  {
    if n == 0 then []
    else
      PutGet(FromPrefix(ks, vs, n - 1), ks[n - 1], vs[n - 1]);
      Put(FromPrefix(ks, vs, n - 1), ks[n - 1], vs[n - 1])
  }

  /** Rebuilding a well-formed dictionary from its key list and value list gives it back. */
  lemma FromListsRoundTrip<K(!new), V>(d: Dict<K, V>)
    requires Valid(d)
    ensures FromLists(Keys(d), Values(d)) == d
  {
    FromPrefixRoundTrip(d, |d|);
    assert d[..|d|] == d;
  }

  lemma {:induction false} FromPrefixRoundTrip<K(!new), V>(d: Dict<K, V>, n: nat)
    requires Valid(d) && n <= |d|
    ensures FromPrefix(Keys(d), Values(d), n) == d[..n]
  {
    if n > 0 {
      var m: nat :| m + 1 == n;
      FromPrefixRoundTrip(d, m);
      FromPrefixStep(d, m);
    }
  }

  /** One more iteration of the loop appends the next entry, whose key is new. */
  lemma FromPrefixStep<K(!new), V>(d: Dict<K, V>, m: nat)
    requires Valid(d) && m < |d|
    requires FromPrefix(Keys(d), Values(d), m) == d[..m]
    ensures FromPrefix(Keys(d), Values(d), m + 1) == d[..m + 1]
  {
    var ks, vs := Keys(d), Values(d);
    var p := d[..m];
    var k, v := ks[m], vs[m];
    assert FromPrefix(ks, vs, m + 1) == Put(p, k, v);
    NotYetKey(d, m);
    assert Put(p, k, v) == p + [(k, v)];
    assert p + [(k, v)] == d[..m + 1];
  }

  /** In a well-formed dictionary the key of entry `i` is not among the keys before it. */
  lemma NotYetKey<K(!new), V>(d: Dict<K, V>, i: nat)
    requires Valid(d) && i < |d|
    ensures d[i].0 !in Keys(d[..i])
  {
    var ks := Keys(d[..i]);
    forall j | 0 <= j < i
      ensures ks[j] != d[i].0
    {
      assert Keys(d)[j] != Keys(d)[i];
    }
  }

  /** Every key of a dictionary maps to its own entry. */
  lemma GetEntry<K(!new), V>(d: Dict<K, V>, i: int)
    requires Valid(d) && 0 <= i < |d|
    ensures Get(d, d[i].0) == Some(d[i].1)
  {
  }

  /** The first entry with key `k` is the one `KeyIndex` finds. */
  lemma KeyIndexAt<K(!new), V>(d: Dict<K, V>, k: K, i: nat)
    requires i < |d| && d[i].0 == k
    requires forall j :: 0 <= j < i ==> d[j].0 != k
    ensures KeyIndex(d, k) == i
  {
    assert Keys(d)[i] == k;
  }
}

=== FILE: enhanced_chat.dfy ===
/** The chat panel of `EnhancedAIChatManager.cs`: the offline `LocalAIResponder` and
    the order in which `GetAIResponse` consults it, the remote model and a fixed
    apology. The remote call is a parameter: the text its callback delivered, with
    `null` and a failed request both delivering the empty string. */
module EnhancedChat {
  import opened Strings
  import opened Seqs
  import opened Dicts

  type Table = Dict<String, seq<String>>

  /** The categories of `InitializeResponses`, in insertion order; "default" is the
      last one and doubles as the fallback list. */
  const LocalTable: Table := [
    ("luật chơi", [
      "Quoridor là game đua đến đích! Mục tiêu là đưa quân cờ của bạn đến hàng đối diện trước đối thủ.",
      "Bạn có thể di chuyển quân cờ hoặc đặt tường để cản đối thủ. Mỗi lượt chỉ được làm một hành động!",
      "Nhớ là phải luôn để đường cho đối thủ đến đích nhé!"]),
    ("chiến thuật", [
      "Hãy thử cân bằng giữa tiến tới và cản đối thủ!",
      "Đặt tường ở giữa bàn cờ thường hiệu quả hơn là ở rìa.",
      "Quan sát động thái đối thủ để dự đoán ý định của họ!"]),
    ("chào", [
      "Xin chào! Sẵn sàng cho một ván Quoridor thú vị chưa?",
      "Chào bạn! Tôi ở đây để giúp bạn chơi Quoridor giỏi hơn!",
      "Hi! Bạn cần tôi giải thích luật chơi hay đưa ra lời khuyên?"]),
    ("default", [
      "Thú vị! Bạn có thể hỏi tôi về luật chơi, chiến thuật, hoặc bất cứ điều gì về Quoridor!",
      "Tôi không chắc hiểu ý bạn, nhưng tôi luôn sẵn sàng giúp đỡ về game Quoridor!",
      "Hmm, bạn có thể diễn đạt khác được không? Hoặc hỏi tôi về game nhé!"])
  ]

  const DefaultKey: String := "default"

  /** The last resort of `GetAIResponse`. */
  const Apology: String := "Xin lỗi, tôi đang gặp một chút vấn đề. Bạn có thể thử lại sau không?"

  /** Every list of the table is non-empty and holds only non-empty sentences. */
  predicate Answerable(t: Table) {
    forall i :: 0 <= i < |t| ==> |t[i].1| > 0 && forall j :: 0 <= j < |t[i].1| ==> |t[i].1[j]| > 0
  }

  /** A table the responder can use: answerable, with a "default" entry. */
  predicate Usable(t: Table) {
    Answerable(t) && DefaultKey in Keys(t)
  }

  lemma LocalTableUsable()
    ensures Usable(LocalTable) && Valid(LocalTable)
    ensures Keys(LocalTable) == ["luật chơi", "chiến thuật", "chào", "default"]
  {
    LocalTableKeys();
    LocalTableAnswerable();
    assert Keys(LocalTable)[3] == DefaultKey;
  }

  lemma LocalTableKeys()
    ensures Keys(LocalTable) == ["luật chơi", "chiến thuật", "chào", "default"]
    ensures Distinct(Keys(LocalTable))
  {
    var ks := Keys(LocalTable);
    assert ks[0] == "luật chơi" && ks[1] == "chiến thuật" && ks[2] == "chào" && ks[3] == "default";
    assert |ks[0]| == 9 && |ks[1]| == 11 && |ks[2]| == 4 && |ks[3]| == 7;
  }

  lemma LocalTableAnswerable()
    ensures Answerable(LocalTable)
  {
    forall i | 0 <= i < |LocalTable|
      ensures |LocalTable[i].1| > 0 && forall j :: 0 <= j < |LocalTable[i].1| ==> |LocalTable[i].1[j]| > 0
    {
      var lines := LocalTable[i].1;
      assert |lines| == 3;
      assert |lines[0]| > 0 && |lines[1]| > 0 && |lines[2]| > 0;
    }
  }

  /** The position of the first category, in table order, that occurs in the lower-cased input. */
  function Category(t: Table, input: String): (r: int)
    ensures -1 <= r < |t|
    ensures r >= 0 ==> Contains(Lower(input), t[r].0)
                       && forall j :: 0 <= j < r ==> !Contains(Lower(input), t[j].0)
    ensures r == -1 <==> forall j :: 0 <= j < |t| ==> !Contains(Lower(input), t[j].0)
  {
    var lower := Lower(input);
    FirstWhere(Keys(t), k => Contains(lower, k))
  }

  /** `LocalAIResponder.GetResponse` with the random draw `pick`: a sentence of the first
      category the input mentions, or of the "default" list. It is never empty. */
  function LocalResponse(t: Table, input: String, pick: nat): (r: String)
    requires Usable(t)
    ensures |r| > 0
    ensures Category(t, input) >= 0 ==> r in t[Category(t, input)].1
    ensures Category(t, input) == -1 ==> (DefaultKey, Get(t, DefaultKey).value) in t && r in Get(t, DefaultKey).value
    ensures exists i :: 0 <= i < |t| && r in t[i].1
  {
    var k := Category(t, input);
    var list := if k >= 0 then t[k].1 else Get(t, DefaultKey).value;
    assert exists i :: 0 <= i < |t| && t[i].1 == list;
    Choose(list, pick)
  }

  /** The switches of the panel. */
  datatype Settings = Settings(useAPI: bool, useLocalAI: bool, preferLocal: bool)

  /** The provider switch of `GetAPIResponse`: the Ollama reply, or the fixed notices of
      the unconfigured or unfinished providers. `keySet` says whether the provider's
      key is non-empty and differs from its placeholder. */
  function ApiReply(provider: String, ollamaReply: String, keySet: bool): (r: String)
    ensures Lower(provider) != "ollama" ==> |r| > 0
  {
    var p := Lower(provider);
    if p == "ollama" then ollamaReply else ProviderNotice(p, keySet)
  }

  /** The notice of a provider other than Ollama. */
  function ProviderNotice(p: String, keySet: bool): (r: String)
    ensures |r| > 0
  {
    if p == "huggingface" then
      if keySet then "HuggingFace API chưa được triển khai hoàn chỉnh."
      else "HuggingFace API key chưa được cấu hình. Vui lòng nhập API key trong Inspector."
    else if p == "cohere" then
      if keySet then "Cohere API chưa được triển khai hoàn chỉnh."
      else "Cohere API key chưa được cấu hình. Vui lòng nhập API key trong Inspector."
    else "API provider không được hỗ trợ."
  }

  /** `GetAIResponse`: the local responder when it is on and preferred; then the remote
      reply when it is on and nothing was found; then the local responder again when it
      is on; then the apology. `first` and `second` are the draws of the two local calls. */
  function AIResponse(s: Settings, t: Table, input: String, apiReply: String, first: nat, second: nat): (r: String)
    requires Usable(t)
    ensures |r| > 0
    ensures s.useLocalAI && s.preferLocal ==> r == LocalResponse(t, input, first)
    ensures s.useLocalAI && !s.preferLocal ==>
              r == (if s.useAPI && |apiReply| > 0 then apiReply else LocalResponse(t, input, second))
    ensures !s.useLocalAI ==> r == (if s.useAPI && |apiReply| > 0 then apiReply else Apology)
  {
    var local := if s.useLocalAI && s.preferLocal then LocalResponse(t, input, first) else "";
    var remote := if |local| == 0 && s.useAPI then apiReply else local;
    var fallback := if |remote| == 0 && s.useLocalAI then LocalResponse(t, input, second) else remote;
    if |fallback| == 0 then Apology else fallback
  }

  /** With the local responder on and preferred, the remote model's answer is never used:
      the reply is the same whatever it delivered. */
  lemma PreferredLocalIgnoresApi(s: Settings, t: Table, input: String, api1: String, api2: String, first: nat, second: nat)
    requires Usable(t) && s.useLocalAI && s.preferLocal
    ensures AIResponse(s, t, input, api1, first, second) == AIResponse(s, t, input, api2, first, second)
  {
  }

  /** The apology is shown only when the local responder is off and the remote model is
      off or delivered nothing. */
  lemma ApologyOnlyWithoutAnswers(s: Settings, t: Table, input: String, apiReply: String, first: nat, second: nat)
    requires Usable(t)
    requires forall i :: 0 <= i < |t| ==> Apology !in t[i].1
    requires apiReply != Apology
    ensures AIResponse(s, t, input, apiReply, first, second) == Apology
            <==> !s.useLocalAI && (!s.useAPI || |apiReply| == 0)
  {
  }

  /** Every provider but Ollama answers with a notice, so with the remote model on and
      not preferring local, such a provider's notice is what the player sees. */
  lemma NonOllamaProviderAnswers(s: Settings, t: Table, input: String, provider: String, ollama: String,
                                 keySet: bool, first: nat, second: nat)
    requires Usable(t) && s.useAPI && !(s.useLocalAI && s.preferLocal)
    requires Lower(provider) != "ollama"
    ensures AIResponse(s, t, input, ApiReply(provider, ollama, keySet), first, second) == ApiReply(provider, ollama, keySet)
  {
  }
}

=== FILE: folded_text.dfy ===
/** The input normalisation of `SimpleTrainedModel` (AI_Final/Assets/scripts/SimpleChatbotSystem.cs):
    lower-case, punctuation deleted, Vietnamese diacritics folded to their base letter,
    white space trimmed. */
module FoldedText {
  import opened Strings

  // ---------------------------------------------------------------------------
  // Diacritic folding (`RemoveVietnameseDiacritics`)
  // ---------------------------------------------------------------------------

  /** The folding table: every letter of a row becomes the row's base letter. The
      source's row 0 (the plain letters) is never read and is left out. */
  const DiacriticRows: seq<(String, char)> := [
    ("áàạảãâấầậẩẫăắằặẳẵ", 'a'),
    ("ÁÀẠẢÃÂẤẦẬẨẪĂẮẰẶẲẴ", 'A'),
    ("éèẹẻẽêếềệểễ", 'e'),
    ("ÉÈẸẺẼÊẾỀỆỂỄ", 'E'),
    ("óòọỏõôốồộổỗơớờợởỡ", 'o'),
    ("ÓÒỌỎÕÔỐỒỘỔỖƠỚỜỢỞỠ", 'O'),
    ("úùụủũưứừựửữ", 'u'),
    ("ÚÙỤỦŨƯỨỪỰỬỮ", 'U'),
    ("íìịỉĩ", 'i'),
    ("ÍÌỊỈĨ", 'I'),
    ("đ", 'd'),
    ("Đ", 'D'),
    ("ýỳỵỷỹ", 'y'),
    ("ÝỲỴỶỸ", 'Y')
  ]

  /** What makes the row-by-row replacement a character map: the base is a plain letter
      below U+00C0, the accented letters are all at or above it, and a row with an
      upper-case base holds only upper-case letters. */
  predicate RowWellFormed(row: (String, char)) {
    IsLetter(row.1) && row.1 < '\U{00C0}'
    && forall j :: 0 <= j < |row.0| ==> row.0[j] >= '\U{00C0}' && (IsUpper(row.1) ==> IsUpper(row.0[j]))
  }

  predicate WellFormedRows(rows: seq<(String, char)>) {
    forall i :: 0 <= i < |rows| ==> RowWellFormed(rows[i])
  }

  lemma RowsAWellFormed(i: nat)
    requires i == 0 || i == 1
    ensures RowWellFormed(DiacriticRows[i])
  {
    if i == 1 {
      UpperRowAWellFormed();
    }
  }

  lemma UpperRowAWellFormed()
    ensures RowWellFormed(DiacriticRows[1])
  {
  }

  lemma RowsEWellFormed(i: nat)
    requires i == 2 || i == 3
    ensures RowWellFormed(DiacriticRows[i])
  {
  }

  lemma RowsOWellFormed(i: nat)
    requires i == 4 || i == 5
    ensures RowWellFormed(DiacriticRows[i])
  {
    if i == 5 {
      UpperRowOWellFormed();
    }
  }

  lemma UpperRowOWellFormed()
    ensures RowWellFormed(DiacriticRows[5])
  {
  }

  lemma RowsUWellFormed(i: nat)
    requires i == 6 || i == 7
    ensures RowWellFormed(DiacriticRows[i])
  {
  }

  lemma RowsRestWellFormed(i: nat)
    requires i == 8 || i == 9 || i == 10 || i == 11 || i == 12 || i == 13
    ensures RowWellFormed(DiacriticRows[i])
  {
  }

  lemma DiacriticRowsWellFormed()
    ensures WellFormedRows(DiacriticRows)
  {
    forall i | 0 <= i < |DiacriticRows| ensures RowWellFormed(DiacriticRows[i]) {
      if i == 0 || i == 1 { RowsAWellFormed(i); }
      else if i == 2 || i == 3 { RowsEWellFormed(i); }
      else if i == 4 || i == 5 { RowsOWellFormed(i); }
      else if i == 6 || i == 7 { RowsUWellFormed(i); }
      else { RowsRestWellFormed(i); }
    }
  }

  /** The inner loop: `input = input.Replace(chars[j], base)` for every `j` in order. */
  function ReplaceRow(s: String, chars: String, base: char): String
    decreases |chars|
  {
    if |chars| == 0 then s else ReplaceRow(ReplaceChar(s, chars[0], [base]), chars[1..], base)
  }

  /** The outer loop over the rows. */
  function ReplaceRows(s: String, rows: seq<(String, char)>): String
    decreases |rows|
  {
    if |rows| == 0 then s else ReplaceRows(ReplaceRow(s, rows[0].0, rows[0].1), rows[1..])
  }

  /** `RemoveVietnameseDiacritics` as the source writes it: one `Replace` per letter. */
  function RemoveDiacritics(s: String): String {
    ReplaceRows(s, DiacriticRows)
  }

  /** What the rows do to one character, row after row. */
  function FoldChar(c: char, rows: seq<(String, char)>): char
    decreases |rows|
  {
    if |rows| == 0 then c else FoldChar(if c in rows[0].0 then rows[0].1 else c, rows[1..])
  }

  function StripChar(c: char): char {
    FoldChar(c, DiacriticRows)
  }

  /** The folding applied to every character of a string. */
  function StripAll(s: String): (r: String)
    ensures |r| == |s| && forall i :: 0 <= i < |s| ==> r[i] == StripChar(s[i])
  {
    seq(|s|, i requires 0 <= i < |s| => StripChar(s[i]))
  }

  lemma {:induction false} ReplaceCharOne(s: String, c: char, b: char)
    ensures ReplaceChar(s, c, [b]) == seq(|s|, i requires 0 <= i < |s| => if s[i] == c then b else s[i])
    decreases |s|
  {
    if |s| > 0 {
      assert s == [s[0]] + s[1..];
      ReplaceCharAppend([s[0]], s[1..], c, [b]);
      ReplaceCharOne(s[1..], c, b);
    }
  }

  /** One row of replacements maps every letter of the row to the base and leaves the
      rest, because the base itself is not in the row. */
  lemma {:induction false} ReplaceRowMaps(s: String, chars: String, base: char)
    requires base !in chars
    ensures ReplaceRow(s, chars, base) == seq(|s|, i requires 0 <= i < |s| => if s[i] in chars then base else s[i])
    decreases |chars|
  {
    if |chars| > 0 {
      var s' := ReplaceChar(s, chars[0], [base]);
      ReplaceCharOne(s, chars[0], base);
      ReplaceRowMaps(s', chars[1..], base);
      assert forall k :: 0 <= k < |chars| ==> chars[k] in chars[..1] || chars[k] in chars[1..] by {
        assert chars == chars[..1] + chars[1..];
      }
    }
  }

  /** The source's nested replacement loops are the character map `StripChar`. */
  lemma {:induction false} ReplaceRowsMaps(s: String, rows: seq<(String, char)>)
    requires WellFormedRows(rows)
    ensures ReplaceRows(s, rows) == seq(|s|, i requires 0 <= i < |s| => FoldChar(s[i], rows))
    decreases |rows|
  {
    if |rows| > 0 {
      assert RowWellFormed(rows[0]);
      assert rows[0].1 !in rows[0].0;
      ReplaceRowMaps(s, rows[0].0, rows[0].1);
      var s' := ReplaceRow(s, rows[0].0, rows[0].1);
      assert WellFormedRows(rows[1..]) by {
        forall i | 0 <= i < |rows[1..]| ensures RowWellFormed(rows[1..][i]) {
          assert rows[1..][i] == rows[i + 1];
        }
      }
      ReplaceRowsMaps(s', rows[1..]);
    }
  }

  lemma RemoveDiacriticsMaps(s: String)
    ensures RemoveDiacritics(s) == StripAll(s)
  {
    DiacriticRowsWellFormed();
    ReplaceRowsMaps(s, DiacriticRows);
  }

  /** Characters below U+00C0 (ASCII among them) are never touched. */
  lemma {:induction false} FoldCharLow(c: char, rows: seq<(String, char)>)
    requires WellFormedRows(rows) && c < '\U{00C0}'
    ensures FoldChar(c, rows) == c
    decreases |rows|
  {
    if |rows| > 0 {
      assert RowWellFormed(rows[0]);
      assert c !in rows[0].0;
      assert WellFormedRows(rows[1..]) by {
        forall i | 0 <= i < |rows[1..]| ensures RowWellFormed(rows[1..][i]) {
          assert rows[1..][i] == rows[i + 1];
        }
      }
      FoldCharLow(c, rows[1..]);
    }
  }

  /** A character is either kept, or becomes a plain letter that is upper-case only when
      the original was. */
  lemma {:induction false} FoldCharResult(c: char, rows: seq<(String, char)>)
    requires WellFormedRows(rows)
    ensures var r := FoldChar(c, rows);
            r == c || (r < '\U{00C0}' && IsLetter(r) && (IsUpper(r) ==> IsUpper(c)))
    decreases |rows|
  {
    if |rows| > 0 {
      assert WellFormedRows(rows[1..]) by {
        forall i | 0 <= i < |rows[1..]| ensures RowWellFormed(rows[1..][i]) {
          assert rows[1..][i] == rows[i + 1];
        }
      }
      assert RowWellFormed(rows[0]);
      if c in rows[0].0 {
        FoldCharLow(rows[0].1, rows[1..]);
      } else {
        FoldCharResult(c, rows[1..]);
      }
    }
  }

  /** Folding a folded character changes nothing. */
  lemma StripCharIdempotent(c: char)
    ensures StripChar(StripChar(c)) == StripChar(c)
  {
    DiacriticRowsWellFormed();
    FoldCharResult(c, DiacriticRows);
    if StripChar(c) != c {
      FoldCharLow(StripChar(c), DiacriticRows);
    }
  }

  // ---------------------------------------------------------------------------
  // Normalisation (`NormalizeInput`)
  // ---------------------------------------------------------------------------

  /** The characters `[^\p{L}\p{N}\s]` does not delete. */
  predicate Kept(c: char) {
    IsLetterOrDigit(c) || IsWhiteSpace(c)
  }

  /** A string normalisation leaves alone: trimmed, and made of kept, non-upper-case
      characters without diacritics. */
  predicate Normalized(s: String) {
    Trim(s) == s && forall i :: 0 <= i < |s| ==> CleanChar(s[i])
  }

  predicate CleanChar(c: char) {
    Kept(c) && !IsUpper(c) && StripChar(c) == c
  }

  /** `NormalizeInput`: lower-case, delete what is neither letter, digit nor white space,
      fold the diacritics (`StripAll`, which `RemoveDiacriticsMaps` shows equal to the
      source's replacement loops), trim. */
  function NormalizeInput(input: String): String {
    if |input| == 0 then [] else Trim(StripAll(FilterChars(Lower(input), Kept)))
  }

  /** What normalisation produces is normalised. */
  lemma NormalizeInputNormalized(input: String)
    ensures Normalized(NormalizeInput(input))
  {
    if |input| > 0 {
      var f := FilterChars(Lower(input), Kept);
      LoweredKept(input, f);
      var g := StripAll(f);
      FoldedCharsNormalized(f, g);
      TrimmedNormalized(g);
    }
  }

  lemma LoweredKept(input: String, f: String)
    requires f == FilterChars(Lower(input), Kept)
    ensures forall i :: 0 <= i < |f| ==> Kept(f[i]) && !IsUpper(f[i])
  {
    forall i | 0 <= i < |f| ensures !IsUpper(f[i]) {
      assert f[i] in Lower(input);
    }
  }

  lemma FoldedCharsNormalized(f: String, g: String)
    requires forall i :: 0 <= i < |f| ==> Kept(f[i]) && !IsUpper(f[i])
    requires g == StripAll(f)
    ensures forall c :: c in g ==> CleanChar(c)
  {
    DiacriticRowsWellFormed();
    forall i | 0 <= i < |f|
      ensures CleanChar(StripChar(f[i]))
    {
      FoldCharResult(f[i], DiacriticRows);
      StripCharIdempotent(f[i]);
    }
  }

  lemma TrimmedNormalized(g: String)
    requires forall c :: c in g ==> CleanChar(c)
    ensures Normalized(Trim(g))
  {
    TrimKeepsAll(g, CleanChar);
    TrimIdempotent(g);
  }

  /** A normalised string normalises to itself. */
  lemma NormalizedFixed(s: String)
    requires Normalized(s)
    ensures NormalizeInput(s) == s
  {
    if |s| > 0 {
      NormalizedFiltered(s);
      NormalizedStripped(s);
    }
  }

  lemma NormalizedStripped(s: String)
    requires Normalized(s)
    ensures StripAll(s) == s
  {
  }

  lemma NormalizedLowered(s: String)
    requires Normalized(s)
    ensures Lower(s) == s
  {
  }

  lemma NormalizedFiltered(s: String)
    requires Normalized(s)
    ensures FilterChars(Lower(s), Kept) == s
  {
    NormalizedLowered(s);
    KeptFiltered(s);
  }

  lemma {:induction false} KeptFiltered(s: String)
    requires forall i :: 0 <= i < |s| ==> Kept(s[i])
    ensures FilterChars(s, Kept) == s
    decreases |s|
  {
    if |s| > 0 {
      KeptFiltered(s[1..]);
      assert s == [s[0]] + s[1..];
    }
  }

  /** Normalising twice is normalising once, so re-normalising a stored key (as the
      matcher does) changes nothing. */
  lemma NormalizeIdempotent(s: String)
    ensures NormalizeInput(NormalizeInput(s)) == NormalizeInput(s)
  {
    NormalizeInputNormalized(s);
    NormalizedFixed(NormalizeInput(s));
  }
}

=== FILE: game_manager.dfy ===
/** The turn gating and the pure AI helpers of the scene's game manager
    (AI_Final/Assets/scripts/GameManager.cs). Player 1 (the human) starts at row 0
    and wins on row 8; player 2 (the AI) starts at row 8 and wins on row 0.

    The pieces are `Option<Pos>` because the manager checks its references for
    null; the wall queries it makes on scene objects become the predicate
    `blocked(from, to)`. */
module GameManager {
  import opened Optional
  import opened Numbers
  import opened Seqs
  import opened QuoridorRules
  import WallPlacer

  // ---------------------------------------------------------------------------
  // Turns
  // ---------------------------------------------------------------------------

  /** The manager's turn fields; `winner` is what `EndGame` was called with (0 while
      the game runs). */
  datatype Turn = Turn(currentPlayer: int, gameEnded: bool, waitingForAI: bool, playerVsAI: bool, winner: int)

  const NewGame: Turn := Turn(1, false, false, true, 0)

  predicate ValidTurn(g: Turn) {
    g.currentPlayer == 1 || g.currentPlayer == 2
  }

  /** `CheckWinCondition`: player 1 on row 8, player 2 on row 0. */
  predicate CheckWinCondition(playerId: int, player1: Option<Pos>, player2: Option<Pos>) {
    if playerId == 1 && player1.Some? then player1.value.y == 8
    else if playerId == 2 && player2.Some? then player2.value.y == 0
    else false
  }

  /** `EndGame`. */
  function EndGame(g: Turn, winner: int): (r: Turn)
    ensures r.gameEnded && r.winner == winner && r.currentPlayer == g.currentPlayer
  {
    g.(gameEnded := true, winner := winner)
  }

  /** `SwitchTurn`: the turn passes to the other player; when that is the AI in a game
      against it, the AI either has already won (the safety check on its row) or
      starts thinking. */
  function SwitchTurn(g: Turn, player2: Option<Pos>): (r: Turn)
    requires ValidTurn(g)
    ensures ValidTurn(r) && r.currentPlayer == 3 - g.currentPlayer
    ensures r.currentPlayer == 1 || !g.playerVsAI || g.gameEnded ==> r == g.(currentPlayer := r.currentPlayer)
  {
    var next := if g.currentPlayer == 1 then 2 else 1;
    var h := g.(currentPlayer := next);
    if next == 2 && g.playerVsAI && !g.gameEnded then
      if player2.Some? && player2.value.y == 0 then EndGame(h, 2)
      else h.(waitingForAI := true)
    else h
  }

  /** `OnPlayerMove`: ignored when the game has ended, the AI is thinking or the
      sender is not on turn; a winning move ends the game with the mover as winner
      and without a turn switch; any other move hands the turn over. */
  function OnPlayerMove(g: Turn, playerId: int, player1: Option<Pos>, player2: Option<Pos>): (r: Turn)
    requires ValidTurn(g)
    ensures ValidTurn(r)
    ensures g.gameEnded || g.waitingForAI || playerId != g.currentPlayer ==> r == g
    ensures !g.gameEnded && !g.waitingForAI && playerId == g.currentPlayer ==>
              (CheckWinCondition(playerId, player1, player2) ==>
                 r.gameEnded && r.winner == playerId && r.currentPlayer == g.currentPlayer)
              && (!CheckWinCondition(playerId, player1, player2) ==> r.currentPlayer == 3 - g.currentPlayer)
  {
    if g.gameEnded || g.waitingForAI then g
    else if playerId != g.currentPlayer then g
    else if CheckWinCondition(playerId, player1, player2) then EndGame(g, playerId)
    else SwitchTurn(g, player2)
  }

  /** `OnWallPlaced`: the same gating; a wall always hands the turn over. */
  function OnWallPlaced(g: Turn, playerId: int, player2: Option<Pos>): (r: Turn)
    requires ValidTurn(g)
    ensures ValidTurn(r)
    ensures g.gameEnded || g.waitingForAI || playerId != g.currentPlayer ==> r == g
    ensures !g.gameEnded && !g.waitingForAI && playerId == g.currentPlayer ==> r.currentPlayer == 3 - g.currentPlayer
  {
    if g.gameEnded || g.waitingForAI then g
    else if playerId != g.currentPlayer then g
    else SwitchTurn(g, player2)
  }

  /** In a game against the AI, a human move that does not win passes the turn to the
      AI, which is then either thinking or (already on row 0) the winner. */
  lemma HumanMoveWakesAI(g: Turn, player1: Option<Pos>, player2: Option<Pos>)
    requires g.currentPlayer == 1 && g.playerVsAI && !g.gameEnded && !g.waitingForAI
    requires !CheckWinCondition(1, player1, player2)
    ensures var r := OnPlayerMove(g, 1, player1, player2);
            r.currentPlayer == 2 && (r.waitingForAI || (r.gameEnded && r.winner == 2))
  {
  }

  // ---------------------------------------------------------------------------
  // The AI's move history
  // ---------------------------------------------------------------------------

  const MaxHistory := 4

  /** `AddToAIHistory`: append, then drop the oldest entry when over the cap. */
  function AddToAIHistory(h: seq<Pos>, pos: Pos): (r: seq<Pos>)
    ensures |h| <= MaxHistory ==> |r| <= MaxHistory
    ensures |r| > 0 && r[|r| - 1] == pos
  {
    var added := h + [pos];
    if |added| > MaxHistory then added[1..] else added
  }

  /** From an empty history, the history is always the last four positions added. */
  lemma {:induction false} HistoryKeepsLastFour(adds: seq<Pos>)
    ensures AddAll([], adds) == LastN(adds, MaxHistory)
    decreases |adds|
  {
    if |adds| > 0 {
      var prefix := adds[..|adds| - 1];
      var last := adds[|adds| - 1];
      HistoryKeepsLastFour(prefix);
      assert AddAll([], adds) == AddToAIHistory(AddAll([], prefix), last);
      LastNAppend(prefix, last, MaxHistory);
      FrontLast(adds);
    }
  }

  /** The history after each of `adds` in turn. */
  function AddAll(h: seq<Pos>, adds: seq<Pos>): seq<Pos>
    decreases |adds|
  {
    if |adds| == 0 then h else AddToAIHistory(AddAll(h, adds[..|adds| - 1]), adds[|adds| - 1])
  }

  /** `IsOscillating`: the last three entries go target, elsewhere, target. */
  predicate IsOscillating(h: seq<Pos>, target: Pos) {
    if |h| < 3 then false
    else
      var recent := h[|h| - 3..];
      recent[0] == target && recent[1] != target && recent[2] == recent[0]
  }

  /** Oscillation is a back-and-forth: the entry before last differs from both its
      neighbours, which equal the target. */
  lemma OscillationMeaning(h: seq<Pos>, target: Pos)
    ensures IsOscillating(h, target) <==>
              |h| >= 3 && h[|h| - 1] == target && h[|h| - 3] == target && h[|h| - 2] != target
  {
  }

  // ---------------------------------------------------------------------------
  // Move helpers
  // ---------------------------------------------------------------------------

  function Manhattan(a: Pos, b: Pos): nat {
    Abs(a.x - b.x) + Abs(a.y - b.y)
  }

  /** `GetDirectMoveTowardsGoal` as written: a step along y first, then along x, and
      `Vector2Int.zero` for "already there". */
  function GetDirectMoveTowardsGoal(from: Pos, to: Pos): (r: Pos)
    ensures from != to ==> Manhattan(from, r) == 1 && Manhattan(r, to) == Manhattan(from, to) - 1
    ensures from.y != to.y ==> r.x == from.x
    ensures from == to ==> r == Pos(0, 0)
  {
    var dx := to.x - from.x;
    var dy := to.y - from.y;
    if dy < 0 then Pos(from.x, from.y - 1)
    else if dy > 0 then Pos(from.x, from.y + 1)
    else if dx < 0 then Pos(from.x - 1, from.y)
    else if dx > 0 then Pos(from.x + 1, from.y)
    else Pos(0, 0)
  }

  /** The caller reads `Vector2Int.zero` as "no move", but a real step can land on
      (0, 0): from (0, 1) towards the AI's goal (4, 0) the step is (0, 0), and the
      caller throws it away. */
  lemma DirectMoveSentinelClash()
    ensures var r := GetDirectMoveTowardsGoal(Pos(0, 1), Pos(4, 0));
            r == Pos(0, 0) && Manhattan(Pos(0, 1), r) == 1 && Pos(0, 1) != Pos(4, 0)
  {
  }

  /** The direct step with "no move" kept apart from every square. */
  function DirectMoveTowardsGoal(from: Pos, to: Pos): (r: Option<Pos>)
    ensures r.None? <==> from == to
    ensures r.Some? ==> Manhattan(from, r.value) == 1 && Manhattan(r.value, to) == Manhattan(from, to) - 1
  {
    if from == to then None else Some(GetDirectMoveTowardsGoal(from, to))
  }

  /** The two agree on every real step, including the one to (0, 0). */
  lemma DirectMoveAgrees(from: Pos, to: Pos)
    requires from != to
    ensures DirectMoveTowardsGoal(from, to) == Some(GetDirectMoveTowardsGoal(from, to))
  {
  }

  /** `IsValidAIMove`: on the board, one orthogonal step, not onto player 1, not
      through a wall. */
  predicate IsValidAIMove(from: Pos, to: Pos, player1: Option<Pos>, blocked: (Pos, Pos) -> bool) {
    0 <= to.x < 9 && 0 <= to.y < 9
    && Manhattan(from, to) == 1
    && !(player1.Some? && player1.value == to)
    && !blocked(from, to)
  }

  /** `GetNeighbors`: down, up, left, right, on the board only. */
  function GetNeighbors(p: Pos): (r: seq<Pos>)
    ensures forall q :: q in r <==> 0 <= q.x < 9 && 0 <= q.y < 9 && Manhattan(p, q) == 1
  {
    var candidates := [Pos(p.x, p.y - 1), Pos(p.x, p.y + 1), Pos(p.x - 1, p.y), Pos(p.x + 1, p.y)];
    Filter(candidates, (q: Pos) => 0 <= q.x < 9 && 0 <= q.y < 9)
  }

  /** `CalculateWallToBlockMovement`: the direction is tested in the order up, down,
      right, left, on each coordinate alone, so a diagonal or long step that has a
      unit component still gets a wall. */
  function CalculateWallToBlockMovement(from: Pos, to: Pos): (r: Option<WallInfo>)
    ensures r.None? <==> to.y - from.y != 1 && to.y - from.y != -1 && to.x - from.x != 1 && to.x - from.x != -1
    ensures r.Some? && (to.y - from.y == 1 || to.y - from.y == -1) ==> r.value.horizontal
  {
    var d := Pos(to.x - from.x, to.y - from.y);
    if d.y == 1 then Some(WallInfo(from.x, from.y, true))
    else if d.y == -1 then Some(WallInfo(from.x, from.y - 1, true))
    else if d.x == 1 then Some(WallInfo(from.x, from.y, false))
    else if d.x == -1 then Some(WallInfo(from.x - 1, from.y, false))
    else None
  }

  /** For every single orthogonal step, the wall computed to block it does block it
      under the static rule kernel's wall test. */
  lemma BlockingWallBlocks(from: Pos, to: Pos)
    requires Manhattan(from, to) == 1
    ensures var w := CalculateWallToBlockMovement(from, to);
            w.Some? && WallBlocks(from, to, w.value)
  {
  }

  // ---------------------------------------------------------------------------
  // The wall slot index used to read the wall placer's marks
  // ---------------------------------------------------------------------------

  /** `CalculateWallSlotIndex` as written: sixteen slots per row, horizontal walls in
      the first eight, vertical walls in the last eight. */
  function CalculateWallSlotIndex(wallX: int, wallY: int, isHorizontal: bool): (i: int)
    ensures 0 <= wallX < 8 && 0 <= wallY < 8 ==> 0 <= i < 128
  {
    wallY * 16 + (if isHorizontal then wallX else 8 + wallX)
  }

  /** On the 8 x 8 grid, different walls get different indices. */
  lemma CalculateWallSlotIndexInjective(x1: int, y1: int, h1: bool, x2: int, y2: int, h2: bool)
    requires 0 <= x1 < 8 && 0 <= y1 < 8 && 0 <= x2 < 8 && 0 <= y2 < 8
    requires CalculateWallSlotIndex(x1, y1, h1) == CalculateWallSlotIndex(x2, y2, h2)
    ensures x1 == x2 && y1 == y2 && h1 == h2
  {
    var i := CalculateWallSlotIndex(x1, y1, h1);
    assert y1 == i / 16 && y2 == i / 16;
  }

  /** `IsWallAlreadyPlacedEnhanced` as written: the placer's own query, then its mark
      array read at `CalculateWallSlotIndex`, then the scene (`physical`). A negative
      index throws inside the `try` and falls through to the scene. Any of the three
      sources suffices, and where the two numberings happen to agree the array read
      adds nothing. */
  function IsWallAlreadyPlacedAsWritten(p: WallPlacer.Placer, x: int, y: int, isHorizontal: bool, physical: bool): (r: bool)
    ensures WallPlacer.IsWallPlacedAt(p, y, x, isHorizontal) || physical ==> r
    ensures CalculateWallSlotIndex(x, y, isHorizontal) == WallPlacer.GetSlotIndex(y, x, isHorizontal) ==>
              (r <==> WallPlacer.IsWallPlacedAt(p, y, x, isHorizontal) || physical)
  {
    var i := CalculateWallSlotIndex(x, y, isHorizontal);
    WallPlacer.IsWallPlacedAt(p, y, x, isHorizontal)
    || (i != -1 && 0 <= i < |p.wallPlaced| && p.wallPlaced[i])
    || physical
  }

  /** The placer numbers slots differently: the vertical wall (0, 0) is slot 72 there
      and 8 here, and slot 8 there is the horizontal wall at column 8 of row 0. With
      only that horizontal wall placed, the vertical wall at (0, 0) reads as taken. */
  lemma SlotIndexMismatch()
    ensures CalculateWallSlotIndex(0, 0, false) == 8 && WallPlacer.GetSlotIndex(0, 0, false) == 72
    ensures var p := WallPlacer.Placer(9, false, seq(144, i => i == 8), [WallPlacer.WallData(8, 0, true)]);
            WallPlacer.IsWallPlacedAt(p, 0, 8, true)
            && !WallPlacer.IsWallPlacedAt(p, 0, 0, false)
            && IsWallAlreadyPlacedAsWritten(p, 0, 0, false, false)
  {
  }

  /** The check with the placer's own numbering, which is what the index was meant
      to match: a wall reads as taken exactly when the placer says so or the scene
      shows it. */
  function IsWallAlreadyPlaced(p: WallPlacer.Placer, x: int, y: int, isHorizontal: bool, physical: bool): (r: bool)
    ensures r <==> WallPlacer.IsWallPlacedAt(p, y, x, isHorizontal) || physical
  {
    var i := WallPlacer.GetSlotIndex(y, x, isHorizontal);
    WallPlacer.IsWallPlacedAt(p, y, x, isHorizontal)
    || (i != -1 && 0 <= i < |p.wallPlaced| && p.wallPlaced[i])
    || physical
  }

  /** With the placer's numbering the array read adds nothing: a wall reads as taken
      exactly when the placer says it is placed or the scene shows it. */
  lemma AlreadyPlacedMeansPlaced(p: WallPlacer.Placer, x: int, y: int, isHorizontal: bool, physical: bool)
    ensures IsWallAlreadyPlaced(p, x, y, isHorizontal, physical) <==>
              WallPlacer.IsWallPlacedAt(p, y, x, isHorizontal) || physical
  {
  }
}

=== FILE: hybrid_chat.dfy ===
/** The demo chat window of `HybridChatDemo.cs`: a bounded queue of display lines and
    the `SimpleAI` keyword responder behind it. */
module HybridChat {
  import opened Strings
  import opened Seqs
  import opened Dicts

  // ---------------------------------------------------------------------------
  // The line queue
  // ---------------------------------------------------------------------------

  /** `AddChatLine`: enqueue the line, then dequeue from the front while the queue is longer
      than `maxLines`. */
  function AddLine(lines: seq<String>, line: String, maxLines: nat): (r: seq<String>)
    ensures |r| <= maxLines && |r| <= |lines| + 1
    ensures r == (lines + [line])[|lines| + 1 - |r|..]
    ensures |lines| + 1 <= maxLines ==> r == lines + [line]
    ensures |lines| + 1 > maxLines ==> |r| == maxLines
  {
    LastN(lines + [line], maxLines)
  }

  /** `RemoveLastLine`: drop the newest line, if any. */
  function RemoveLast(lines: seq<String>): (r: seq<String>)
    ensures |lines| > 0 ==> r + [lines[|lines| - 1]] == lines
    ensures |lines| == 0 ==> r == []
  {
    if |lines| == 0 then lines else lines[..|lines| - 1]
  }

  /** The notice `ClearChat` leaves behind; `name` is the configured AI name. */
  function ClearedNotice(name: String): String {
    "[" + name + "]: Chat đã được xóa. Bạn cần hỗ trợ gì không?"
  }

  /** `ClearChat`: empty the queue, then add the notice. */
  function Clear(name: String, maxLines: nat): (r: seq<String>)
    ensures maxLines >= 1 ==> r == [ClearedNotice(name)]
    ensures maxLines == 0 ==> r == []
  {
    var notice := ClearedNotice(name);
    AddToEmpty(notice, maxLines);
    AddLine([], notice, maxLines)
  }

  /** A line added to an empty queue is its only line, unless no line fits. */
  lemma AddToEmpty(line: String, maxLines: nat)
    ensures AddLine([], line, maxLines) == if maxLines >= 1 then [line] else []
  {
  }

  /** Several `AddChatLine` calls in a row. */
  function AddAll(lines: seq<String>, added: seq<String>, maxLines: nat): seq<String>
    decreases |added|
  {
    if |added| == 0 then lines else AddAll(AddLine(lines, added[0], maxLines), added[1..], maxLines)
  }

  /** The queue is always the newest lines ever added: after adding `added` to `lines` it
      is the last `maxLines` lines of the concatenation. */
  lemma {:induction false} AddAllKeepsNewest(lines: seq<String>, added: seq<String>, maxLines: nat)
    requires |lines| <= maxLines
    ensures AddAll(lines, added, maxLines) == LastN(lines + added, maxLines)
    decreases |added|
  {
    if |added| > 0 {
      var next := AddLine(lines, added[0], maxLines);
      assert AddAll(lines, added, maxLines) == AddAll(next, added[1..], maxLines);
      AddAllKeepsNewest(next, added[1..], maxLines);
      assert next == LastN(lines + [added[0]], maxLines);
      LastNOfLastN(lines + [added[0]], added[1..], maxLines);
      AppendHead(lines, added);
    }
  }

  /** Cutting to the newest `n` before appending more does not change the newest `n` after. */
  lemma {:induction false} LastNOfLastN(xs: seq<String>, ys: seq<String>, n: nat)
    ensures LastN(LastN(xs, n) + ys, n) == LastN(xs + ys, n)
  {
    if |xs| > n {
      var d := |xs| - n;
      var all := xs + ys;
      var kept := LastN(xs, n);
      assert kept == xs[d..];
      DropAppend(xs, ys, d);
      LastNOfSuffix(all, d, n);
    } else {
      assert LastN(xs, n) == xs;
    }
  }

  /** Dropping a prefix that leaves at least `n` elements keeps the newest `n`. */
  lemma {:induction false} LastNOfSuffix(s: seq<String>, d: nat, n: nat)
    requires d + n <= |s|
    ensures LastN(s[d..], n) == LastN(s, n)
  {
    assert s[d..][|s| - d - n..] == s[|s| - n..];
  }

  /** The line shown while the AI thinks. */
  function ThinkingLine(name: String): String {
    "[" + name + "]: đang suy nghĩ..."
  }

  /** What one exchange of `SendMessage` and `ProcessAIResponse` does to the queue: the
      player's line, the thinking indicator, its removal, the AI's line. */
  function Exchange(lines: seq<String>, name: String, message: String, reply: String, maxLines: nat): seq<String> {
    var withUser := AddLine(lines, "[Bạn]: " + message, maxLines);
    var thinking := AddLine(withUser, ThinkingLine(name), maxLines);
    AddLine(RemoveLast(thinking), "[" + name + "]: " + reply, maxLines)
  }

  /** Showing and removing the indicator is invisible while the queue has room; on a full
      queue it costs the oldest line. */
  lemma IndicatorRoundTrip(lines: seq<String>, name: String, maxLines: nat)
    requires 1 <= maxLines && |lines| <= maxLines
    ensures RemoveLast(AddLine(lines, ThinkingLine(name), maxLines))
            == if |lines| < maxLines then lines else lines[1..]
  {
    AddRemoveLast(lines, ThinkingLine(name), maxLines);
  }

  /** Adding any line and removing the newest again. */
  lemma AddRemoveLast(lines: seq<String>, t: String, maxLines: nat)
    requires 1 <= maxLines && |lines| <= maxLines
    ensures RemoveLast(AddLine(lines, t, maxLines)) == if |lines| < maxLines then lines else lines[1..]
  {
    if |lines| == maxLines {
      assert AddLine(lines, t, maxLines) == lines[1..] + [t];
    }
  }

  /** The indicator leaves no trace: an exchange leaves the queue exactly as if only the
      player's line and the reply had been added. */
  lemma ExchangeLeavesNoIndicator(lines: seq<String>, name: String, message: String, reply: String, maxLines: nat)
    requires 1 <= maxLines && |lines| <= maxLines
    ensures Exchange(lines, name, message, reply, maxLines)
            == LastN(lines + ["[Bạn]: " + message, "[" + name + "]: " + reply], maxLines)
  {
    ExchangeShape(lines, "[Bạn]: " + message, ThinkingLine(name), "[" + name + "]: " + reply, maxLines);
  }

  /** An exchange with player line `u`, indicator `t` and answer `a`. */
  lemma {:induction false} ExchangeShape(lines: seq<String>, u: String, t: String, a: String, maxLines: nat)
    requires 1 <= maxLines && |lines| <= maxLines
    ensures AddLine(RemoveLast(AddLine(AddLine(lines, u, maxLines), t, maxLines)), a, maxLines)
            == LastN(lines + [u, a], maxLines)
  {
    var withUser := AddLine(lines, u, maxLines);
    var x := RemoveLast(AddLine(withUser, t, maxLines));
    AddRemoveLast(withUser, t, maxLines);
    if |withUser| == maxLines {
      assert x + [a] == (withUser + [a])[1..];
    }
    assert AddLine(x, a, maxLines) == LastN(withUser + [a], maxLines);
    LastNOfLastN(lines + [u], [a], maxLines);
    assert lines + [u] + [a] == lines + [u, a];
  }

  // ---------------------------------------------------------------------------
  // SimpleAI
  // ---------------------------------------------------------------------------

  type Knowledge = Dict<String, seq<String>>

  /** The knowledge base of `InitializeKnowledge`, in insertion order. */
  const KnowledgeBase: Knowledge := [
    ("luật", [
      "Quoridor có luật đơn giản: Di chuyển quân cờ hoặc đặt tường mỗi lượt để đến đích trước đối thủ!",
      "Bạn có 10 quân tường, sử dụng khôn ngoan để cản đối thủ nhưng không được chặn hoàn toàn đường đi!",
      "Quân cờ di chuyển 1 ô mỗi lượt (hoặc nhảy qua đối thủ nếu có thể)."]),
    ("chiến thuật", [
      "Cân bằng giữa tấn công và phòng thủ! Đừng chỉ chạy thẳng mà hãy quan sát đối thủ.",
      "Đặt tường ở giữa bàn cờ hiệu quả hơn! Kiểm soát trung tâm là chìa khóa.",
      "Quan sát pattern di chuyển của đối thủ để dự đoán ý định!"]),
    ("tường", [
      "Tường rất quan trọng! Dùng để làm chậm đối thủ hoặc tạo đường đi thuận lợi cho mình.",
      "Mỗi người có 10 tường, suy nghĩ kỹ trước khi đặt!",
      "Tường không được chặn hoàn toàn đường đi của đối thủ - luật quan trọng!"]),
    ("chào", [
      "Xin chào! Tôi sẵn sàng giúp bạn master game Quoridor!",
      "Hi! Bạn muốn học luật chơi, chiến thuật hay cần lời khuyên gì?",
      "Chào bạn! Hôm nay chúng ta sẽ chinh phục Quoridor nhé!"]),
    ("help", [
      "Tôi có thể giúp bạn về: luật chơi, chiến thuật, cách đặt tường, và tips để thắng!",
      "Hỏi tôi về bất cứ điều gì liên quan đến Quoridor! Ví dụ: 'luật chơi như thế nào?'",
      "Tôi ở đây để làm bạn trở thành cao thủ Quoridor! Cần gì cứ hỏi!"])
  ]

  const GreetingIndex: nat := 3
  const HelpIndex: nat := 4

  /** The pool for inputs nothing else catches. */
  const DefaultPool: seq<String> := [
    "Thú vị! Bạn có thể hỏi tôi về luật chơi, chiến thuật Quoridor, hoặc cách sử dụng tường hiệu quả!",
    "Tôi chưa hiểu rõ ý bạn. Thử hỏi về 'luật chơi', 'chiến thuật', hay 'tường' xem!",
    "Hmm, có thể bạn muốn biết về Quoridor? Tôi có thể giải thích luật và chiến thuật!",
    "Bạn có thể hỏi cụ thể hơn không? Ví dụ: 'Làm sao để thắng?' hoặc 'Cách đặt tường?'"
  ]

  /** Which branch of `SimpleAI.GetResponse` answers. */
  datatype Route = Known(index: nat) | Greeting | Help | Fallback

  predicate GreetingWords(lower: String) {
    Contains(lower, "xin chào") || Contains(lower, "hello") || Contains(lower, "hi") || Contains(lower, "chào")
  }

  predicate HelpWords(lower: String) {
    Contains(lower, "giúp") || Contains(lower, "help") || Contains(lower, "hỗ trợ")
  }

  /** The branch for the lower-cased input: the first knowledge key it contains, else the
      greeting test, else the help test, else the fallback pool. */
  function RouteOf(lower: String): (r: Route)
    ensures r.Known? ==> r.index < |KnowledgeBase| && Contains(lower, KnowledgeBase[r.index].0)
                         && forall j :: 0 <= j < r.index ==> !Contains(lower, KnowledgeBase[j].0)
    ensures !r.Known? <==> forall j :: 0 <= j < |KnowledgeBase| ==> !Contains(lower, KnowledgeBase[j].0)
    ensures r == Greeting <==> !r.Known? && GreetingWords(lower)
    ensures r == Help <==> !r.Known? && !GreetingWords(lower) && HelpWords(lower)
  {
    var k := FirstWhere(Keys(KnowledgeBase), key => Contains(lower, key));
    if k >= 0 then Known(k)
    else if GreetingWords(lower) then Greeting
    else if HelpWords(lower) then Help
    else Fallback
  }

  /** `SimpleAI.GetResponse` with the random draw `pick`. */
  function Reply(input: String, pick: nat): (r: String)
    ensures var route := RouteOf(Lower(input));
            match route
            case Known(k) => r in KnowledgeBase[k].1
            case Greeting => r in KnowledgeBase[GreetingIndex].1
            case Help => r in KnowledgeBase[HelpIndex].1
            case Fallback => r in DefaultPool
  {
    match RouteOf(Lower(input))
    case Known(k) => Choose(KnowledgeBase[k].1, pick)
    case Greeting => Choose(KnowledgeBase[GreetingIndex].1, pick)
    case Help => Choose(KnowledgeBase[HelpIndex].1, pick)
    case Fallback => Choose(DefaultPool, pick)
  }

  lemma ContainsChao(lower: String)
    requires Contains(lower, "xin chào")
    ensures Contains(lower, "chào")
  {
    assert OccursAt("xin chào", "chào", 4);
    ContainsTrans(lower, "xin chào", "chào");
  }

  /** Because "chào" and "help" are keys already, the later greeting branch is reached only
      through "hello" or "hi", and the help branch only through "giúp" or "hỗ trợ". */
  lemma LateBranchesNarrowed(lower: String)
    ensures RouteOf(lower) == Greeting ==> Contains(lower, "hello") || Contains(lower, "hi")
    ensures RouteOf(lower) == Help ==> Contains(lower, "giúp") || Contains(lower, "hỗ trợ")
  {
    var r := RouteOf(lower);
    if !r.Known? {
      assert !Contains(lower, KnowledgeBase[GreetingIndex].0);
      assert !Contains(lower, KnowledgeBase[HelpIndex].0);
      if Contains(lower, "xin chào") {
        ContainsChao(lower);
      }
    }
  }
}

=== FILE: json_text.dfy ===
/** The JSON string escaping both chat clients apply before they splice user text into
    a request body (AI_Final/Assets/scripts/AIChatManager.cs and ChatService.cs). */
module JsonText {
  import opened Strings

  /** `str.Replace("\\", "\\\\").Replace("\"", "\\\"")`: backslashes are doubled first,
      then every double quote gets a backslash in front. */
  function EscapeJson(s: String): (r: String)
    ensures '"' !in s && '\\' !in s ==> r == s
  {
    ReplaceChar(ReplaceChar(s, '\\', "\\\\"), '"', "\\\"")
  }

  /** The same escaping done in one pass, one character at a time. */
  function EscapeChars(s: String): (r: String)
    ensures |r| >= |s|
  {
    if |s| == 0 then []
    else (if s[0] == '\\' then "\\\\" else if s[0] == '"' then "\\\"" else [s[0]]) + EscapeChars(s[1..])
  }

  /** JSON string unescaping restricted to the two escapes above: a backslash takes the
      next character literally. */
  function Unescape(s: String): (r: String)
    decreases |s|
  {
    if |s| == 0 then []
    else if s[0] == '\\' && |s| >= 2 then [s[1]] + Unescape(s[2..])
    else [s[0]] + Unescape(s[1..])
  }

  /** Doubling backslashes first means the second replacement never touches them: the
      two-step replacement is the one-pass escape. */
  lemma {:induction false} EscapeJsonOnePass(s: String)
    ensures EscapeJson(s) == EscapeChars(s)
    decreases |s|
  {
    if |s| > 0 {
      var head := [s[0]];
      assert s == head + s[1..];
      ReplaceCharAppend(head, s[1..], '\\', "\\\\");
      var h1 := ReplaceChar(head, '\\', "\\\\");
      var t1 := ReplaceChar(s[1..], '\\', "\\\\");
      ReplaceCharAppend(h1, t1, '"', "\\\"");
      EscapeJsonOnePass(s[1..]);
      if s[0] == '\\' {
        assert h1 == "\\\\";
        assert ReplaceChar("\\\\", '"', "\\\"") == "\\\\";
      } else if s[0] == '"' {
        assert h1 == "\"";
        assert ReplaceChar("\"", '"', "\\\"") == "\\\"";
      } else {
        assert h1 == head;
        assert ReplaceChar(head, '"', "\\\"") == head;
      }
    }
  }

  /** Unescaping an escaped string gives the original back, so escaping loses nothing. */
  lemma {:induction false} UnescapeEscapeChars(s: String)
    ensures Unescape(EscapeChars(s)) == s
    decreases |s|
  {
    if |s| > 0 {
      var rest := EscapeChars(s[1..]);
      UnescapeEscapeChars(s[1..]);
      if s[0] == '\\' || s[0] == '"' {
        var e := [ '\\', s[0] ] + rest;
        assert EscapeChars(s) == e;
        assert e[2..] == rest;
      } else {
        var e := [s[0]] + rest;
        assert EscapeChars(s) == e;
        assert e[1..] == rest;
      }
      assert s == [s[0]] + s[1..];
    }
  }

  /** The round trip for the function the clients call. */
  lemma EscapeJsonRoundTrip(s: String)
    ensures Unescape(EscapeJson(s)) == s
  {
    EscapeJsonOnePass(s);
    UnescapeEscapeChars(s);
  }

  /** Every double quote of an escaped string has a backslash right before it. */
  lemma {:induction false} EscapedQuotesArePreceded(s: String, i: int)
    requires 0 <= i < |EscapeJson(s)| && EscapeJson(s)[i] == '"'
    ensures i > 0 && EscapeJson(s)[i - 1] == '\\'
  {
    EscapeJsonOnePass(s);
    QuotesPreceded(s, i);
  }

  lemma {:induction false} QuotesPreceded(s: String, i: int)
    requires 0 <= i < |EscapeChars(s)| && EscapeChars(s)[i] == '"'
    ensures i > 0 && EscapeChars(s)[i - 1] == '\\'
    decreases |s|
  {
    var head := if s[0] == '\\' then "\\\\" else if s[0] == '"' then "\\\"" else [s[0]];
    var rest := EscapeChars(s[1..]);
    assert EscapeChars(s) == head + rest;
    if i > |head| {
      QuotesPreceded(s[1..], i - |head|);
    } else if i == |head| {
      QuotesPreceded(s[1..], 0);
      assert false;
    }
  }
}

=== FILE: knowledge_engine.dfy ===
/** The local Python chat engine of the Quoridor assistant (`QuoridorAI` in
    AI_Final/simple_quoridor_ai.py) and its five HTTP handlers, as pure operations.

    The engine answers from four tiers in order: a fixed question table (0.9), the
    patterns it has learned from earlier conversations (0.8), a keyword cascade over
    the built-in knowledge base (0.7) and a pool of apologies (0.3). Every handled
    conversation is recorded, and its long words become a learned pattern.
    The learning file is modelled as a `Stored` value inside the engine state. */
module KnowledgeEngine {
  import opened Optional
  import opened Strings
  import opened Dicts
  import opened Seqs

  /** Learned patterns: pattern key -> responses, in insertion order. */
  type Patterns = Dict<String, seq<String>>

  datatype Conversation = Conversation(input: String, response: String, timestamp: String, feedback: Option<String>)

  /** The JSON document of the learning file. */
  datatype Document = Document(conversations: seq<Conversation>, learned: Patterns)

  /** The learning file on disk: absent, unreadable, or a saved document. */
  datatype Stored = Missing | Malformed | Saved(doc: Document)

  /** `learned == None` means the knowledge base has no `learned_patterns` category yet. */
  datatype Engine = Engine(history: seq<Conversation>, learned: Option<Patterns>, stored: Stored)

  datatype Reply =
    | Reply(text: String, confidence: real)
      /** `random.choice` on an empty learned list raises IndexError. */
    | Crash

  // ---------------------------------------------------------------------------
  // The built-in knowledge base
  // ---------------------------------------------------------------------------

  const QuoridorRules: seq<String> := [
    "Quoridor là game cờ chiến thuật cho 2-4 người chơi trên bàn cờ 9x9",
    "Mục tiêu là đưa quân cờ của bạn về đích ở phía đối diện",
    "Mỗi người chơi có 10 bức tường để chặn đối thủ",
    "Tường phải đảm bảo còn ít nhất 1 đường đi cho tất cả người chơi",
    "Mỗi lượt có thể di chuyển quân cờ hoặc đặt 1 bức tường"
  ]

  const Strategies: seq<String> := [
    "Ưu tiên tiến thẳng về phía trước khi có thể",
    "Sử dụng tường để chặn khi đối thủ gần đích",
    "Không lãng phí tường quá sớm trong game",
    "Luôn giữ đường thoát cho chính mình",
    "Quan sát vị trí đối thủ để đặt tường hiệu quả",
    "Dùng tường tạo mê cung để làm chậm đối thủ"
  ]

  const MovementRules: seq<String> := [
    "Quân cờ có thể di chuyển 1 ô theo 4 hướng: lên, xuống, trái, phải",
    "Không thể đi qua tường hoặc ra ngoài bàn cờ",
    "Nếu có quân đối thủ ở ô kế bên, có thể nhảy qua",
    "Khi nhảy qua đối thủ bị chặn bởi tường, có thể đi chéo"
  ]

  const WallRules: seq<String> := [
    "Tường có thể đặt ngang hoặc dọc giữa các ô",
    "Mỗi tường chiếm 2 khoảng trống liên tiếp",
    "Không thể đặt tường chồng lên tường khác",
    "Phải đảm bảo tất cả người chơi vẫn có đường đi về đích"
  ]

  /** The `common_questions` table, in its declaration order. */
  const CommonQuestions: seq<(String, String)> := [
    ("quoridor là gì", "Quoridor là game board strategy nổi tiếng cho 2-4 người chơi. Bạn cần đưa quân cờ qua bên kia bàn cờ trong khi sử dụng tường để chặn đối thủ."),
    ("luật chơi", "Mỗi lượt bạn có thể di chuyển quân cờ 1 ô hoặc đặt 1 bức tường. Mục tiêu là về đích trước đối thủ."),
    ("chiến thuật", "Cân bằng giữa tiến về phía trước và sử dụng tường để chặn đối thủ. Đừng dùng hết tường quá sớm!"),
    ("tường", "Bạn có 10 bức tường để chặn đối thủ, nhưng phải đảm bảo họ vẫn có đường đi về đích."),
    ("di chuyển", "Quân cờ di chuyển 1 ô mỗi lượt. Có thể nhảy qua đối thủ nếu không bị tường chặn."),
    ("thắng", "Người đầu tiên đưa quân cờ về hàng đối diện sẽ thắng."),
    ("thua", "Bạn thua nếu đối thủ về đích trước hoặc bạn không còn nước đi hợp lệ.")
  ]

  /** The knowledge base's fixed categories: four fact lists plus `common_questions`. */
  const FixedCategories: nat := 5

  const Apologies: seq<String> := [
    "Tôi chưa hiểu câu hỏi này. Bạn có thể hỏi về luật chơi Quoridor, chiến thuật, hoặc cách di chuyển không?",
    "Hãy hỏi tôi về Quoridor: luật chơi, chiến thuật, tường, hoặc cách di chuyển nhé!",
    "Tôi đang học thêm! Bạn có thể hỏi về game Quoridor cụ thể hơn không?",
    "Quoridor có nhiều điều thú vị! Bạn muốn biết về luật chơi hay chiến thuật?"
  ]

  const WinSentence: String :=
    "Để thắng Quoridor, bạn cần đưa quân cờ về hàng đối diện trước đối thủ. Cân bằng giữa tiến thẳng và dùng tường chặn!"
  const StartSentence: String :=
    "Để bắt đầu chơi Quoridor hiệu quả, hãy tiến thẳng về phía trước và quan sát nước đi của đối thủ. Đừng dùng tường quá sớm!"

  const GameWords: seq<String> := ["quoridor", "game", "trò chơi", "board"]
  const RulesWords: seq<String> := ["luật", "rule", "chơi", "cách"]
  const StrategyWords: seq<String> := ["chiến thuật", "strategy", "thắng", "win"]
  const WallWords: seq<String> := ["tường", "wall", "chặn", "block"]
  const MoveWords: seq<String> := ["di chuyển", "move", "đi", "nhảy", "jump"]
  const WinWords: seq<String> := ["thắng", "win", "chiến thắng"]
  const StartWords: seq<String> := ["bắt đầu", "start", "khởi đầu"]

  // ---------------------------------------------------------------------------
  // Answering
  // ---------------------------------------------------------------------------

  /** `any(word in text for word in words)`. */
  predicate AnyIn(text: String, words: seq<String>) {
    exists i :: 0 <= i < |words| && Contains(text, words[i])
  }

  /** `user_input.lower().strip()`. */
  function Clean(input: String): String {
    Trim(Lower(input))
  }

  /** A learned key fits the input when every word of the key occurs in it. */
  predicate KeyFits(key: String, clean: String) {
    var words := SplitWords(key);
    forall i :: 0 <= i < |words| ==> Contains(clean, words[i])
  }

  /** The keyword tier, `get_keyword_response`, with the random draw as `pick`. */
  function KeywordResponse(clean: String, pick: nat): (r: Option<String>)
    ensures AnyIn(clean, GameWords) && AnyIn(clean, RulesWords) ==> r.Some? && r.value in QuoridorRules
    ensures AnyIn(clean, GameWords) && !AnyIn(clean, RulesWords) && AnyIn(clean, StrategyWords) ==>
              r.Some? && r.value in Strategies
    ensures !(AnyIn(clean, GameWords) && (AnyIn(clean, RulesWords) || AnyIn(clean, StrategyWords))) ==>
              (AnyIn(clean, WallWords) ==> r.Some? && r.value in WallRules)
              && (!AnyIn(clean, WallWords) && AnyIn(clean, MoveWords) ==> r.Some? && r.value in MovementRules)
              && (!AnyIn(clean, WallWords) && !AnyIn(clean, MoveWords) ==>
                    r == if AnyIn(clean, WinWords) then Some(WinSentence)
                         else if AnyIn(clean, StartWords) then Some(StartSentence)
                         else None)
  {
    if AnyIn(clean, GameWords) && AnyIn(clean, RulesWords) then Some(Choose(QuoridorRules, pick))
    else if AnyIn(clean, GameWords) && AnyIn(clean, StrategyWords) then Some(Choose(Strategies, pick))
    else if AnyIn(clean, WallWords) then Some(Choose(WallRules, pick))
    else if AnyIn(clean, MoveWords) then Some(Choose(MovementRules, pick))
    else if AnyIn(clean, WinWords) then Some(WinSentence)
    else if AnyIn(clean, StartWords) then Some(StartSentence)
    else None
  }

  /** Any answer of the keyword tier comes from the built-in knowledge. */
  lemma KeywordResponseFromKnowledge(clean: String, pick: nat)
    ensures var r := KeywordResponse(clean, pick);
            r.Some? ==> (r.value != [] &&
              (r.value in QuoridorRules || r.value in Strategies || r.value in WallRules
               || r.value in MovementRules || r.value == WinSentence || r.value == StartSentence))
  {
  }

  /** "trò chơi" contains "chơi", so it is a game word and a rules word at once. */
  lemma GameNameGivesRules(clean: String, pick: nat)
    requires Contains(clean, "trò chơi")
    ensures KeywordResponse(clean, pick).Some? && KeywordResponse(clean, pick).value in QuoridorRules
  {
    assert Contains(clean, GameWords[2]);
    assert OccursAt("trò chơi", "chơi", 4);
    ContainsTrans(clean, "trò chơi", "chơi");
    assert Contains(clean, RulesWords[2]);
  }

  /** Tier 1: the answer of the first table question contained in the input. */
  function CommonAnswer(clean: String): (r: Option<String>)
    ensures r.Some? <==> exists i :: 0 <= i < |CommonQuestions| && Contains(clean, CommonQuestions[i].0)
    ensures r.Some? ==>
              exists i :: 0 <= i < |CommonQuestions| && Contains(clean, CommonQuestions[i].0)
                && r.value == CommonQuestions[i].1
                && forall j :: 0 <= j < i ==> !Contains(clean, CommonQuestions[j].0)
  {
    var c := FirstQuestion(CommonQuestions, clean);
    if c >= 0 then Some(CommonQuestions[c].1) else None
  }

  /** The position of the first question of `qs` contained in `clean`, or -1. */
  function FirstQuestion(qs: seq<(String, String)>, clean: String): (r: int)
    ensures -1 <= r < |qs|
    ensures r >= 0 ==> Contains(clean, qs[r].0) && forall j :: 0 <= j < r ==> !Contains(clean, qs[j].0)
    ensures r == -1 <==> forall j :: 0 <= j < |qs| ==> !Contains(clean, qs[j].0)
  {
    if |qs| == 0 then -1
    else if Contains(clean, qs[0].0) then 0
    else
      var r := FirstQuestion(qs[1..], clean);
      if r < 0 then -1 else r + 1
  }

  /** Tier 2: the position of the first learned key that fits the input, or -1. */
  function FittingKey(p: Patterns, clean: String): (r: int)
    ensures -1 <= r < |p|
    ensures r >= 0 ==> KeyFits(p[r].0, clean) && forall j :: 0 <= j < r ==> !KeyFits(p[j].0, clean)
    ensures r == -1 <==> forall j :: 0 <= j < |p| ==> !KeyFits(p[j].0, clean)
  {
    FirstWhere(p, (entry: (String, seq<String>)) => KeyFits(entry.0, clean))
  }

  /** `get_response`: the four tiers with their confidences. */
  function Respond(e: Engine, input: String, pick: nat): (r: Reply)
    ensures r.Reply? ==> r.confidence in {0.9, 0.8, 0.7, 0.3}
    ensures r.Reply? && r.confidence == 0.3 ==> r.text in Apologies
    ensures CommonAnswer(Clean(input)).Some? <==> r.Reply? && r.confidence == 0.9
    ensures CommonAnswer(Clean(input)).Some? ==> r.text == CommonAnswer(Clean(input)).value
    ensures CommonAnswer(Clean(input)).None? ==>
              var l := FittingKey(e.learned.GetOr([]), Clean(input));
              (l >= 0 <==> r.Crash? || r.confidence == 0.8)
              && (l >= 0 ==> (r.Crash? <==> e.learned.value[l].1 == [])
                             && (r.Reply? ==> r.text in e.learned.value[l].1))
    ensures r.Reply? && r.confidence == 0.7 ==> KeywordResponse(Clean(input), pick) == Some(r.text)
    ensures r.Reply? && r.confidence == 0.3 ==> KeywordResponse(Clean(input), pick).None?
  {
    var clean := Clean(input);
    match CommonAnswer(clean)
    case Some(answer) => Reply(answer, 0.9)
    case None => LearnedTier(e.learned.GetOr([]), clean, pick)
  }

  /** Tiers 2 to 4: a response of the first fitting learned key, else the keyword tier. */
  function LearnedTier(p: Patterns, clean: String, pick: nat): (r: Reply)
    ensures r.Reply? ==> r.confidence in {0.8, 0.7, 0.3}
    ensures r.Reply? && r.confidence == 0.3 ==> r.text in Apologies
    ensures var l := FittingKey(p, clean);
            (l >= 0 <==> r.Crash? || r.confidence == 0.8)
            && (l >= 0 ==> (r.Crash? <==> p[l].1 == []) && (r.Reply? ==> r.text in p[l].1))
    ensures r.Reply? && r.confidence == 0.7 ==> KeywordResponse(clean, pick) == Some(r.text)
    ensures r.Reply? && r.confidence == 0.3 ==> KeywordResponse(clean, pick).None?
  {
    var l := FittingKey(p, clean);
    if l >= 0 then
      if p[l].1 == [] then Crash else Reply(Choose(p[l].1, pick), 0.8)
    else KeywordTier(clean, pick)
  }

  /** Tiers 3 and 4: the keyword answer, else an apology. */
  function KeywordTier(clean: String, pick: nat): (r: Reply)
    ensures r.Reply? && (r.confidence == 0.7 || r.confidence == 0.3)
    ensures r.confidence == 0.7 <==> KeywordResponse(clean, pick).Some?
    ensures r.confidence == 0.7 ==> KeywordResponse(clean, pick) == Some(r.text)
    ensures r.confidence == 0.3 ==> r.text in Apologies
  {
    match KeywordResponse(clean, pick)
    case Some(t) => Reply(t, 0.7)
    case None => Reply(Choose(Apologies, pick), 0.3)
  }

  // ---------------------------------------------------------------------------
  // Learning
  // ---------------------------------------------------------------------------

  /** The words of the lower-cased input longer than three characters. */
  function LongWords(input: String): (r: seq<String>)
    ensures forall i :: 0 <= i < |r| ==> IsWord(r[i]) && |r[i]| > 3
    ensures forall w :: w in r <==> w in SplitWords(Lower(input)) && |w| > 3
  {
    Filter(SplitWords(Lower(input)), (w: String) => |w| > 3)
  }

  /** `' '.join(keywords[:3])`. */
  function PatternKey(input: String): String {
    Join(Take(LongWords(input), 3), " ")
  }

  /** Every learned list is non-empty: true of everything the engine learns itself. */
  predicate NonEmptyLists(p: Patterns) {
    forall i :: 0 <= i < |p| ==> p[i].1 != []
  }

  /** Append `response` under `key`, creating the key when it is new. */
  function Learn(p: Patterns, key: String, response: String): (r: Patterns)
    ensures Get(r, key) == Some(Get(p, key).GetOr([]) + [response])
    ensures forall k :: k != key ==> Get(r, k) == Get(p, k)
    ensures Keys(r) == Keys(p) || Keys(r) == Keys(p) + [key]
    ensures Valid(p) ==> Valid(r)
    ensures NonEmptyLists(p) ==> NonEmptyLists(r)
  {
    var r := Put(p, key, Get(p, key).GetOr([]) + [response]);
    PutGet(p, key, Get(p, key).GetOr([]) + [response]);
    assert NonEmptyLists(p) ==> NonEmptyLists(r) by {
      if NonEmptyLists(p) && key in Keys(p) {
        var i := KeyIndex(p, key);
        assert r == p[i := (key, p[i].1 + [response])];
      }
    }
    r
  }

  /** `save_learning_data` with `writable` telling whether the write succeeds
      (a failed write is reported and swallowed). */
  function Save(e: Engine, writable: bool): (r: Engine)
    ensures r.history == e.history && r.learned == e.learned
    ensures writable ==> r.stored.Saved? && r.stored.doc.learned == e.learned.GetOr([])
                         && |r.stored.doc.conversations| == (if |e.history| < 100 then |e.history| else 100)
                         && r.stored.doc.conversations == e.history[|e.history| - |r.stored.doc.conversations|..]
    ensures !writable ==> r == e
  {
    if writable then e.(stored := Saved(Document(LastN(e.history, 100), e.learned.GetOr([]))))
    else e
  }

  /** `train_with_conversation`, with the clock reading `now`. */
  function Train(e: Engine, input: String, response: String, feedback: Option<String>, now: String, writable: bool): (r: Engine)
    ensures r.history == e.history + [Conversation(Lower(input), response, now, feedback)]
    ensures LongWords(input) == [] ==> r.learned == e.learned
    ensures LongWords(input) != [] ==>
              r.learned.Some?
              && Get(r.learned.value, PatternKey(input)) == Some(Get(e.learned.GetOr([]), PatternKey(input)).GetOr([]) + [response])
              && forall k :: k != PatternKey(input) ==> Get(r.learned.value, k) == Get(e.learned.GetOr([]), k)
    ensures |r.history| % 10 == 0 ==> r == Save(r.(stored := e.stored), writable)
    ensures |r.history| % 10 != 0 ==> r.stored == e.stored
    ensures NonEmptyLists(e.learned.GetOr([])) ==> NonEmptyLists(r.learned.GetOr([]))
  {
    var history := e.history + [Conversation(Lower(input), response, now, feedback)];
    var keywords := LongWords(input);
    var learned :=
      if keywords == [] then e.learned
      else Some(Learn(e.learned.GetOr([]), PatternKey(input), response));
    var r := Engine(history, learned, e.stored);
    if |history| % 10 == 0 then Save(r, writable) else r
  }

  /** `load_learning_data` at start-up: a readable file restores the history and,
      when non-empty, the learned patterns; anything else leaves the engine empty. */
  function Load(stored: Stored): (r: Engine)
    ensures r.stored == stored
    ensures !stored.Saved? ==> r.history == [] && r.learned == None
    ensures stored.Saved? ==> r.history == stored.doc.conversations
                              && (r.learned.Some? <==> stored.doc.learned != [])
                              && (r.learned.Some? ==> r.learned.value == stored.doc.learned)
  {
    match stored
    case Saved(doc) => Engine(doc.conversations, if doc.learned == [] then None else Some(doc.learned), stored)
    case _ => Engine([], None, stored)
  }

  /** Saving and loading keeps the last 100 conversations and every learned pattern. */
  lemma SaveLoadRoundTrip(e: Engine)
    requires e.learned != Some([])
    ensures Load(Save(e, true).stored).history == LastN(e.history, 100)
    ensures Load(Save(e, true).stored).learned == e.learned
  {
  }

  // ---------------------------------------------------------------------------
  // Statistics and the HTTP handlers
  // ---------------------------------------------------------------------------

  datatype Stats = Stats(totalConversations: nat, learnedPatterns: nat, knowledgeCategories: nat, lastConversation: Option<String>)

  /** `get_stats`. */
  function GetStats(e: Engine): (r: Stats)
    ensures r.totalConversations == |e.history|
    ensures r.knowledgeCategories == FixedCategories + (if e.learned.Some? then 1 else 0)
    ensures r.lastConversation.Some? <==> e.history != []
    ensures e.history != [] ==> r.lastConversation.value == e.history[|e.history| - 1].timestamp
    ensures r.learnedPatterns == |e.learned.GetOr([])|
  {
    Stats(|e.history|, |e.learned.GetOr([])|, FixedCategories + (if e.learned.Some? then 1 else 0),
          if e.history == [] then None else Some(e.history[|e.history| - 1].timestamp))
  }

  datatype ChatOutcome =
    | Answered(response: String, confidence: real, source: String, timestamp: String)
    | BadRequest
    | ServerError

  /** `POST /chat`: answer, then learn from the exchange. */
  function Chat(e: Engine, message: String, now: String, pick: nat, writable: bool): (r: (ChatOutcome, Engine))
    ensures message == [] ==> r == (BadRequest, e)
    ensures message != [] && Respond(e, message, pick).Crash? ==> r == (ServerError, e)
    ensures message != [] && Respond(e, message, pick).Reply? ==>
              var reply := Respond(e, message, pick);
              r.0 == Answered(reply.text, reply.confidence, "local_python_ai", now)
              && r.1 == Train(e, message, reply.text, None, now, writable)
  {
    if message == [] then (BadRequest, e)
    else
      match Respond(e, message, pick)
      case Crash => (ServerError, e)
      case Reply(text, confidence) =>
        (Answered(text, confidence, "local_python_ai", now), Train(e, message, text, None, now, writable))
  }

  datatype TrainOutcome = Trained(conversations: nat) | Rejected

  /** `POST /train`: record the pair, then force a save. */
  function TrainHandler(e: Engine, input: String, response: String, feedback: Option<String>, now: String, writable: bool): (r: (TrainOutcome, Engine))
    ensures input == [] || response == [] ==> r == (Rejected, e)
    ensures input != [] && response != [] ==>
              r.1 == Save(Train(e, input, response, feedback, now, writable), writable)
              && r.0 == Trained(|e.history| + 1)
  {
    if input == [] || response == [] then (Rejected, e)
    else
      var t := Train(e, input, response, feedback, now, writable);
      (Trained(|t.history|), Save(t, writable))
  }

  /** `POST /reset`: forget every conversation and pattern and delete the file. */
  function Reset(e: Engine): (r: Engine)
    ensures r.history == [] && r.stored == Missing
    ensures r.learned.Some? <==> e.learned.Some?
    ensures forall k :: Get(r.learned.GetOr([]), k).None?
  {
    Engine([], if e.learned.Some? then Some([]) else None, Missing)
  }

  /** After a reset the statistics report no conversations and no patterns. */
  lemma ResetStats(e: Engine)
    ensures GetStats(Reset(e)).totalConversations == 0
    ensures GetStats(Reset(e)).learnedPatterns == 0
    ensures GetStats(Reset(e)).lastConversation == None
  {
  }

  datatype Export = Export(learned: Option<Patterns>, conversations: seq<Conversation>)

  /** `GET /export`: the knowledge base and the last 50 conversations. */
  function ExportData(e: Engine): (r: Export)
    ensures r.learned == e.learned
    ensures |r.conversations| == if |e.history| < 50 then |e.history| else 50
    ensures r.conversations == e.history[|e.history| - |r.conversations|..]
  {
    Export(e.learned, LastN(e.history, 50))
  }

  // ---------------------------------------------------------------------------
  // What is learned is recalled
  // ---------------------------------------------------------------------------

  /** Each word of `SplitWords(s)` occurs in `s`. */
  lemma {:induction false} SplitWordsOccur(s: String, w: String)
    requires w in SplitWords(s)
    ensures Contains(s, w)
    decreases |s|
  {
    if IsWhiteSpace(s[0]) {
      SplitWordsOccur(s[1..], w);
      ContainsSlice(s, 1, |s|);
      assert s[1..|s|] == s[1..];
      ContainsTrans(s, s[1..], w);
    } else {
      var n := WordLength(s);
      if w == s[..n] {
        ContainsSlice(s, 0, n);
      } else {
        SplitWordsOccur(s[n..], w);
        ContainsSlice(s, n, |s|);
        assert s[n..|s|] == s[n..];
        ContainsTrans(s, s[n..], w);
      }
    }
  }

  /** A word occurring in `s` still occurs in a slice that cuts off only white space. */
  lemma WordInSlice(s: String, w: String, a: int, b: int)
    requires 0 <= a <= b <= |s|
    requires AllWhiteSpace(s[..a]) && AllWhiteSpace(s[b..])
    requires IsWord(w) && Contains(s, w)
    ensures Contains(s[a..b], w)
  {
    var k :| 0 <= k <= |s| - |w| && OccursAt(s, w, k);
    assert s[k] == w[0];
    var last := k + |w| - 1;
    assert s[last] == w[|w| - 1];
    assert forall x :: 0 <= x < |w| ==> s[a..b][k - a + x] == w[x];
    assert s[a..b][k - a..k - a + |w|] == w;
    assert OccursAt(s[a..b], w, k - a);
  }

  /** A word occurring in `s` still occurs once `s` is trimmed. */
  lemma WordSurvivesTrim(s: String, w: String)
    requires IsWord(w) && Contains(s, w)
    ensures Contains(Trim(s), w)
  {
    var t := TrimStart(s);
    WordInSlice(s, w, |s| - |t|, |s|);
    assert s[|s| - |t|..|s|] == t;
    var r := TrimEnd(t);
    WordInSlice(t, w, 0, |r|);
    assert t[0..|r|] == r;
  }

  /** The key learned from an input fits that input. */
  lemma PatternKeyFits(input: String)
    requires LongWords(input) != []
    ensures KeyFits(PatternKey(input), Clean(input))
  {
    var kw := Take(LongWords(input), 3);
    SplitWordsJoin(kw);
    forall i | 0 <= i < |kw|
      ensures Contains(Clean(input), kw[i])
    {
      assert kw[i] in LongWords(input);
      SplitWordsOccur(Lower(input), kw[i]);
      WordSurvivesTrim(Lower(input), kw[i]);
    }
  }

  /** After learning from an input, some learned key fits that input. */
  lemma TrainedKeyFits(e: Engine, input: String, response: String, feedback: Option<String>, now: String, writable: bool)
    requires LongWords(input) != []
    ensures var p := Train(e, input, response, feedback, now, writable).learned.GetOr([]);
            FittingKey(p, Clean(input)) >= 0
  {
    var p := Train(e, input, response, feedback, now, writable).learned.GetOr([]);
    var key := PatternKey(input);
    assert Get(p, key).Some?;
    var i := KeyIndex(p, key);
    PatternKeyFits(input);
    assert KeyFits(p[i].0, Clean(input));
  }

  /** After learning from an input, asking the same input again is answered from
      the question table or from the learned patterns, never by the keyword tier
      or an apology, provided every stored list is non-empty. */
  lemma TrainedInputRecalled(e: Engine, input: String, response: String, feedback: Option<String>,
                             now: String, writable: bool, pick: nat)
    requires LongWords(input) != []
    requires NonEmptyLists(e.learned.GetOr([]))
    ensures var r := Respond(Train(e, input, response, feedback, now, writable), input, pick);
            r.Reply? && r.confidence >= 0.8
  {
    var t := Train(e, input, response, feedback, now, writable);
    var p := t.learned.GetOr([]);
    TrainedKeyFits(e, input, response, feedback, now, writable);
    var l := FittingKey(p, Clean(input));
    assert p[l].1 != [] by { assert NonEmptyLists(p); }
    assert t.learned.Some?;
    var r := Respond(t, input, pick);
    if CommonAnswer(Clean(input)).None? {
      assert r.Crash? <==> t.learned.value[l].1 == [];
      assert r.Reply? && r.confidence == 0.8;
    }
  }

}

=== FILE: move_validator.dfy ===
/** The grid wall check of the second project (AI_Final/QuoridorAI/Assets/Scripts/Utils/MoveValidator.cs).

    `wallGrid[x, y]` is an array of flags, column by column. A step consults exactly one
    cell of it, and the source reads that cell without a bounds check. Here an index
    outside the array is the `None` outcome, which stands for the
    `IndexOutOfRangeException` the runtime raises. */
module MoveValidator {
  import opened Optional
  import opened ChessPlayer
  import opened Numbers

  predicate InGrid(grid: seq<seq<bool>>, c: Cell) {
    0 <= c.x < |grid| && 0 <= c.y < |grid[c.x]|
  }

  /** The cell a unit step consults: right `[x, y+1]`, left `[x-1, y+1]`, up
      `[x+1, y]`, down `[x+1, y-1]`. */
  function Consulted(cur: Cell, target: Cell): Cell {
    if target.x > cur.x then Cell(cur.x, cur.y + 1)
    else if target.x < cur.x then Cell(cur.x - 1, cur.y + 1)
    else if target.y > cur.y then Cell(cur.x + 1, cur.y)
    else Cell(cur.x + 1, cur.y - 1)
  }

  /** `IsValidMove`: `Some(false)` for anything but a unit step; otherwise the negation
      of the consulted flag, or `None` when that index lies outside the grid. */
  function IsValidMove(cur: Cell, target: Cell, grid: seq<seq<bool>>): (r: Option<bool>)
    ensures Abs(target.x - cur.x) + Abs(target.y - cur.y) != 1 ==> r == Some(false)
    ensures Abs(target.x - cur.x) + Abs(target.y - cur.y) == 1 ==>
              var c := Consulted(cur, target);
              r == if InGrid(grid, c) then Some(!grid[c.x][c.y]) else None
  {
    var dx := Abs(target.x - cur.x);
    var dy := Abs(target.y - cur.y);
    if dx + dy != 1 then Some(false)
    else if dx == 1 && dy == 0 then
      if target.x > cur.x then Read(grid, Cell(cur.x, cur.y + 1))
      else Read(grid, Cell(cur.x - 1, cur.y + 1))
    else
      if target.y > cur.y then Read(grid, Cell(cur.x + 1, cur.y))
      else Read(grid, Cell(cur.x + 1, cur.y - 1))
  }

  /** `!wallGrid[c.x, c.y]`, or the exception. */
  function Read(grid: seq<seq<bool>>, c: Cell): (r: Option<bool>) {
    if InGrid(grid, c) then Some(!grid[c.x][c.y]) else None
  }

  /** Crossing an edge consults the same cell in both directions, so the check is
      symmetric: a step is allowed exactly when the step back is. */
  lemma IsValidMoveSymmetric(a: Cell, b: Cell, grid: seq<seq<bool>>)
    ensures IsValidMove(a, b, grid) == IsValidMove(b, a, grid)
  {
    if Abs(b.x - a.x) + Abs(b.y - a.y) == 1 {
      assert Consulted(a, b) == Consulted(b, a);
    }
  }

  /** The four steps out of one square consult four different cells. */
  lemma StepsConsultDistinctCells(cur: Cell, t1: Cell, t2: Cell)
    requires Abs(t1.x - cur.x) + Abs(t1.y - cur.y) == 1 && Abs(t2.x - cur.x) + Abs(t2.y - cur.y) == 1
    requires t1 != t2
    ensures Consulted(cur, t1) != Consulted(cur, t2)
  {
  }

  /** A step left from column 0 reads index -1: the runtime raises. */
  lemma LeftFromEdgeRaises(y: int, grid: seq<seq<bool>>)
    ensures IsValidMove(Cell(0, y), Cell(-1, y), grid) == None
  {
  }
}

=== FILE: numbers.dfy ===
/** Decimal text of integers and booleans, as C# string interpolation writes them
    (`$"{n}"` with the invariant culture, `$"{b}"` giving "True" / "False"),
    together with the parsers that read them back. */
module Numbers {
  import opened Optional
  import opened Strings

  function Abs(n: int): nat {
    if n < 0 then -n else n
  }

  /** `Mathf.Max` / `Math.Max` on floats. */
  function Max(a: real, b: real): real {
    if a >= b then a else b
  }

  function DigitChar(d: int): (c: char)
    requires 0 <= d < 10
    ensures IsDigit(c)
  {
    ('0' as int + d) as char
  }

  function DigitValue(c: char): (d: int)
    requires IsDigit(c)
    ensures 0 <= d < 10 && DigitChar(d) == c
  {
    c as int - '0' as int
  }

  predicate AllDigits(s: String) {
    forall i :: 0 <= i < |s| ==> IsDigit(s[i])
  }

  /** The decimal digits of `n`, most significant first, without leading zeros. */
  function NatToString(n: nat): (r: String)
    ensures |r| > 0 && AllDigits(r)
    ensures |r| > 1 ==> r[0] != '0'
    decreases n
  {
    if n < 10 then [DigitChar(n)]
    else NatToString(n / 10) + [DigitChar(n % 10)]
  }

  /** `int.ToString()`: a minus sign before the digits of a negative number. */
  function IntToString(n: int): (r: String)
    ensures |r| > 0
    ensures n >= 0 <==> AllDigits(r)
    ensures forall i :: 0 < i < |r| ==> IsDigit(r[i])
  {
    if n >= 0 then NatToString(n)
    else
      var d := NatToString(-n);
      assert forall i :: 0 < i < |d| + 1 ==> ("-" + d)[i] == d[i - 1];
      assert ("-" + d)[0] == '-' && !IsDigit('-');
      "-" + d
  }

  /** The value of a non-empty digit string. */
  function DigitsValue(s: String): (n: nat)
    requires AllDigits(s)
    decreases |s|
  {
    if |s| == 0 then 0
    else DigitsValue(s[..|s| - 1]) * 10 + DigitValue(s[|s| - 1])
  }

  /** `int.Parse` restricted to what `IntToString` writes: an optional minus sign and digits. */
  function ParseInt(s: String): (r: Option<int>)
    ensures r.Some? ==> |s| > 0
  {
    if |s| > 0 && AllDigits(s) then Some(DigitsValue(s))
    else if |s| > 1 && s[0] == '-' && AllDigits(s[1..]) then
      var v: int := DigitsValue(s[1..]);
      Some(-v)
    else None
  }

  lemma {:induction false} DigitsValueOfNat(n: nat)
    ensures DigitsValue(NatToString(n)) == n
    decreases n
  {
    if n >= 10 {
      var s := NatToString(n);
      assert s[..|s| - 1] == NatToString(n / 10);
      DigitsValueOfNat(n / 10);
    }
  }

  /** Reading back what `IntToString` writes gives the number. */
  lemma ParseIntToString(n: int)
    ensures ParseInt(IntToString(n)) == Some(n)
  {
    if n >= 0 {
      DigitsValueOfNat(n);
    } else {
      var s := IntToString(n);
      assert s[1..] == NatToString(-n);
      assert !IsDigit(s[0]);
      DigitsValueOfNat(-n);
    }
  }

  /** Different numbers are written differently. */
  lemma IntToStringInjective(a: int, b: int)
    requires IntToString(a) == IntToString(b)
    ensures a == b
  {
    ParseIntToString(a);
    ParseIntToString(b);
  }

  /** `bool.ToString()`. */
  function BoolToString(b: bool): (r: String)
    ensures |r| > 0 && !IsDigit(r[0]) && r[0] != '-'
  {
    if b then "True" else "False"
  }

  function ParseBool(s: String): (r: Option<bool>) {
    if s == "True" then Some(true) else if s == "False" then Some(false) else None
  }

  lemma ParseBoolToString(b: bool)
    ensures ParseBool(BoolToString(b)) == Some(b)
  {
  }
}

=== FILE: optional.dfy ===
/** The Option type used wherever the source returns `null`/`None` for "no value". */
module Optional {

  /** `None` stands for the source's null (C#) or None (Python) result. */
  datatype Option<+T> = None | Some(value: T) {

    /** The wrapped value, or `default` when there is none. */
    function GetOr(default: T): T {
      match this
      case Some(v) => v
      case None => default
    }
  }
}

=== FILE: path_search.dfy ===
/** The A* search the game manager uses for the AI's route (`FindPathToGoal`,
    `ReconstructPath` and `GetNeighbors` in AI_Final/Assets/scripts/GameManager.cs).

    The open list keeps the code's order, the next node is the first one of least
    f-cost (LINQ `OrderBy` is stable), and a node already open keeps the f-cost it
    was added with even when a shorter route to it is found. Costs are integers:
    every step costs 1 and the heuristic is the Manhattan distance, so the float
    arithmetic of the source is exact here. */
module PathSearch {
  import opened Optional
  import opened QuoridorRules
  import opened GameManager

  datatype Node = Node(pos: Pos, g: int, f: int)

  /** The search's collections: `openSet`, `closedSet`, `cameFrom`, `gScore`. */
  datatype Search = Search(open: seq<Node>, closed: set<Pos>, cameFrom: map<Pos, Pos>, gScore: map<Pos, int>)

  function Heuristic(a: Pos, b: Pos): int {
    Manhattan(a, b)
  }

  /** The index of the first node of least f-cost. */
  function FirstCheapest(open: seq<Node>): (i: nat)
    requires |open| > 0
    ensures i < |open|
    ensures forall k :: 0 <= k < |open| ==> open[i].f <= open[k].f
    ensures forall k :: 0 <= k < i ==> open[k].f > open[i].f
  {
    if |open| == 1 then 0
    else
      var j := FirstCheapest(open[1..]) + 1;
      if open[0].f <= open[j].f then 0 else j
  }

  predicate OnGrid(p: Pos) {
    0 <= p.x < 9 && 0 <= p.y < 9
  }

  /** Every square of the board, column by column. */
  function Cells(): (r: seq<Pos>)
    ensures forall p :: OnGrid(p) ==> p in r
  {
    var cells := seq(81, i => Pos(i / 9, i % 9));
    assert forall p :: OnGrid(p) ==> cells[p.x * 9 + p.y] == p;
    cells
  }

  /** How many of `cells` are not yet closed. */
  function CountOutside(cells: seq<Pos>, closed: set<Pos>): nat {
    if |cells| == 0 then 0 else (if cells[0] in closed then 0 else 1) + CountOutside(cells[1..], closed)
  }

  /** Closing a square never raises the count, and closing one of `cells` lowers it. */
  lemma {:induction false} CloseLowersCount(cells: seq<Pos>, closed: set<Pos>, p: Pos)
    requires p !in closed
    ensures CountOutside(cells, closed + {p}) <= CountOutside(cells, closed)
    ensures p in cells ==> CountOutside(cells, closed + {p}) < CountOutside(cells, closed)
    decreases |cells|
  {
    if |cells| > 0 {
      CloseLowersCount(cells[1..], closed, p);
      if p in cells && cells[0] != p {
        assert p in cells[1..];
      }
    }
  }

  /** The loop's progress measure: unclosed squares, plus one while the start (which
      may lie off the board) is still unclosed. */
  function Remaining(s: Search, start: Pos): nat {
    CountOutside(Cells(), s.closed) + (if start in s.closed then 0 else 1)
  }

  predicate Distinct(open: seq<Node>) {
    forall i, j :: 0 <= i < j < |open| ==> open[i].pos != open[j].pos
  }

  predicate Step(a: Pos, b: Pos, player1: Option<Pos>, blocked: (Pos, Pos) -> bool) {
    IsValidAIMove(a, b, player1, blocked)
  }

  /** What the search keeps true, with `rank` the order in which squares were closed
      (all ranks below `bound`):
      - open squares are not closed, appear once, have a g-score, and are the start
        or have a predecessor; every open square is on the board or the start;
      - a predecessor is closed, reaches its square in one valid AI step, and was
        closed before it; the start has no predecessor;
      - a closed square is the start or has a predecessor;
      - nothing is closed before the start, which is the only open square then. */
  ghost predicate Inv(s: Search, rank: map<Pos, nat>, bound: nat, start: Pos, goal: Pos,
                      player1: Option<Pos>, blocked: (Pos, Pos) -> bool) {
    OpenOk(s, start) && RanksOk(s, rank, bound) && LinksOk(s, rank, start, player1, blocked)
    && (start in s.closed || (s.closed == {} && s.cameFrom == map[] && |s.open| == 1 && s.open[0].pos == start))
  }

  ghost predicate OpenOk(s: Search, start: Pos) {
    Distinct(s.open)
    && forall n :: n in s.open ==> n.pos !in s.closed && n.pos in s.gScore
                                   && (n.pos == start || n.pos in s.cameFrom)
                                   && (n.pos == start || OnGrid(n.pos))
  }

  ghost predicate RanksOk(s: Search, rank: map<Pos, nat>, bound: nat) {
    s.closed == rank.Keys && forall c :: c in rank ==> rank[c] < bound
  }

  ghost predicate LinksOk(s: Search, rank: map<Pos, nat>, start: Pos,
                          player1: Option<Pos>, blocked: (Pos, Pos) -> bool)
    requires s.closed == rank.Keys
  {
    (forall c :: c in s.closed ==> c == start || c in s.cameFrom)
    && forall n {:trigger s.cameFrom[n]} :: n in s.cameFrom ==>
         n != start && s.cameFrom[n] in s.closed && Step(s.cameFrom[n], n, player1, blocked)
         && (n in s.closed ==> rank[s.cameFrom[n]] < rank[n])
  }

  /** `List.Remove` of the node at `i`. */
  function RemoveAt(open: seq<Node>, i: nat): (r: seq<Node>)
    requires i < |open| && Distinct(open)
    ensures Distinct(r)
    ensures forall n :: n in r ==> n in open && n.pos != open[i].pos
    ensures |r| == |open| - 1
  {
    var r := open[..i] + open[i + 1..];
    assert forall k :: 0 <= k < |r| ==> r[k] == (if k < i then open[k] else open[k + 1]);
    r
  }

  /** A shorter route to `nb` through `current`: new predecessor and g-score, and
      the node is added to the open list unless its square is already there. */
  function Improve(r: Search, current: Pos, nb: Pos, tentative: int, f: int): Search {
    var present := exists k :: 0 <= k < |r.open| && r.open[k].pos == nb;
    var open := if present then r.open else r.open + [Node(nb, tentative, f)];
    Search(open, r.closed, r.cameFrom[nb := current], r.gScore[nb := tentative])
  }

  lemma ImproveKeepsInv(r: Search, current: Pos, nb: Pos, tentative: int, f: int,
                        rank: map<Pos, nat>, bound: nat, start: Pos, goal: Pos,
                        player1: Option<Pos>, blocked: (Pos, Pos) -> bool)
    requires Inv(r, rank, bound, start, goal, player1, blocked)
    requires current in r.closed && start in r.closed && nb !in r.closed && OnGrid(nb)
    requires Step(current, nb, player1, blocked)
    ensures Inv(Improve(r, current, nb, tentative, f), rank, bound, start, goal, player1, blocked)
  {
    ImproveKeepsOpen(r, current, nb, tentative, f, start);
    var q := Improve(r, current, nb, tentative, f);
    assert forall c :: c in q.closed ==> c == start || c in q.cameFrom;
    assert forall n :: n in q.cameFrom ==>
             n != start && q.cameFrom[n] in q.closed && Step(q.cameFrom[n], n, player1, blocked)
             && (n in q.closed ==> rank[q.cameFrom[n]] < rank[n]);
  }

  /** The open list stays well formed when a route to an unclosed square improves. */
  lemma ImproveKeepsOpen(r: Search, current: Pos, nb: Pos, tentative: int, f: int, start: Pos)
    requires OpenOk(r, start)
    requires start in r.closed && nb !in r.closed && OnGrid(nb)
    ensures OpenOk(Improve(r, current, nb, tentative, f), start)
  {
    var q := Improve(r, current, nb, tentative, f);
    var present := exists k :: 0 <= k < |r.open| && r.open[k].pos == nb;
    if !present {
      assert q.open == r.open + [Node(nb, tentative, f)];
      assert forall k :: 0 <= k < |r.open| ==> r.open[k].pos != nb;
      assert Distinct(q.open);
    }
    assert forall n :: n in q.open ==> n in r.open || n == Node(nb, tentative, f);
    assert nb != start;
  }

  /** The neighbour loop for the node `current` just closed. */
  method Relax(s: Search, current: Pos, neighbors: seq<Pos>, goal: Pos,
               player1: Option<Pos>, blocked: (Pos, Pos) -> bool,
               ghost rank: map<Pos, nat>, ghost bound: nat, ghost start: Pos)
    returns (r: Search)
    requires Inv(s, rank, bound, start, goal, player1, blocked)
    requires current in s.closed && current in s.gScore && start in s.closed
    requires forall q :: q in neighbors ==> OnGrid(q)
    ensures Inv(r, rank, bound, start, goal, player1, blocked)
    ensures r.closed == s.closed
  {
    r := s;
    var j := 0;
    while j < |neighbors|
      invariant 0 <= j <= |neighbors|
      invariant Inv(r, rank, bound, start, goal, player1, blocked)
      invariant r.closed == s.closed && current in r.gScore
    {
      var nb := neighbors[j];
      if nb !in r.closed && IsValidAIMove(current, nb, player1, blocked) {
        var tentative := r.gScore[current] + 1;
        if nb !in r.gScore || tentative < r.gScore[nb] {
          var f := tentative + Heuristic(nb, goal);
          ImproveKeepsInv(r, current, nb, tentative, f, rank, bound, start, goal, player1, blocked);
          r := Improve(r, current, nb, tentative, f);
        }
      }
      j := j + 1;
    }
  }

  /** Closing the cheapest open node: it leaves the open list and gets the next rank. */
  lemma CloseKeepsInv(s: Search, i: nat, rank: map<Pos, nat>, bound: nat, start: Pos, goal: Pos,
                      player1: Option<Pos>, blocked: (Pos, Pos) -> bool)
    requires Inv(s, rank, bound, start, goal, player1, blocked) && i < |s.open|
    ensures var p := s.open[i].pos;
            Inv(s.(open := RemoveAt(s.open, i), closed := s.closed + {p}), rank[p := bound], bound + 1,
                start, goal, player1, blocked)
  {
    var p := s.open[i].pos;
    var q := s.(open := RemoveAt(s.open, i), closed := s.closed + {p});
    var rank' := rank[p := bound];
    assert s.open[i] in s.open;
    assert p !in s.closed;
    assert OpenOk(q, start);
    assert RanksOk(q, rank', bound + 1);
    assert LinksOk(q, rank', start, player1, blocked) by {
      forall n | n in q.cameFrom && n in q.closed
        ensures rank'[q.cameFrom[n]] < rank'[n]
      {
        if n != p {
          assert rank'[n] == rank[n] && rank'[q.cameFrom[n]] == rank[q.cameFrom[n]];
        }
      }
    }
  }

  /** What one predecessor link gives: a closed predecessor one step away, ranked
      below the square when that is closed too. */
  lemma LinkFacts(s: Search, rank: map<Pos, nat>, bound: nat, start: Pos, goal: Pos,
                  player1: Option<Pos>, blocked: (Pos, Pos) -> bool, n: Pos)
    requires Inv(s, rank, bound, start, goal, player1, blocked) && n in s.cameFrom
    ensures n != start && s.cameFrom[n] in s.closed && s.cameFrom[n] in rank && rank[s.cameFrom[n]] < bound
    ensures Step(s.cameFrom[n], n, player1, blocked)
    ensures n in s.closed ==> n in rank && rank[s.cameFrom[n]] < rank[n]
  {
  }

  /** `ReconstructPath`: follow the predecessors back from `goal`. */
  method ReconstructPath(cameFrom: map<Pos, Pos>, goal: Pos,
                         ghost s: Search, ghost rank: map<Pos, nat>, ghost bound: nat, ghost start: Pos,
                         player1: Option<Pos>, blocked: (Pos, Pos) -> bool)
    returns (path: seq<Pos>)
    requires Inv(s, rank, bound, start, goal, player1, blocked) && cameFrom == s.cameFrom
    requires goal !in s.closed && (goal == start || goal in cameFrom)
    ensures |path| >= 1 && path[0] == start && path[|path| - 1] == goal
    ensures forall i :: 0 <= i < |path| - 1 ==> IsValidAIMove(path[i], path[i + 1], player1, blocked)
    ensures goal !in cameFrom ==> path == [goal]
  {
    var current := goal;
    path := [current];
    while current in cameFrom
      invariant |path| >= 1 && path[0] == current && path[|path| - 1] == goal
      invariant forall i :: 0 <= i < |path| - 1 ==> Step(path[i], path[i + 1], player1, blocked)
      invariant current == goal || current in s.closed
      invariant current == goal ==> |path| == 1
      invariant current in s.closed ==> current in rank
      decreases if current in s.closed then rank[current] else bound
    {
      var prev := cameFrom[current];
      LinkFacts(s, rank, bound, start, goal, player1, blocked, current);
      path := [prev] + path;
      current := prev;
    }
    assert current == start by {
      if current != goal {
        assert current in s.closed;
        assert current == start || current in s.cameFrom by { assert LinksOk(s, rank, start, player1, blocked); }
      }
    }
  }

  /** An open node is unclosed, reached, and on the board unless it is the start. */
  lemma OpenFacts(s: Search, rank: map<Pos, nat>, bound: nat, start: Pos, goal: Pos,
                  player1: Option<Pos>, blocked: (Pos, Pos) -> bool, i: nat)
    requires Inv(s, rank, bound, start, goal, player1, blocked) && i < |s.open|
    ensures s.open[i].pos !in s.closed
    ensures s.open[i].pos == start || (s.open[i].pos in s.cameFrom && OnGrid(s.open[i].pos))
    ensures start !in s.closed ==> s.cameFrom == map[]
    ensures s.open[i].pos in s.gScore
  {
    assert s.open[i] in s.open;
  }

  /** Closing an unclosed square of the board, or the start, lowers the measure. */
  lemma CloseLowersRemaining(s: Search, start: Pos, p: Pos)
    requires p !in s.closed && (p == start || OnGrid(p))
    ensures Remaining(s.(closed := s.closed + {p}), start) < Remaining(s, start)
  {
    CloseLowersCount(Cells(), s.closed, p);
  }

  /** The search after closing the open node at `i`. */
  function CloseAt(s: Search, i: nat): (r: Search)
    requires i < |s.open| && Distinct(s.open)
    ensures r.closed == s.closed + {s.open[i].pos} && r.cameFrom == s.cameFrom && r.gScore == s.gScore
    ensures forall n :: n in r.open ==> n in s.open && n.pos != s.open[i].pos
    ensures |r.open| == |s.open| - 1
  {
    s.(open := RemoveAt(s.open, i), closed := s.closed + {s.open[i].pos})
  }

  /** Closing an open node other than the goal keeps the invariant, lowers the
      measure, and leaves the closed square and the start ready for relaxing. */
  lemma CloseStep(s: Search, i: nat, rank: map<Pos, nat>, bound: nat, start: Pos, goal: Pos,
                  player1: Option<Pos>, blocked: (Pos, Pos) -> bool)
    requires Inv(s, rank, bound, start, goal, player1, blocked) && i < |s.open|
    requires s.open[i].pos != goal
    requires start == goal ==> start !in s.closed
    ensures var p := s.open[i].pos;
            var q := CloseAt(s, i);
            Inv(q, rank[p := bound], bound + 1, start, goal, player1, blocked)
            && Remaining(q, start) < Remaining(s, start)
            && p in q.closed && p in q.gScore && start in q.closed
            && (start == goal ==> start !in q.closed)
  {
    var p := s.open[i].pos;
    OpenFacts(s, rank, bound, start, goal, player1, blocked, i);
    CloseLowersRemaining(s, start, p);
    CloseKeepsInv(s, i, rank, bound, start, goal, player1, blocked);
    if start !in s.closed {
      assert s.open[i] == s.open[0];
    }
  }

  /** One round of the search loop past the goal test: close the cheapest node and
      relax its neighbours. */
  method Expand(s: Search, i: nat, goal: Pos, player1: Option<Pos>, blocked: (Pos, Pos) -> bool,
                ghost rank: map<Pos, nat>, ghost bound: nat, ghost start: Pos)
    returns (r: Search, ghost rank': map<Pos, nat>, ghost bound': nat)
    requires Inv(s, rank, bound, start, goal, player1, blocked) && i < |s.open|
    requires s.open[i].pos != goal
    requires start == goal ==> start !in s.closed
    ensures Inv(r, rank', bound', start, goal, player1, blocked)
    ensures Remaining(r, start) < Remaining(s, start)
    ensures start == goal ==> start !in r.closed
  {
    var current := s.open[i].pos;
    CloseStep(s, i, rank, bound, start, goal, player1, blocked);
    r := CloseAt(s, i);
    rank' := rank[current := bound];
    bound' := bound + 1;
    r := Relax(r, current, GetNeighbors(current), goal, player1, blocked, rank', bound', start);
  }

  /** The search before the first step: the start alone is open. */
  lemma InitialInv(s: Search, start: Pos, goal: Pos, player1: Option<Pos>, blocked: (Pos, Pos) -> bool)
    requires s == Search([Node(start, 0, Heuristic(start, goal))], {}, map[], map[start := 0])
    ensures Inv(s, map[], 0, start, goal, player1, blocked) && start !in s.closed
  {
  }

  /** The path to the open square at `i`, when that square is the goal. */
  method PathToOpen(s: Search, i: nat, goal: Pos, player1: Option<Pos>, blocked: (Pos, Pos) -> bool,
                    ghost rank: map<Pos, nat>, ghost bound: nat, ghost start: Pos)
    returns (path: seq<Pos>)
    requires Inv(s, rank, bound, start, goal, player1, blocked) && i < |s.open| && s.open[i].pos == goal
    requires start == goal ==> start !in s.closed
    ensures |path| >= 1 && path[0] == start && path[|path| - 1] == goal
    ensures forall k :: 0 <= k < |path| - 1 ==> IsValidAIMove(path[k], path[k + 1], player1, blocked)
    ensures start == goal ==> path == [start]
  {
    OpenFacts(s, rank, bound, start, goal, player1, blocked, i);
    path := ReconstructPath(s.cameFrom, goal, s, rank, bound, start, player1, blocked);
  }

  /** `FindPathToGoal`: a returned path runs from the start to the goal in valid AI
      steps; asking for the square one stands on gives that square alone. */
  method FindPathToGoal(start: Pos, goal: Pos, player1: Option<Pos>, blocked: (Pos, Pos) -> bool)
    returns (r: Option<seq<Pos>>)
    ensures r.Some? ==> |r.value| >= 1 && r.value[0] == start && r.value[|r.value| - 1] == goal
    ensures r.Some? ==> forall i :: 0 <= i < |r.value| - 1 ==> IsValidAIMove(r.value[i], r.value[i + 1], player1, blocked)
    ensures start == goal ==> r == Some([start])
  {
    var s := Search([Node(start, 0, Heuristic(start, goal))], {}, map[], map[start := 0]);
    ghost var rank: map<Pos, nat> := map[];
    ghost var bound: nat := 0;
    InitialInv(s, start, goal, player1, blocked);
    while |s.open| > 0
      invariant Inv(s, rank, bound, start, goal, player1, blocked)
      invariant start == goal ==> start !in s.closed
      decreases Remaining(s, start)
    {
      var i := FirstCheapest(s.open);
      var current := s.open[i].pos;
      if current == goal {
        var path := PathToOpen(s, i, goal, player1, blocked, rank, bound, start);
        return Some(path);
      }
      s, rank, bound := Expand(s, i, goal, player1, blocked, rank, bound, start);
    }
    return None;
  }
}

=== FILE: qlearning.dfy ===
/** The tabular Q-learning agent (AI_Final/Assets/scripts/QLearningAgent.cs): the
    string keys of states and actions, the epsilon-greedy choice, the Q update, the
    epsilon schedule, and the parallel-list form in which the table is saved. */
module QLearning {
  import opened Optional
  import opened Strings
  import opened Numbers
  import opened Dicts
  import opened Seqs
  import opened QuoridorRules

  // ---------------------------------------------------------------------------
  // State and action keys
  // ---------------------------------------------------------------------------

  /** `"{x},{y}"`. */
  function PairText(p: Pos): String {
    IntToString(p.x) + "," + IntToString(p.y)
  }

  /** `"{x},{z},{isHorizontal}"`; wall coordinates are whole numbers, which C#
      writes without a decimal part. */
  function WallText(w: WallInfo): String {
    IntToString(w.x) + "," + IntToString(w.z) + "," + BoolToString(w.horizontal)
  }

  function WallTexts(walls: seq<WallInfo>): (r: seq<String>)
    ensures |r| == |walls|
    ensures forall i :: 0 <= i < |walls| ==> r[i] == WallText(walls[i])
  {
    seq(|walls|, i requires 0 <= i < |walls| => WallText(walls[i]))
  }

  /** `EncodeState`: "ax,ay-hx,hy-aiWalls-humanWalls-" then the walls joined by "|". */
  function EncodeState(s: GameState): String {
    PairText(s.aiPosition) + "-" + PairText(s.humanPosition) + "-" + IntToString(s.aiWallsLeft) + "-"
      + IntToString(s.humanWallsLeft) + "-" + Join(WallTexts(s.placedWalls), "|")
  }

  /** `EncodeAction`: "M:x,y" for a step, "W:x,y,True|False" for a wall. */
  function EncodeAction(m: AIMove): (r: String)
    ensures |r| > 2 && r[1] == ':'
    ensures r[0] == 'M' <==> m.moveType == Movement
    ensures r[0] == 'W' <==> m.moveType == WallPlacement
  {
    var body := if m.moveType == Movement then PairText(m.target)
                else PairText(m.target) + "," + BoolToString(m.horizontal);
    (if m.moveType == Movement then "M:" else "W:") + body
  }

  function ParsePair(t: String): Option<Pos> {
    var ps := Split(t, ',');
    if |ps| != 2 then None
    else match (ParseInt(ps[0]), ParseInt(ps[1]))
      case (Some(x), Some(y)) => Some(Pos(x, y))
      case _ => None
  }

  function ParseWall(t: String): Option<WallInfo> {
    var ps := Split(t, ',');
    if |ps| != 3 then None
    else match (ParseInt(ps[0]), ParseInt(ps[1]), ParseBool(ps[2]))
      case (Some(x), Some(z), Some(h)) => Some(WallInfo(x, z, h))
      case _ => None
  }

  function ParseWallList(ts: seq<String>): Option<seq<WallInfo>> {
    if ts == [] then Some([])
    else match (ParseWall(ts[0]), ParseWallList(ts[1..]))
      case (Some(w), Some(ws)) => Some([w] + ws)
      case _ => None
  }

  /** The inverse of `EncodeState` on states with no negative number. */
  function DecodeState(t: String): Option<GameState> {
    var parts := Split(t, '-');
    if |parts| != 5 then None
    else
      var walls := if parts[4] == [] then Some([]) else ParseWallList(Split(parts[4], '|'));
      match (ParsePair(parts[0]), ParsePair(parts[1]), ParseInt(parts[2]), ParseInt(parts[3]), walls)
      case (Some(a), Some(h), Some(aw), Some(hw), Some(ws)) => Some(GameState(a, h, ws, aw, hw))
      case _ => None
  }

  /** The inverse of `EncodeAction`. */
  function DecodeAction(t: String): Option<AIMove> {
    if |t| < 2 then None
    else if t[..2] == "M:" then
      match ParsePair(t[2..])
      case Some(p) => Some(AIMove(Movement, p, false))
      case None => None
    else if t[..2] == "W:" then
      var ps := Split(t[2..], ',');
      if |ps| != 3 then None
      else match (ParseInt(ps[0]), ParseInt(ps[1]), ParseBool(ps[2]))
        case (Some(x), Some(y), Some(h)) => Some(AIMove(WallPlacement, Pos(x, y), h))
        case _ => None
    else None
  }

  /** A move as the generator builds it: a step carries no orientation. */
  predicate Canonical(m: AIMove) {
    m.moveType == Movement ==> !m.horizontal
  }

  predicate NonNegative(s: GameState) {
    s.aiPosition.x >= 0 && s.aiPosition.y >= 0 && s.humanPosition.x >= 0 && s.humanPosition.y >= 0
    && s.aiWallsLeft >= 0 && s.humanWallsLeft >= 0
    && forall i :: 0 <= i < |s.placedWalls| ==> s.placedWalls[i].x >= 0 && s.placedWalls[i].z >= 0
  }

  lemma NumberAvoids(n: int, c: char)
    requires !IsDigit(c) && c != '-'
    ensures c !in IntToString(n)
  {
  }

  lemma NatAvoidsMinus(n: int)
    requires n >= 0
    ensures '-' !in IntToString(n)
  {
  }

  lemma {:induction false} ParsePairText(p: Pos)
    ensures ParsePair(PairText(p)) == Some(p)
  {
    var x, y := IntToString(p.x), IntToString(p.y);
    NumberAvoids(p.x, ',');
    NumberAvoids(p.y, ',');
    assert PairText(p) == Join([x, y], ",");
    SplitJoin([x, y], ',');
    ParseIntToString(p.x);
    ParseIntToString(p.y);
  }

  lemma {:induction false} ParseWallText(w: WallInfo)
    ensures ParseWall(WallText(w)) == Some(w)
  {
    var x, z, h := IntToString(w.x), IntToString(w.z), BoolToString(w.horizontal);
    NumberAvoids(w.x, ',');
    NumberAvoids(w.z, ',');
    assert [x, z, h][1..] == [z, h];
    assert WallText(w) == Join([x, z, h], ",");
    SplitJoin([x, z, h], ',');
    ParseIntToString(w.x);
    ParseIntToString(w.z);
    ParseBoolToString(w.horizontal);
  }

  lemma {:induction false} ParseWallTexts(walls: seq<WallInfo>)
    ensures ParseWallList(WallTexts(walls)) == Some(walls)
  {
    if walls != [] {
      ParseWallText(walls[0]);
      assert WallTexts(walls)[1..] == WallTexts(walls[1..]);
      ParseWallTexts(walls[1..]);
      assert walls == [walls[0]] + walls[1..];
    }
  }

  /** The walls part of a state key reads back as the wall list. */
  lemma WallsPartRoundTrip(walls: seq<WallInfo>)
    ensures var t := Join(WallTexts(walls), "|");
            (if t == [] then Some([]) else ParseWallList(Split(t, '|'))) == Some(walls)
  {
    var ts := WallTexts(walls);
    var t := Join(ts, "|");
    forall i | 0 <= i < |ts| ensures '|' !in ts[i] {
      NumberAvoids(walls[i].x, '|');
      NumberAvoids(walls[i].z, '|');
    }
    if walls == [] {
      assert t == [];
    } else {
      assert |ts| == 1 ==> t == ts[0];
      assert |ts| > 1 ==> t == ts[0] + "|" + Join(ts[1..], "|");
      assert t != [];
      SplitJoin(ts, '|');
      ParseWallTexts(walls);
    }
  }

  /** The five "-"-separated parts of a state key. */
  function StateParts(s: GameState): (r: seq<String>)
    ensures |r| == 5
  {
    [PairText(s.aiPosition), PairText(s.humanPosition), IntToString(s.aiWallsLeft),
     IntToString(s.humanWallsLeft), Join(WallTexts(s.placedWalls), "|")]
  }

  lemma StateKeyIsJoin(s: GameState)
    ensures EncodeState(s) == Join(StateParts(s), "-")
  {
    var p := StateParts(s);
    JoinFive(p[0], p[1], p[2], p[3], p[4], "-");
    assert p == [p[0], p[1], p[2], p[3], p[4]];
  }

  /** Five parts joined with a separator. */
  lemma JoinFive(a: String, b: String, c: String, d: String, e: String, sep: String)
    ensures Join([a, b, c, d, e], sep) == a + sep + b + sep + c + sep + d + sep + e
  {
    var p := [a, b, c, d, e];
    assert p[3..][1..] == [e];
    assert p[2..][1..] == p[3..];
    assert p[1..][1..] == p[2..];
    var j3 := d + sep + e;
    assert Join(p[3..], sep) == j3;
    var j2 := c + sep + j3;
    assert Join(p[2..], sep) == j2;
    var j1 := b + sep + j2;
    assert Join(p[1..], sep) == j1;
    assert Join(p, sep) == a + sep + j1;
  }

  lemma StatePartsAvoidMinus(s: GameState)
    requires NonNegative(s)
    ensures forall i :: 0 <= i < 5 ==> '-' !in StateParts(s)[i]
  {
    NatAvoidsMinus(s.aiPosition.x);
    NatAvoidsMinus(s.aiPosition.y);
    NatAvoidsMinus(s.humanPosition.x);
    NatAvoidsMinus(s.humanPosition.y);
    NatAvoidsMinus(s.aiWallsLeft);
    NatAvoidsMinus(s.humanWallsLeft);
    forall i | 0 <= i < |s.placedWalls| ensures '-' !in WallTexts(s.placedWalls)[i] {
      NatAvoidsMinus(s.placedWalls[i].x);
      NatAvoidsMinus(s.placedWalls[i].z);
    }
    JoinAvoids(WallTexts(s.placedWalls), "|", '-');
  }

  /** Decoding a state key gives the state back, so different states (without
      negative numbers) never share a Q-table row. */
  lemma DecodeEncodeState(s: GameState)
    requires NonNegative(s)
    ensures DecodeState(EncodeState(s)) == Some(s)
  {
    var parts := StateParts(s);
    StateKeyIsJoin(s);
    StatePartsAvoidMinus(s);
    SplitJoin(parts, '-');
    assert Split(EncodeState(s), '-') == parts;
    ParsePairText(s.aiPosition);
    ParsePairText(s.humanPosition);
    ParseIntToString(s.aiWallsLeft);
    ParseIntToString(s.humanWallsLeft);
    WallsPartRoundTrip(s.placedWalls);
  }

  lemma EncodeStateInjective(s: GameState, s': GameState)
    requires NonNegative(s) && NonNegative(s')
    requires EncodeState(s) == EncodeState(s')
    ensures s == s'
  {
    DecodeEncodeState(s);
    DecodeEncodeState(s');
  }

  /** Decoding an action key gives the move back. */
  lemma DecodeEncodeAction(m: AIMove)
    requires Canonical(m)
    ensures DecodeAction(EncodeAction(m)) == Some(m)
  {
    var t := EncodeAction(m);
    assert t[2..] == if m.moveType == Movement then PairText(m.target)
                     else PairText(m.target) + "," + BoolToString(m.horizontal);
    if m.moveType == Movement {
      assert t[..2] == "M:";
      ParsePairText(m.target);
    } else {
      assert t[..2] == "W:";
      ParseWallText(WallInfo(m.target.x, m.target.y, m.horizontal));
    }
  }

  /** Two generated moves share a Q-table column only if they are the same move;
      in particular a step code never equals a wall code. */
  lemma EncodeActionInjective(m: AIMove, m': AIMove)
    requires Canonical(m) && Canonical(m')
    requires EncodeAction(m) == EncodeAction(m')
    ensures m == m'
  {
    DecodeEncodeAction(m);
    DecodeEncodeAction(m');
  }

  // ---------------------------------------------------------------------------
  // The agent
  // ---------------------------------------------------------------------------

  /** state key -> (action key -> value). */
  type QTable = Dict<String, Dict<String, real>>

  const Alpha: real := 0.1
  const Gamma: real := 0.9

  datatype Agent = Agent(qTable: QTable, epsilon: real, initialEpsilon: real, minEpsilon: real,
                         epsilonDecayRate: real, decaySteps: int, currentStep: int, currentEpisode: int)

  /** A fresh agent with the field initialisers of the class. */
  const NewAgent: Agent := Agent([], 1.0, 1.0, 0.01, 0.995, 1000, 0, 0)

  /** The stored value of action `a` in state `s`. */
  function QValue(t: QTable, s: String, a: String): Option<real> {
    match Get(t, s)
    case None => None
    case Some(row) => Get(row, a)
  }

  /** Every row is a well-formed dictionary, and so is the table. */
  predicate WellFormed(t: QTable) {
    Valid(t) && forall i :: 0 <= i < |t| ==> Valid(t[i].1)
  }

  /** `QTable[s][a] = v`, creating the row when it is missing. */
  function SetQ(t: QTable, s: String, a: String, v: real): (r: QTable)
    ensures WellFormed(t) ==> WellFormed(r)
  {
    var row := Get(t, s).GetOr([]);
    assert WellFormed(t) ==> Valid(row) by {
      if WellFormed(t) && s in Keys(t) {
        var i := KeyIndex(t, s);
        assert row == t[i].1;
      }
    }
    var r := Put(t, s, Put(row, a, v));
    assert WellFormed(t) ==> WellFormed(r) by {
      if WellFormed(t) {
        forall i | 0 <= i < |r| ensures Valid(r[i].1) {
          if r[i].0 != s {
            assert r[i] in t;
            var j :| 0 <= j < |t| && t[j] == r[i];
          }
        }
      }
    }
    r
  }

  lemma SetQEffect(t: QTable, s: String, a: String, v: real)
    ensures QValue(SetQ(t, s, a, v), s, a) == Some(v)
    ensures forall s', a' :: s' != s || a' != a ==> QValue(SetQ(t, s, a, v), s', a') == QValue(t, s', a')
  {
    var row := Get(t, s).GetOr([]);
    PutGet(t, s, Put(row, a, v));
    PutGet(row, a, v);
  }

  /** `Max()` of the values with `DefaultIfEmpty(0)`. */
  function MaxOrZero(vs: seq<real>): (r: real)
    ensures vs == [] ==> r == 0.0
    ensures vs != [] ==> r in vs && forall i :: 0 <= i < |vs| ==> vs[i] <= r
  {
    if vs == [] then 0.0
    else
      var m := MaxOrZero(vs[1..]);
      if |vs| == 1 || vs[0] >= m then vs[0] else m
  }

  /** The bootstrap term of `UpdateQ` for the next state's key `sNext`: 0 when there are
      no next moves or the state is unseen, else the row's largest value. */
  function MaxQNext(t: QTable, sNext: String, hasNextMoves: bool): (r: real)
    ensures !hasNextMoves || Get(t, sNext).None? ==> r == 0.0
  {
    if hasNextMoves && Get(t, sNext).Some? then MaxOrZero(Values(Get(t, sNext).value))
    else 0.0
  }

  /** Otherwise the bootstrap term is the largest value stored for the next state
      (0 for a row without actions). */
  lemma MaxQNextIsRowMaximum(t: QTable, sNext: String)
    requires WellFormed(t) && Get(t, sNext).Some?
    ensures var r := MaxQNext(t, sNext, true);
            (Get(t, sNext).value == [] ==> r == 0.0)
            && (Get(t, sNext).value != [] ==> exists a :: QValue(t, sNext, a) == Some(r))
            && forall a :: QValue(t, sNext, a).Some? ==> QValue(t, sNext, a).value <= r
  {
    var row := Get(t, sNext).value;
    RowOfWellFormed(t, sNext);
    RowMaximum(row);
    if row != [] {
      var a :| Get(row, a) == Some(MaxOrZero(Values(row)));
      assert QValue(t, sNext, a) == Some(MaxQNext(t, sNext, true));
    }
  }

  lemma RowOfWellFormed(t: QTable, s: String)
    requires WellFormed(t) && Get(t, s).Some?
    ensures Valid(Get(t, s).value)
  {
    var k := KeyIndex(t, s);
    assert Get(t, s).value == t[k].1;
  }

  /** The largest value of a row is stored under some action, and bounds every action's value. */
  lemma RowMaximum(row: Dict<String, real>)
    requires Valid(row)
    ensures row != [] ==> exists a :: Get(row, a) == Some(MaxOrZero(Values(row)))
    ensures forall a :: Get(row, a).Some? ==> Get(row, a).value <= MaxOrZero(Values(row))
  {
    var r := MaxOrZero(Values(row));
    if row != [] {
      var i :| 0 <= i < |row| && Values(row)[i] == r;
      GetEntry(row, i);
    }
    forall a | Get(row, a).Some? ensures Get(row, a).value <= r {
      var k := KeyIndex(row, a);
      assert Values(row)[k] == Get(row, a).value;
    }
  }

  /** The table with the (ks, ka) entry present, at 0 when it was missing. */
  function WithEntry(t: QTable, ks: String, ka: String): QTable {
    if QValue(t, ks, ka).Some? then t else SetQ(t, ks, ka, 0.0)
  }

  /** The table part of `UpdateQ` for state key `ks` and action key `ka`. */
  function UpdateTable(t: QTable, ks: String, ka: String, reward: real, sNext: String, hasNextMoves: bool)
    : (r: QTable)
    ensures WellFormed(t) ==> WellFormed(r)
    ensures NoEmptyRows(t) ==> NoEmptyRows(r)
  {
    SetQRowsNonEmpty(t, ks, ka, 0.0);
    SetQRowsNonEmpty(WithEntry(t, ks, ka), ks, ka, UpdatedValue(t, ks, ka, reward, sNext, hasNextMoves));
    SetQ(WithEntry(t, ks, ka), ks, ka, UpdatedValue(t, ks, ka, reward, sNext, hasNextMoves))
  }

  /** The new value of the (ks, ka) entry: its prior value (0 when new) moved a step
      `Alpha` towards `reward + Gamma * MaxQNext`, the bootstrap term being read after
      the entry exists. */
  function UpdatedValue(t: QTable, ks: String, ka: String, reward: real, sNext: String, hasNextMoves: bool): real {
    var prior := QValue(t, ks, ka).GetOr(0.0);
    prior + Alpha * (reward + Gamma * MaxQNext(WithEntry(t, ks, ka), sNext, hasNextMoves) - prior)
  }

  /** `UpdateQ`: make sure the (s, a) entry exists (starting at 0), then move it a
      step `Alpha` towards `reward + Gamma * MaxQNext`. */
  function UpdateQ(agent: Agent, s: GameState, a: AIMove, reward: real, next: GameState, nextMoves: seq<AIMove>)
    : (r: Agent)
    ensures r == agent.(qTable := r.qTable)
    ensures WellFormed(agent.qTable) ==> WellFormed(r.qTable)
    ensures NoEmptyRows(agent.qTable) ==> NoEmptyRows(r.qTable)
  {
    agent.(qTable := UpdateTable(agent.qTable, EncodeState(s), EncodeAction(a), reward, EncodeState(next), nextMoves != []))
  }

  /** The new value lies between the prior value and the target, and equals the
      prior value exactly when the prior value already is the target. */
  lemma UpdatedValueMovesTowardsTarget(t: QTable, ks: String, ka: String, reward: real, sNext: String, hasNextMoves: bool)
    ensures var prior := QValue(t, ks, ka).GetOr(0.0);
            var target := reward + Gamma * MaxQNext(WithEntry(t, ks, ka), sNext, hasNextMoves);
            var v := UpdatedValue(t, ks, ka, reward, sNext, hasNextMoves);
            (prior <= target ==> prior <= v <= target)
            && (target <= prior ==> target <= v <= prior)
            && (v == prior <==> prior == target)
  {
  }

  /** The update writes exactly the (ks, ka) entry: its prior value (0 when new) moves
      by `Alpha` towards the target, whose bootstrap term is read after the entry
      exists; no other (state, action) entry changes. */
  lemma UpdateTableEffect(t: QTable, ks: String, ka: String, reward: real, sNext: String, hasNextMoves: bool)
    ensures QValue(UpdateTable(t, ks, ka, reward, sNext, hasNextMoves), ks, ka)
              == Some(UpdatedValue(t, ks, ka, reward, sNext, hasNextMoves))
    ensures forall s', a' :: s' != ks || a' != ka ==>
              QValue(UpdateTable(t, ks, ka, reward, sNext, hasNextMoves), s', a') == QValue(t, s', a')
  {
    var t1 := WithEntry(t, ks, ka);
    SetQEffect(t, ks, ka, 0.0);
    assert forall s', a' :: s' != ks || a' != ka ==> QValue(t1, s', a') == QValue(t, s', a');
    SetQEffect(t1, ks, ka, UpdatedValue(t, ks, ka, reward, sNext, hasNextMoves));
  }

  /** A table where every row has at least one action, which is all `UpdateQ` ever builds. */
  predicate NoEmptyRows(t: QTable) {
    forall i :: 0 <= i < |t| ==> t[i].1 != []
  }

  lemma SetQRowsNonEmpty(t: QTable, s: String, a: String, v: real)
    ensures NoEmptyRows(t) ==> NoEmptyRows(SetQ(t, s, a, v))
  {
    if NoEmptyRows(t) {
      var r := SetQ(t, s, a, v);
      forall i | 0 <= i < |r| ensures r[i].1 != [] {
        if r[i].0 != s {
          assert r[i] in t;
        }
      }
    }
  }

  // ---------------------------------------------------------------------------
  // Epsilon schedule
  // ---------------------------------------------------------------------------

  /** `Mathf.Lerp`, which clamps `t` to [0, 1]. */
  function Lerp(a: real, b: real, t: real): (r: real)
    ensures t >= 1.0 ==> r == b
    ensures t <= 0.0 ==> r == a
  {
    a + (b - a) * Clamp01(t)
  }

  function Clamp01(t: real): (c: real)
    ensures 0.0 <= c <= 1.0
    ensures t >= 1.0 ==> c == 1.0
    ensures t <= 0.0 ==> c == 0.0
  {
    if t < 0.0 then 0.0 else if t > 1.0 then 1.0 else t
  }

  /** `DecayEpsilonStep`: one more step, epsilon on the straight line from the initial
      to the minimum value over `decaySteps` steps. A float division by zero gives
      +infinity, so with `decaySteps` 0 the line is already at its end. */
  function DecayEpsilonStep(agent: Agent): (r: Agent)
    ensures r == agent.(epsilon := r.epsilon, currentStep := agent.currentStep + 1)
    ensures r.epsilon >= agent.minEpsilon
    ensures agent.decaySteps > 0 && r.currentStep >= agent.decaySteps ==> r.epsilon == agent.minEpsilon
  {
    var step := agent.currentStep + 1;
    var progress :=
      if agent.decaySteps > 0 then (if step >= agent.decaySteps then 1.0 else step as real / agent.decaySteps as real)
      else if agent.decaySteps == 0 then (if step > 0 then 1.0 else if step == 0 then 0.0 else -1.0)
      else (if step >= 0 then 0.0 else 1.0);
    agent.(epsilon := Max(Lerp(agent.initialEpsilon, agent.minEpsilon, progress), agent.minEpsilon),
           currentStep := step)
  }

  /** `DecayEpsilonEpisode`. */
  function DecayEpsilonEpisode(agent: Agent): (r: Agent)
    ensures r == agent.(epsilon := r.epsilon, currentEpisode := agent.currentEpisode + 1)
    ensures r.epsilon >= agent.minEpsilon
    ensures agent.epsilon * agent.epsilonDecayRate >= agent.minEpsilon ==>
              r.epsilon == agent.epsilon * agent.epsilonDecayRate
    ensures 0.0 <= agent.epsilonDecayRate <= 1.0 && agent.epsilon >= agent.minEpsilon && agent.epsilon >= 0.0 ==>
              r.epsilon <= agent.epsilon
  {
    agent.(epsilon := Max(agent.minEpsilon, agent.epsilon * agent.epsilonDecayRate),
           currentEpisode := agent.currentEpisode + 1)
  }

  /** `ResetEpsilon`. */
  function ResetEpsilon(agent: Agent): (r: Agent)
    ensures r == agent.(epsilon := agent.initialEpsilon, currentStep := 0, currentEpisode := 0)
  {
    agent.(epsilon := agent.initialEpsilon, currentStep := 0, currentEpisode := 0)
  }

  /** A reset forgets every step and episode decay made before it. */
  lemma ResetForgetsDecay(agent: Agent)
    ensures ResetEpsilon(DecayEpsilonEpisode(agent)) == ResetEpsilon(agent)
    ensures ResetEpsilon(DecayEpsilonStep(agent)) == ResetEpsilon(agent)
  {
  }

  // ---------------------------------------------------------------------------
  // Choosing an action
  // ---------------------------------------------------------------------------

  /** The result of `ChooseAction`: null for no moves, a move, or the exception that
      `First()` throws on a state row without actions. */
  datatype Choice = NoMoves | Chosen(move: AIMove) | EmptyRow

  /** `OrderByDescending(value).First().Key`: the first action of highest value. */
  function BestAction(row: Dict<String, real>): (r: String)
    requires row != []
    ensures exists i :: 0 <= i < |row| && row[i].0 == r
              && (forall j :: 0 <= j < |row| ==> row[j].1 <= row[i].1)
              && (forall j :: 0 <= j < i ==> row[j].1 < row[i].1)
  {
    var i := BestIndex(row);
    row[i].0
  }

  function BestIndex(row: Dict<String, real>): (i: int)
    requires row != []
    ensures 0 <= i < |row|
    ensures forall j :: 0 <= j < |row| ==> row[j].1 <= row[i].1
    ensures forall j :: 0 <= j < i ==> row[j].1 < row[i].1
  {
    if |row| == 1 then 0
    else
      var k := BestIndex(row[1..]) + 1;
      if row[0].1 >= row[k].1 then 0 else k
  }

  /** `ChooseAction`, with `explore` standing for `Random.value < epsilon` and `pick`
      for the `Random.Range` draw. */
  function ChooseAction(agent: Agent, s: GameState, moves: seq<AIMove>, explore: bool, pick: nat)
    : (r: (Choice, Agent))
    ensures moves == [] <==> r.0 == NoMoves
    ensures moves == [] ==> r.1 == agent
    ensures moves != [] ==> r.1 == DecayEpsilonStep(agent)
    ensures r.0.Chosen? ==> r.0.move in moves
    ensures r.0.EmptyRow? ==> Get(agent.qTable, EncodeState(s)) == Some([])
    ensures moves != [] && !explore && Get(agent.qTable, EncodeState(s)).Some? && Get(agent.qTable, EncodeState(s)).value != []
            && (exists i :: 0 <= i < |moves| && EncodeAction(moves[i]) == BestAction(Get(agent.qTable, EncodeState(s)).value))
            ==> EncodeAction(r.0.move) == BestAction(Get(agent.qTable, EncodeState(s)).value)
  {
    if moves == [] then (NoMoves, agent)
    else
      var stepped := DecayEpsilonStep(agent);
      if explore then (Chosen(Choose(moves, pick)), stepped)
      else match Get(agent.qTable, EncodeState(s))
        case None => (Chosen(Choose(moves, pick)), stepped)
        case Some(row) =>
          if row == [] then (EmptyRow, stepped)
          else
            var best := BestAction(row);
            var i := FirstWhere(moves, (m: AIMove) => EncodeAction(m) == best);
            (Chosen(if i >= 0 then moves[i] else moves[0]), stepped)
  }

  /** A table built by `UpdateQ` never makes `ChooseAction` throw. */
  lemma ChooseNeverThrowsOnUpdatedTables(agent: Agent, s: GameState, moves: seq<AIMove>, explore: bool, pick: nat)
    requires NoEmptyRows(agent.qTable)
    ensures ChooseAction(agent, s, moves, explore, pick).0 != EmptyRow
  {
    if Get(agent.qTable, EncodeState(s)).Some? {
      var row := Get(agent.qTable, EncodeState(s)).value;
      assert (EncodeState(s), row) in agent.qTable;
    }
  }

  // ---------------------------------------------------------------------------
  // Saving and loading
  // ---------------------------------------------------------------------------

  /** `QActionSerialization`: one row as parallel key and value lists. */
  datatype ActionLists = ActionLists(actionKeys: seq<String>, actionValues: seq<real>)

  /** `QTableSerialization`: the state keys and their rows, in table order. */
  datatype TableLists = TableLists(stateKeys: seq<String>, stateValues: seq<ActionLists>)

  function SerializeRow(row: Dict<String, real>): ActionLists {
    ActionLists(Keys(row), Values(row))
  }

  function RowFromLists(l: ActionLists): Dict<String, real> {
    FromLists(l.actionKeys, l.actionValues)
  }

  function SerializeTable(t: QTable): (r: TableLists)
    ensures |r.stateKeys| == |r.stateValues| == |t|
  {
    TableLists(Keys(t), seq(|t|, i requires 0 <= i < |t| => SerializeRow(t[i].1)))
  }

  /** `QTableSerialization.ToDictionary`. */
  function TableFromLists(l: TableLists): QTable {
    FromLists(l.stateKeys, seq(|l.stateValues|, i requires 0 <= i < |l.stateValues| => RowFromLists(l.stateValues[i])))
  }

  /** Serialising a well-formed table and rebuilding it gives the same table,
      entry order included. */
  lemma TableRoundTrip(t: QTable)
    requires WellFormed(t)
    ensures TableFromLists(SerializeTable(t)) == t
  {
    var l := SerializeTable(t);
    var rows := seq(|l.stateValues|, i requires 0 <= i < |l.stateValues| => RowFromLists(l.stateValues[i]));
    forall i | 0 <= i < |t| ensures rows[i] == t[i].1 {
      FromListsRoundTrip(t[i].1);
    }
    assert rows == Values(t);
    FromListsRoundTrip(t);
  }

  /** What `LoadQTable` finds at the path. */
  datatype TableFile = NoFile | EmptyFile | Unreadable | Lists(lists: TableLists)

  /** `SaveQTable` as the file it writes. */
  function SaveQTable(agent: Agent): TableFile {
    Lists(SerializeTable(agent.qTable))
  }

  /** `LoadQTable`: an empty table unless the file holds the lists; a table of more
      than 1000 states switches the agent to exploitation (epsilon 0.1, 1000 steps,
      1000 episodes). */
  function LoadQTable(agent: Agent, file: TableFile): (r: Agent)
    ensures !file.Lists? ==> r == agent.(qTable := [])
    ensures file.Lists? ==> r.qTable == TableFromLists(file.lists)
    ensures |r.qTable| > 1000 ==> r.epsilon == 0.1 && r.currentStep == 1000 && r.currentEpisode == 1000
    ensures |r.qTable| <= 1000 ==> r == agent.(qTable := r.qTable)
  {
    match file
    case Lists(l) =>
      var t := TableFromLists(l);
      if |t| > 1000 then agent.(qTable := t, epsilon := 0.1, currentStep := 1000, currentEpisode := 1000)
      else agent.(qTable := t)
    case _ => agent.(qTable := [])
  }

  /** A saved table loads back unchanged. */
  lemma SaveLoadRoundTrip(agent: Agent, other: Agent)
    requires WellFormed(agent.qTable)
    ensures LoadQTable(other, SaveQTable(agent)).qTable == agent.qTable
  {
    TableRoundTrip(agent.qTable);
  }
}

=== FILE: quoridor_rules.dfy ===
/** The static rule kernel of the Quoridor AI (AI_Final/Assets/scripts/QuoridorAI.cs):
    the game state the self-play trainer works on, move generation and application,
    the game-over test, grid wall blocking, the strategy classifier and the move
    filter it drives.

    Positions are grid cells (x = column, y = row) on the 9x9 board. A placed wall is
    stored as the `Vector3(x, 0, y)` of the move that placed it; its `x` and `z` are
    always whole numbers, so they are modelled as integers. */
module QuoridorRules {
  import opened Seqs

  const BoardSize: int := 9

  datatype Pos = Pos(x: int, y: int)

  /** `WallInfo`: the wall's position is `(x, 0, z)`. */
  datatype WallInfo = WallInfo(x: int, z: int, horizontal: bool)

  datatype MoveType = Movement | WallPlacement

  /** `AIMove`; a movement leaves `horizontal` at its default `false`. */
  datatype AIMove = AIMove(moveType: MoveType, target: Pos, horizontal: bool)

  /** `GameState`. The record is immutable here, so `Clone` is the identity. */
  datatype GameState = GameState(aiPosition: Pos, humanPosition: Pos, placedWalls: seq<WallInfo>,
                                 aiWallsLeft: int, humanWallsLeft: int)

  /** `Vector2Int.up`, `down`, `left`, `right`, in the order the generator tries them. */
  const Directions: seq<Pos> := [Pos(0, 1), Pos(0, -1), Pos(-1, 0), Pos(1, 0)]

  function Add(p: Pos, d: Pos): Pos {
    Pos(p.x + d.x, p.y + d.y)
  }

  /** `IsValidPositionStatic`. */
  predicate OnBoard(p: Pos) {
    0 <= p.x < BoardSize && 0 <= p.y < BoardSize
  }

  /** The four orthogonal neighbours of `p`, in the generator's order. */
  function Neighbours(p: Pos): (r: seq<Pos>)
    ensures |r| == |Directions|
    ensures forall i :: 0 <= i < |r| ==> r[i] == Add(p, Directions[i])
  {
    seq(|Directions|, i requires 0 <= i < |Directions| => Add(p, Directions[i]))
  }

  /** The step `from -> to` is one orthogonal step. */
  predicate Adjacent(from: Pos, to: Pos) {
    to in Neighbours(from)
  }

  // ---------------------------------------------------------------------------
  // Walls
  // ---------------------------------------------------------------------------

  /** `IsWallBlockingMovementStatic`: a horizontal wall stops vertical steps in its
      column that start or end on its row; a vertical wall stops horizontal steps
      in its row that start or end on its column. */
  predicate WallBlocks(from: Pos, to: Pos, w: WallInfo) {
    if w.horizontal then from.y != to.y && from.x == w.x && (from.y == w.z || to.y == w.z)
    else from.x != to.x && from.y == w.z && (from.x == w.x || to.x == w.x)
  }

  /** `IsBlockedByWallInfoStatic`: some placed wall stops the step. */
  predicate Blocked(from: Pos, to: Pos, walls: seq<WallInfo>) {
    exists i :: 0 <= i < |walls| && WallBlocks(from, to, walls[i])
  }

  /** A horizontal wall never stops a sideways step, a vertical wall never a vertical one. */
  lemma WallOrientation(from: Pos, to: Pos, w: WallInfo)
    requires Adjacent(from, to)
    ensures WallBlocks(from, to, w) ==> (w.horizontal <==> from.x == to.x)
  {
  }

  /** Blocking is the same in both directions of an orthogonal step. */
  lemma BlockingSymmetric(from: Pos, to: Pos, walls: seq<WallInfo>)
    requires Adjacent(from, to)
    ensures Blocked(from, to, walls) <==> Blocked(to, from, walls)
  {
    assert forall i :: 0 <= i < |walls| ==> (WallBlocks(from, to, walls[i]) <==> WallBlocks(to, from, walls[i]));
  }

  /** `IsValidWallPlacementStatic` fails exactly for an identical wall already on the board. */
  predicate Duplicate(walls: seq<WallInfo>, m: AIMove) {
    exists i :: 0 <= i < |walls| && walls[i] == WallInfo(m.target.x, m.target.y, m.horizontal)
  }

  // ---------------------------------------------------------------------------
  // Move generation
  // ---------------------------------------------------------------------------

  function MoverPosition(s: GameState, isAI: bool): Pos {
    if isAI then s.aiPosition else s.humanPosition
  }

  function MoverWalls(s: GameState, isAI: bool): int {
    if isAI then s.aiWallsLeft else s.humanWallsLeft
  }

  /** What the generator promises: an unblocked on-board neighbour of the mover
      (the opponent's square is not excluded), or a wall on x, y in [0, 9) that is
      not already on the board, while the mover has walls left. */
  predicate LegalMove(s: GameState, isAI: bool, m: AIMove) {
    var pos := MoverPosition(s, isAI);
    match m.moveType
    case Movement =>
      !m.horizontal && Adjacent(pos, m.target) && OnBoard(m.target) && !Blocked(pos, m.target, s.placedWalls)
    case WallPlacement =>
      MoverWalls(s, isAI) > 0 && OnBoard(m.target) && !Duplicate(s.placedWalls, m)
  }

  /** The movement moves to the cells `targets`, in order. */
  function StepMoves(pos: Pos, walls: seq<WallInfo>, targets: seq<Pos>): (r: seq<AIMove>)
    ensures forall m :: m in r <==>
              m.moveType == Movement && !m.horizontal && m.target in targets
              && OnBoard(m.target) && !Blocked(pos, m.target, walls)
  {
    if |targets| == 0 then []
    else
      var next := targets[0];
      var rest := StepMoves(pos, walls, targets[1..]);
      assert forall t :: t in targets <==> t == next || t in targets[1..];
      if OnBoard(next) && !Blocked(pos, next, walls) then [AIMove(Movement, next, false)] + rest else rest
  }

  /** Number of wall candidates: x and y in [0, 9), horizontal first. */
  const WallCandidateCount: int := 2 * BoardSize * BoardSize

  /** Candidate `c` of the nested loop `for x, for y, for isHorizontal in [true, false]`. */
  function WallCandidate(c: int): AIMove
    requires 0 <= c < WallCandidateCount
  {
    AIMove(WallPlacement, Pos(c / (2 * BoardSize), (c % (2 * BoardSize)) / 2), c % 2 == 0)
  }

  /** Every wall move on the board is exactly one candidate. */
  lemma WallCandidateOnto(m: AIMove)
    requires m.moveType == WallPlacement && OnBoard(m.target)
    ensures var c := m.target.x * (2 * BoardSize) + m.target.y * 2 + (if m.horizontal then 0 else 1);
            0 <= c < WallCandidateCount && WallCandidate(c) == m
  {
    var b := if m.horizontal then 0 else 1;
    var low := m.target.y * 2 + b;
    var c := m.target.x * (2 * BoardSize) + low;
    assert c / (2 * BoardSize) == m.target.x && c % (2 * BoardSize) == low;
    assert low / 2 == m.target.y && c % 2 == b;
  }

  /** The wall moves among candidates `c..`, skipping duplicates. */
  function WallMovesFrom(walls: seq<WallInfo>, c: nat): (r: seq<AIMove>)
    requires c <= WallCandidateCount
    ensures forall m :: m in r <==>
              exists k :: c <= k < WallCandidateCount && m == WallCandidate(k) && !Duplicate(walls, m)
    decreases WallCandidateCount - c
  {
    if c == WallCandidateCount then []
    else
      var m := WallCandidate(c);
      (if Duplicate(walls, m) then [] else [m]) + WallMovesFrom(walls, c + 1)
  }

  /** `GeneratePossibleMovesStatic`. */
  function GenerateMoves(s: GameState, isAI: bool): (r: seq<AIMove>)
    ensures forall m :: m in r <==> LegalMove(s, isAI, m)
  {
    var pos := MoverPosition(s, isAI);
    var steps := StepMoves(pos, s.placedWalls, Neighbours(pos));
    var walls := if MoverWalls(s, isAI) > 0 then WallMovesFrom(s.placedWalls, 0) else [];
    GeneratedAreLegal(s, isAI, steps, walls);
    steps + walls
  }

  /** The steps and the wall candidates together are exactly the legal moves. */
  lemma GeneratedAreLegal(s: GameState, isAI: bool, steps: seq<AIMove>, walls: seq<AIMove>)
    requires var pos := MoverPosition(s, isAI); steps == StepMoves(pos, s.placedWalls, Neighbours(pos))
    requires walls == if MoverWalls(s, isAI) > 0 then WallMovesFrom(s.placedWalls, 0) else []
    ensures forall m :: m in steps + walls <==> LegalMove(s, isAI, m)
  {
    forall m ensures m in steps + walls <==> LegalMove(s, isAI, m) {
      if m.moveType == WallPlacement {
        WallMoveIsCandidate(s.placedWalls, m);
      }
    }
  }

  /** A wall move is among the candidates exactly when it is on the board and new. */
  lemma WallMoveIsCandidate(walls: seq<WallInfo>, m: AIMove)
    requires m.moveType == WallPlacement
    ensures m in WallMovesFrom(walls, 0) <==> OnBoard(m.target) && !Duplicate(walls, m)
  {
    if OnBoard(m.target) {
      WallCandidateOnto(m);
    }
    if m in WallMovesFrom(walls, 0) {
      var k :| 0 <= k < WallCandidateCount && m == WallCandidate(k) && !Duplicate(walls, m);
      CandidateOnBoard(k);
    }
  }

  /** Every candidate lies on the board. */
  lemma CandidateOnBoard(c: int)
    requires 0 <= c < WallCandidateCount
    ensures OnBoard(WallCandidate(c).target)
  {
    var row := 2 * BoardSize;
    assert 0 <= c / row < BoardSize;
    assert 0 <= c % row < row;
    assert 0 <= (c % row) / 2 < BoardSize;
  }

  // ---------------------------------------------------------------------------
  // Applying moves
  // ---------------------------------------------------------------------------

  /** `ApplyMoveStatic`: the input state is a value, so it is left as it was. */
  function ApplyMove(s: GameState, m: AIMove, isAI: bool): (r: GameState)
    ensures m.moveType == Movement ==>
              r.placedWalls == s.placedWalls && r.aiWallsLeft == s.aiWallsLeft && r.humanWallsLeft == s.humanWallsLeft
              && MoverPosition(r, isAI) == m.target && MoverPosition(r, !isAI) == MoverPosition(s, !isAI)
    ensures m.moveType == WallPlacement ==>
              r.placedWalls == s.placedWalls + [WallInfo(m.target.x, m.target.y, m.horizontal)]
              && r.aiPosition == s.aiPosition && r.humanPosition == s.humanPosition
              && MoverWalls(r, isAI) == MoverWalls(s, isAI) - 1 && MoverWalls(r, !isAI) == MoverWalls(s, !isAI)
  {
    match m.moveType
    case Movement =>
      if isAI then s.(aiPosition := m.target) else s.(humanPosition := m.target)
    case WallPlacement =>
      var walls := s.placedWalls + [WallInfo(m.target.x, m.target.y, m.horizontal)];
      if isAI then s.(placedWalls := walls, aiWallsLeft := s.aiWallsLeft - 1)
      else s.(placedWalls := walls, humanWallsLeft := s.humanWallsLeft - 1)
  }

  /** `IsGameOverStatic`: the AI wins on row 0, the human on row 8. */
  predicate IsGameOver(s: GameState) {
    s.aiPosition.y == 0 || s.humanPosition.y == BoardSize - 1
  }

  /** Placing a generated wall keeps the mover's wall count non-negative and never
      repeats a wall already on the board. */
  lemma GeneratedWallKeepsCountsAndWalls(s: GameState, isAI: bool, m: AIMove)
    requires m in GenerateMoves(s, isAI) && m.moveType == WallPlacement
    ensures var r := ApplyMove(s, m, isAI);
            MoverWalls(r, isAI) >= 0
            && r.placedWalls[|s.placedWalls|] !in s.placedWalls
  {
  }

  /** A wall placement never ends the game; a movement ends it only by reaching a goal row. */
  lemma GameOverOnlyByReachingGoal(s: GameState, m: AIMove, isAI: bool)
    requires !IsGameOver(s)
    ensures IsGameOver(ApplyMove(s, m, isAI)) ==>
              m.moveType == Movement && m.target.y == (if isAI then 0 else BoardSize - 1)
  {
  }

  // ---------------------------------------------------------------------------
  // Strategy classifier
  // ---------------------------------------------------------------------------

  datatype Strategy = Aggressive | Defensive | Balanced | Blocking

  datatype DecisionFeatures = DecisionFeatures(
    aiDistanceToGoal: int, humanDistanceToGoal: int,
    aiWallsLeft: int, humanWallsLeft: int,
    aiMobility: int, humanMobility: int,
    distanceAdvantage: int, wallAdvantage: int,
    isEarlyGame: bool, isMidGame: bool, isEndGame: bool)

  /** `ExtractDecisionFeatures`; the path lengths and move counts it looks up in
      the scene are parameters. */
  function ExtractFeatures(s: GameState, aiDistance: int, humanDistance: int, aiMobility: int, humanMobility: int)
    : (f: DecisionFeatures)
    ensures (f.isEarlyGame && !f.isMidGame && !f.isEndGame)
            || (!f.isEarlyGame && f.isMidGame && !f.isEndGame)
            || (!f.isEarlyGame && !f.isMidGame && f.isEndGame)
    ensures f.isEarlyGame <==> s.aiWallsLeft + s.humanWallsLeft > 14
    ensures f.isEndGame <==> s.aiWallsLeft + s.humanWallsLeft <= 6
    ensures f.distanceAdvantage > 0 <==> aiDistance < humanDistance
    ensures f.wallAdvantage > 0 <==> s.aiWallsLeft > s.humanWallsLeft
  {
    var total := s.aiWallsLeft + s.humanWallsLeft;
    DecisionFeatures(aiDistance, humanDistance, s.aiWallsLeft, s.humanWallsLeft, aiMobility, humanMobility,
                     humanDistance - aiDistance, s.aiWallsLeft - s.humanWallsLeft,
                     total > 14, total > 6 && total <= 14, total <= 6)
  }

  datatype Condition = EarlyGame | EndGame | AiAhead | AiBehind | LowMobility | WallLead | FewWallsLeft

  predicate Holds(c: Condition, f: DecisionFeatures) {
    match c
    case EarlyGame => f.isEarlyGame
    case EndGame => f.isEndGame
    case AiAhead => f.distanceAdvantage > 2
    case AiBehind => f.distanceAdvantage < -1
    case LowMobility => f.aiMobility <= 1
    case WallLead => f.wallAdvantage > 3
    case FewWallsLeft => f.aiWallsLeft <= 2
  }

  datatype Rule = Rule(condition: Condition, decision: Strategy, priority: int)

  /** The rules of `BuildDecisionTree`, in the order they are added. */
  const Rules: seq<Rule> := [
    Rule(EarlyGame, Balanced, 1),
    Rule(EndGame, Defensive, 3),
    Rule(AiAhead, Blocking, 2),
    Rule(AiBehind, Aggressive, 2),
    Rule(LowMobility, Defensive, 2),
    Rule(WallLead, Blocking, 2),
    Rule(FewWallsLeft, Defensive, 2)
  ]

  /** Insert `r` before the first rule of no higher priority. */
  function InsertByPriority(r: Rule, sorted: seq<Rule>): (o: seq<Rule>)
    ensures |o| == |sorted| + 1 && (o[0] == r || (sorted != [] && o[0] == sorted[0]))
    ensures sorted != [] ==> (o[0] == r <==> r.priority >= sorted[0].priority)
  {
    if sorted == [] || r.priority >= sorted[0].priority then [r] + sorted
    else
      [sorted[0]] + InsertByPriority(r, sorted[1..])
  }

  /** LINQ `OrderByDescending(priority)`: a stable sort, so rules of equal priority
      keep their order. */
  function SortByPriority(rs: seq<Rule>): (o: seq<Rule>)
    ensures |o| == |rs|
  {
    if rs == [] then []
    else
      InsertByPriority(rs[0], SortByPriority(rs[1..]))
  }

  /** Inserting adds exactly `r`. */
  lemma {:induction false} InsertIsPermutation(r: Rule, sorted: seq<Rule>)
    ensures multiset(InsertByPriority(r, sorted)) == multiset(sorted) + multiset{r}
  {
    if sorted != [] && r.priority < sorted[0].priority {
      InsertIsPermutation(r, sorted[1..]);
      assert sorted == [sorted[0]] + sorted[1..];
    }
  }

  /** The sort only reorders: it is a permutation of its input. */
  lemma {:induction false} SortIsPermutation(rs: seq<Rule>)
    ensures multiset(SortByPriority(rs)) == multiset(rs)
  {
    if rs != [] {
      SortIsPermutation(rs[1..]);
      InsertIsPermutation(rs[0], SortByPriority(rs[1..]));
      assert rs == [rs[0]] + rs[1..];
    }
  }

  /** The rules whose condition holds, in the order they were added. */
  function Matching(f: DecisionFeatures): (r: seq<Rule>)
    ensures forall x :: x in r <==> x in Rules && Holds(x.condition, f)
    ensures IsSubsequence(r, Rules)
  {
    Filter(Rules, (x: Rule) => Holds(x.condition, f))
  }

  /** `DecisionTreeClassifier.Predict`: the first rule of the sorted matches, or Balanced. */
  function Predict(f: DecisionFeatures): Strategy {
    var sorted := SortByPriority(Matching(f));
    if |sorted| > 0 then sorted[0].decision else Balanced
  }

  /** The head of the stable sort is the earliest rule of highest priority;
      `i` is its position in `rs`. */
  lemma {:induction false} SortHead(rs: seq<Rule>) returns (i: int)
    requires rs != []
    ensures 0 <= i < |rs| && rs[i] == SortByPriority(rs)[0]
    ensures forall j :: 0 <= j < |rs| ==> rs[j].priority <= rs[i].priority
    ensures forall j :: 0 <= j < i ==> rs[j].priority < rs[i].priority
  {
    if |rs| == 1 {
      i := 0;
    } else {
      var rest := SortByPriority(rs[1..]);
      var i' := SortHead(rs[1..]);
      assert rs[1..][i'] == rs[i' + 1];
      if rs[0].priority >= rest[0].priority {
        i := 0;
        forall j | 0 <= j < |rs| ensures rs[j].priority <= rs[0].priority {
          if j > 0 { assert rs[j] == rs[1..][j - 1]; }
        }
      } else {
        i := i' + 1;
        forall j | 0 <= j < |rs| ensures rs[j].priority <= rs[i].priority {
          if j > 0 { assert rs[j] == rs[1..][j - 1]; }
        }
        forall j | 0 <= j < i ensures rs[j].priority < rs[i].priority {
          if j > 0 { assert rs[j] == rs[1..][j - 1]; }
        }
      }
    }
  }

  /** `Predict` answers Balanced when no rule holds, and otherwise the decision of
      the earliest holding rule of highest priority; `i` is its position among the
      holding rules. */
  lemma PredictPicksBestRule(f: DecisionFeatures) returns (i: int)
    ensures Matching(f) == [] ==> Predict(f) == Balanced
    ensures Matching(f) != [] ==>
              0 <= i < |Matching(f)| && Predict(f) == Matching(f)[i].decision
              && (forall j :: 0 <= j < |Matching(f)| ==> Matching(f)[j].priority <= Matching(f)[i].priority)
              && (forall j :: 0 <= j < i ==> Matching(f)[j].priority < Matching(f)[i].priority)
  {
    i := 0;
    if Matching(f) != [] {
      i := SortHead(Matching(f));
    }
  }

  /** In the end game (at most 6 walls left in total) the classifier is always Defensive:
      its rule is the only one of priority 3. */
  lemma EndGameIsDefensive(f: DecisionFeatures)
    requires f.isEndGame
    ensures Predict(f) == Defensive
  {
    var ms := Matching(f);
    assert Rules[1] in ms;
    var i := PredictPicksBestRule(f);
    var k :| 0 <= k < |ms| && ms[k] == Rules[1];
    assert ms[i].priority >= 3;
    assert ms[i] in Rules;
    TopPriorityRule(ms[i]);
  }

  /** The end-game rule is the only rule of priority 3 or more. */
  lemma TopPriorityRule(r: Rule)
    requires r in Rules && r.priority >= 3
    ensures r == Rule(EndGame, Defensive, 3)
  {
  }

  /** When exactly one rule holds, its decision is the answer. */
  lemma SingleMatch(f: DecisionFeatures, k: int)
    requires 0 <= k < |Rules| && Holds(Rules[k].condition, f)
    requires forall j :: 0 <= j < |Rules| && j != k ==> !Holds(Rules[j].condition, f)
    ensures Predict(f) == Rules[k].decision
  {
    var ms := Matching(f);
    assert Rules[k] in ms;
    var i := PredictPicksBestRule(f);
    var x := ms[i];
    assert x in Rules && Holds(x.condition, f);
    OnlyHolder(Rules, f, k, x);
  }

  /** A holding rule of a list where only the `k`-th rule holds is that rule. */
  lemma OnlyHolder(rs: seq<Rule>, f: DecisionFeatures, k: int, x: Rule)
    requires 0 <= k < |rs| && x in rs && Holds(x.condition, f)
    requires forall j :: 0 <= j < |rs| && j != k ==> !Holds(rs[j].condition, f)
    ensures x == rs[k]
  {
    var j :| 0 <= j < |rs| && rs[j] == x;
  }

  /** The first expectation of the decision-tree test (AITestScript): the early game. */
  lemma EarlyGameIsBalanced()
    ensures Predict(DecisionFeatures(8, 8, 10, 10, 3, 3, 0, 0, true, false, false)) == Balanced
  {
    SingleMatch(DecisionFeatures(8, 8, 10, 10, 3, 3, 0, 0, true, false, false), 0);
  }

  /** The second expectation: with the AI leading, it blocks. */
  lemma LeadingIsBlocking()
    ensures Predict(DecisionFeatures(3, 6, 5, 5, 2, 2, 3, 0, false, true, false)) == Blocking
  {
    SingleMatch(DecisionFeatures(3, 6, 5, 5, 2, 2, 3, 0, false, true, false), 2);
  }

  /** The third expectation: behind in the race, the AI attacks. */
  lemma BehindIsAggressive()
    ensures Predict(DecisionFeatures(6, 4, 3, 3, 2, 3, -2, 0, false, true, false)) == Aggressive
  {
    SingleMatch(DecisionFeatures(6, 4, 3, 3, 2, 3, -2, 0, false, true, false), 3);
  }

  /** The third test's features are hand-written: a state with 3 walls left on each
      side is an end-game state, where the classifier answers Defensive. */
  lemma BehindTestStateIsEndGame(s: GameState, aiDistance: int, humanDistance: int, aiMobility: int, humanMobility: int)
    requires s.aiWallsLeft == 3 && s.humanWallsLeft == 3
    ensures Predict(ExtractFeatures(s, aiDistance, humanDistance, aiMobility, humanMobility)) == Defensive
  {
    EndGameIsDefensive(ExtractFeatures(s, aiDistance, humanDistance, aiMobility, humanMobility));
  }

  // ---------------------------------------------------------------------------
  // Move filter
  // ---------------------------------------------------------------------------

  /** `IsAggressiveMove`: a movement whose step points towards the opponent (positive dot product). */
  predicate IsAggressiveMove(s: GameState, m: AIMove) {
    m.moveType == Movement &&
    var dx, dy := m.target.x - s.aiPosition.x, m.target.y - s.aiPosition.y;
    var ex, ey := s.humanPosition.x - s.aiPosition.x, s.humanPosition.y - s.aiPosition.y;
    dx * ex + dy * ey > 0
  }

  /** `IsDefensiveWall`: a wall nearer to the AI than to the opponent
      (compared on squared distances, which orders the same way). */
  predicate IsDefensiveWall(s: GameState, m: AIMove) {
    m.moveType == WallPlacement &&
    var ax, ay := m.target.x - s.aiPosition.x, m.target.y - s.aiPosition.y;
    var hx, hy := m.target.x - s.humanPosition.x, m.target.y - s.humanPosition.y;
    ax * ax + ay * ay < hx * hx + hy * hy
  }

  /** `FilterMovesByStrategy` against the current state `s`. */
  function FilterMovesByStrategy(s: GameState, moves: seq<AIMove>, strategy: Strategy): (r: seq<AIMove>)
    ensures IsSubsequence(r, moves)
    ensures strategy == Balanced ==> r == moves
    ensures strategy == Blocking ==>
              if exists i :: 0 <= i < |moves| && moves[i].moveType == WallPlacement
              then r != [] && forall m :: m in r <==> m in moves && m.moveType == WallPlacement
              else forall m :: m in r <==> m in moves && m.moveType == Movement
    ensures strategy == Aggressive ==>
              forall m :: m in r <==> m in moves && (m.moveType == WallPlacement || IsAggressiveMove(s, m))
    ensures strategy == Defensive ==>
              forall m :: m in r <==> m in moves && (m.moveType == Movement || IsDefensiveWall(s, m))
  {
    match strategy
    case Aggressive => Filter(moves, (m: AIMove) => m.moveType == WallPlacement || IsAggressiveMove(s, m))
    case Defensive => Filter(moves, (m: AIMove) => m.moveType == Movement || IsDefensiveWall(s, m))
    case Balanced =>
      SubsequenceRefl(moves);
      moves
    case Blocking =>
      var wallMoves := Filter(moves, (m: AIMove) => m.moveType == WallPlacement);
      if |wallMoves| > 0 then wallMoves
      else
        assert forall m :: m in moves ==> m.moveType != WallPlacement;
        assert forall i :: 0 <= i < |moves| ==> moves[i] in moves;
        Filter(moves, (m: AIMove) => m.moveType == Movement)
  }
}

=== FILE: scoring.dfy ===
/** Scores shared by the chat models: the Jaccard ratio of two word sets and the
    "keep the first strictly better score" scan every matcher runs over its patterns. */
module Scoring {
  import opened Optional

  /** A subset is no larger than its superset, and equally large only when equal. */
  lemma {:induction false} SubsetCard<T>(a: set<T>, b: set<T>)
    requires a <= b
    ensures |a| <= |b|
    ensures |a| == |b| ==> a == b
    decreases |b|
  {
    if b != {} {
      var x :| x in b;
      SubsetCard(a - {x}, b - {x});
      if x in a {
        assert a == (a - {x}) + {x};
      } else {
        assert a - {x} == a;
      }
      assert b == (b - {x}) + {x};
    }
  }

  /** |a ∩ b| / |a ∪ b|, and 0 when both sets are empty. */
  function Jaccard<T>(a: set<T>, b: set<T>): (r: real)
    ensures 0.0 <= r <= 1.0
    ensures r == 1.0 <==> a == b && a != {}
    ensures r == 0.0 <==> a * b == {}
  {
    SubsetCard(a * b, a + b);
    if |a + b| == 0 then 0.0
    else
      Ratio(|a * b|, |a + b|);
      SameMeetJoin(a, b);
      (|a * b| as real) / (|a + b| as real)
  }

  /** A count over a positive count: non-negative, zero only for a zero count, and
      scaling back gives the count. */
  lemma CountQuotient(x: nat, y: nat)
    requires 0 < y
    ensures var r := (x as real) / (y as real);
            r >= 0.0 && (r == 0.0 <==> x == 0) && r * (y as real) == x as real
  {
  }

  /** The ratio of a count to a larger positive count lies in [0, 1], and hits the
      ends exactly when the counts are equal or the first is zero. */
  lemma Ratio(x: nat, y: nat)
    requires 0 < y && x <= y
    ensures var r := (x as real) / (y as real);
            0.0 <= r <= 1.0 && (r == 1.0 <==> x == y) && (r == 0.0 <==> x == 0)
  {
    var r := (x as real) / (y as real);
    assert r * (y as real) == x as real;
  }

  /** The meet and the join of two sets agree only when the sets do. */
  lemma SameMeetJoin<T>(a: set<T>, b: set<T>)
    ensures |a * b| == |a + b| <==> a == b
  {
    SubsetCard(a * b, a + b);
    if a * b == a + b {
      assert forall x :: x in a ==> x in a * b;
      assert forall x :: x in b ==> x in a * b;
    }
  }

  /** The ratio does not depend on the order of its arguments. */
  lemma JaccardSymmetric<T>(a: set<T>, b: set<T>)
    ensures Jaccard(a, b) == Jaccard(b, a)
  {
    assert a * b == b * a && a + b == b + a;
  }

  /** The scan `if (score > best && score >= floor) { best = score; pick = i; }` from
      `best = 0`: the index it keeps, or `None` when no score is positive and at least
      `floor`. */
  function BestIndex(scores: seq<real>, floor: real): (r: Option<nat>)
    requires floor >= 0.0
    ensures r.None? <==> forall i :: 0 <= i < |scores| ==> scores[i] <= 0.0 || scores[i] < floor
    ensures r.Some? ==> r.value < |scores| && scores[r.value] > 0.0 && scores[r.value] >= floor
    ensures r.Some? ==> forall i :: 0 <= i < |scores| ==> scores[i] <= scores[r.value]
    ensures r.Some? ==> forall i :: 0 <= i < r.value ==> scores[i] < scores[r.value]
    decreases |scores|
  {
    if |scores| == 0 then None
    else
      var n := |scores| - 1;
      var b := BestIndex(scores[..n], floor);
      var best := if b.Some? then scores[b.value] else 0.0;
      if scores[n] > best && scores[n] >= floor then Some(n) else b
  }

  /** The scan keeps the first position of the highest score: any position whose score
      is the maximum and that comes first is the one chosen. */
  lemma BestIndexIsFirstMaximum(scores: seq<real>, floor: real, k: nat)
    requires floor >= 0.0
    requires k < |scores| && scores[k] > 0.0 && scores[k] >= floor
    requires forall i :: 0 <= i < |scores| ==> scores[i] <= scores[k]
    requires forall i :: 0 <= i < k ==> scores[i] < scores[k]
    ensures BestIndex(scores, floor) == Some(k)
  {
    var r := BestIndex(scores, floor);
    assert r.Some?;
    assert scores[r.value] == scores[k];
  }
}

=== FILE: selfplay.dfy ===
/** The self-play trainer (AI_Final/Assets/scripts/QuoridorSelfPlayTrainer.cs): two
    Q-learning agents play episodes against each other on the static rule kernel,
    agent 1 always moving the AI side, and the shared table file is rewritten after
    every episode.

    The coroutine's random draws are a parameter `draw`: for the move with number
    `n` it gives the `Random.value < epsilon` outcome and the `Random.Range` pick.
    The external `StopTraining` call becomes the number of episodes that start
    before it. */
module SelfPlay {
  import opened QuoridorRules
  import opened QLearning

  /** Every episode starts here: AI (agent 1) at (4, 8), human (agent 2) at (4, 0),
      10 walls each, no walls on the board. */
  const InitialState: GameState := GameState(Pos(4, 8), Pos(4, 0), [], 10, 10)

  /** The locals of one episode of `SelfPlayLoop`. `stuck` is the `break` on an empty
      move list, `aborted` the exception `ChooseAction` throws on a state row without
      actions. */
  datatype Episode = Episode(state: GameState, ai1Turn: bool, moveCount: nat,
                             gameEnded: bool, stuck: bool, aborted: bool,
                             rewardAI1: real, rewardAI2: real, ai1: Agent, ai2: Agent)

  function StartEpisode(ai1: Agent, ai2: Agent): Episode {
    Episode(InitialState, true, 0, false, false, false, 0.0, 0.0, ai1, ai2)
  }

  predicate Running(e: Episode) {
    !e.gameEnded && !e.stuck && !e.aborted
  }

  /** What holds at every iteration of the move loop. */
  predicate Consistent(e: Episode) {
    (e.ai1Turn <==> e.moveCount % 2 == 0)
    && (!e.gameEnded ==> e.rewardAI1 == 0.0 && e.rewardAI2 == 0.0)
    && (e.gameEnded ==> (IsGameOver(e.state)
          && (e.rewardAI1, e.rewardAI2) == (if e.moveCount % 2 == 1 then (1.0, -1.0) else (-1.0, 1.0))))
    && (e.stuck ==> GenerateMoves(e.state, e.ai1Turn) == [])
    && (Running(e) ==> !IsGameOver(e.state) || e.moveCount == 0)
  }

  /** The rewards after the move to `next`: the mover +1 and the other -1 when the
      game is over, the values so far otherwise. */
  function Rewards(e: Episode, next: GameState): (r: (real, real))
    ensures IsGameOver(next) ==> r == (if e.ai1Turn then (1.0, -1.0) else (-1.0, 1.0))
    ensures !IsGameOver(next) ==> r == (e.rewardAI1, e.rewardAI2)
  {
    if IsGameOver(next) then (if e.ai1Turn then (1.0, -1.0) else (-1.0, 1.0))
    else (e.rewardAI1, e.rewardAI2)
  }

  /** The loop state after the mover played `m` and learned from it, becoming
      `learned`. */
  function Moved(e: Episode, m: AIMove, learned: Agent): (r: Episode)
    ensures r.state == ApplyMove(e.state, m, e.ai1Turn)
    ensures r.ai1Turn == !e.ai1Turn && r.moveCount == e.moveCount + 1 && !r.stuck && !r.aborted
    ensures r.gameEnded <==> IsGameOver(r.state)
    ensures (r.rewardAI1, r.rewardAI2) == Rewards(e, r.state)
    ensures (if e.ai1Turn then r.ai1 else r.ai2) == learned
    ensures e.ai1Turn ==> r.ai2 == e.ai2
    ensures !e.ai1Turn ==> r.ai1 == e.ai1
  {
    var next := ApplyMove(e.state, m, e.ai1Turn);
    var (r1, r2) := Rewards(e, next);
    Episode(next, !e.ai1Turn, e.moveCount + 1, IsGameOver(next), false, false, r1, r2,
            if e.ai1Turn then learned else e.ai1, if e.ai1Turn then e.ai2 else learned)
  }

  /** What the mover learns from playing `m`: the update with its own reward, the
      next state and the opponent's moves there. */
  function Learn(e: Episode, stepped: Agent, m: AIMove): Agent {
    var next := ApplyMove(e.state, m, e.ai1Turn);
    var rewards := Rewards(e, next);
    UpdateQ(stepped, e.state, m, if e.ai1Turn then rewards.0 else rewards.1, next, GenerateMoves(next, !e.ai1Turn))
  }

  /** One pass of the move loop: choose, apply, reward, update the agent that just
      moved, hand over the turn. */
  function Step(e: Episode, explore: bool, pick: nat): (r: Episode)
    requires Running(e)
  {
    var moves := GenerateMoves(e.state, e.ai1Turn);
    if moves == [] then e.(stuck := true, rewardAI1 := 0.0, rewardAI2 := 0.0)
    else
      var mover := if e.ai1Turn then e.ai1 else e.ai2;
      var (choice, stepped) := ChooseAction(mover, e.state, moves, explore, pick);
      if choice.Chosen? then Moved(e, choice.move, Learn(e, stepped, choice.move))
      else e.(aborted := true, ai1 := if e.ai1Turn then stepped else e.ai1, ai2 := if e.ai1Turn then e.ai2 else stepped)
  }

  lemma MovedConsistent(e: Episode, m: AIMove, learned: Agent)
    requires Running(e) && Consistent(e)
    ensures Consistent(Moved(e, m, learned))
  {
  }

  /** A step keeps the loop invariant, moves only by a generated move of the side to
      play, and touches only the agent whose turn it was. */
  lemma StepFacts(e: Episode, explore: bool, pick: nat)
    requires Running(e) && Consistent(e)
    ensures var r := Step(e, explore, pick);
            Consistent(r)
            && (e.ai1Turn ==> r.ai2 == e.ai2)
            && (!e.ai1Turn ==> r.ai1 == e.ai1)
            && (r.moveCount == e.moveCount + 1 <==> !r.stuck && !r.aborted)
            && (r.stuck || r.aborted ==> r.moveCount == e.moveCount && r.state == e.state)
  {
    var moves := GenerateMoves(e.state, e.ai1Turn);
    if moves != [] {
      var mover := if e.ai1Turn then e.ai1 else e.ai2;
      var (choice, stepped) := ChooseAction(mover, e.state, moves, explore, pick);
      if choice.Chosen? {
        MovedConsistent(e, choice.move, Learn(e, stepped, choice.move));
      } else {
        assert choice.EmptyRow?;
      }
    }
  }

  /** Each pass that moves plays a generated move of the side to play. */
  lemma StepPlaysLegalMove(e: Episode, explore: bool, pick: nat)
    requires Running(e)
    ensures var r := Step(e, explore, pick);
            r.moveCount == e.moveCount + 1 ==>
              exists m :: LegalMove(e.state, e.ai1Turn, m) && r.state == ApplyMove(e.state, m, e.ai1Turn)
  {
    var moves := GenerateMoves(e.state, e.ai1Turn);
    if moves != [] {
      var mover := if e.ai1Turn then e.ai1 else e.ai2;
      var (choice, stepped) := ChooseAction(mover, e.state, moves, explore, pick);
      if choice.Chosen? {
        assert choice.move in moves;
        assert LegalMove(e.state, e.ai1Turn, choice.move);
      }
    }
  }

  /** The `while (!gameEnded && moveCount < maxMovesPerGame)` loop. */
  function Play(e: Episode, maxMoves: int, draw: nat -> (bool, nat)): (r: Episode)
    decreases if e.moveCount < maxMoves then maxMoves - e.moveCount else 0, if Running(e) then 1 else 0
  {
    if !Running(e) || e.moveCount >= maxMoves then e
    else
      var d := draw(e.moveCount);
      Play(Step(e, d.0, d.1), maxMoves, draw)
  }

  /** A played episode applies at most `maxMoves` moves, stops at the first game-over
      state, alternates turns, and rewards the final mover +1 and the other -1; a
      running episode only ends by reaching the cap. */
  lemma {:induction false} PlayFacts(e: Episode, maxMoves: int, draw: nat -> (bool, nat))
    requires Consistent(e)
    ensures var r := Play(e, maxMoves, draw);
            Consistent(r)
            && (r.moveCount <= maxMoves || r == e)
            && (Running(r) ==> r.moveCount >= maxMoves)
            && r.moveCount >= e.moveCount
    decreases if e.moveCount < maxMoves then maxMoves - e.moveCount else 0, if Running(e) then 1 else 0
  {
    if Running(e) && e.moveCount < maxMoves {
      var d := draw(e.moveCount);
      StepFacts(e, d.0, d.1);
      PlayFacts(Step(e, d.0, d.1), maxMoves, draw);
    }
  }

  /** A whole episode from the initial position. */
  lemma EpisodeFacts(ai1: Agent, ai2: Agent, maxMoves: int, draw: nat -> (bool, nat))
    ensures var r := Play(StartEpisode(ai1, ai2), maxMoves, draw);
            Consistent(r)
            && (maxMoves >= 0 ==> r.moveCount <= maxMoves)
            && (r.gameEnded ==> IsGameOver(r.state))
            && (!r.gameEnded ==> r.rewardAI1 == 0.0 && r.rewardAI2 == 0.0)
            && (Running(r) ==> r.moveCount >= maxMoves)
  {
    var e := StartEpisode(ai1, ai2);
    assert !IsGameOver(InitialState);
    PlayFacts(e, maxMoves, draw);
  }

  // ---------------------------------------------------------------------------
  // The training loop
  // ---------------------------------------------------------------------------

  datatype Trainer = Trainer(isTraining: bool, numEpisodes: int, maxMovesPerGame: int,
                             preserveExistingQTable: bool, file: TableFile, ai1: Agent, ai2: Agent)

  /** `SetTrainedEpsilon(0.1, 1000, 1000)`. */
  function Trained(a: Agent): Agent {
    a.(epsilon := 0.1, currentStep := 1000, currentEpisode := 1000)
  }

  /** The set-up at the top of `SelfPlayLoop`: two fresh agents, both loaded from the
      file when the table is to be preserved, then switched to the trained schedule
      when the table holds more than 1000 states and reset (`Initialize`, which does
      what `ResetEpsilon` does) otherwise. */
  function PrepareAgents(preserve: bool, file: TableFile): (r: (Agent, Agent))
    ensures r.0 == r.1
    ensures !preserve ==> r.0 == NewAgent
    ensures preserve ==> r.0.qTable == LoadQTable(NewAgent, file).qTable
    ensures |r.0.qTable| > 1000 ==> r.0.epsilon == 0.1 && r.0.currentStep == 1000 && r.0.currentEpisode == 1000
    ensures |r.0.qTable| <= 1000 ==> r.0.epsilon == NewAgent.initialEpsilon && r.0.currentStep == 0 && r.0.currentEpisode == 0
  {
    if preserve then
      var a := LoadQTable(NewAgent, file);
      if |a.qTable| > 1000 then (Trained(a), Trained(a)) else (ResetEpsilon(a), ResetEpsilon(a))
    else (ResetEpsilon(NewAgent), ResetEpsilon(NewAgent))
  }

  /** The episode loop from episode `k` on; `stopBefore` is the first episode that
      finds `isTraining` cleared and `episode(a1, a2, k)` plays episode `k`. Both
      agents save to the same path, agent 2 last, so the file holds agent 2's table. */
  function Episodes(t: Trainer, k: int, stopBefore: int, episode: (Agent, Agent, int) -> Episode): (r: Trainer)
    decreases if k <= t.numEpisodes then t.numEpisodes - k + 1 else 0
  {
    if k > t.numEpisodes || k >= stopBefore then t.(isTraining := false)
    else
      var e := episode(t.ai1, t.ai2, k);
      if e.aborted then t.(ai1 := e.ai1, ai2 := e.ai2)
      else Episodes(t.(ai1 := e.ai1, ai2 := e.ai2, file := SaveQTable(e.ai2)), k + 1, stopBefore, episode)
  }

  /** `StartTraining`: nothing while a run is in progress; otherwise the set-up and
      episodes 1 to `numEpisodes`, each played from the initial position. */
  function StartTraining(t: Trainer, stopBefore: int, draws: int -> nat -> (bool, nat)): (r: Trainer)
    ensures t.isTraining ==> r == t
  {
    if t.isTraining then t
    else
      var agents := PrepareAgents(t.preserveExistingQTable, t.file);
      Episodes(t.(isTraining := true, ai1 := agents.0, ai2 := agents.1), 1, stopBefore,
               (a1, a2, k) => Play(StartEpisode(a1, a2), t.maxMovesPerGame, draws(k)))
  }

  /** `StopTraining`. */
  function StopTraining(t: Trainer): (r: Trainer)
    ensures r == t.(isTraining := false)
  {
    t.(isTraining := false)
  }

  /** A run started with `isTraining` set either stops on an aborted episode with the
      flag still set, so that later `StartTraining` calls do nothing, or clears the
      flag; then the file holds what agent 2 saved last, or nothing new when no
      episode was played. */
  lemma {:induction false} EpisodesFacts(t: Trainer, k: int, stopBefore: int, episode: (Agent, Agent, int) -> Episode)
    requires t.isTraining
    ensures var r := Episodes(t, k, stopBefore, episode);
            (!r.isTraining ==> (r.file == t.file && r.ai1 == t.ai1 && r.ai2 == t.ai2) || r.file == SaveQTable(r.ai2))
            && (k > t.numEpisodes || k >= stopBefore ==> r == t.(isTraining := false))
    decreases if k <= t.numEpisodes then t.numEpisodes - k + 1 else 0
  {
    if !(k > t.numEpisodes || k >= stopBefore) {
      var e := episode(t.ai1, t.ai2, k);
      if !e.aborted {
        EpisodesFacts(t.(ai1 := e.ai1, ai2 := e.ai2, file := SaveQTable(e.ai2)), k + 1, stopBefore, episode);
      }
    }
  }

  /** A run from `StartTraining` that clears `isTraining` leaves the file as it was
      (no episode played) or holding agent 2's final table. */
  lemma TrainingRunFacts(t: Trainer, stopBefore: int, draws: int -> nat -> (bool, nat))
    requires !t.isTraining
    ensures var r := StartTraining(t, stopBefore, draws);
            !r.isTraining ==> r.file == t.file || r.file == SaveQTable(r.ai2)
  {
    var agents := PrepareAgents(t.preserveExistingQTable, t.file);
    EpisodesFacts(t.(isTraining := true, ai1 := agents.0, ai2 := agents.1), 1, stopBefore,
                  (a1, a2, k) => Play(StartEpisode(a1, a2), t.maxMovesPerGame, draws(k)));
  }
}

=== FILE: seqs.dfy ===
/** Sequence helpers: first-match search, random choice, filtering, suffixes. */
module Seqs {

  /** Index of the first element satisfying `p`, or -1: the shape of every
      "loop over the table and return on the first hit" in the system. */
  function FirstWhere<T>(xs: seq<T>, p: T -> bool): (r: int)
    ensures -1 <= r < |xs|
    ensures r >= 0 ==> p(xs[r]) && forall j :: 0 <= j < r ==> !p(xs[j])
    ensures r == -1 <==> forall j :: 0 <= j < |xs| ==> !p(xs[j])
  {
    if |xs| == 0 then -1
    else if p(xs[0]) then 0
    else
      var r := FirstWhere(xs[1..], p);
      if r < 0 then -1 else r + 1
  }

  /** Python `random.choice(xs)` / C# `xs[Random.Range(0, xs.Count)]` with the
      random draw supplied as `pick`: every element can be picked, nothing else can. */
  function Choose<T>(xs: seq<T>, pick: nat): (r: T)
    requires |xs| > 0
    ensures r in xs
  {
    xs[pick % |xs|]
  }

  /** Every element is the choice for some draw. */
  lemma ChooseCovers<T>(xs: seq<T>, i: nat)
    requires i < |xs|
    ensures Choose(xs, i) == xs[i]
  {
  }

  /** LINQ `Where` / a list comprehension with a condition. */
  function Filter<T(!new)>(xs: seq<T>, p: T -> bool): (r: seq<T>)
    ensures |r| <= |xs|
    ensures forall i :: 0 <= i < |r| ==> p(r[i])
    ensures forall x :: x in r <==> x in xs && p(x)
    ensures IsSubsequence(r, xs)
  {
    if |xs| == 0 then []
    else
      var rest := Filter(xs[1..], p);
      if p(xs[0]) then
        assert ([xs[0]] + rest)[1..] == rest;
        [xs[0]] + rest
      else
        SubsequenceCons(rest, xs);
        rest
  }

  /** `a` is obtained from `b` by deleting elements, keeping the order. */
  predicate IsSubsequence<T(==)>(a: seq<T>, b: seq<T>) {
    if |a| == 0 then true
    else if |b| == 0 then false
    else if a[0] == b[0] then IsSubsequence(a[1..], b[1..])
    else IsSubsequence(a, b[1..])
  }

  /** A subsequence of the tail is a subsequence of the whole. */
  lemma {:induction false} SubsequenceCons<T>(a: seq<T>, b: seq<T>)
    requires |b| > 0 && IsSubsequence(a, b[1..])
    ensures IsSubsequence(a, b)
    decreases |a| + |b|, 1
  {
    if |a| > 0 && a[0] == b[0] {
      SubsequenceTail(a, b[1..]);
    }
  }

  /** Dropping the head of a subsequence keeps it a subsequence. */
  lemma {:induction false} SubsequenceTail<T>(a: seq<T>, c: seq<T>)
    requires |a| > 0 && IsSubsequence(a, c)
    ensures IsSubsequence(a[1..], c)
    decreases |a| + |c|, 0
  {
    if a[0] == c[0] {
      SubsequenceCons(a[1..], c);
    } else {
      SubsequenceTail(a, c[1..]);
      SubsequenceCons(a[1..], c);
    }
  }

  /** Every sequence is a subsequence of itself. */
  lemma {:induction false} SubsequenceRefl<T>(a: seq<T>)
    ensures IsSubsequence(a, a)
  {
    if |a| > 0 {
      SubsequenceRefl(a[1..]);
    }
  }

  /** A subsequence of a subsequence is a subsequence. */
  lemma {:induction false} SubsequenceTrans<T>(a: seq<T>, b: seq<T>, c: seq<T>)
    requires IsSubsequence(a, b) && IsSubsequence(b, c)
    ensures IsSubsequence(a, c)
    decreases |a| + |b| + |c|
  {
    if |a| > 0 {
      if b[0] == c[0] {
        if a[0] == b[0] {
          SubsequenceTrans(a[1..], b[1..], c[1..]);
        } else {
          SubsequenceTrans(a, b[1..], c[1..]);
          SubsequenceCons(a, c);
        }
      } else {
        SubsequenceTrans(a, b, c[1..]);
        SubsequenceCons(a, c);
      }
    }
  }

  /** A slice is a subsequence of the whole. */
  lemma {:induction false} SliceSubsequence<T>(s: seq<T>, i: nat, j: nat)
    requires i <= j <= |s|
    ensures IsSubsequence(s[i..j], s)
    decreases |s|
  {
    if i > 0 {
      SliceSubsequence(s[1..], i - 1, j - 1);
      assert s[1..][i - 1..j - 1] == s[i..j];
      SubsequenceCons(s[i..j], s);
    } else if j > 0 {
      SliceSubsequence(s[1..], 0, j - 1);
      assert s[..j][1..] == s[1..][0..j - 1];
    }
  }

  lemma AppendAssoc<T>(a: seq<T>, b: seq<T>, c: seq<T>)
    ensures (a + b) + c == a + (b + c)
  {
  }

  /** Moving the head of `ys` to the end of `xs`. */
  lemma AppendHead<T>(xs: seq<T>, ys: seq<T>)
    requires |ys| > 0
    ensures xs + ys == (xs + [ys[0]]) + ys[1..]
  {
    assert ys == [ys[0]] + ys[1..];
  }

  /** The last `n` elements, or all of them when there are fewer (Python `xs[-n:]`
      for `n > 0`; `xs[-0:]` would be the whole list). */
  function LastN<T>(xs: seq<T>, n: nat): (r: seq<T>)
    ensures |r| == if |xs| < n then |xs| else n
    ensures r == xs[|xs| - |r|..]
  {
    if |xs| <= n then xs else xs[|xs| - n..]
  }

  /** Appending to the last `n` and dropping the oldest when over `n` keeps the last
      `n` of the longer sequence. */
  lemma LastNAppend<T>(p: seq<T>, x: T, n: nat)
    requires n > 0
    ensures var added := LastN(p, n) + [x];
            (if |added| > n then added[1..] else added) == LastN(p + [x], n)
  {
    var added := LastN(p, n) + [x];
    var q := p + [x];
    if |p| < n {
      assert added == q;
    } else {
      assert |added| > n && added[1..] == q[|q| - n..];
    }
  }

  /** Dropping from a concatenation no further than its first part. */
  lemma DropAppend<T>(xs: seq<T>, ys: seq<T>, d: nat)
    requires d <= |xs|
    ensures (xs + ys)[d..] == xs[d..] + ys
  {
  }

  /** A non-empty sequence is its front followed by its last element. */
  lemma FrontLast<T>(xs: seq<T>)
    requires |xs| > 0
    ensures xs[..|xs| - 1] + [xs[|xs| - 1]] == xs
  {
  }

  /** LINQ `Take(n)` / Python `xs[:n]`. */
  function Take<T>(xs: seq<T>, n: nat): (r: seq<T>)
    ensures |r| == if |xs| < n then |xs| else n
    ensures r == xs[..|r|]
  {
    if |xs| <= n then xs else xs[..n]
  }

  /** What follows a known front of a suffix. */
  lemma DropFront<T>(b: seq<T>, at: nat, p: seq<T>, q: seq<T>)
    requires at <= |b| && b[at..] == p + q
    ensures at + |p| <= |b| && b[at + |p|..] == q
  {
    assert b[at + |p|..] == b[at..][|p|..];
  }
}

=== FILE: simple_chatbot_model.dfy ===
/** The keyword chatbot (AI_Final/Assets/scripts/SimpleChatbotModel.cs): six
    question/answer pairs, each with a keyword list; an input normaliser that runs a
    slang loop (inert as written: its patterns need a literal backslash), strips punctuation, lower-cases and drops stop words; and a scorer that
    answers with the best-scoring pair when it scores above 0.3.

    `float` scores are `real`; `NormalizationForm.FormC` is the identity (text is
    taken to be in composed form already). */
module SimpleChatbotModel {
  import opened Optional
  import opened Strings
  import opened Seqs
  import opened Numbers
  import opened Scoring
  import opened WordText

  datatype QA = QA(question: String, answer: String, keywords: seq<String>)

  /** The pairs the constructor adds, in order. */
  const FaqList: seq<QA> := [
    QA("luật chơi quoridor",
       "Mỗi người chơi phải đưa quân của mình sang phía đối diện bàn cờ, có thể đặt tường để cản đối thủ.",
       ["luật", "chơi", "quoridor", "hướng", "dẫn", "cách", "chơi", "luật chơi", "hướng dẫn", "cách chơi", "chơi sao", "bắt đầu", "game", "chơi như thế nào"]),
    QA("hướng dẫn chơi quoridor",
       "Để chơi Quoridor, bạn cần đưa quân của mình sang phía đối diện bàn cờ, có thể đặt tường để cản đối thủ. Mỗi lượt bạn có thể di chuyển quân hoặc đặt tường. Không được chặn hoàn toàn đường đi của đối thủ.",
       ["hướng dẫn", "cách chơi", "bắt đầu", "chơi như thế nào", "hướng dẫn chơi", "hướng dẫn quoridor", "cách chơi quoridor"]),
    QA("cách di chuyển quân",
       "Quân di chuyển một ô theo chiều ngang hoặc dọc, không được đi xuyên qua tường.",
       ["di", "chuyển", "quân", "đi", "di chuyển", "cách di chuyển", "di chuyển quân"]),
    QA("cách đặt tường",
       "Mỗi lượt bạn có thể đặt một tường để cản đường đối thủ, nhưng không được chặn hoàn toàn đường đi.",
       ["đặt", "tường", "wall", "cách đặt", "đặt tường", "cách đặt tường"]),
    QA("bao nhiêu tường",
       "Mỗi người chơi có 10 tường để sử dụng trong suốt ván đấu.",
       ["bao", "nhiêu", "tường", "số", "lượng", "mấy", "cs", "bn", "mấy tường", "mấy cái tường", "mấy bức tường", "bao nhiêu", "số lượng tường"]),
    QA("làm sao để thắng",
       "Đưa quân của bạn sang hàng đối diện trước đối thủ để giành chiến thắng.",
       ["làm", "sao", "để", "thắng", "chiến", "thắng", "làm sao", "cách thắng", "làm sao để thắng"])
  ]

  // ---------------------------------------------------------------------------
  // Slang
  // ---------------------------------------------------------------------------

  /** The abbreviation table, in its enumeration order. */
  const SlangTable: seq<(String, String)> := [
    ("cs", "có"), ("bn", "bao nhiêu"), ("mấy", "bao nhiêu"), ("tg", "tường"), ("tường", "tường")
  ]

  /** The keys are words and the expansions are words and spaces. */
  lemma {:induction false} SlangTableShape()
    ensures forall i :: 0 <= i < |SlangTable| ==> WordOfWordChars(SlangTable[i].0) && Clean(SlangTable[i].1)
  {
    SlangRowsShape(0);
    SlangRowsShape(1);
    SlangRowsShape(2);
    SlangRowsShape(3);
    SlangRowsShape(4);
  }

  lemma {:induction false} SlangRowsShape(i: nat)
    requires i < |SlangTable|
    ensures WordOfWordChars(SlangTable[i].0) && Clean(SlangTable[i].1)
  {
  }

  /** The pattern text the source builds for a key. Inside the verbatim string
      `$@"\\b{key}\\b"` each `\\` is a regular-expression escape for one backslash,
      so the pattern matches the text backslash, `b`, key, backslash, `b`. */
  function SlangPattern(key: String): (r: String)
    ensures |r| == |key| + 4 && r[0] == '\\'
  {
    "\\b" + key + "\\b"
  }

  /** The slang loop as written. */
  function SlangAsWritten(s: String, table: seq<(String, String)>): String
    decreases |table|
  {
    if |table| == 0 then s
    else SlangAsWritten(ReplaceText(s, SlangPattern(table[0].0), table[0].1), table[1..])
  }

  /** As written, the slang loop changes nothing in text without a backslash: no
      abbreviation is ever expanded. */
  lemma {:induction false} SlangAsWrittenInert(s: String, table: seq<(String, String)>)
    requires '\\' !in s
    requires forall i :: 0 <= i < |table| ==> '\\' !in table[i].1
    ensures SlangAsWritten(s, table) == s
    decreases |table|
  {
    if |table| > 0 {
      var p := SlangPattern(table[0].0);
      assert '\\' in p;
      ReplaceScanAbsent(s, p, table[0].1, false, false, '\\');
      SlangAsWrittenInert(s, table[1..]);
    }
  }

  /** "bn" (how many) stays "bn" under the loop as written. */
  lemma SlangAsWrittenKeepsBn()
    ensures SlangAsWritten("bn", SlangTable) == "bn"
  {
    assert forall i :: 0 <= i < |SlangTable| ==> '\\' !in SlangTable[i].1;
    SlangAsWrittenInert("bn", SlangTable);
  }

  /** The slang loop with the evidently intended pattern `\bkey\b`. */
  function Slang(s: String, table: seq<(String, String)>): String
    requires forall i :: 0 <= i < |table| ==> WordOfWordChars(table[i].0)
    decreases |table|
  {
    if |table| == 0 then s
    else
      assert WordOfWordChars(table[0].0);
      Slang(ReplaceWord(s, table[0].0, table[0].1), table[1..])
  }

  /** Each key, in table order, replaced in a list of words by the words of its
      expansion. */
  function ExpandWords(words: seq<String>, table: seq<(String, String)>): seq<String>
    decreases |table|
  {
    if |table| == 0 then words
    else ExpandWords(Subst(words, table[0].0, SplitWords(table[0].1)), table[1..])
  }

  /** On text of words and spaces the corrected loop expands every whole-word
      abbreviation: its words are the input's words with each key replaced by the
      words of its expansion. */
  lemma {:induction false} SlangExpandsWords(s: String, table: seq<(String, String)>)
    requires Clean(s)
    requires forall i :: 0 <= i < |table| ==> WordOfWordChars(table[i].0) && Clean(table[i].1)
    ensures Clean(Slang(s, table)) && SplitWords(Slang(s, table)) == ExpandWords(SplitWords(s), table)
    decreases |table|
  {
    if |table| > 0 {
      ReplaceWordWords(s, table[0].0, table[0].1, false);
      SlangExpandsWords(ReplaceWord(s, table[0].0, table[0].1), table[1..]);
    }
  }

  /** With the intended pattern the lone word "bn" becomes the two words "bao nhiêu". */
  lemma {:induction false} SlangExpandsBn(s: String)
    requires Clean(s) && SplitWords(s) == ["bn"]
    ensures SplitWords(Slang(s, SlangTable)) == ["bao", "nhiêu"]
  {
    SlangTableShape();
    SlangExpandsWords(s, SlangTable);
    assert SplitWords(s) == [SlangTable[1].0];
    BnExpands();
    BaoNhieuWords();
  }

  /** The word "bn" through the table: only its own row applies. */
  lemma {:induction false} BnExpands()
    ensures ExpandWords([SlangTable[1].0], SlangTable) == SplitWords(SlangTable[1].1)
  {
    SlangKeysBeforeBn();
    BaoNhieuWords();
    SlangKeysAfterBn(SplitWords(SlangTable[1].1));
    ExpandSingleHit(SlangTable[1].0, SlangTable, 1);
  }

  lemma SlangKeysBeforeBn()
    ensures forall i :: 0 <= i < 1 ==> SlangTable[i].0 != SlangTable[1].0
  {
    assert SlangTable[0].0[0] != SlangTable[1].0[0];
  }

  lemma SlangKeysAfterBn(bn: seq<String>)
    requires bn == ["bao", "nhiêu"]
    ensures forall i :: 1 < i < |SlangTable| ==> SlangTable[i].0 !in bn
  {
    assert |bn| == 2 && bn[0][0] == 'b' && bn[1][0] == 'n';
    forall i | 1 < i < |SlangTable|
      ensures SlangTable[i].0 !in bn
    {
      var k := SlangTable[i].0;
      assert |k| > 0 && (k[0] == 'm' || k[0] == 't');
      FirstCharNotIn(k, bn);
    }
  }

  /** A single word that only row `j` of the table matches, and whose expansion no
      later key matches, ends up as the words of row `j`'s expansion. */
  lemma {:induction false} ExpandSingleHit(w: String, table: seq<(String, String)>, j: nat)
    requires j < |table| && table[j].0 == w
    requires forall i :: 0 <= i < j ==> table[i].0 != w
    requires forall i :: j < i < |table| ==> table[i].0 !in SplitWords(table[j].1)
    ensures ExpandWords([w], table) == SplitWords(table[j].1)
    decreases j
  {
    var repl := SplitWords(table[j].1);
    if j == 0 {
      assert Subst([w], w, repl) == repl + Subst([], w, repl) == repl;
      assert ExpandWords([w], table) == ExpandWords(repl, table[1..]);
      forall i | 0 <= i < |table[1..]|
        ensures table[1..][i].0 !in repl
      {
        assert table[1..][i] == table[i + 1];
      }
      ExpandNone(repl, table[1..]);
    } else {
      assert table[0].0 != w;
      SubstAbsent([w], table[0].0, SplitWords(table[0].1));
      forall i | 0 <= i < j - 1
        ensures table[1..][i].0 != w
      {
        assert table[1..][i] == table[i + 1];
      }
      forall i | j - 1 < i < |table[1..]|
        ensures table[1..][i].0 !in repl
      {
        assert table[1..][i] == table[i + 1];
      }
      assert table[1..][j - 1] == table[j];
      ExpandSingleHit(w, table[1..], j - 1);
    }
  }

  /** A word whose first letter starts none of the words is none of them. */
  lemma FirstCharNotIn(k: String, words: seq<String>)
    requires |k| > 0 && forall i :: 0 <= i < |words| ==> |words[i]| > 0 && words[i][0] != k[0]
    ensures k !in words
  {
  }

  /** Keys absent from the words change nothing. */
  lemma {:induction false} ExpandNone(words: seq<String>, table: seq<(String, String)>)
    requires forall i :: 0 <= i < |table| ==> table[i].0 !in words
    ensures ExpandWords(words, table) == words
    decreases |table|
  {
    if |table| > 0 {
      SubstAbsent(words, table[0].0, SplitWords(table[0].1));
      ExpandNone(words, table[1..]);
    }
  }

  lemma {:induction false} BaoNhieuWords()
    ensures SplitWords(SlangTable[1].1) == ["bao", "nhiêu"]
  {
    var bn: seq<String> := ["bao", "nhiêu"];
    assert IsWord(bn[0]) && IsWord(bn[1]);
    SplitWordsJoin(bn);
    assert Join(bn, " ") == SlangTable[1].1;
  }

  /** A key absent from the words changes nothing. */
  lemma {:induction false} ExpandSkips(words: seq<String>, table: seq<(String, String)>)
    requires |table| > 0 && table[0].0 !in words
    ensures ExpandWords(words, table) == ExpandWords(words, table[1..])
  {
    SubstAbsent(words, table[0].0, SplitWords(table[0].1));
  }

  // ---------------------------------------------------------------------------
  // Normalisation and tokens
  // ---------------------------------------------------------------------------

  const StopWords: seq<String> := [
    "là", "của", "và", "hoặc", "nhưng", "mà", "thì", "là", "có", "được", "cho", "với", "từ",
    "đến", "trong", "ngoài", "trên", "dưới", "trước", "sau", "bên", "cạnh", "giữa", "xung", "quanh"
  ]

  lemma {:induction false} StopWordsShape()
    ensures forall i :: 0 <= i < |StopWords| ==> WordOfWordChars(StopWords[i])
  {
    StopWordsFrom(0);
    StopWordsFrom(5);
    StopWordsFrom(10);
    StopWordsFrom(15);
    StopWordsFrom(20);
  }

  lemma {:induction false} StopWordsFrom(lo: nat)
    requires lo % 5 == 0 && lo < |StopWords|
    ensures forall i :: lo <= i < lo + 5 && i < |StopWords| ==> WordOfWordChars(StopWords[i])
  {
  }

  /** `NormalizeInput`: the slang loop as written (which changes nothing, see
      `SlangAsWrittenInert`), composed form, punctuation to spaces, white space
      collapsed and trimmed, lower case, stop words to spaces, white space collapsed
      and trimmed again. */
  function NormalizeInput(input: String): String {
    if |input| == 0 then []
    else
      StopWordsShape();
      var spaced := Squash(Unpunctuate(SlangAsWritten(input, SlangTable)));
      Squash(ReplaceEach(Lower(spaced), StopWords, " "))
  }

  /** The words normalisation keeps: the lower-cased words of the unpunctuated input
      after the slang loop as written, without the stop words. */
  function NormalWords(input: String): seq<String> {
    if |input| == 0 then []
    else
      Keep(LowerAll(SplitWords(Unpunctuate(SlangAsWritten(input, SlangTable)))), StopWords)
  }

  /** Collapsing keeps text clean. */
  lemma {:induction false} CollapseKeepsClean(s: String)
    requires Clean(s)
    ensures Clean(Collapse(s))
    decreases |s|
  {
    if |s| > 0 {
      if IsWhiteSpace(s[0]) {
        var t := TrimStart(s);
        assert Clean(t) by { assert forall i :: 0 <= i < |t| ==> t[i] == s[|s| - |t| + i]; }
        CollapseKeepsClean(t);
      } else {
        var n := WordLength(s);
        assert Clean(s[n..]) by { assert forall i :: 0 <= i < |s| - n ==> s[n..][i] == s[n + i]; }
        CollapseKeepsClean(s[n..]);
      }
    }
  }

  /** Collapsing and trimming keeps text clean. */
  lemma {:induction false} SquashKeepsClean(s: String)
    requires Clean(s)
    ensures Clean(Squash(s))
  {
    CollapseKeepsClean(s);
    var c := Collapse(s);
    var t := Trim(c);
    assert Squash(s) == t;
    TrimChars(c);
    forall k | 0 <= k < |t|
      ensures IsWordChar(t[k]) || IsWhiteSpace(t[k])
    {
      assert t[k] in c;
    }
  }

  /** The normalised input is its kept words joined by single spaces. */
  lemma {:induction false} NormalizeInputIsWords(input: String)
    ensures NormalizeInput(input) == Join(NormalWords(input), " ")
  {
    if |input| > 0 {
      StopWordsShape();
      var u := Unpunctuate(SlangAsWritten(input, SlangTable));
      SquashKeepsClean(u);
      LowerKeepsClean(Squash(u));
      RemoveWords(Lower(Squash(u)), StopWords);
      LowerWords(u);
    }
  }

  /** The kept words are lower-case words of word characters, none a stop word. */
  lemma {:induction false} NormalWordsShape(input: String)
    ensures forall i :: 0 <= i < |NormalWords(input)| ==>
              IsWord(NormalWords(input)[i]) && NormalWords(input)[i] !in StopWords
  {
    if |input| > 0 {
      var ws := LowerAll(SplitWords(Unpunctuate(SlangAsWritten(input, SlangTable))));
      LowerAllWords(SplitWords(Unpunctuate(SlangAsWritten(input, SlangTable))));
      var kept := Keep(ws, StopWords);
      assert kept == NormalWords(input);
      forall i | 0 <= i < |kept|
        ensures IsWord(kept[i]) && kept[i] !in StopWords
      {
        assert kept[i] in kept;
        var j :| 0 <= j < |ws| && ws[j] == kept[i];
      }
    }
  }

  /** Because the slang loop as written is inert, an abbreviation reaches the scorer
      unexpanded: the kept words of an input without a backslash are those of the input
      itself, so "bn" stays the word "bn". */
  lemma SlangNeverExpandsInput(input: String)
    requires '\\' !in input
    ensures NormalWords(input) == if |input| == 0 then [] else Keep(LowerAll(SplitWords(Unpunctuate(input))), StopWords)
  {
    assert forall i :: 0 <= i < |SlangTable| ==> '\\' !in SlangTable[i].1;
    SlangAsWrittenInert(input, SlangTable);
  }

  /** Lower-casing words keeps them words. */
  lemma {:induction false} LowerAllWords(words: seq<String>)
    requires forall i :: 0 <= i < |words| ==> IsWord(words[i])
    ensures forall i :: 0 <= i < |words| ==> IsWord(LowerAll(words)[i])
  {
  }

  predicate LongerThanOne(w: String) {
    |w| > 1
  }

  /** `TokenizeAndNormalize`: the pieces of the normalised input between single
      spaces, those of one character dropped. */
  function Tokenize(input: String): seq<String> {
    var n := NormalizeInput(input);
    if |n| == 0 then [] else Filter(Split(n, ' '), LongerThanOne)
  }

  /** The tokens are the kept words longer than one character, in order: no token is
      a stop word, and none holds white space. */
  lemma {:induction false} TokenizeKeepsLongWords(input: String)
    ensures Tokenize(input) == Filter(NormalWords(input), LongerThanOne)
  {
    NormalizeInputIsWords(input);
    NormalWordsShape(input);
    TokensOfJoin(NormalWords(input));
  }

  /** Splitting words joined by single spaces, then dropping one-character pieces. */
  lemma {:induction false} TokensOfJoin(words: seq<String>)
    requires forall i :: 0 <= i < |words| ==> IsWord(words[i])
    ensures var n := Join(words, " ");
            (if |n| == 0 then [] else Filter(Split(n, ' '), LongerThanOne)) == Filter(words, LongerThanOne)
  {
    JoinOfWordsEnds(words);
    if words != [] {
      forall i | 0 <= i < |words|
        ensures ' ' !in words[i]
      {
        assert IsWord(words[i]);
      }
      SplitJoin(words, ' ');
    }
  }

  // ---------------------------------------------------------------------------
  // Scores
  // ---------------------------------------------------------------------------

  /** The token contains a keyword or lies inside one. */
  predicate Matches(token: String, keywords: seq<String>) {
    exists k :: k in keywords && (Contains(token, k) || Contains(k, token))
  }

  /** The number of tokens that match some keyword. */
  function MatchCount(tokens: seq<String>, keywords: seq<String>): (r: nat)
    ensures r <= |tokens|
    ensures r == |tokens| <==> forall i :: 0 <= i < |tokens| ==> Matches(tokens[i], keywords)
    ensures r == 0 <==> forall i :: 0 <= i < |tokens| ==> !Matches(tokens[i], keywords)
  {
    if |tokens| == 0 then 0
    else
      var rest := MatchCount(tokens[1..], keywords);
      assert forall i :: 1 <= i < |tokens| ==> tokens[i] == tokens[1..][i - 1];
      (if Matches(tokens[0], keywords) then 1 else 0) + rest
  }

  /** `CalculateKeywordScore`: the share of tokens that match a keyword. */
  function KeywordScore(tokens: seq<String>, keywords: seq<String>): (r: real)
    ensures 0.0 <= r <= 1.0
    ensures r == 1.0 <==> |keywords| > 0 && |tokens| > 0 && forall i :: 0 <= i < |tokens| ==> Matches(tokens[i], keywords)
    ensures r == 0.0 <==> |keywords| == 0 || forall i :: 0 <= i < |tokens| ==> !Matches(tokens[i], keywords)
  {
    if |keywords| == 0 then 0.0
    else if |tokens| == 0 then 0.0
    else
      var m := MatchCount(tokens, keywords);
      Ratio(m, |tokens|);
      m as real / |tokens| as real
  }

  /** A count out of a positive total as a share. */
  lemma {:induction false} Ratio(m: nat, n: nat)
    requires 0 < n && m <= n
    ensures var q := m as real / n as real;
            0.0 <= q <= 1.0 && (q == 1.0 <==> m == n) && (q == 0.0 <==> m == 0)
  {
    var q := m as real / n as real;
    assert q * n as real == m as real;
  }

  /** `CalculateSimilarity`: Jaccard similarity of the two token sets, 0 when either
      list is empty. */
  function Similarity(a: seq<String>, b: seq<String>): (r: real)
    ensures 0.0 <= r <= 1.0
    ensures r == 1.0 <==> |a| > 0 && (set x | x in a) == (set x | x in b)
    ensures r == 0.0 <==> forall x :: x in a ==> x !in b
  {
    var sa, sb := set x | x in a, set x | x in b;
    if |a| == 0 || |b| == 0 then
      assert |a| > 0 ==> a[0] in sa && sa != sb;
      0.0
    else
      assert a[0] in sa;
      assert b[0] in sb;
      TokenSetsDisjoint(a, b);
      Jaccard(sa, sb)
  }

  lemma {:induction false} TokenSetsDisjoint(a: seq<String>, b: seq<String>)
    ensures ((set x | x in a) * (set x | x in b) == {}) <==> forall x :: x in a ==> x !in b
  {
    var sa, sb := set x | x in a, set x | x in b;
    if sa * sb != {} {
      var y :| y in sa * sb;
      assert y in a && y in b;
    }
    if exists x :: x in a && x in b {
      var y :| y in a && y in b;
      assert y in sa * sb;
    }
  }

  lemma SimilaritySymmetric(a: seq<String>, b: seq<String>)
    ensures Similarity(a, b) == Similarity(b, a)
  {
    if |a| > 0 && |b| > 0 {
      JaccardSymmetric(set x | x in a, set x | x in b);
    }
  }

  /** The larger of the keyword score and the similarity to the question. */
  function Score(tokens: seq<String>, qa: QA): real {
    Max(KeywordScore(tokens, qa.keywords), Similarity(tokens, Tokenize(qa.question)))
  }

  function Scores(tokens: seq<String>, faq: seq<QA>): (r: seq<real>)
    ensures |r| == |faq| && forall i :: 0 <= i < |faq| ==> r[i] == Score(tokens, faq[i])
  {
    seq(|faq|, i requires 0 <= i < |faq| => Score(tokens, faq[i]))
  }

  /** Answers are given only above this score. */
  const AnswerThreshold: real := 0.3

  /** The answer of the first pair with the highest score, when that score exceeds
      0.3: the loop that keeps a strictly better score, then the threshold. */
  function BestAnswer(faq: seq<QA>, scores: seq<real>): (r: Option<String>)
    requires |scores| == |faq|
    ensures r.Some? <==> exists i :: 0 <= i < |faq| && scores[i] > AnswerThreshold
    ensures r.Some? ==>
              exists k :: 0 <= k < |faq| && r.value == faq[k].answer && scores[k] > AnswerThreshold
                          && (forall i :: 0 <= i < |faq| ==> scores[i] <= scores[k])
                          && (forall i :: 0 <= i < k ==> scores[i] < scores[k])
  {
    match BestIndex(scores, 0.0)
    case None => None
    case Some(k) => if scores[k] > AnswerThreshold then Some(faq[k].answer) else None
  }

  /** `GetAnswer`: `None` for empty input or input without tokens; otherwise the best
      answer for the tokens' scores. */
  function GetAnswer(faq: seq<QA>, userInput: String): (r: Option<String>)
    ensures |userInput| == 0 || Tokenize(userInput) == [] ==> r == None
    ensures |userInput| > 0 && Tokenize(userInput) != [] ==>
              r == BestAnswer(faq, Scores(Tokenize(userInput), faq))
  {
    if |userInput| == 0 then None
    else
      var tokens := Tokenize(userInput);
      if |tokens| == 0 then None
      else BestAnswer(faq, Scores(tokens, faq))
  }
}

=== FILE: simple_chatbot_system.dfy ===
/** The self-contained chatbot of AI_Final/Assets/scripts/SimpleChatbotSystem.cs: the
    trained model (`SimpleTrainedModel`), the canned "API" for off-topic questions
    (`SimpleAPIManager`) and the manager's choice between the two (`SimpleChatManager`).
    Keys and inputs are compared after `FoldedText.NormalizeInput`. */
module SimpleChatbotSystem {
  import opened Optional
  import opened Strings
  import opened Dicts
  import opened Seqs
  import opened Scoring
  import opened FoldedText

  // ---------------------------------------------------------------------------
  // The trained model (`SimpleTrainedModel`)
  // ---------------------------------------------------------------------------

  /** The model's canned answers; `AnswerText` gives their wording. */
  datatype Answer = GuideAnswer | StrategyAnswer | HintAnswer | HelpAnswer | GreetingAnswer(index: nat) | DefaultAnswer

  const GuideList: seq<Answer> := [GuideAnswer]
  const StrategyList: seq<Answer> := [StrategyAnswer]
  const HintList: seq<Answer> := [HintAnswer]
  const HelpList: seq<Answer> := [HelpAnswer]
  const GreetingList: seq<Answer> := [GreetingAnswer(0), GreetingAnswer(1), GreetingAnswer(2)]

  /** The phrases `Initialize` stores, in order, each with the list it answers with; an
      alias is stored with the same list as the phrase it copies. */
  const Training: seq<(String, seq<Answer>)> := [
    ("hướng dẫn", GuideList), ("cách chơi", GuideList), ("luật chơi", GuideList), ("game", GuideList),
    ("chiến thuật", StrategyList), ("strategy", StrategyList), ("tactic", StrategyList),
    ("gợi ý", HintList), ("hint", HintList), ("tip", HintList),
    ("help", HelpList),
    ("xin chào", GreetingList), ("hello", GreetingList), ("hi", GreetingList)
  ]

  /** The `responses` dictionary: normalised phrase to answer list. */
  type Responses = Dict<String, seq<Answer>>

  /** Every stored list can be drawn from. */
  predicate Stocked(d: Responses) {
    forall i :: 0 <= i < |d| ==> |d[i].1| > 0
  }

  /** Stocked, and no list holds the default answer. */
  predicate Answering(d: Responses) {
    forall i :: 0 <= i < |d| ==> |d[i].1| > 0 && DefaultAnswer !in d[i].1
  }

  /** `responses[NormalizeInput(phrase)] = list` for every entry in order. */
  function Train(d: Responses, entries: seq<(String, seq<Answer>)>): Responses
    decreases |entries|
  {
    if |entries| == 0 then d
    else Train(Put(d, NormalizeInput(entries[0].0), entries[0].1), entries[1..])
  }

  /** Training stores every phrase and loses no key. */
  lemma {:induction false} TrainStores(d: Responses, entries: seq<(String, seq<Answer>)>)
    ensures forall k :: k in Keys(d) ==> k in Keys(Train(d, entries))
    ensures forall j :: 0 <= j < |entries| ==> NormalizeInput(entries[j].0) in Keys(Train(d, entries))
    decreases |entries|
  {
    if |entries| > 0 {
      var key := NormalizeInput(entries[0].0);
      var d' := Put(d, key, entries[0].1);
      var rest := entries[1..];
      PutValues(d, key, entries[0].1);
      TrainStores(d', rest);
      var t := Train(d, entries);
      assert t == Train(d', rest);
      assert key in Keys(t);
      StoredLater(entries, rest, (e: (String, seq<Answer>)) => NormalizeInput(e.0), Keys(t));
    }
  }

  /** Every entry's key is among `keys` when the first one's and the rest's are. */
  lemma StoredLater<E>(entries: seq<E>, rest: seq<E>, key: E -> String, keys: seq<String>)
    requires |entries| > 0 && rest == entries[1..] && key(entries[0]) in keys
    requires forall j :: 0 <= j < |rest| ==> key(rest[j]) in keys
    ensures forall j :: 0 <= j < |entries| ==> key(entries[j]) in keys
  {
    forall j | 0 <= j < |entries| ensures key(entries[j]) in keys {
      if j > 0 {
        assert entries[j] == rest[j - 1];
      }
    }
  }

  lemma TrainKeepsAnswering(d: Responses, entries: seq<(String, seq<Answer>)>)
    requires forall j :: 0 <= j < |entries| ==> |entries[j].1| > 0 && DefaultAnswer !in entries[j].1
    ensures Answering(d) ==> Answering(Train(d, entries))
  {
    if Answering(d) {
      TrainAnswering(d, entries);
    }
  }

  /** Training with answering lists keeps a dictionary answering. */
  lemma {:induction false} TrainAnswering(d: Responses, entries: seq<(String, seq<Answer>)>)
    requires Answering(d)
    requires forall j :: 0 <= j < |entries| ==> |entries[j].1| > 0 && DefaultAnswer !in entries[j].1
    ensures Answering(Train(d, entries))
    decreases |entries|
  {
    if |entries| > 0 {
      var d' := Put(d, NormalizeInput(entries[0].0), entries[0].1);
      PutValues(d, NormalizeInput(entries[0].0), entries[0].1);
      assert Answering(d') by {
        forall i | 0 <= i < |d'| ensures |d'[i].1| > 0 && DefaultAnswer !in d'[i].1 {
          if d'[i].1 != entries[0].1 {
            var k :| 0 <= k < |d| && Values(d)[k] == d'[i].1;
          }
        }
      }
      TrainAnswering(d', entries[1..]);
    }
  }

  /** After `d[k] = v` the key is stored and every stored value is `v` or was stored
      before. */
  lemma PutValues(d: Responses, k: String, v: seq<Answer>)
    ensures k in Keys(Put(d, k, v))
    ensures forall key :: key in Keys(d) ==> key in Keys(Put(d, k, v))
    ensures forall i :: 0 <= i < |Put(d, k, v)| ==> Put(d, k, v)[i].1 == v || Put(d, k, v)[i].1 in Values(d)
  {
    var i := KeyIndex(d, k);
    var r := Put(d, k, v);
    if i >= 0 {
      assert r == d[i := (k, v)];
      assert Keys(r)[i] == k;
      assert forall j :: 0 <= j < |d| && j != i ==> r[j] == d[j];
    } else {
      assert r == d + [(k, v)];
      assert Keys(r)[|d|] == k;
      assert forall j :: 0 <= j < |d| ==> Keys(r)[j] == Keys(d)[j];
    }
  }

  lemma TrainingLists()
    ensures forall j :: 0 <= j < |Training| ==> |Training[j].0| > 0 && |Training[j].1| > 0 && DefaultAnswer !in Training[j].1
  {
  }

  /** `Initialize`, run on the model's current dictionary (empty when the model is
      new): every trained phrase is stored, and an answering dictionary stays
      answering. */
  function Initialize(d: Responses): (r: Responses)
    ensures forall j :: 0 <= j < |Training| ==> NormalizeInput(Training[j].0) in Keys(r)
    ensures Answering(d) ==> Answering(r)
  {
    TrainStores(d, Training);
    TrainingLists();
    TrainKeepsAnswering(d, Training);
    Train(d, Training)
  }

  /** The guide phrases `GetResponse` checks before anything else. */
  const GuideKeywords: seq<String> := ["hướng dẫn", "cách chơi", "luật chơi", "game"]

  function GuideKey(): String {
    NormalizeInput("hướng dẫn")
  }

  /** The words of a normalised string: `Split(' ')` as a set. */
  function WordSet(s: String): set<String> {
    set w | w in Split(s, ' ')
  }

  /** `CalculateSimilarity`: the Jaccard ratio of the two word sets. */
  function Similarity(a: String, b: String): real {
    Jaccard(WordSet(a), WordSet(b))
  }

  /** The score of a stored phrase, which the loop normalises again. */
  function Score(n: String, pattern: String): real {
    Similarity(n, NormalizeInput(pattern))
  }

  function Scores(d: Responses, n: String): (r: seq<real>)
    ensures |r| == |d| && forall i :: 0 <= i < |d| ==> r[i] == Score(n, d[i].0)
  {
    seq(|d|, i requires 0 <= i < |d| => Score(n, d[i].0))
  }

  /** The guide test: some guide phrase occurs in the normalised input or equals one of
      its words, and the guide entry is stored. */
  predicate GuideRoute(d: Responses, n: String) {
    (exists k :: 0 <= k < |GuideKeywords| &&
      (Contains(n, NormalizeInput(GuideKeywords[k])) || NormalizeInput(GuideKeywords[k]) in Split(n, ' ')))
    && GuideKey() in Keys(d)
  }

  const ConfidenceThreshold: real := 0.6

  /** The scan over the stored phrases: the first one with the highest score, when
      that reaches the threshold, answers; otherwise the default answer. */
  function ScanAnswer(d: Responses, n: String, pick: nat): (r: Answer)
    requires Stocked(d)
    ensures (forall i :: 0 <= i < |d| ==> Score(n, d[i].0) < ConfidenceThreshold) ==> r == DefaultAnswer
    ensures (exists i :: 0 <= i < |d| && Score(n, d[i].0) >= ConfidenceThreshold) ==>
              exists i :: 0 <= i < |d| && r in d[i].1 && Score(n, d[i].0) >= ConfidenceThreshold
                && (forall j :: 0 <= j < |d| ==> Score(n, d[j].0) <= Score(n, d[i].0))
                && forall j :: 0 <= j < i ==> Score(n, d[j].0) < Score(n, d[i].0)
  {
    var scores := Scores(d, n);
    var best := BestIndex(scores, ConfidenceThreshold);
    BestIsFirstMaximum(d, n, scores, best);
    match best
    case None => DefaultAnswer
    case Some(i) => Choose(d[i].1, pick)
  }

  /** What `BestIndex` promises about the scores, read back as the stored phrases' scores. */
  lemma BestIsFirstMaximum(d: Responses, n: String, scores: seq<real>, best: Option<nat>)
    requires scores == Scores(d, n) && best == BestIndex(scores, ConfidenceThreshold)
    ensures best.None? <==> forall i :: 0 <= i < |d| ==> Score(n, d[i].0) < ConfidenceThreshold
    ensures best.Some? ==> best.value < |d| && Score(n, d[best.value].0) >= ConfidenceThreshold
    ensures best.Some? ==> forall j :: 0 <= j < |d| ==> Score(n, d[j].0) <= Score(n, d[best.value].0)
    ensures best.Some? ==> forall j :: 0 <= j < best.value ==> Score(n, d[j].0) < Score(n, d[best.value].0)
  {
  }

  /** `GetResponse`: the empty input gets the default; an input mentioning a guide
      phrase gets the guide; otherwise the scan decides. `pick` is the draw of
      `Random.Range`. */
  function GetResponse(d: Responses, input: String, pick: nat): (r: Answer)
    requires Stocked(d)
    ensures |input| == 0 ==> r == DefaultAnswer
    ensures r == DefaultAnswer || exists i :: 0 <= i < |d| && r in d[i].1
    ensures |input| > 0 && GuideRoute(d, NormalizeInput(input)) ==> r in Get(d, GuideKey()).value
    ensures |input| > 0 && !GuideRoute(d, NormalizeInput(input)) ==> r == ScanAnswer(d, NormalizeInput(input), pick)
  {
    if |input| == 0 then DefaultAnswer
    else
      var n := NormalizeInput(input);
      if GuideRoute(d, n) then
        var list := Get(d, GuideKey()).value;
        assert (GuideKey(), list) in d;
        Choose(list, pick)
      else ScanAnswer(d, n, pick)
  }

  /** The word test of the guide check adds nothing: a phrase equal to a word of the
      input occurs in the input. */
  lemma GuideWordOccurs(n: String, kw: String)
    requires kw in Split(n, ' ')
    ensures Contains(n, kw)
  {
    var i :| 0 <= i < |Split(n, ' ')| && Split(n, ' ')[i] == kw;
    SplitPiecesOccur(n, ' ', i);
  }

  /** A string is as similar to itself as can be. */
  lemma SimilaritySelf(a: String)
    ensures Similarity(a, a) == 1.0
  {
    assert Split(a, ' ')[0] in WordSet(a);
  }

  /** A stored phrase scores 1 against its own normalisation. */
  lemma StoredPhraseScoresOne(n: String)
    requires Normalized(n)
    ensures Score(n, n) == 1.0
  {
    NormalizedFixed(n);
    SimilaritySelf(n);
  }

  /** With no default answer stored, an input that takes the guide route or scores
      high enough against some phrase is answered. */
  lemma AnsweredWhenMatched(d: Responses, input: String, pick: nat)
    requires Answering(d) && |input| > 0
    requires GuideRoute(d, NormalizeInput(input))
             || exists i :: 0 <= i < |d| && Score(NormalizeInput(input), d[i].0) >= ConfidenceThreshold
    ensures GetResponse(d, input, pick) != DefaultAnswer
  {
    if GuideRoute(d, NormalizeInput(input)) {
      GuideRouteAnswers(d, input, pick);
    } else {
      ScanRouteAnswers(d, input, pick);
    }
  }

  lemma GuideRouteAnswers(d: Responses, input: String, pick: nat)
    requires Answering(d) && |input| > 0 && GuideRoute(d, NormalizeInput(input))
    ensures GetResponse(d, input, pick) != DefaultAnswer
  {
    StoredListAnswers(d, GuideKey(), GetResponse(d, input, pick));
  }

  lemma ScanRouteAnswers(d: Responses, input: String, pick: nat)
    requires Answering(d) && |input| > 0 && !GuideRoute(d, NormalizeInput(input))
    requires exists i :: 0 <= i < |d| && Score(NormalizeInput(input), d[i].0) >= ConfidenceThreshold
    ensures GetResponse(d, input, pick) != DefaultAnswer
  {
    ScanAnswers(d, NormalizeInput(input), pick);
  }

  /** A scan over an answering dictionary with a phrase at the threshold answers. */
  lemma ScanAnswers(d: Responses, n: String, pick: nat)
    requires Answering(d)
    requires exists i :: 0 <= i < |d| && Score(n, d[i].0) >= ConfidenceThreshold
    ensures ScanAnswer(d, n, pick) != DefaultAnswer
  {
    var r := ScanAnswer(d, n, pick);
    var i :| 0 <= i < |d| && r in d[i].1;
  }

  /** A draw from the list stored under a key of an answering dictionary is not the
      default answer. */
  lemma StoredListAnswers(d: Responses, k: String, r: Answer)
    requires Answering(d) && k in Keys(d) && r in Get(d, k).value
    ensures r != DefaultAnswer
  {
    var i :| 0 <= i < |d| && d[i] == (k, Get(d, k).value);
  }

  /** Every phrase the model was trained on is recognised: typing it never yields the
      default answer. */
  lemma TrainedPhrasesAnswered(d: Responses, j: nat, pick: nat)
    requires Answering(d) && j < |Training|
    ensures GetResponse(Initialize(d), Training[j].0, pick) != DefaultAnswer
  {
    var r := Initialize(d);
    var input := Training[j].0;
    TrainingLists();
    var n := NormalizeInput(input);
    var i :| 0 <= i < |r| && r[i].0 == n;
    NormalizeInputNormalized(input);
    StoredPhraseScoresOne(n);
    assert Score(n, r[i].0) >= ConfidenceThreshold;
    AnsweredWhenMatched(r, input, pick);
  }

  /** `GetDefaultResponse`, and the wording of the other answers. */
  function AnswerText(a: Answer): String {
    match a
    case GuideAnswer =>
      "🎮 **HƯỚNG DẪN CHƠI QUORIDOR:**\n\n"
      + "🎯 **Mục tiêu:** Đưa quân cờ đến đầu bên kia trước đối thủ!\n"
      + "🚶 **Di chuyển:** Click vào ô bạn muốn đi\n"
      + "🧱 **Đặt tường:** Click giữa các ô để chặn đường\n"
      + "💡 **Mẹo:** Mỗi lượt chỉ được di chuyển HOẶC đặt tường!"
    case StrategyAnswer =>
      "🧠 **CHIẾN THUẬT QUORIDOR:**\n\n"
      + "• Tập trung về đích ở giai đoạn đầu\n"
      + "• Dùng tường để chặn đường ngắn nhất của đối thủ\n"
      + "• Đừng lãng phí tường quá sớm!\n"
      + "• Luôn đảm bảo mình có đường đi về đích 😉"
    case HintAnswer =>
      "💡 **GỢI Ý CHO BẠN:**\n\n"
      + "• Hãy tính toán đường đi ngắn nhất\n"
      + "• Dùng tường để chặn đối thủ\n"
      + "• Đừng bị mắc kẹt!\n"
      + "• Luôn có kế hoạch dự phòng 😊"
    case HelpAnswer =>
      "🆘 **TÔI CÓ THỂ GIÚP:**\n\n"
      + "• 'hướng dẫn' - Luật chơi cơ bản\n"
      + "• 'chiến thuật' - Mẹo chơi hay\n"
      + "• 'gợi ý' - Lời khuyên cho nước đi\n"
      + "• Hoặc tán gẫu với tôi! 😄"
    case GreetingAnswer(i) =>
      if i == 0 then "Chào bạn! Tôi là AI hỗ trợ Quoridor. Hãy hỏi tôi bất cứ điều gì! 😊"
      else if i == 1 then "Hi! Sẵn sàng thách thức tôi chưa? 🎮"
      else "Xin chào! Hy vọng bạn đã chuẩn bị chiến thuật tốt! 😏"
    case DefaultAnswer => DefaultText
  }

  const DefaultText: String := "Tôi " + "chưa hiểu" + " rõ. Bạn có thể hỏi về 'hướng dẫn', 'chiến thuật', hoặc tán gẫu với tôi! 😊"

  // ---------------------------------------------------------------------------
  // The canned off-topic answers (`SimpleAPIManager`)
  // ---------------------------------------------------------------------------

  const CasualResponses: seq<String> := [
    "Thú vị! Bạn có muốn chơi Quoridor không? 🎮",
    "Haha, bạn thật vui tính! Có muốn thử thách tôi không? 😏",
    "Tôi thích trò chuyện với bạn! Có muốn chơi game không? 😊",
    "Bạn thật thú vị! Hãy chơi Quoridor với tôi nhé! 🎯"
  ]

  const WeatherText: String := "🌤️ Hôm nay thời tiết đẹp! Phù hợp để chơi Quoridor nhỉ? 😄"
  const HealthText: String := "💪 Tôi luôn khỏe mạnh và sẵn sàng chơi! Bạn thế nào? 😊"
  const NameText: String := "🤖 Tôi là AI Assistant, chuyên về game Quoridor! Rất vui được gặp bạn! 😄"
  const AgeText: String := "🎂 Tôi là AI nên không có tuổi thật, nhưng tôi rất trẻ và năng động! 😄"

  /** `SimpleAPIManager.GetResponse`: the first topic the lower-cased input mentions
      (weather, health, name, age) picks a fixed answer; anything else gets a casual
      line. */
  function ApiResponse(input: String, pick: nat): (r: String)
    ensures var l := Lower(input);
            var weather := Contains(l, "thời tiết") || Contains(l, "weather");
            var health := Contains(l, "sức khỏe") || Contains(l, "health");
            var name := Contains(l, "tên") || Contains(l, "name");
            var age := Contains(l, "tuổi") || Contains(l, "age");
            (weather ==> r == WeatherText)
            && (!weather && health ==> r == HealthText)
            && (!weather && !health && name ==> r == NameText)
            && (!weather && !health && !name && age ==> r == AgeText)
            && (Contains(l, "tên") || Contains(l, "name") ==> r in [WeatherText, HealthText, NameText])
            && (r in CasualResponses <==>
                  !(Contains(l, "thời tiết") || Contains(l, "weather") || Contains(l, "sức khỏe") || Contains(l, "health")
                    || Contains(l, "tên") || Contains(l, "name") || Contains(l, "tuổi") || Contains(l, "age")))
  {
    var l := Lower(input);
    if Contains(l, "thời tiết") || Contains(l, "weather") then WeatherText
    else if Contains(l, "sức khỏe") || Contains(l, "health") then HealthText
    else if Contains(l, "tên") || Contains(l, "name") then NameText
    else if Contains(l, "tuổi") || Contains(l, "age") then AgeText
    else Choose(CasualResponses, pick)
  }

  // ---------------------------------------------------------------------------
  // The manager (`SimpleChatManager`)
  // ---------------------------------------------------------------------------

  /** `IsDefaultResponse`: the reply reads like the model's "not understood" answer,
      which it recognises; a shorter text than either indicator never reads so. */
  function IsDefaultResponse(response: String): (r: bool)
    ensures response == DefaultText ==> r
    ensures r ==> |response| >= 9
  {
    assert DefaultText[4..13] == "chưa hiểu";
    ContainsAt(DefaultText, "chưa hiểu", 4);
    Contains(response, "chưa hiểu") || Contains(response, "có thể hỏi")
  }

  lemma DefaultAnswerIsRecognised()
    ensures IsDefaultResponse(AnswerText(DefaultAnswer))
  {
    assert DefaultText[4..13] == "chưa hiểu";
    ContainsAt(DefaultText, "chưa hiểu", 4);
  }

  /** `ProcessResponse`: the trained model answers first; the off-topic answer replaces
      its reply exactly when that reply reads like its default, and any other reply is
      kept. */
  function ProcessResponse(d: Responses, userInput: String, pick: nat, apiPick: nat): (r: String)
    requires Stocked(d)
    ensures GetResponse(d, userInput, pick) == DefaultAnswer ==> r == ApiResponse(userInput, apiPick)
    ensures r == AnswerText(GetResponse(d, userInput, pick)) || r == ApiResponse(userInput, apiPick)
    ensures var g := AnswerText(GetResponse(d, userInput, pick));
            (IsDefaultResponse(g) ==> r == ApiResponse(userInput, apiPick))
            && (!IsDefaultResponse(g) ==> r == g)
  {
    var response := AnswerText(GetResponse(d, userInput, pick));
    DefaultAnswerIsRecognised();
    if IsDefaultResponse(response) then ApiResponse(userInput, apiPick) else response
  }

  /** `OnSendClicked`: the input is trimmed and an empty one is ignored (`None`). */
  function OnSendClicked(d: Responses, text: String, pick: nat, apiPick: nat): (r: Option<String>)
    requires Stocked(d)
    ensures r.None? <==> Trim(text) == []
    ensures r.Some? ==> r.value == ProcessResponse(d, Trim(text), pick, apiPick)
  {
    var userInput := Trim(text);
    if |userInput| == 0 then None else Some(ProcessResponse(d, userInput, pick, apiPick))
  }
}

=== FILE: strings.dfy ===
/** Character classes and string operations shared by the chat models.

    Strings are sequences of Unicode scalar values. The character classes are
    subsets of the Unicode ones: letters are those of ASCII, Latin-1, Latin
    Extended-A/B and Latin Extended Additional (U+1E00..U+1EFF), digits are ASCII.
    The case mapping pairs only ASCII, Latin-1, U+0100..U+0137, U+014A..U+0177,
    Ơ/ơ, Ư/ư and the Vietnamese letters U+1EA0..U+1EF9; every other character,
    such as U+0139..U+0148, U+0178..U+017E or U+1E00..U+1E9F, is left as it is. */
module Strings {

  type String = seq<char>

  // ---------------------------------------------------------------------------
  // Character classes
  // ---------------------------------------------------------------------------

  /** White space as .NET `char.IsWhiteSpace` sees it. Python's `str.isspace` also
      counts the separators U+001C..U+001F, which this predicate does not. */
  predicate IsWhiteSpace(c: char) {
    c == ' ' || ('\t' <= c <= '\r') || c == '\U{0085}' || c == '\U{00A0}' || c == '\U{1680}'
    || ('\U{2000}' <= c <= '\U{200A}') || c == '\U{2028}' || c == '\U{2029}'
    || c == '\U{202F}' || c == '\U{205F}' || c == '\U{3000}'
  }

  /** Decimal digits. */
  predicate IsDigit(c: char) {
    '0' <= c <= '9'
  }

  /** Letters of the Latin alphabets, including every precomposed Vietnamese letter. */
  predicate IsLetter(c: char) {
    ('a' <= c <= 'z') || ('A' <= c <= 'Z')
    || c == '\U{00AA}' || c == '\U{00B5}' || c == '\U{00BA}'
    || ('\U{00C0}' <= c <= '\U{024F}' && c != '\U{00D7}' && c != '\U{00F7}')
    || ('\U{1E00}' <= c <= '\U{1EFF}')
  }

  predicate IsLetterOrDigit(c: char) {
    IsLetter(c) || IsDigit(c)
  }

  /** Upper-case letters that have a distinct lower-case partner. */
  predicate IsUpper(c: char) {
    ('A' <= c <= 'Z')
    || ('\U{00C0}' <= c <= '\U{00DE}' && c != '\U{00D7}')
    || ((('\U{0100}' <= c <= '\U{012F}') || ('\U{0132}' <= c <= '\U{0137}') || ('\U{014A}' <= c <= '\U{0177}'))
        && (c as int) % 2 == 0)
    || c == '\U{01A0}' || c == '\U{01AF}'
    || ('\U{1EA0}' <= c <= '\U{1EF9}' && (c as int) % 2 == 0)
  }

  /** Lower-case letters that have a distinct upper-case partner. */
  predicate IsLower(c: char) {
    ('a' <= c <= 'z')
    || ('\U{00E0}' <= c <= '\U{00FE}' && c != '\U{00F7}')
    || ((('\U{0100}' <= c <= '\U{012F}') || ('\U{0132}' <= c <= '\U{0137}') || ('\U{014A}' <= c <= '\U{0177}'))
        && (c as int) % 2 == 1)
    || c == '\U{01A1}' || c == '\U{01B0}'
    || ('\U{1EA0}' <= c <= '\U{1EF9}' && (c as int) % 2 == 1)
  }

  /** `char.ToLower` / Python `str.lower` on one character, for the upper-case letters
      `IsUpper` pairs; any other character maps to itself. */
  function ToLowerChar(c: char): (r: char)
    ensures !IsUpper(r)
    ensures IsUpper(c) ==> IsLower(r)
    ensures !IsUpper(c) ==> r == c
    ensures IsLetter(c) <==> IsLetter(r)
    ensures IsDigit(c) <==> IsDigit(r)
    ensures IsWhiteSpace(c) <==> IsWhiteSpace(r)
  {
    if 'A' <= c <= 'Z' || ('\U{00C0}' <= c <= '\U{00DE}' && c != '\U{00D7}') then (c as int + 32) as char
    else if c == '\U{01AF}' then '\U{01B0}'
    else if IsUpper(c) then (c as int + 1) as char
    else c
  }

  /** `char.ToUpper` on one character: the inverse of `ToLowerChar` on the letters it pairs. */
  function ToUpperChar(c: char): (r: char)
    ensures !IsLower(r)
    ensures !IsLower(c) ==> r == c
    ensures IsLower(c) ==> ToLowerChar(r) == c
  {
    if 'a' <= c <= 'z' || ('\U{00E0}' <= c <= '\U{00FE}' && c != '\U{00F7}') then (c as int - 32) as char
    else if c == '\U{01B0}' then '\U{01AF}'
    else if IsLower(c) then (c as int - 1) as char
    else c
  }

  /** `ToLower()` / `lower()` on a whole string. */
  function Lower(s: String): (r: String)
    ensures |r| == |s|
    ensures forall i :: 0 <= i < |s| ==> r[i] == ToLowerChar(s[i])
  {
    seq(|s|, i requires 0 <= i < |s| => ToLowerChar(s[i]))
  }

  /** `ToUpper()` on a whole string. */
  function Upper(s: String): (r: String)
    ensures |r| == |s|
    ensures forall i :: 0 <= i < |s| ==> r[i] == ToUpperChar(s[i])
  {
    seq(|s|, i requires 0 <= i < |s| => ToUpperChar(s[i]))
  }

  /** Lower-casing twice is lower-casing once. */
  lemma LowerIdempotent(s: String)
    ensures Lower(Lower(s)) == Lower(s)
  {
  }

  /** Lower-casing commutes with concatenation. */
  lemma LowerAppend(a: String, b: String)
    ensures Lower(a + b) == Lower(a) + Lower(b)
  {
  }

  // ---------------------------------------------------------------------------
  // Substring search (`Contains`, `in`, `IndexOf`)
  // ---------------------------------------------------------------------------

  /** `t` occurs in `s` starting at index `i`. */
  predicate OccursAt(s: String, t: String, i: int) {
    0 <= i && i + |t| <= |s| && s[i..i + |t|] == t
  }

  /** C# `s.Contains(t)` and Python `t in s`: the empty string occurs everywhere. */
  predicate Contains(s: String, t: String) {
    exists i | 0 <= i <= |s| - |t| :: OccursAt(s, t, i)
  }

  /** A witness occurrence establishes containment. */
  lemma ContainsAt(s: String, t: String, i: int)
    requires OccursAt(s, t, i)
    ensures Contains(s, t)
  {
  }

  /** Containment is transitive. */
  lemma ContainsTrans(s: String, u: String, t: String)
    requires Contains(s, u) && Contains(u, t)
    ensures Contains(s, t)
  {
    var i :| 0 <= i <= |s| - |u| && OccursAt(s, u, i);
    var j :| 0 <= j <= |u| - |t| && OccursAt(u, t, j);
    var su, ut := s[i..i + |u|], u[j..j + |t|];
    assert su == u && ut == t;
    var st := s[i + j..i + j + |t|];
    forall k | 0 <= k < |t| ensures st[k] == t[k] {
      assert st[k] == s[i + j + k] == su[j + k];
      assert t[k] == ut[k] == u[j + k];
    }
    assert OccursAt(s, t, i + j);
  }

  /** Every string contains itself and the empty string. */
  lemma ContainsSelf(s: String)
    ensures Contains(s, s) && Contains(s, [])
  {
    assert OccursAt(s, s, 0);
    assert OccursAt(s, [], 0);
  }

  /** A string contains each of its slices. */
  lemma ContainsSlice(s: String, i: int, j: int)
    requires 0 <= i <= j <= |s|
    ensures Contains(s, s[i..j])
  {
    assert OccursAt(s, s[i..j], i);
  }

  /** C# `s.IndexOf(t, from)`: the first occurrence of `t` at or after `from`, or -1. */
  function IndexOf(s: String, t: String, from: nat): (r: int)
    requires from <= |s|
    ensures r == -1 || (from <= r && OccursAt(s, t, r))
    ensures r == -1 ==> forall i :: from <= i ==> !OccursAt(s, t, i)
    ensures r != -1 ==> forall i :: from <= i < r ==> !OccursAt(s, t, i)
    decreases |s| - from
  {
    if from + |t| > |s| then -1
    else if s[from..from + |t|] == t then from
    else if from == |s| then -1
    else IndexOf(s, t, from + 1)
  }

  /** `IndexOf` finds an occurrence exactly when the suffix contains one. */
  lemma IndexOfContains(s: String, t: String)
    ensures IndexOf(s, t, 0) != -1 <==> Contains(s, t)
  {
    if Contains(s, t) {
      var i :| 0 <= i <= |s| - |t| && OccursAt(s, t, i);
    }
  }

  // ---------------------------------------------------------------------------
  // Trimming
  // ---------------------------------------------------------------------------

  predicate AllWhiteSpace(s: String) {
    forall i :: 0 <= i < |s| ==> IsWhiteSpace(s[i])
  }

  /** `TrimStart()`: drop leading white space. */
  function TrimStart(s: String): (r: String)
    ensures |r| <= |s| && r == s[|s| - |r|..]
    ensures AllWhiteSpace(s[..|s| - |r|])
    ensures r == [] || !IsWhiteSpace(r[0])
  {
    if |s| > 0 && IsWhiteSpace(s[0]) then
      var t := s[1..];
      var r := TrimStart(t);
      assert t[|t| - |r|..] == s[|s| - |r|..];
      assert forall k :: 0 < k < |s| - |r| ==> s[k] == t[..|t| - |r|][k - 1];
      r
    else s
  }

  /** `TrimEnd()`: drop trailing white space. */
  function TrimEnd(s: String): (r: String)
    ensures |r| <= |s| && r == s[..|r|]
    ensures AllWhiteSpace(s[|r|..])
    ensures r == [] || !IsWhiteSpace(r[|r| - 1])
  {
    if |s| > 0 && IsWhiteSpace(s[|s| - 1]) then
      var r := TrimEnd(s[..|s| - 1]);
      assert s[..|s| - 1][..|r|] == s[..|r|];
      assert forall k :: |r| <= k < |s| - 1 ==> s[k] == s[..|s| - 1][|r|..][k - |r|];
      r
    else s
  }

  /** C# `Trim()` and Python `strip()`: drop white space at both ends. */
  function Trim(s: String): (r: String)
    ensures exists i, j :: 0 <= i <= j <= |s| && r == s[i..j]
                          && AllWhiteSpace(s[..i]) && AllWhiteSpace(s[j..])
    ensures r == [] || (!IsWhiteSpace(r[0]) && !IsWhiteSpace(r[|r| - 1]))
  {
    TrimEndOfTrimStart(s);
    TrimEnd(TrimStart(s))
  }

  /** Trimming the end after the start leaves a slice with white space on both sides. */
  lemma TrimEndOfTrimStart(s: String)
    ensures var r := TrimEnd(TrimStart(s));
            exists i, j :: 0 <= i <= j <= |s| && r == s[i..j] && AllWhiteSpace(s[..i]) && AllWhiteSpace(s[j..])
    ensures var r := TrimEnd(TrimStart(s));
            r == [] || (!IsWhiteSpace(r[0]) && !IsWhiteSpace(r[|r| - 1]))
  {
    var t := TrimStart(s);
    var r := TrimEnd(t);
    var i := |s| - |t|;
    var j := i + |r|;
    PrefixOfSuffix(s, t, r, i, j);
    assert 0 <= i <= j <= |s| && r == s[i..j] && AllWhiteSpace(s[..i]) && AllWhiteSpace(s[j..]);
    TrimmedEnds(t, r);
  }

  /** Trimming the end of a string that opens with no white space keeps that opening. */
  lemma TrimmedEnds(t: String, r: String)
    requires r == TrimEnd(t) && (t == [] || !IsWhiteSpace(t[0]))
    ensures r == [] || (!IsWhiteSpace(r[0]) && !IsWhiteSpace(r[|r| - 1]))
  {
    assert r != [] ==> r[0] == t[0];
  }

  /** A prefix `r` of a suffix `t` of `s` is a slice of `s`, and what follows it in `t`
      is what follows it in `s`. */
  lemma PrefixOfSuffix(s: String, t: String, r: String, i: nat, j: nat)
    requires |t| <= |s| && t == s[|s| - |t|..] && |r| <= |t| && r == t[..|r|]
    requires i == |s| - |t| && j == i + |r|
    ensures r == s[i..j] && s[j..] == t[|r|..]
  {
  }

  /** Trimming changes nothing on a string without white space at either end. */
  lemma TrimNoOp(s: String)
    requires s == [] || (!IsWhiteSpace(s[0]) && !IsWhiteSpace(s[|s| - 1]))
    ensures Trim(s) == s
  {
  }

  /** Trimming only removes characters. */
  lemma TrimChars(s: String)
    ensures forall c :: c in Trim(s) ==> c in s
  {
    var t := Trim(s);
    var i, j :| 0 <= i <= j <= |s| && t == s[i..j];
    SliceChars(s, i, j, t);
  }

  /** A slice holds only characters of the string. */
  lemma SliceChars(s: String, i: nat, j: nat, t: String)
    requires i <= j <= |s| && t == s[i..j]
    ensures forall c :: c in t ==> c in s
  {
    forall c | c in t ensures c in s {
      var k :| 0 <= k < |t| && t[k] == c;
      assert s[i + k] == c;
    }
  }

  /** What holds of every character of a string holds of every character of its trim. */
  lemma TrimKeepsAll(s: String, p: char -> bool)
    requires forall c :: c in s ==> p(c)
    ensures forall i :: 0 <= i < |Trim(s)| ==> p(Trim(s)[i])
  {
    TrimChars(s);
    var t := Trim(s);
    forall i | 0 <= i < |t| ensures p(t[i]) {
      assert t[i] in t;
    }
  }

  /** Trimming is idempotent. */
  lemma TrimIdempotent(s: String)
    ensures Trim(Trim(s)) == Trim(s)
  {
    TrimNoOp(Trim(s));
  }

  /** A string of white space trims to the empty string. */
  lemma TrimAllWhiteSpace(s: String)
    requires AllWhiteSpace(s)
    ensures Trim(s) == []
  {
  }

  /** Only a string of white space trims to the empty string. */
  lemma TrimEmptyIsWhiteSpace(s: String)
    requires Trim(s) == []
    ensures AllWhiteSpace(s)
  {
    var i, j :| 0 <= i <= j <= |s| && Trim(s) == s[i..j] && AllWhiteSpace(s[..i]) && AllWhiteSpace(s[j..]);
    forall k | 0 <= k < |s| ensures IsWhiteSpace(s[k]) {
      if k < i {
        assert s[..i][k] == s[k];
      } else {
        assert s[j..][k - j] == s[k];
      }
    }
  }

  // ---------------------------------------------------------------------------
  // Joining and splitting
  // ---------------------------------------------------------------------------

  /** C# `string.Join(sep, parts)` and Python `sep.join(parts)`. */
  function Join(parts: seq<String>, sep: String): (r: String)
    ensures |parts| == 1 ==> r == parts[0]
    ensures |parts| == 0 ==> r == []
  {
    if |parts| == 0 then []
    else if |parts| == 1 then parts[0]
    else parts[0] + sep + Join(parts[1..], sep)
  }

  /** Index of the first `c` in `s`. */
  function CharIndex(s: String, c: char): (r: nat)
    requires c in s
    ensures r < |s| && s[r] == c && c !in s[..r]
  {
    if s[0] == c then 0 else CharIndex(s[1..], c) + 1
  }

  /** C# `s.Split(c)`: the pieces between separators, empty pieces kept. */
  function Split(s: String, sep: char): (r: seq<String>)
    ensures |r| >= 1
    ensures forall i :: 0 <= i < |r| ==> sep !in r[i]
    decreases |s|
  {
    if sep !in s then [s]
    else
      var k := CharIndex(s, sep);
      [s[..k]] + Split(s[k + 1..], sep)
  }

  /** Joining the pieces of a split with the separator gives the string back. */
  lemma {:induction false} JoinSplit(s: String, sep: char)
    ensures Join(Split(s, sep), [sep]) == s
    decreases |s|
  {
    if sep in s {
      var k := CharIndex(s, sep);
      var head, tail := s[..k], s[k + 1..];
      var rest := Split(tail, sep);
      assert Split(s, sep) == [head] + rest;
      JoinSplit(tail, sep);
      JoinCons(head, rest, [sep]);
      assert s == head + [sep] + tail;
    }
  }

  /** Joining a list with a known head and a non-empty rest. */
  lemma JoinCons(head: String, rest: seq<String>, sep: String)
    requires rest != []
    ensures Join([head] + rest, sep) == head + sep + Join(rest, sep)
  {
    var parts := [head] + rest;
    assert parts[0] == head && parts[1..] == rest;
  }

  /** A split reads the first piece up to the first separator. */
  lemma SplitFirst(p: String, sep: char, rest: String)
    requires sep !in p
    ensures Split(p + [sep] + rest, sep) == [p] + Split(rest, sep)
  {
    var s := p + [sep] + rest;
    assert s[|p|] == sep;
    assert s[..|p|] == p;
    var k := CharIndex(s, sep);
    assert k == |p|;
    assert s[k + 1..] == rest;
  }

  /** Splitting a join of separator-free pieces gives the pieces back. */
  lemma {:induction false} SplitJoin(parts: seq<String>, sep: char)
    requires |parts| >= 1
    requires forall i :: 0 <= i < |parts| ==> sep !in parts[i]
    ensures Split(Join(parts, [sep]), sep) == parts
  {
    if |parts| > 1 {
      var rest := Join(parts[1..], [sep]);
      assert Join(parts, [sep]) == parts[0] + [sep] + rest;
      SplitFirst(parts[0], sep, rest);
      SplitJoin(parts[1..], sep);
      assert parts == [parts[0]] + parts[1..];
    }
  }

  /** A character in neither the pieces nor the separator is not in the join. */
  lemma {:induction false} JoinAvoids(parts: seq<String>, sep: String, c: char)
    requires c !in sep
    requires forall i :: 0 <= i < |parts| ==> c !in parts[i]
    ensures c !in Join(parts, sep)
  {
    if |parts| > 1 {
      JoinAvoids(parts[1..], sep, c);
    }
  }

  // ---------------------------------------------------------------------------
  // Python's argument-less `split()`
  // ---------------------------------------------------------------------------

  /** A word: non-empty and free of white space. */
  predicate IsWord(w: String) {
    w != [] && forall i :: 0 <= i < |w| ==> !IsWhiteSpace(w[i])
  }

  /** Length of the leading run of non-white-space characters. */
  function WordLength(s: String): (r: nat)
    ensures r <= |s|
    ensures forall i :: 0 <= i < r ==> !IsWhiteSpace(s[i])
    ensures r < |s| ==> IsWhiteSpace(s[r])
  {
    if |s| == 0 || IsWhiteSpace(s[0]) then 0 else 1 + WordLength(s[1..])
  }

  /** Python `s.split()`: the maximal runs of non-white-space characters, in order. */
  function SplitWords(s: String): (r: seq<String>)
    ensures forall i :: 0 <= i < |r| ==> IsWord(r[i])
    decreases |s|
  {
    if |s| == 0 then []
    else if IsWhiteSpace(s[0]) then SplitWords(s[1..])
    else
      var n := WordLength(s);
      [s[..n]] + SplitWords(s[n..])
  }

  /** Splitting words joined by single spaces gives the words back. */
  lemma {:induction false} SplitWordsJoin(words: seq<String>)
    requires forall i :: 0 <= i < |words| ==> IsWord(words[i])
    ensures SplitWords(Join(words, " ")) == words
    decreases |words|
  {
    if |words| == 1 {
      SplitWordsFirst(words[0], "");
      assert words[0] + "" == words[0];
    } else if |words| > 1 {
      var rest := Join(words[1..], " ");
      assert Join(words, " ") == words[0] + (" " + rest);
      SplitWordsFirst(words[0], " " + rest);
      assert (" " + rest)[1..] == rest;
      SplitWordsJoin(words[1..]);
      assert words == [words[0]] + words[1..];
    }
  }

  /** A split reads a leading word up to the white space after it. */
  lemma SplitWordsFirst(w: String, tail: String)
    requires IsWord(w)
    requires tail == [] || IsWhiteSpace(tail[0])
    ensures SplitWords(w + tail) == [w] + SplitWords(tail)
  {
    var s := w + tail;
    WordLengthOfWord(w, tail);
    assert s[0] == w[0];
    assert s[..|w|] == w;
    assert s[|w|..] == tail;
  }

  /** The leading word ends where white space (or the string) begins. */
  lemma {:induction false} WordLengthOfWord(w: String, tail: String)
    requires IsWord(w)
    requires tail == [] || IsWhiteSpace(tail[0])
    ensures WordLength(w + tail) == |w|
    decreases |w|
  {
    if |w| > 1 {
      assert (w + tail)[1..] == w[1..] + tail;
      WordLengthOfWord(w[1..], tail);
    } else {
      assert (w + tail)[1..] == tail;
    }
  }

  // ---------------------------------------------------------------------------
  // Character-wise rewriting
  // ---------------------------------------------------------------------------

  /** Keep only the characters satisfying `keep`, in order. */
  function FilterChars(s: String, keep: char -> bool): (r: String)
    ensures |r| <= |s|
    ensures forall i :: 0 <= i < |r| ==> keep(r[i])
    ensures forall c :: c in s && keep(c) ==> c in r
    ensures forall c :: c in r ==> c in s
  {
    if |s| == 0 then []
    else (if keep(s[0]) then [s[0]] else []) + FilterChars(s[1..], keep)
  }

  /** C# `s.Replace(c, rep)` generalised: every `c` becomes the string `rep`. */
  function ReplaceChar(s: String, c: char, rep: String): (r: String)
    ensures c !in rep ==> c !in r
    ensures c !in s ==> r == s
  {
    if |s| == 0 then []
    else (if s[0] == c then rep else [s[0]]) + ReplaceChar(s[1..], c, rep)
  }

  lemma ReplaceCharAppend(a: String, b: String, c: char, rep: String)
    ensures ReplaceChar(a + b, c, rep) == ReplaceChar(a, c, rep) + ReplaceChar(b, c, rep)
    decreases |a|
  {
    if |a| > 0 {
      var head := if a[0] == c then rep else [a[0]];
      assert (a + b)[0] == a[0];
      assert (a + b)[1..] == a[1..] + b;
      ReplaceCharAppend(a[1..], b, c, rep);
      calc {
        ReplaceChar(a + b, c, rep);
        head + ReplaceChar(a[1..] + b, c, rep);
        head + (ReplaceChar(a[1..], c, rep) + ReplaceChar(b, c, rep));
        (head + ReplaceChar(a[1..], c, rep)) + ReplaceChar(b, c, rep);
      }
    } else {
      assert a + b == b;
    }
  }

  /** A filter that keeps every character changes nothing. */
  lemma {:induction false} FilterKeepsAll(s: String, keep: char -> bool)
    requires forall i :: 0 <= i < |s| ==> keep(s[i])
    ensures FilterChars(s, keep) == s
    decreases |s|
  {
    if |s| > 0 {
      FilterKeepsAll(s[1..], keep);
      assert s == [s[0]] + s[1..];
    }
  }

  /** Upper-casing twice is upper-casing once. */
  lemma UpperIdempotent(s: String)
    ensures Upper(Upper(s)) == Upper(s)
  {
  }

  /** Every piece of a split occurs in the string that was split. */
  lemma {:induction false} SplitPiecesOccur(s: String, sep: char, i: int)
    requires 0 <= i < |Split(s, sep)|
    ensures Contains(s, Split(s, sep)[i])
    decreases |s|
  {
    if sep !in s {
      ContainsSelf(s);
    } else {
      var k := CharIndex(s, sep);
      if i == 0 {
        ContainsSlice(s, 0, k);
      } else {
        SplitPiecesOccur(s[k + 1..], sep, i - 1);
        ContainsSlice(s, k + 1, |s|);
        assert s[k + 1..|s|] == s[k + 1..];
        ContainsTrans(s, s[k + 1..], Split(s[k + 1..], sep)[i - 1]);
      }
    }
  }
}

=== FILE: trained_chatbot.dfy ===
/** The self-training pattern bot of `TrainedChatbotModel.cs`.

    A bot holds named keyword patterns, scored against the input by substring
    containment, and a keyword index for exact-word lookup. Questions about the game
    that neither tier answers become new patterns. */
module TrainedChatbot {
  import opened Optional
  import opened Strings
  import opened Seqs
  import opened Dicts
  import opened Numbers
  import opened Scoring

  /** `ChatPattern`. */
  datatype Pattern = Pattern(name: String, keywords: seq<String>, responses: seq<String>)

  /** `ChatHistory`: the cleaned input, with the clock reading in ticks. */
  datatype Entry = Entry(input: String, time: nat)

  type Index = Dict<String, seq<String>>

  /** The model's fields: `patterns`, `defaultResponses`, `keywordResponses`, `conversationHistory`. */
  datatype Bot = Bot(patterns: seq<Pattern>, defaults: seq<String>, index: Index, history: seq<Entry>)

  const ConfidenceThreshold: real := 0.6
  const MaxLearnedPatterns: nat := 1000

  /** The words that make an unanswered input worth learning. */
  const GameKeywords: seq<String> := ["quoridor", "game", "tường", "quân", "cờ", "chơi"]

  const LearnedReply: String := "Tôi đã ghi nhận câu hỏi này. Cảm ơn bạn đã giúp tôi học!"

  /** `DateTime.MinValue`, whose tick count is 0. */
  const MinTime: nat := 0

  /** The five patterns `LoadDefaultPatterns` adds. */
  const DefaultPatterns: seq<Pattern> := [
    Pattern("quoridor", ["quoridor", "trò chơi", "game"],
      ["Quoridor là trò chơi chiến lược thú vị! Mục tiêu là đưa quân cờ về phía đối diện.",
       "Trong Quoridor, bạn có thể di chuyển quân hoặc đặt tường để cản đối thủ!"]),
    Pattern("rules", ["luật", "quy tắc", "cách chơi", "hướng dẫn"],
      ["Mỗi lượt, bạn có thể di chuyển quân 1 ô hoặc đặt tường. Mục tiêu là về đích trước đối thủ.",
       "Quân có thể di chuyển lên/xuống/trái/phải. Tường cản đường đi nhưng không được chặn hoàn toàn."]),
    Pattern("strategy", ["chiến thuật", "strategy", "bí kíp", "mẹo"],
      ["Cân bằng giữa tiến về đích và cản đối thủ. Đừng lãng phí tường!",
       "Quan sát nước đi của đối thủ và dự đoán ý định. Kiểm soát trung tâm bàn cờ!"]),
    Pattern("greeting", ["xin chào", "hello", "hi", "chào"],
      ["Xin chào! Tôi là AI hỗ trợ game Quoridor. Bạn cần giúp gì?",
       "Chào bạn! Hãy hỏi tôi về luật chơi hoặc chiến thuật Quoridor nhé!"]),
    Pattern("help", ["giúp", "help", "hỗ trợ", "trợ giúp"],
      ["Tôi có thể giúp bạn hiểu luật chơi, chiến thuật và phân tích nước đi trong Quoridor!",
       "Hãy hỏi tôi về: Luật chơi, Chiến thuật, Phân tích game, hoặc bất kỳ câu hỏi nào!"])
  ]

  /** The three fallback sentences `LoadDefaultPatterns` adds. */
  const DefaultResponses: seq<String> := [
    "Tôi chưa hiểu câu hỏi này. Bạn có thể hỏi về Quoridor không?",
    "Có thể bạn muốn hỏi về luật chơi hoặc chiến thuật Quoridor?",
    "Tôi đang học thêm. Hãy thử hỏi về game Quoridor nhé!"
  ]

  /** Every pattern has at least one keyword, so its confidence is a proper quotient. */
  predicate HasKeywords(ps: seq<Pattern>) {
    forall i :: 0 <= i < |ps| ==> |ps[i].keywords| > 0
  }

  /** What holds of a bot between calls: there is a fallback sentence, every confidence
      is defined, and the index is the one built from the patterns. */
  predicate WellFormed(b: Bot) {
    |b.defaults| > 0 && HasKeywords(b.patterns) && b.index == BuildIndex(b.patterns)
  }

  // ---------------------------------------------------------------------------
  // The keyword index
  // ---------------------------------------------------------------------------

  /** The responses stored under `key`, or none. */
  function Lookup(d: Index, key: String): (r: seq<String>)
    ensures key !in Keys(d) ==> r == []
  {
    Get(d, key).GetOr([])
  }

  /** One iteration of the inner loop of `BuildKeywordIndex`: create the entry for the
      lower-cased keyword if missing, then append the pattern's responses to it. */
  function AddKeyword(d: Index, keyword: String, responses: seq<String>): (r: Index)
    ensures Valid(d) ==> Valid(r)
  {
    var key := Lower(keyword);
    Put(d, key, Lookup(d, key) + responses)
  }

  function AddKeywords(d: Index, keywords: seq<String>, responses: seq<String>): (r: Index)
    ensures Valid(d) ==> Valid(r)
    decreases |keywords|
  {
    if |keywords| == 0 then d
    else AddKeywords(AddKeyword(d, keywords[0], responses), keywords[1..], responses)
  }

  function AddPatterns(d: Index, ps: seq<Pattern>): (r: Index)
    ensures Valid(d) ==> Valid(r)
    decreases |ps|
  {
    if |ps| == 0 then d
    else AddPatterns(AddKeywords(d, ps[0].keywords, ps[0].responses), ps[1..])
  }

  /** `BuildKeywordIndex`: the index starts empty and every keyword of every pattern is
      added in order. */
  function BuildIndex(ps: seq<Pattern>): (r: Index)
    ensures Valid(r)
  {
    AddPatterns([], ps)
  }

  /** The lower-cased keywords of a list. */
  function KeySet(keywords: seq<String>): set<String> {
    set k | k in keywords :: Lower(k)
  }

  /** Every lower-cased keyword of every pattern. */
  function IndexedKeys(ps: seq<Pattern>): (r: set<String>)
    decreases |ps|
  {
    if |ps| == 0 then {} else KeySet(ps[0].keywords) + IndexedKeys(ps[1..])
  }

  /** A pattern's responses once for every keyword of it that lower-cases to `key`. */
  function Share(keywords: seq<String>, responses: seq<String>, key: String): seq<String>
    decreases |keywords|
  {
    if |keywords| == 0 then []
    else (if Lower(keywords[0]) == key then responses else []) + Share(keywords[1..], responses, key)
  }

  /** The responses of every (pattern, keyword) pair whose keyword lower-cases to `key`,
      in pattern order and then keyword order. */
  function ResponsesFor(ps: seq<Pattern>, key: String): seq<String>
    decreases |ps|
  {
    if |ps| == 0 then [] else Share(ps[0].keywords, ps[0].responses, key) + ResponsesFor(ps[1..], key)
  }

  lemma {:induction false} AddKeywordGet(d: Index, keyword: String, responses: seq<String>, key: String)
    ensures key in Keys(AddKeyword(d, keyword, responses)) <==> key in Keys(d) || key == Lower(keyword)
    ensures Lookup(AddKeyword(d, keyword, responses), key)
      == Lookup(d, key) + (if Lower(keyword) == key then responses else [])
  {
    var k := Lower(keyword);
    PutGet(d, k, Lookup(d, k) + responses);
  }

  lemma {:induction false} AddKeywordsGet(d: Index, keywords: seq<String>, responses: seq<String>, key: String)
    ensures key in Keys(AddKeywords(d, keywords, responses)) <==> key in Keys(d) || key in KeySet(keywords)
    ensures Lookup(AddKeywords(d, keywords, responses), key) == Lookup(d, key) + Share(keywords, responses, key)
    decreases |keywords|
  {
    if |keywords| > 0 {
      var head, tail := keywords[0], keywords[1..];
      var d1 := AddKeyword(d, head, responses);
      AddKeywordGet(d, head, responses, key);
      AddKeywordsGet(d1, tail, responses, key);
      KeySetCons(keywords);
      AddKeywordsStep(d, keywords, responses, key, d1);
    }
  }

  /** The first keyword's entry, then the rest by the induction hypothesis. */
  lemma AddKeywordsStep(d: Index, keywords: seq<String>, responses: seq<String>, key: String, d1: Index)
    requires |keywords| > 0 && d1 == AddKeyword(d, keywords[0], responses)
    requires key in Keys(d1) <==> key in Keys(d) || key == Lower(keywords[0])
    requires Lookup(d1, key) == Lookup(d, key) + (if Lower(keywords[0]) == key then responses else [])
    requires key in Keys(AddKeywords(d1, keywords[1..], responses)) <==> key in Keys(d1) || key in KeySet(keywords[1..])
    requires Lookup(AddKeywords(d1, keywords[1..], responses), key) == Lookup(d1, key) + Share(keywords[1..], responses, key)
    requires KeySet(keywords) == {Lower(keywords[0])} + KeySet(keywords[1..])
    ensures key in Keys(AddKeywords(d, keywords, responses)) <==> key in Keys(d) || key in KeySet(keywords)
    ensures Lookup(AddKeywords(d, keywords, responses), key) == Lookup(d, key) + Share(keywords, responses, key)
  {
    var here: seq<String> := if Lower(keywords[0]) == key then responses else [];
    AppendAssoc(Lookup(d, key), here, Share(keywords[1..], responses, key));
  }

  lemma {:induction false} KeySetCons(keywords: seq<String>)
    requires |keywords| > 0
    ensures KeySet(keywords) == {Lower(keywords[0])} + KeySet(keywords[1..])
  {
    assert forall k :: k in keywords <==> k == keywords[0] || k in keywords[1..];
  }

  lemma {:induction false} AddPatternsGet(d: Index, ps: seq<Pattern>, key: String)
    ensures key in Keys(AddPatterns(d, ps)) <==> key in Keys(d) || key in IndexedKeys(ps)
    ensures Lookup(AddPatterns(d, ps), key) == Lookup(d, key) + ResponsesFor(ps, key)
    decreases |ps|
  {
    if |ps| > 0 {
      var p, rest := ps[0], ps[1..];
      var d1 := AddKeywords(d, p.keywords, p.responses);
      AddKeywordsGet(d, p.keywords, p.responses, key);
      AddPatternsGet(d1, rest, key);
      AddPatternsStep(d, ps, key, d1);
    }
  }

  /** The first pattern's keywords, then the rest by the induction hypothesis. */
  lemma AddPatternsStep(d: Index, ps: seq<Pattern>, key: String, d1: Index)
    requires |ps| > 0 && d1 == AddKeywords(d, ps[0].keywords, ps[0].responses)
    requires key in Keys(d1) <==> key in Keys(d) || key in KeySet(ps[0].keywords)
    requires Lookup(d1, key) == Lookup(d, key) + Share(ps[0].keywords, ps[0].responses, key)
    requires key in Keys(AddPatterns(d1, ps[1..])) <==> key in Keys(d1) || key in IndexedKeys(ps[1..])
    requires Lookup(AddPatterns(d1, ps[1..]), key) == Lookup(d1, key) + ResponsesFor(ps[1..], key)
    ensures key in Keys(AddPatterns(d, ps)) <==> key in Keys(d) || key in IndexedKeys(ps)
    ensures Lookup(AddPatterns(d, ps), key) == Lookup(d, key) + ResponsesFor(ps, key)
  {
    AppendAssoc(Lookup(d, key), Share(ps[0].keywords, ps[0].responses, key), ResponsesFor(ps[1..], key));
  }

  /** The index maps exactly the lower-cased keywords, each to the responses of every
      pattern listing it, concatenated in pattern order. */
  lemma IndexLookup(ps: seq<Pattern>, key: String)
    ensures key in Keys(BuildIndex(ps)) <==> key in IndexedKeys(ps)
    ensures Get(BuildIndex(ps), key) == if key in IndexedKeys(ps) then Some(ResponsesFor(ps, key)) else None
  {
    var empty: Index := [];
    AddPatternsGet(empty, ps, key);
    var d := BuildIndex(ps);
    assert |Keys(empty)| == 0;
    assert Lookup(empty, key) == [];
    assert Lookup(d, key) == [] + ResponsesFor(ps, key) == ResponsesFor(ps, key);
    if key in Keys(d) {
      assert Get(d, key) == Some(Lookup(d, key));
    }
  }

  /** A key shared by two patterns collects the responses of both. */
  lemma SharedKeywordCollectsBoth(p: Pattern, q: Pattern, keyword: String)
    requires p.keywords == [keyword] && q.keywords == [keyword]
    ensures Get(BuildIndex([p, q]), Lower(keyword)) == Some(p.responses + q.responses)
  {
    var ps := [p, q];
    IndexLookup(ps, Lower(keyword));
    assert ps[1..] == [q] && ps[1..][1..] == [];
    assert ResponsesFor(ps, Lower(keyword)) == Share(p.keywords, p.responses, Lower(keyword)) + ResponsesFor([q], Lower(keyword));
    assert ResponsesFor([q], Lower(keyword)) == Share(q.keywords, q.responses, Lower(keyword)) + ResponsesFor([], Lower(keyword));
    assert Share([keyword], p.responses, Lower(keyword)) == p.responses;
    assert Share([keyword], q.responses, Lower(keyword)) == q.responses;
    assert Lower(keyword) in KeySet(p.keywords);
  }

  // ---------------------------------------------------------------------------
  // Pattern scoring
  // ---------------------------------------------------------------------------

  /** The keywords of a list that occur, lower-cased, in the input. */
  function MatchCount(input: String, keywords: seq<String>): (r: nat)
    ensures r <= |keywords|
    decreases |keywords|
  {
    if |keywords| == 0 then 0
    else
      var n := |keywords| - 1;
      MatchCount(input, keywords[..n]) + (if Contains(input, Lower(keywords[n])) then 1 else 0)
  }

  /** The positions of the keywords occurring in the input. */
  function Matched(input: String, keywords: seq<String>): set<nat> {
    set i: nat | i < |keywords| && Contains(input, Lower(keywords[i]))
  }

  /** The count is the number of keyword positions that occur in the input, so a keyword
      listed twice counts twice. */
  lemma {:induction false} MatchCountIsMatched(input: String, keywords: seq<String>)
    ensures MatchCount(input, keywords) == |Matched(input, keywords)|
    decreases |keywords|
  {
    if |keywords| > 0 {
      var n: nat :| n + 1 == |keywords|;
      var front := keywords[..n];
      MatchCountIsMatched(input, front);
      MatchedStep(input, keywords, n);
    }
  }

  /** The last keyword adds its own position to the matches of the ones before it. */
  lemma MatchedStep(input: String, keywords: seq<String>, n: nat)
    requires n + 1 == |keywords|
    ensures Matched(input, keywords) == Matched(input, keywords[..n])
              + (if Contains(input, Lower(keywords[n])) then {n} else {})
    ensures n !in Matched(input, keywords[..n])
  {
    var front := keywords[..n];
    assert forall i :: 0 <= i < n ==> front[i] == keywords[i];
  }

  /** The `+= 2` bonus for naming the pattern. */
  function NameBonus(input: String, p: Pattern): (r: nat) {
    if Contains(input, Lower(p.name)) then 2 else 0
  }

  /** `CalculateConfidence`: contained keywords plus the name bonus, over the keyword count. */
  function Confidence(input: String, p: Pattern): (r: real)
    requires |p.keywords| > 0
    ensures r >= 0.0
    ensures r == 0.0 <==> MatchCount(input, p.keywords) == 0 && !Contains(input, Lower(p.name))
    ensures r * |p.keywords| as real == (MatchCount(input, p.keywords) + NameBonus(input, p)) as real
  {
    var total := MatchCount(input, p.keywords) + NameBonus(input, p);
    CountQuotient(total, |p.keywords|);
    total as real / |p.keywords| as real
  }

  /** A confidence is not a probability: naming the pattern and all its keywords scores
      above 1, and no input scores more than (n + 2) / n. */
  lemma ConfidenceRange(input: String, p: Pattern)
    requires |p.keywords| > 0
    ensures Confidence(input, p) <= (|p.keywords| + 2) as real / |p.keywords| as real
    ensures Confidence(input, p) > 1.0 <==> MatchCount(input, p.keywords) + NameBonus(input, p) > |p.keywords|
    ensures MatchCount(input, p.keywords) == |p.keywords| && Contains(input, Lower(p.name))
            ==> Confidence(input, p) > 1.0
  {
    var c := Confidence(input, p);
    var n := |p.keywords| as real;
    var a := (MatchCount(input, p.keywords) + NameBonus(input, p)) as real;
    assert a <= n + 2.0;
    Quotient(a, n + 2.0, n);
  }

  /** Comparing quotients by a positive divisor compares the dividends. */
  lemma Quotient(a: real, b: real, n: real)
    requires n > 0.0
    ensures a / n <= b / n <==> a <= b
    ensures a / n > 1.0 <==> a > n
  {
  }

  function Confidences(ps: seq<Pattern>, input: String): (r: seq<real>)
    requires HasKeywords(ps)
    ensures |r| == |ps|
    ensures forall i :: 0 <= i < |ps| ==> r[i] == Confidence(input, ps[i])
  {
    seq(|ps|, i requires 0 <= i < |ps| => Confidence(input, ps[i]))
  }

  /** `FindBestPattern`: the position of the first pattern with the highest confidence,
      or none when every confidence is 0. */
  function FindBestPattern(ps: seq<Pattern>, input: String): (r: Option<nat>)
    requires HasKeywords(ps)
    ensures r.None? <==> forall i :: 0 <= i < |ps| ==> Confidence(input, ps[i]) == 0.0
    ensures r.Some? ==> r.value < |ps| && Confidence(input, ps[r.value]) > 0.0
    ensures r.Some? ==> forall i :: 0 <= i < |ps| ==> Confidence(input, ps[i]) <= Confidence(input, ps[r.value])
    ensures r.Some? ==> forall i :: 0 <= i < r.value ==> Confidence(input, ps[i]) < Confidence(input, ps[r.value])
  {
    BestIndex(Confidences(ps, input), 0.0)
  }

  /** The pattern tier answers: some pattern matched, and the best one reached the threshold. */
  predicate PatternTierAnswers(ps: seq<Pattern>, input: String)
    requires HasKeywords(ps)
  {
    var best := FindBestPattern(ps, input);
    best.Some? && Confidence(input, ps[best.value]) >= ConfidenceThreshold
  }

  /** The tier answers as soon as any single pattern reaches the threshold. */
  lemma PatternTierAnswersIff(ps: seq<Pattern>, input: String)
    requires HasKeywords(ps)
    ensures PatternTierAnswers(ps, input)
            <==> exists i :: 0 <= i < |ps| && Confidence(input, ps[i]) >= ConfidenceThreshold
  {
    var best := FindBestPattern(ps, input);
    if exists i :: 0 <= i < |ps| && Confidence(input, ps[i]) >= ConfidenceThreshold {
      var i :| 0 <= i < |ps| && Confidence(input, ps[i]) >= ConfidenceThreshold;
      assert Confidence(input, ps[i]) != 0.0;
      assert best.Some?;
    }
  }

  // ---------------------------------------------------------------------------
  // Keyword tier, learning, replies
  // ---------------------------------------------------------------------------

  /** The responses the index holds for the space-separated words of the input, word by word. */
  function Gather(d: Index, words: seq<String>): (r: seq<String>)
    ensures forall x :: x in r <==> exists j :: 0 <= j < |words| && x in Lookup(d, words[j])
    decreases |words|
  {
    if |words| == 0 then []
    else
      var rest := Gather(d, words[1..]);
      assert forall j :: 1 <= j < |words| ==> words[j] == words[1..][j - 1];
      Lookup(d, words[0]) + rest
  }

  /** `FindKeywordResponse`: a random one of the gathered responses, or none. */
  function KeywordResponse(d: Index, input: String, pick: nat): (r: Option<String>)
    ensures r.None? <==> Gather(d, Split(input, ' ')) == []
    ensures r.Some? ==> r.value in Gather(d, Split(input, ' '))
  {
    var responses := Gather(d, Split(input, ' '));
    if |responses| == 0 then None else Some(Choose(responses, pick))
  }

  /** `GetRandomResponse`: a random one of the responses, or a random fallback when there are none. */
  function RandomResponse(b: Bot, responses: seq<String>, pick: nat): (r: String)
    requires |b.defaults| > 0
    ensures |responses| > 0 ==> r in responses
    ensures |responses| == 0 ==> r in b.defaults
  {
    if |responses| == 0 then Choose(b.defaults, pick) else Choose(responses, pick)
  }

  /** The pattern `LearnFromInput` creates for the input when `n` patterns exist. */
  function LearnedPattern(n: nat, input: String): (r: Pattern)
    ensures r.keywords == [input] && r.responses == [LearnedReply]
  {
    Pattern("learned_" + IntToString(n), [input], [LearnedReply])
  }

  /** The input mentions the game: `gameKeywords.Any(k => input.Contains(k))`. */
  predicate MentionsGame(input: String) {
    exists i :: 0 <= i < |GameKeywords| && Contains(input, GameKeywords[i])
  }

  /** `LearnFromInput`: below the pattern cap, an input mentioning the game becomes a new
      pattern whose one keyword is the whole input, and the index is rebuilt. */
  function Learn(b: Bot, input: String): (r: Bot)
    requires WellFormed(b)
    ensures WellFormed(r)
    ensures r.defaults == b.defaults && r.history == b.history
    ensures r.patterns == b.patterns
            || r.patterns == b.patterns + [LearnedPattern(|b.patterns|, input)]
    ensures r.patterns != b.patterns <==> |b.patterns| < MaxLearnedPatterns && MentionsGame(input)
  {
    if |b.patterns| >= MaxLearnedPatterns then b
    else if MentionsGame(input) then
      var ps := b.patterns + [LearnedPattern(|b.patterns|, input)];
      assert |ps| != |b.patterns|;
      b.(patterns := ps, index := BuildIndex(ps))
    else b
  }

  /** What `GetResponse` records and works on: the lower-cased, trimmed input. */
  function Clean(input: String): (r: String)
    ensures Lower(r) == r
  {
    TrimLowerIsLower(input);
    Trim(Lower(input))
  }

  /** Trimming a lower-cased string leaves it lower-cased. */
  lemma TrimLowerIsLower(s: String)
    ensures Lower(Trim(Lower(s))) == Trim(Lower(s))
  {
    var l := Lower(s);
    var i, j :| 0 <= i <= j <= |l| && Trim(l) == l[i..j];
    LowerIdempotent(s);
    LowerSlice(l, i, j);
  }

  lemma LowerSlice(l: String, i: int, j: int)
    requires 0 <= i <= j <= |l| && Lower(l) == l
    ensures Lower(l[i..j]) == l[i..j]
  {
    assert forall k :: 0 <= k < j - i ==> Lower(l[i..j])[k] == Lower(l)[i + k];
  }

  /** `GetResponse` with the clock reading `now` and the random draw `pick`: the reply and
      the bot afterwards. An empty input gets a fallback and records nothing; any other
      input is recorded once, then answered by the best pattern if it is confident
      enough, else by the keyword index, else by a fallback after an attempt to learn.
      Every path draws `Random.Range` exactly once, so one draw stands for all of them. */
  function Respond(b: Bot, input: String, now: nat, pick: nat): (r: (String, Bot))
    requires WellFormed(b)
    ensures WellFormed(r.1) && r.1.defaults == b.defaults
    ensures |input| == 0 ==> r.1 == b && r.0 in b.defaults
    ensures |input| > 0 ==> r == Answer(b, Clean(input), now, pick)
  {
    if |input| == 0 then (Choose(b.defaults, pick), b)
    else Answer(b, Clean(input), now, pick)
  }

  /** The answer to a non-empty cleaned input: it is recorded, then answered by the
      best confident pattern, the keyword index, or a fallback after an attempt to learn. */
  function Answer(b: Bot, text: String, now: nat, pick: nat): (r: (String, Bot))
    requires WellFormed(b)
    ensures WellFormed(r.1)
    ensures r.1.history == b.history + [Entry(text, now)] && r.1.defaults == b.defaults
    ensures r.1.patterns == b.patterns || r.1.patterns == b.patterns + [LearnedPattern(|b.patterns|, text)]
    ensures r.1.patterns != b.patterns ==> |b.patterns| < MaxLearnedPatterns
    ensures PatternTierAnswers(b.patterns, text) ==>
              r.1.patterns == b.patterns &&
              (var p := b.patterns[FindBestPattern(b.patterns, text).value];
               if |p.responses| > 0 then r.0 in p.responses else r.0 in b.defaults)
    ensures var kw := KeywordResponse(b.index, text, pick);
            var b1 := b.(history := b.history + [Entry(text, now)]);
            !PatternTierAnswers(b.patterns, text) ==>
              if kw.Some? && |kw.value| > 0 then r == (kw.value, b1)
              else r.0 in b.defaults && r.1 == Learn(b1, text)
    ensures var kw := KeywordResponse(b.index, text, pick);
            r.1.patterns != b.patterns <==>
              !PatternTierAnswers(b.patterns, text) && !(kw.Some? && |kw.value| > 0)
              && |b.patterns| < MaxLearnedPatterns && MentionsGame(text)
  {
    var b1 := b.(history := b.history + [Entry(text, now)]);
    var best := FindBestPattern(b.patterns, text);
    if best.Some? && Confidence(text, b.patterns[best.value]) >= ConfidenceThreshold then
      (RandomResponse(b, b.patterns[best.value].responses, pick), b1)
    else
      var kw := KeywordResponse(b.index, text, pick);
      if kw.Some? && |kw.value| > 0 then (kw.value, b1)
      else (Choose(b.defaults, pick), Learn(b1, text))
  }

  /** The responses of every pattern. */
  function AllResponses(ps: seq<Pattern>): (r: set<String>)
    decreases |ps|
  {
    if |ps| == 0 then {} else (set x | x in ps[0].responses) + AllResponses(ps[1..])
  }

  lemma {:induction false} ShareWithin(keywords: seq<String>, responses: seq<String>, key: String)
    ensures forall x :: x in Share(keywords, responses, key) ==> x in responses
    decreases |keywords|
  {
    if |keywords| > 0 {
      ShareWithin(keywords[1..], responses, key);
    }
  }

  lemma {:induction false} ResponsesForWithin(ps: seq<Pattern>, key: String)
    ensures forall x :: x in ResponsesFor(ps, key) ==> x in AllResponses(ps)
    decreases |ps|
  {
    if |ps| > 0 {
      ShareWithin(ps[0].keywords, ps[0].responses, key);
      ResponsesForWithin(ps[1..], key);
    }
  }

  lemma {:induction false} AllResponsesAt(ps: seq<Pattern>, i: nat)
    requires i < |ps|
    ensures forall x :: x in ps[i].responses ==> x in AllResponses(ps)
    decreases i
  {
    if i > 0 {
      AllResponsesAt(ps[1..], i - 1);
    }
  }

  /** The bot only ever says one of its sentences: a fallback, or a response of one of
      its patterns. */
  lemma ReplyIsScripted(b: Bot, input: String, now: nat, pick: nat)
    requires WellFormed(b)
    ensures var r := Respond(b, input, now, pick).0;
            r in b.defaults || r in AllResponses(b.patterns)
  {
    if |input| > 0 {
      var text := Clean(input);
      var best := FindBestPattern(b.patterns, text);
      if best.Some? && Confidence(text, b.patterns[best.value]) >= ConfidenceThreshold {
        AllResponsesAt(b.patterns, best.value);
      } else {
        KeywordReplyIsScripted(b, text, pick);
      }
    }
  }

  /** A reply of the keyword index is a response of some pattern. */
  lemma KeywordReplyIsScripted(b: Bot, text: String, pick: nat)
    requires WellFormed(b)
    ensures var kw := KeywordResponse(b.index, text, pick);
            kw.Some? ==> kw.value in AllResponses(b.patterns)
  {
    var kw := KeywordResponse(b.index, text, pick);
    if kw.Some? {
      var words := Split(text, ' ');
      var j :| 0 <= j < |words| && kw.value in Lookup(b.index, words[j]);
      IndexLookup(b.patterns, words[j]);
      ResponsesForWithin(b.patterns, words[j]);
    }
  }

  /** Once an input has been learned, asking it again is answered by the pattern tier:
      the new pattern matches its own keyword, so the best confidence is at least 1. */
  lemma LearnedInputIsAnswered(b: Bot, text: String)
    requires WellFormed(b) && Lower(text) == text
    requires Learn(b, text).patterns != b.patterns
    ensures PatternTierAnswers(Learn(b, text).patterns, text)
  {
    var ps := Learn(b, text).patterns;
    var n := |b.patterns|;
    assert ps[n] == LearnedPattern(n, text);
    ContainsSelf(text);
    assert [text][..0] == [];
    assert MatchCount(text, ps[n].keywords) == 1;
    assert Confidence(text, ps[n]) >= 1.0;
    PatternTierAnswersIff(ps, text);
  }

  // ---------------------------------------------------------------------------
  // Initialisation and analytics
  // ---------------------------------------------------------------------------

  /** `Initialize`: the default patterns and fallbacks are appended to whatever the bot
      already holds, and the index is rebuilt. */
  function Initialize(b: Bot): (r: Bot)
    requires HasKeywords(b.patterns)
    ensures WellFormed(r)
    ensures r.patterns == b.patterns + DefaultPatterns && r.defaults == b.defaults + DefaultResponses
    ensures r.history == b.history
  {
    var ps := b.patterns + DefaultPatterns;
    assert HasKeywords(ps) by {
      forall i | |b.patterns| <= i < |ps| ensures |ps[i].keywords| > 0 {
        assert ps[i] == DefaultPatterns[i - |b.patterns|];
      }
    }
    b.(patterns := ps, defaults := b.defaults + DefaultResponses, index := BuildIndex(ps))
  }

  /** A freshly initialised bot. */
  function Fresh(): (r: Bot)
    ensures WellFormed(r) && |r.patterns| == 5 && r.history == []
  {
    Initialize(Bot([], [], [], []))
  }

  /** `ChatAnalytics`, with the clock readings in ticks. */
  datatype Analytics = Analytics(totalPatterns: nat, totalConversations: nat,
                                 lastInteraction: nat, popularKeywords: seq<String>)

  /** `GetAnalytics`: the counts, the time of the last recorded input (`DateTime.MinValue`
      with none) and the first five index keys. */
  function GetAnalytics(b: Bot): (r: Analytics)
    ensures r.totalPatterns == |b.patterns| && r.totalConversations == |b.history|
    ensures r.lastInteraction == if |b.history| == 0 then MinTime else b.history[|b.history| - 1].time
    ensures |r.popularKeywords| <= 5
    ensures forall k :: k in r.popularKeywords ==> k in Keys(b.index)
    ensures r.popularKeywords == Keys(b.index)[..if |Keys(b.index)| < 5 then |Keys(b.index)| else 5]
  {
    var h := b.history;
    Analytics(|b.patterns|, |h|, if |h| == 0 then MinTime else h[|h| - 1].time, Take(Keys(b.index), 5))
  }

  /** After a non-empty input the conversation count goes up by exactly one and the last
      interaction is the clock reading of that call; after an empty one nothing moves. */
  lemma AnalyticsAfterRespond(b: Bot, input: String, now: nat, pick: nat)
    requires WellFormed(b)
    ensures var a := GetAnalytics(Respond(b, input, now, pick).1);
            var a0 := GetAnalytics(b);
            if |input| == 0 then a == a0
            else a.totalConversations == a0.totalConversations + 1 && a.lastInteraction == now
                 && a0.totalPatterns <= a.totalPatterns <= a0.totalPatterns + 1
  {
  }

  /** Every reported keyword is a lower-cased keyword of some pattern. */
  lemma PopularKeywordsAreKeywords(b: Bot)
    requires WellFormed(b)
    ensures forall k :: k in GetAnalytics(b).popularKeywords ==> k in IndexedKeys(b.patterns)
  {
    forall k | k in GetAnalytics(b).popularKeywords ensures k in IndexedKeys(b.patterns) {
      assert k in Keys(b.index);
      IndexLookup(b.patterns, k);
    }
  }
}

=== FILE: wall_placer.dfy ===
/** The wall bookkeeping of one player (AI_Final/Assets/scripts/WallPlacer.cs): 144
    wall slots (72 horizontal between rows, 72 vertical between columns), the
    marks of the occupied ones, the walls placed so far and the walls left.

    Scene work (slot objects, renderers, prefabs) is left out; the path check the
    placer asks the game manager for becomes the parameter `pathOk`. */
module WallPlacer {

  const HorizontalSlots := 72
  const SlotCount := 144
  const WallsPerPlayer := 10

  /** `WallData`: column, row and orientation of a placed wall. */
  datatype WallData = WallData(x: int, y: int, isHorizontal: bool)

  datatype Placer = Placer(wallsRemaining: int, isPlacingWall: bool, wallPlaced: seq<bool>,
                           placedWalls: seq<WallData>)

  /** The number of marked slots. */
  function CountMarked(s: seq<bool>): (n: nat)
    ensures n <= |s|
  {
    if |s| == 0 then 0 else (if s[0] then 1 else 0) + CountMarked(s[1..])
  }

  /** The placer after `Start` and after every `ResetWalls`: every slot free, ten walls. */
  predicate Fresh(p: Placer) {
    p.wallsRemaining == WallsPerPlayer && !p.isPlacingWall && p.placedWalls == []
    && |p.wallPlaced| == SlotCount && forall i :: 0 <= i < |p.wallPlaced| ==> !p.wallPlaced[i]
  }

  /** What every placement keeps: one mark and one wall per wall spent. */
  predicate Valid(p: Placer) {
    |p.wallPlaced| == SlotCount
    && p.wallsRemaining + |p.placedWalls| == WallsPerPlayer
    && CountMarked(p.wallPlaced) == |p.placedWalls|
  }

  /** `GetSlotIndex`: horizontal slots first, row by row of nine; then vertical slots,
      row by row of eight; -1 off the grid of the orientation. */
  function GetSlotIndex(row: int, col: int, isHorizontal: bool): (i: int)
    ensures isHorizontal && 0 <= row < 8 && 0 <= col < 9 ==> 0 <= i < HorizontalSlots
    ensures !isHorizontal && 0 <= row < 9 && 0 <= col < 8 ==> HorizontalSlots <= i < SlotCount
    ensures i == -1 <==> !(if isHorizontal then 0 <= row < 8 && 0 <= col < 9 else 0 <= row < 9 && 0 <= col < 8)
  {
    if isHorizontal then
      if row < 0 || row >= 8 || col < 0 || col >= 9 then -1 else row * 9 + col
    else
      if row < 0 || row >= 9 || col < 0 || col >= 8 then -1 else 72 + row * 8 + col
  }

  /** The slot an index names: the inverse of `GetSlotIndex` on [0, 144). */
  function SlotOf(i: int): (r: (int, int, bool))
    requires 0 <= i < SlotCount
  {
    if i < HorizontalSlots then (i / 9, i % 9, true) else ((i - 72) / 8, (i - 72) % 8, false)
  }

  /** Every slot index is the index of exactly the slot `SlotOf` names. */
  lemma SlotIndexRoundTrip(i: int)
    requires 0 <= i < SlotCount
    ensures var (row, col, h) := SlotOf(i); GetSlotIndex(row, col, h) == i
  {
  }

  /** Different slots have different indices. */
  lemma SlotIndexInjective(r1: int, c1: int, h1: bool, r2: int, c2: int, h2: bool)
    requires GetSlotIndex(r1, c1, h1) != -1
    requires GetSlotIndex(r1, c1, h1) == GetSlotIndex(r2, c2, h2)
    ensures r1 == r2 && c1 == c2 && h1 == h2
  {
    var i := GetSlotIndex(r1, c1, h1);
    if h1 {
      assert i == r1 * 9 + c1;
      assert r1 == i / 9 && c1 == i % 9;
    } else {
      assert i == 72 + r1 * 8 + c1;
      assert r1 == (i - 72) / 8 && c1 == (i - 72) % 8;
    }
  }

  /** `ToggleWallPlaceMode`: nothing without walls left, otherwise the mode flips. */
  function ToggleWallPlaceMode(p: Placer): (r: Placer)
    ensures p.wallsRemaining <= 0 ==> r == p
    ensures p.wallsRemaining > 0 ==> r.isPlacingWall == !p.isPlacingWall && r == p.(isPlacingWall := r.isPlacingWall)
  {
    if p.wallsRemaining <= 0 then p else p.(isPlacingWall := !p.isPlacingWall)
  }

  lemma ToggleTwice(p: Placer)
    ensures ToggleWallPlaceMode(ToggleWallPlaceMode(p)) == p
  {
  }

  /** No marks, no count. */
  lemma {:induction false} UnmarkedCountsZero(s: seq<bool>)
    requires forall i :: 0 <= i < |s| ==> !s[i]
    ensures CountMarked(s) == 0
    decreases |s|
  {
    if |s| > 0 {
      UnmarkedCountsZero(s[1..]);
    }
  }

  /** `ResetWalls`: every slot cleared, ten walls, the list emptied, placement mode
      left. */
  function ResetWalls(p: Placer): (r: Placer)
    ensures |r.wallPlaced| == |p.wallPlaced| && CountMarked(r.wallPlaced) == 0
    ensures |p.wallPlaced| == SlotCount ==> Fresh(r) && Valid(r)
  {
    var cleared := seq(|p.wallPlaced|, _ => false);
    UnmarkedCountsZero(cleared);
    Placer(WallsPerPlayer, false, cleared, [])
  }

  /** `ExecuteWallPlacement`, with whether it placed the wall (and so told the game
      manager). */
  function ExecuteWallPlacement(p: Placer, slotIndex: int, row: int, col: int, isHorizontal: bool, pathOk: bool)
    : (r: (Placer, bool))
    ensures r.1 <==> p.wallsRemaining > 0 && 0 <= slotIndex < |p.wallPlaced| && !p.wallPlaced[slotIndex] && pathOk
    ensures !r.1 ==> r.0 == p
    ensures r.1 ==> r.0 == p.(wallPlaced := p.wallPlaced[slotIndex := true],
                              wallsRemaining := p.wallsRemaining - 1,
                              placedWalls := p.placedWalls + [WallData(col, row, isHorizontal)])
  {
    if p.wallsRemaining <= 0 then (p, false)
    else if slotIndex < 0 || slotIndex >= |p.wallPlaced| || p.wallPlaced[slotIndex] then (p, false)
    else if !pathOk then (p, false)
    else (p.(wallPlaced := p.wallPlaced[slotIndex := true], wallsRemaining := p.wallsRemaining - 1,
             placedWalls := p.placedWalls + [WallData(col, row, isHorizontal)]), true)
  }

  /** Marking a free slot adds one mark. */
  lemma {:induction false} MarkAddsOne(s: seq<bool>, i: int)
    requires 0 <= i < |s| && !s[i]
    ensures CountMarked(s[i := true]) == CountMarked(s) + 1
    decreases |s|
  {
    if i > 0 {
      assert s[i := true][1..] == s[1..][i - 1 := true];
      MarkAddsOne(s[1..], i - 1);
    } else {
      assert s[i := true][1..] == s[1..];
    }
  }

  /** A placement attempt, whatever its outcome, keeps one mark and one wall per
      wall spent. */
  lemma PlacementKeepsValid(p: Placer, slotIndex: int, row: int, col: int, isHorizontal: bool, pathOk: bool)
    requires Valid(p)
    ensures Valid(ExecuteWallPlacement(p, slotIndex, row, col, isHorizontal, pathOk).0)
  {
    var (q, placed) := ExecuteWallPlacement(p, slotIndex, row, col, isHorizontal, pathOk);
    if placed {
      MarkAddsOne(p.wallPlaced, slotIndex);
    }
  }

  /** `IsWallPlacedAt`: only a slot on the grid can read as placed, and only when it
      is marked. */
  function IsWallPlacedAt(p: Placer, row: int, col: int, isHorizontal: bool): (r: bool)
    ensures r ==> GetSlotIndex(row, col, isHorizontal) != -1
    ensures (forall i | 0 <= i < |p.wallPlaced| :: !p.wallPlaced[i]) ==> !r
  {
    var i := GetSlotIndex(row, col, isHorizontal);
    i != -1 && i < |p.wallPlaced| && p.wallPlaced[i]
  }

  /** `PlaceWall`: the slot is recomputed from the position; a click in placement mode
      on the matching slot leaves placement mode afterwards, placed or not. Every
      other call counts as the AI's and keeps the mode. */
  function PlaceWall(p: Placer, slotIndex: int, row: int, col: int, isHorizontal: bool, pathOk: bool)
    : (r: (Placer, bool))
    ensures GetSlotIndex(row, col, isHorizontal) == -1 ==> r == (p, false)
    ensures var correct := GetSlotIndex(row, col, isHorizontal);
            correct != -1 ==>
              var e := ExecuteWallPlacement(p, correct, row, col, isHorizontal, pathOk);
              r.1 == e.1
              && r.0 == e.0.(isPlacingWall := if slotIndex == correct && p.isPlacingWall then false else p.isPlacingWall)
  {
    var correct := GetSlotIndex(row, col, isHorizontal);
    if correct == -1 then (p, false)
    else
      var isPlayerClick := slotIndex == correct && p.isPlacingWall;
      var (q, placed) := ExecuteWallPlacement(p, correct, row, col, isHorizontal, pathOk);
      (if isPlayerClick then q.(isPlacingWall := false) else q, placed)
  }

  /** `PlaceWallForAI`: placement mode is switched on around the call and then put
      back as it was. */
  function PlaceWallForAI(p: Placer, row: int, col: int, isHorizontal: bool, pathOk: bool): (r: (Placer, bool))
    ensures r.0.isPlacingWall == p.isPlacingWall
  {
    var slot := GetSlotIndex(row, col, isHorizontal);
    if slot == -1 then (p, false)
    else
      var (q, placed) := PlaceWall(p.(isPlacingWall := true), slot, row, col, isHorizontal, pathOk);
      (q.(isPlacingWall := p.isPlacingWall), placed)
  }

  /** An AI placement is seen by `IsWallPlacedAt` at its own slot and at no other, and
      it succeeds exactly when the slot is on the grid and free, a wall is left and
      the path check passes. */
  lemma PlaceWallForAIEffect(p: Placer, row: int, col: int, isHorizontal: bool, pathOk: bool,
                             row': int, col': int, h': bool)
    requires Valid(p)
    ensures var (q, placed) := PlaceWallForAI(p, row, col, isHorizontal, pathOk);
            (placed <==> GetSlotIndex(row, col, isHorizontal) != -1 && !IsWallPlacedAt(p, row, col, isHorizontal)
                         && p.wallsRemaining > 0 && pathOk)
            && (placed ==> IsWallPlacedAt(q, row, col, isHorizontal))
            && ((row', col', h') != (row, col, isHorizontal) ==>
                  IsWallPlacedAt(q, row', col', h') == IsWallPlacedAt(p, row', col', h'))
            && Valid(q)
  {
    var slot := GetSlotIndex(row, col, isHorizontal);
    if slot != -1 {
      PlacementKeepsValid(p.(isPlacingWall := true), slot, row, col, isHorizontal, pathOk);
      var other := GetSlotIndex(row', col', h');
      if other == slot {
        SlotIndexInjective(row, col, isHorizontal, row', col', h');
      }
    }
  }
}

=== FILE: wav_utility.dfy ===
/** `WavUtility.ToAudioClip`: the header fields, the walk over the RIFF chunks to the
    "data" chunk and the decoding of the 16-bit samples, up to the point where the
    samples are handed to the engine's audio clip.

    Bytes are integers in [0, 256). `BitConverter` reads little-endian, as on every
    platform the program targets. An exception (an index past the end, a negative
    array size) is `None`. */
module WavUtility {
  import opened Optional
  import Seqs

  type Byte = b: int | 0 <= b < 0x100

  // ---------------------------------------------------------------------------
  // Little-endian integers
  // ---------------------------------------------------------------------------

  const Int16Min: int := -0x8000
  const Int16Max: int := 0x7FFF
  const Int32Min: int := -0x8000_0000
  const Int32Max: int := 0x7FFF_FFFF

  predicate IsInt16(v: int) {
    Int16Min <= v <= Int16Max
  }

  predicate IsInt32(v: int) {
    Int32Min <= v <= Int32Max
  }

  /** The two's complement reading of an unsigned value `u` of a width spanning `span`. */
  function Signed(u: int, span: int): (r: int)
    requires 0 <= u < span
    ensures -span <= 2 * r < span
    ensures r == u || r == u - span
  {
    if 2 * u < span then u else u - span
  }

  /** C#'s unchecked `int` addition: the sum of two 32-bit numbers, wrapped around into
      the 32-bit range. */
  function Add32(a: int, b: int): (r: int)
    requires IsInt32(a) && IsInt32(b)
    ensures IsInt32(r)
    ensures IsInt32(a + b) ==> r == a + b
  {
    var sum := a + b;
    if sum > Int32Max then sum - 0x1_0000_0000
    else if sum < Int32Min then sum + 0x1_0000_0000
    else sum
  }

  /** 256 to the power `n`: one more than the largest value `n` bytes hold. */
  function Pow256(n: nat): (r: nat)
    ensures r >= 1
  {
    if n == 0 then 1 else 0x100 * Pow256(n - 1)
  }

  lemma Pow256Values()
    ensures Pow256(2) == 0x1_0000 && Pow256(4) == 0x1_0000_0000
  {
    assert Pow256(1) == 0x100;
    assert Pow256(3) == 0x100_0000;
  }

  /** The unsigned value of bytes stored low byte first. */
  function FromLE(bs: seq<Byte>): (r: nat)
    ensures r < Pow256(|bs|)
  {
    if |bs| == 0 then 0 else bs[0] + 0x100 * FromLE(bs[1..])
  }

  /** The low `n` bytes of `u` in two's complement, low byte first. */
  function ToLE(u: int, n: nat): (r: seq<Byte>)
    ensures |r| == n
    decreases n
  {
    if n == 0 then [] else [u % 0x100] + ToLE(u / 0x100, n - 1)
  }

  /** Reading back written bytes gives the value written, when it fits. */
  lemma {:induction false} FromToLE(u: int, n: nat)
    requires 0 <= u < Pow256(n)
    ensures FromLE(ToLE(u, n)) == u
  {
    if n > 0 {
      FromToLE(u / 0x100, n - 1);
      assert ToLE(u, n)[1..] == ToLE(u / 0x100, n - 1);
    }
  }

  /** Writing back read bytes gives the bytes read. */
  lemma {:induction false} ToFromLE(bs: seq<Byte>)
    ensures ToLE(FromLE(bs), |bs|) == bs
  {
    if |bs| > 0 {
      var u := FromLE(bs);
      assert u % 0x100 == bs[0] && u / 0x100 == FromLE(bs[1..]);
      ToFromLE(bs[1..]);
    }
  }

  /** Writing wraps around: a value and the value `256^n` below it have the same bytes. */
  lemma {:induction false} ToLEWraps(u: int, n: nat)
    ensures ToLE(u - Pow256(n), n) == ToLE(u, n)
    decreases n
  {
    if n > 0 {
      var p := Pow256(n - 1);
      assert (u - 0x100 * p) % 0x100 == u % 0x100;
      assert (u - 0x100 * p) / 0x100 == u / 0x100 - p;
      ToLEWraps(u / 0x100, n - 1);
    }
  }

  /** The two bytes of a 16-bit value, low byte first. */
  function Encode16(v: int): (r: seq<Byte>)
    ensures |r| == 2
  {
    ToLE(v, 2)
  }

  /** The four bytes of a 32-bit value, low byte first. */
  function Encode32(v: int): (r: seq<Byte>)
    ensures |r| == 4
  {
    ToLE(v, 4)
  }

  /** The unsigned value of the two bytes at `at`. */
  function U16At(b: seq<Byte>, at: nat): (r: int)
    requires at + 2 <= |b|
    ensures 0 <= r < 0x1_0000
  {
    b[at] as int + 0x100 * b[at + 1] as int
  }

  /** The unsigned value of the four bytes at `at`. */
  function U32At(b: seq<Byte>, at: nat): (r: int)
    requires at + 4 <= |b|
    ensures 0 <= r < 0x1_0000_0000
  {
    b[at] as int + 0x100 * b[at + 1] as int + 0x1_0000 * b[at + 2] as int + 0x100_0000 * b[at + 3] as int
  }

  /** The two bytes at `at` are the little-endian number `U16At` names. */
  lemma U16AtSlice(b: seq<Byte>, at: nat)
    requires at + 2 <= |b|
    ensures U16At(b, at) == FromLE(b[at..at + 2])
  {
    var s := b[at..at + 2];
    assert FromLE(s[1..]) == b[at + 1] + 0x100 * FromLE(s[2..]);
  }

  /** The four bytes at `at` are the little-endian number `U32At` names. */
  lemma U32AtSlice(b: seq<Byte>, at: nat)
    requires at + 4 <= |b|
    ensures U32At(b, at) == FromLE(b[at..at + 4])
  {
    var s := b[at..at + 4];
    assert FromLE(s[3..]) == b[at + 3] + 0x100 * FromLE(s[4..]);
    assert FromLE(s[2..]) == b[at + 2] + 0x100 * FromLE(s[3..]);
    assert FromLE(s[1..]) == b[at + 1] + 0x100 * FromLE(s[2..]);
  }

  /** `BitConverter.ToInt16(b, at)` once the bounds are known. */
  function Int16At(b: seq<Byte>, at: nat): (r: int)
    requires at + 2 <= |b|
    ensures IsInt16(r)
  {
    Signed(U16At(b, at), 0x1_0000)
  }

  /** `BitConverter.ToInt32(b, at)` once the bounds are known. */
  function Int32At(b: seq<Byte>, at: nat): (r: int)
    requires at + 4 <= |b|
    ensures IsInt32(r)
  {
    Signed(U32At(b, at), 0x1_0000_0000)
  }

  /** `BitConverter.ToInt16`: `None` when the two bytes are not all inside the array. */
  function ReadInt16(b: seq<Byte>, at: int): (r: Option<int>)
    ensures r.Some? <==> 0 <= at && at + 2 <= |b|
    ensures r.Some? ==> IsInt16(r.value)
  {
    if 0 <= at && at + 2 <= |b| then Some(Int16At(b, at)) else None
  }

  /** `BitConverter.ToInt32`: `None` when the four bytes are not all inside the array. */
  function ReadInt32(b: seq<Byte>, at: int): (r: Option<int>)
    ensures r.Some? <==> 0 <= at && at + 4 <= |b|
    ensures r.Some? ==> IsInt32(r.value)
  {
    if 0 <= at && at + 4 <= |b| then Some(Int32At(b, at)) else None
  }

  /** Reading as signed does not change the bytes written back. */
  lemma SignedWrap(u: int, n: nat)
    requires 0 <= u < Pow256(n)
    ensures ToLE(Signed(u, Pow256(n)), n) == ToLE(u, n)
  {
    if 2 * u >= Pow256(n) {
      ToLEWraps(u, n);
    }
  }

  /** Writing back a 16-bit value read from a file gives the bytes it was read from. */
  lemma Int16AtEncodes(b: seq<Byte>, at: nat)
    requires at + 2 <= |b|
    ensures Encode16(Int16At(b, at)) == b[at..at + 2]
  {
    Pow256Values();
    U16AtSlice(b, at);
    ToFromLE(b[at..at + 2]);
    SignedWrap(U16At(b, at), 2);
  }

  /** Writing back a 32-bit value read from a file gives the bytes it was read from. */
  lemma Int32AtEncodes(b: seq<Byte>, at: nat)
    requires at + 4 <= |b|
    ensures Encode32(Int32At(b, at)) == b[at..at + 4]
  {
    Pow256Values();
    U32AtSlice(b, at);
    ToFromLE(b[at..at + 4]);
    SignedWrap(U32At(b, at), 4);
  }

  /** Reading back, as signed, a value written in `n` bytes gives the value. */
  lemma SignedReadsBack(v: int, n: nat)
    requires -(Pow256(n) as int) <= 2 * v < Pow256(n)
    ensures Signed(FromLE(ToLE(v, n)), Pow256(n)) == v
  {
    if v < 0 {
      ToLEWraps(v + Pow256(n), n);
      FromToLE(v + Pow256(n), n);
    } else {
      FromToLE(v, n);
    }
  }

  /** Reading back a written unsigned 32-bit value gives the value. */
  lemma U32RoundTrip(x: seq<Byte>, u: int, y: seq<Byte>)
    requires 0 <= u < 0x1_0000_0000
    ensures U32At(x + Encode32(u) + y, |x|) == u
  {
    Pow256Values();
    assert (x + Encode32(u) + y)[|x|..|x| + 4] == ToLE(u, 4);
    U32AtSlice(x + Encode32(u) + y, |x|);
    FromToLE(u, 4);
  }

  /** Reading back a written 16-bit value gives the value. */
  lemma Int16RoundTrip(x: seq<Byte>, v: int, y: seq<Byte>)
    requires IsInt16(v)
    ensures Int16At(x + Encode16(v) + y, |x|) == v
  {
    Pow256Values();
    assert (x + Encode16(v) + y)[|x|..|x| + 2] == ToLE(v, 2);
    U16AtSlice(x + Encode16(v) + y, |x|);
    SignedReadsBack(v, 2);
  }

  /** Reading back a written 32-bit value gives the value. */
  lemma Int32RoundTrip(x: seq<Byte>, v: int, y: seq<Byte>)
    requires IsInt32(v)
    ensures Int32At(x + Encode32(v) + y, |x|) == v
  {
    Pow256Values();
    assert (x + Encode32(v) + y)[|x|..|x| + 4] == ToLE(v, 4);
    U32AtSlice(x + Encode32(v) + y, |x|);
    SignedReadsBack(v, 4);
  }

  // ---------------------------------------------------------------------------
  // The walk to the "data" chunk
  // ---------------------------------------------------------------------------

  /** The tag of the chunk that holds the samples: "data". */
  const DataTag: seq<Byte> := [0x64, 0x61, 0x74, 0x61]

  /** The four bytes at `at` read "data". */
  predicate DataAt(b: seq<Byte>, at: nat)
    requires at + 4 <= |b|
  {
    b[at] == DataTag[0] && b[at + 1] == DataTag[1] && b[at + 2] == DataTag[2] && b[at + 3] == DataTag[3]
  }

  lemma DataAtSlice(b: seq<Byte>, at: nat)
    requires at + 4 <= |b|
    ensures DataAt(b, at) <==> b[at..at + 4] == DataTag
  {
    if b[at..at + 4] != DataTag {
      var k :| 0 <= k < 4 && b[at..at + 4][k] != DataTag[k];
      assert b[at + k] != DataTag[k];
    }
  }

  /** The loop condition `!(wavFile[pos] == 'd' && ... && wavFile[pos + 3] == 'a')`, negated
      and evaluated left to right with C#'s short-circuit `&&`: `Some(true)` when "data"
      starts at `pos`, `Some(false)` at the first byte that differs, `None` when a byte
      it reads before that is outside the array. */
  function TagAt(b: seq<Byte>, pos: int): (r: Option<bool>)
    ensures 0 <= pos && pos + 4 <= |b| ==> r == Some(DataAt(b, pos))
    ensures r.Some? ==> 0 <= pos < |b|
  {
    if !(0 <= pos < |b|) then None
    else if b[pos] != DataTag[0] then Some(false)
    else if pos + 1 >= |b| then None
    else if b[pos + 1] != DataTag[1] then Some(false)
    else if pos + 2 >= |b| then None
    else if b[pos + 2] != DataTag[2] then Some(false)
    else if pos + 3 >= |b| then None
    else Some(b[pos + 3] == DataTag[3])
  }

  /** How the walk ends: at the offset of the "data" tag, with an exception, or still
      going when the iterations allowed ran out. */
  datatype Walk = Found(pos: int) | Throws | Running

  /** The loop of lines 15-21, for at most `fuel` iterations: while "data" is not at
      `pos`, step over the tag, read the chunk size there as a signed 32-bit number and
      step over the size field and the body, all in wrapping 32-bit arithmetic. */
  function WalkAsWritten(b: seq<Byte>, pos: int, fuel: nat): (r: Walk)
    requires IsInt32(pos)
    ensures r.Found? ==> 0 <= r.pos && r.pos + 4 <= |b|
    decreases fuel
  {
    match TagAt(b, pos)
    case None => Throws
    case Some(true) => Found(pos)
    case Some(false) =>
      if fuel == 0 then Running
      else
        var p := Add32(pos, 4);
        match ReadInt32(b, p)
        case None => Throws
        case Some(size) => WalkAsWritten(b, Add32(p, Add32(4, size)), fuel - 1)
  }

  /** The walk as intended: the size field is the unsigned 32-bit count of the RIFF
      form, and the walk gives up with `None` when the next tag or size field is not
      inside the file, so it ends on every input. */
  function FindData(b: seq<Byte>, pos: nat): (r: Option<nat>)
    ensures r.Some? ==> pos <= r.value && r.value + 4 <= |b| && DataAt(b, r.value)
    decreases |b| - pos
  {
    if pos + 4 > |b| then None
    else if DataAt(b, pos) then Some(pos)
    else if pos + 8 > |b| then None
    else FindData(b, pos + 8 + U32At(b, pos + 4))
  }

  /** A chunk: a four-byte tag, then the body's length as a 32-bit number, then the body. */
  datatype Chunk = Chunk(tag: seq<Byte>, body: seq<Byte>)

  function ChunkBytes(c: Chunk): (r: seq<Byte>)
    ensures |r| == |c.tag| + 4 + |c.body|
  {
    c.tag + Encode32(|c.body|) + c.body
  }

  function ChunksBytes(cs: seq<Chunk>): seq<Byte> {
    if |cs| == 0 then [] else ChunkBytes(cs[0]) + ChunksBytes(cs[1..])
  }

  /** A chunk the walk should step over: a four-byte tag other than "data" and a body
      whose length a 32-bit size field can hold. */
  predicate Skippable(c: Chunk) {
    |c.tag| == 4 && c.tag != DataTag && |c.body| < 0x1_0000_0000
  }

  /** Both walks step over one skippable chunk the same way. */
  lemma SkipChunk(x: seq<Byte>, c: Chunk, y: seq<Byte>)
    requires Skippable(c)
    ensures var b := x + ChunkBytes(c) + y;
            |x| + 8 <= |b| && !DataAt(b, |x|) && U32At(b, |x| + 4) == |c.body|
  {
    var b := x + ChunkBytes(c) + y;
    assert b[|x|..|x| + 4] == c.tag;
    DataAtSlice(b, |x|);
    assert b == (x + c.tag) + Encode32(|c.body|) + (c.body + y);
    U32RoundTrip(x + c.tag, |c.body|, c.body + y);
  }

  /** One step of the intended walk over a chunk that is not "data". */
  lemma FindDataStep(b: seq<Byte>, p: nat)
    requires p + 8 <= |b| && !DataAt(b, p)
    ensures FindData(b, p) == FindData(b, p + 8 + U32At(b, p + 4))
  {
  }

  /** One step of the written walk, on a file that fits the 32-bit offsets. */
  lemma WalkStep(b: seq<Byte>, p: nat, size: nat, fuel: nat)
    requires TagAt(b, p) == Some(false) && p + 8 <= |b| && U32At(b, p + 4) == size
    requires p + 8 + size <= Int32Max && fuel >= 1
    ensures WalkAsWritten(b, p, fuel) == WalkAsWritten(b, p + 8 + size, fuel - 1)
  {
    assert ReadInt32(b, p + 4) == Some(size);
    assert Add32(p, 4) == p + 4;
    assert Add32(4, size) == 4 + size;
    assert Add32(p + 4, 4 + size) == p + 8 + size;
  }

  /** From offset `at`, `b` holds the chunks `cs` and then a "data" tag. */
  predicate ChunksThenData(b: seq<Byte>, at: nat, cs: seq<Chunk>)
    decreases |cs|
  {
    if |cs| == 0 then at + 4 <= |b| && DataAt(b, at)
    else
      at + 8 + |cs[0].body| <= |b| && !DataAt(b, at) && U32At(b, at + 4) == |cs[0].body|
      && ChunksThenData(b, at + 8 + |cs[0].body|, cs[1..])
  }

  /** The offset of the "data" tag after the chunks. */
  function EndOfChunks(at: nat, cs: seq<Chunk>): nat
    decreases |cs|
  {
    if |cs| == 0 then at else EndOfChunks(at + 8 + |cs[0].body|, cs[1..])
  }

  /** A file written as chunks then "data" has that shape. */
  lemma WrittenChunks(x: seq<Byte>, cs: seq<Chunk>, tail: seq<Byte>)
    requires forall i :: 0 <= i < |cs| ==> Skippable(cs[i])
    requires |tail| >= 4 && DataAt(tail, 0)
    ensures ChunksThenData(x + ChunksBytes(cs) + tail, |x|, cs)
  {
    var s := ChunksBytes(cs) + tail;
    var b := x + s;
    WrittenShape(cs, tail);
    Seqs.AppendAssoc(x, ChunksBytes(cs), tail);
    assert b[|x|..] == s;
    ShiftShape(b, |x|, s, 0, cs, |x|);
  }

  /** Chunks written then a "data" tag have that shape from their first byte. */
  lemma {:induction false} WrittenShape(cs: seq<Chunk>, t: seq<Byte>)
    requires forall i :: 0 <= i < |cs| ==> Skippable(cs[i])
    requires |t| >= 4 && DataAt(t, 0)
    ensures ChunksThenData(ChunksBytes(cs) + t, 0, cs)
    decreases |cs|
  {
    if |cs| == 0 {
      assert ChunksBytes(cs) + t == t;
    } else {
      SkippableRest(cs);
      WrittenShape(cs[1..], t);
      ChunksFront(cs, t);
      ShapeStep(ChunksBytes(cs) + t, cs, ChunksBytes(cs[1..]) + t);
    }
  }

  /** One skippable chunk in front of bytes that have the shape of the rest. */
  lemma ShapeStep(s: seq<Byte>, cs: seq<Chunk>, y: seq<Byte>)
    requires |cs| > 0 && Skippable(cs[0]) && s == ChunkBytes(cs[0]) + y
    requires ChunksThenData(y, 0, cs[1..])
    ensures ChunksThenData(s, 0, cs)
  {
    HeadOf(s, cs[0], y);
    FoldFront(s, cs, y);
  }

  /** A skippable chunk at the front of `s`, where the walks meet it, and what follows it. */
  lemma HeadOf(s: seq<Byte>, c: Chunk, y: seq<Byte>)
    requires Skippable(c) && s == ChunkBytes(c) + y
    ensures 8 + |c.body| <= |s| && !DataAt(s, 0) && U32At(s, 4) == |c.body|
    ensures s[8 + |c.body|..] == y
  {
    assert [] + ChunkBytes(c) + y == s;
    SkipChunk([], c, y);
    Seqs.DropFront(s, 0, ChunkBytes(c), y);
  }

  /** The shape of `s` from the head chunk and the shape of what follows it. */
  lemma FoldFront(s: seq<Byte>, cs: seq<Chunk>, y: seq<Byte>)
    requires |cs| > 0 && 8 + |cs[0].body| <= |s| && !DataAt(s, 0) && U32At(s, 4) == |cs[0].body|
    requires s[8 + |cs[0].body|..] == y && ChunksThenData(y, 0, cs[1..])
    ensures ChunksThenData(s, 0, cs)
  {
    ShiftShape(s, 8 + |cs[0].body|, y, 0, cs[1..], 8 + |cs[0].body|);
    FoldChunks(s, 0, cs);
  }

  /** The shape of bytes carries over to a file holding them from `at` on. */
  lemma {:induction false} ShiftShape(b: seq<Byte>, at: nat, s: seq<Byte>, a: nat, cs: seq<Chunk>, to: nat)
    requires at <= |b| && b[at..] == s && ChunksThenData(s, a, cs) && to == at + a
    ensures ChunksThenData(b, to, cs)
    decreases |cs|
  {
    if |cs| == 0 {
      SameBytes(b, at, s, a, 4);
    } else {
      SameBytes(b, at, s, a, 8);
      ShiftShape(b, at, s, a + 8 + |cs[0].body|, cs[1..], to + 8 + |cs[0].body|);
      FoldChunks(b, to, cs);
    }
  }

  /** The bytes a file holds from `at` on read the same in the file. */
  lemma SameBytes(b: seq<Byte>, at: nat, s: seq<Byte>, a: nat, n: nat)
    requires at <= |b| && b[at..] == s && 4 <= n <= 8 && a + n <= |s|
    ensures at + a + n <= |b| && DataAt(b, at + a) == DataAt(s, a)
    ensures n == 8 ==> U32At(b, at + a + 4) == U32At(s, a + 4)
  {
    forall i | at + a <= i < at + a + n ensures b[i] == s[i - at] {
      assert s[i - at] == b[at..][i - at];
    }
  }

  /** Written chunks then a tail, cut after the first chunk. */
  lemma ChunksFront(cs: seq<Chunk>, t: seq<Byte>)
    requires |cs| > 0
    ensures ChunksBytes(cs) + t == ChunkBytes(cs[0]) + (ChunksBytes(cs[1..]) + t)
  {
    Seqs.AppendAssoc(ChunkBytes(cs[0]), ChunksBytes(cs[1..]), t);
  }

  /** The chunks after a skippable first one are skippable. */
  lemma SkippableRest(cs: seq<Chunk>)
    requires |cs| > 0 && forall i :: 0 <= i < |cs| ==> Skippable(cs[i])
    ensures forall i :: 0 <= i < |cs[1..]| ==> Skippable(cs[1..][i])
  {
    var more := cs[1..];
    forall i | 0 <= i < |more| ensures Skippable(more[i]) { assert more[i] == cs[i + 1]; }
  }

  /** The "data" tag after written chunks is where their bytes end. */
  lemma {:induction false} EndOfWrittenChunks(at: nat, cs: seq<Chunk>)
    requires forall i :: 0 <= i < |cs| ==> |cs[i].tag| == 4
    ensures EndOfChunks(at, cs) == at + |ChunksBytes(cs)|
    decreases |cs|
  {
    if |cs| > 0 {
      EndOfWrittenChunks(at + 8 + |cs[0].body|, cs[1..]);
      assert |ChunksBytes(cs)| == |ChunkBytes(cs[0])| + |ChunksBytes(cs[1..])|;
    }
  }

  /** The shape after one chunk, from the shape of the rest. */
  lemma FoldChunks(b: seq<Byte>, at: nat, cs: seq<Chunk>)
    requires |cs| > 0 && at + 8 + |cs[0].body| <= |b| && !DataAt(b, at)
    requires U32At(b, at + 4) == |cs[0].body| && ChunksThenData(b, at + 8 + |cs[0].body|, cs[1..])
    ensures ChunksThenData(b, at, cs)
  {
  }

  /** The intended walk finds the "data" tag after the chunks. */
  lemma {:induction false} FindDataAfterChunks(b: seq<Byte>, at: nat, cs: seq<Chunk>)
    requires ChunksThenData(b, at, cs)
    ensures FindData(b, at) == Some(EndOfChunks(at, cs))
    decreases |cs|
  {
    if |cs| > 0 {
      FindDataStep(b, at);
      FindDataAfterChunks(b, at + 8 + |cs[0].body|, cs[1..]);
    }
  }

  /** The written walk steps over the first of the chunks. */
  lemma WalkOverChunk(b: seq<Byte>, at: nat, cs: seq<Chunk>, fuel: nat)
    requires |cs| > 0 && ChunksThenData(b, at, cs) && |b| <= Int32Max && 1 <= fuel
    ensures WalkAsWritten(b, at, fuel) == WalkAsWritten(b, at + 8 + |cs[0].body|, fuel - 1)
  {
    WalkStep(b, at, |cs[0].body|, fuel);
  }

  /** So does the written walk, when the file fits the 32-bit offsets and it may make
      one iteration per chunk. */
  lemma {:induction false} WalkAfterChunks(b: seq<Byte>, at: nat, cs: seq<Chunk>, fuel: nat)
    requires ChunksThenData(b, at, cs) && |b| <= Int32Max && |cs| <= fuel
    ensures WalkAsWritten(b, at, fuel) == Found(EndOfChunks(at, cs))
    decreases |cs|
  {
    if |cs| == 0 {
      WalkFindsData(b, at, fuel);
    } else {
      var next := at + 8 + |cs[0].body|;
      assert ChunksThenData(b, next, cs[1..]);
      WalkAfterChunks(b, next, cs[1..], fuel - 1);
      WalkAfterChunk(b, at, cs, fuel);
    }
  }

  /** The written walk stops at a "data" tag. */
  lemma WalkFindsData(b: seq<Byte>, at: nat, fuel: nat)
    requires at + 4 <= |b| && |b| <= Int32Max && DataAt(b, at)
    ensures WalkAsWritten(b, at, fuel) == Found(at)
  {
    assert TagAt(b, at) == Some(true);
  }

  /** The written walk over the chunks, from its walk over all but the first. */
  lemma WalkAfterChunk(b: seq<Byte>, at: nat, cs: seq<Chunk>, fuel: nat)
    requires |cs| > 0 && ChunksThenData(b, at, cs) && |b| <= Int32Max && 1 <= fuel
    requires WalkAsWritten(b, at + 8 + |cs[0].body|, fuel - 1) == Found(EndOfChunks(at + 8 + |cs[0].body|, cs[1..]))
    ensures WalkAsWritten(b, at, fuel) == Found(EndOfChunks(at, cs))
  {
    WalkOverChunk(b, at, cs, fuel);
  }

  // ---------------------------------------------------------------------------
  // Decoding
  // ---------------------------------------------------------------------------

  /** C#'s integer division, which truncates toward zero. */
  function CsDiv(a: int, d: int): (r: int)
    requires d != 0
    ensures var rem := a - r * d;
            (if rem < 0 then -rem else rem) < (if d < 0 then -d else d)
            && (rem == 0 || (rem < 0 <==> a < 0))
  {
    var n, m := if a < 0 then -a else a, if d < 0 then -d else d;
    var q := n / m;
    var r := if (a < 0) == (d < 0) then q else -q;
    TruncatedRemainder(a, d, n, m, q, r);
    r
  }

  /** The remainder of the truncated quotient has the dividend's sign and the size of the
      remainder of the magnitudes. */
  lemma TruncatedRemainder(a: int, d: int, n: nat, m: nat, q: int, r: int)
    requires n == (if a < 0 then -a else a) && m == (if d < 0 then -d else d) && m != 0
    requires q == n / m && r == (if (a < 0) == (d < 0) then q else -q)
    ensures a - r * d == (if a < 0 then -(n - q * m) else n - q * m) && 0 <= n - q * m < m
  {
    if d < 0 {
      assert r * d == -r * m;
    } else {
      assert r * d == r * m;
    }
  }

  /** `value / 32768f`: a 16-bit sample scaled into [-1, 1). Every such quotient is exact
      in single precision, so no rounding is modelled. */
  function Amplitude(v: int): (r: real)
    requires IsInt16(v)
    ensures -1.0 <= r < 1.0
  {
    v as real / 32768.0
  }

  /** Scaling loses nothing: the sample is the amplitude times 32768. */
  lemma AmplitudeInjective(v: int, w: int)
    requires IsInt16(v) && IsInt16(w)
    ensures Amplitude(v) == Amplitude(w) <==> v == w
  {
  }

  /** The decoded clip: the three header fields the method reads and the samples. */
  datatype Wave = Wave(channels: int, sampleRate: int, bitDepth: int, data: seq<real>)

  /** The loop of lines 26-30: `count` samples read from `start` on, two bytes each. */
  function Samples(b: seq<Byte>, start: nat, count: nat): (r: seq<real>)
    requires count > 0 ==> start + 2 * count <= |b|
    ensures |r| == count
    ensures forall i :: 0 <= i < count ==> r[i] == Amplitude(Int16At(b, start + 2 * i))
  {
    seq(count, i requires 0 <= i < count => Amplitude(Int16At(b, start + 2 * i)))
  }

  /** Lines 22-30 once the "data" tag is found at `tag`: skip it and its size field, take
      every remaining pair of bytes as a sample. When the tag ends the file too closely
      for that, the sample count is negative and allocating the array throws. */
  function DecodeFrom(b: seq<Byte>, tag: nat): (r: Option<Wave>)
    requires 36 <= |b| && tag + 4 <= |b|
    ensures r.None? <==> |b| <= tag + 6
    ensures r.Some? ==> r.value.channels == Int16At(b, 22) && r.value.sampleRate == Int32At(b, 24)
                        && r.value.bitDepth == Int16At(b, 34)
    ensures r.Some? && tag + 8 <= |b| ==> tag + 8 + 2 * |r.value.data| <= |b| < tag + 10 + 2 * |r.value.data|
    ensures r.Some? && |b| < tag + 8 ==> r.value.data == []
  {
    var pos := tag + 8;
    var count := CsDiv(|b| - pos, 2);
    if count < 0 then None
    else Some(Wave(Int16At(b, 22), Int32At(b, 24), Int16At(b, 34), Samples(b, pos, count)))
  }

  /** `ToAudioClip` up to the audio clip, with the intended walk: the header fields, the
      "data" chunk and its samples, or `None` where the method throws or would loop. */
  function ToAudioData(b: seq<Byte>): (r: Option<Wave>)
    ensures |b| < 36 ==> r.None?
    ensures r.Some? ==> exists tag :: 12 <= tag && tag + 4 <= |b| && DataAt(b, tag) && DecodeFrom(b, tag) == r
  {
    if |b| < 36 then None
    else match FindData(b, 12)
      case None => None
      case Some(tag) => DecodeFrom(b, tag)
  }

  /** The outcome of the method as written. */
  datatype Decoding = Decoded(wave: Wave) | Failed | Looping

  /** `ToAudioClip` up to the audio clip, with the loop as written, allowed `fuel`
      iterations. */
  function ToAudioDataAsWritten(b: seq<Byte>, fuel: nat): (r: Decoding)
    ensures |b| < 36 ==> r == Failed
  {
    if |b| < 36 then Failed
    else match WalkAsWritten(b, 12, fuel)
      case Throws => Failed
      case Running => Looping
      case Found(tag) =>
        match DecodeFrom(b, tag)
        case None => Failed
        case Some(w) => Decoded(w)
  }

  /** Lines 32-33: the clip length `samples / channels` handed to the engine; `None` for
      a header that declares no channels, where the division throws. */
  function ClipLength(w: Wave): (r: Option<int>)
    ensures r.None? <==> w.channels == 0
    ensures r.Some? && w.channels > 0 ==> r.value * w.channels <= |w.data| < (r.value + 1) * w.channels
  {
    if w.channels == 0 then None else Some(CsDiv(|w.data|, w.channels))
  }

  // ---------------------------------------------------------------------------
  // Written files
  // ---------------------------------------------------------------------------

  /** The fields of a "fmt " chunk of the canonical PCM layout. */
  datatype Format = Format(audioFormat: int, channels: int, sampleRate: int, byteRate: int,
                           blockAlign: int, bitDepth: int)

  predicate Fits(f: Format) {
    IsInt16(f.audioFormat) && IsInt16(f.channels) && IsInt32(f.sampleRate) && IsInt32(f.byteRate)
    && IsInt16(f.blockAlign) && IsInt16(f.bitDepth)
  }

  const RiffTag: seq<Byte> := [0x52, 0x49, 0x46, 0x46]
  const WaveTag: seq<Byte> := [0x57, 0x41, 0x56, 0x45]
  const FmtTag: seq<Byte> := [0x66, 0x6D, 0x74, 0x20]

  /** The 16 bytes of a "fmt " chunk body. */
  function FmtBody(f: Format): (r: seq<Byte>)
    ensures |r| == 16
  {
    Encode16(f.audioFormat) + Encode16(f.channels) + Encode32(f.sampleRate) + Encode32(f.byteRate)
    + Encode16(f.blockAlign) + Encode16(f.bitDepth)
  }

  /** Samples written two bytes each, low byte first. */
  function SampleBytes(vs: seq<int>): (r: seq<Byte>)
    ensures |r| == 2 * |vs|
  {
    if |vs| == 0 then [] else Encode16(vs[0]) + SampleBytes(vs[1..])
  }

  predicate AllInt16(vs: seq<int>) {
    forall i :: 0 <= i < |vs| ==> IsInt16(vs[i])
  }

  /** The amplitudes of samples. */
  function Amplitudes(vs: seq<int>): (r: seq<real>)
    requires AllInt16(vs)
    ensures |r| == |vs| && forall i :: 0 <= i < |vs| ==> r[i] == Amplitude(vs[i])
  {
    seq(|vs|, i requires 0 <= i < |vs| => Amplitude(vs[i]))
  }

  /** A file as a recorder writes it: the RIFF header, the "fmt " chunk, any other chunks,
      the "data" chunk with `samples`, and then whatever `trailing` follows it. */
  function WaveFile(riffSize: int, f: Format, others: seq<Chunk>, samples: seq<int>, trailing: seq<Byte>): seq<Byte> {
    RiffTag + Encode32(riffSize) + WaveTag
    + ChunksBytes([Chunk(FmtTag, FmtBody(f))] + others)
    + (DataTag + Encode32(2 * |samples|) + SampleBytes(samples) + trailing)
  }

  /** The 16-bit value whose bytes sit at `at`. */
  lemma Int16AtOf(b: seq<Byte>, at: nat, v: int)
    requires at + 2 <= |b| && b[at..at + 2] == Encode16(v) && IsInt16(v)
    ensures Int16At(b, at) == v
  {
    assert b == b[..at] + Encode16(v) + b[at + 2..];
    Int16RoundTrip(b[..at], v, b[at + 2..]);
  }

  /** The 32-bit value whose bytes sit at `at`. */
  lemma Int32AtOf(b: seq<Byte>, at: nat, v: int)
    requires at + 4 <= |b| && b[at..at + 4] == Encode32(v) && IsInt32(v)
    ensures Int32At(b, at) == v
  {
    assert b == b[..at] + Encode32(v) + b[at + 4..];
    Int32RoundTrip(b[..at], v, b[at + 4..]);
  }

  /** Every written sample reads back. */
  lemma {:induction false} SampleAt(x: seq<Byte>, vs: seq<int>, y: seq<Byte>, i: nat)
    requires AllInt16(vs) && i < |vs|
    ensures Int16At(x + SampleBytes(vs) + y, |x| + 2 * i) == vs[i]
    decreases i
  {
    var x' := x + Encode16(vs[0]);
    assert x + SampleBytes(vs) + y == x' + SampleBytes(vs[1..]) + y;
    if i == 0 {
      assert x + SampleBytes(vs) + y == x + Encode16(vs[0]) + (SampleBytes(vs[1..]) + y);
      Int16RoundTrip(x, vs[0], SampleBytes(vs[1..]) + y);
    } else {
      SampleAt(x', vs[1..], y, i - 1);
    }
  }

  /** The samples loop reads back written samples. */
  lemma SamplesOfWritten(b: seq<Byte>, x: seq<Byte>, vs: seq<int>)
    requires AllInt16(vs) && b == x + SampleBytes(vs)
    ensures |x| + 2 * |vs| == |b| && Samples(b, |x|, |vs|) == Amplitudes(vs)
  {
    assert b + [] == b;
    forall i | 0 <= i < |vs|
      ensures Samples(b, |x|, |vs|)[i] == Amplitudes(vs)[i]
    {
      SampleAt(x, vs, [], i);
    }
  }

  /** A 16-bit read inside a piece of a file depends on that piece alone. */
  lemma Int16Within(x: seq<Byte>, y: seq<Byte>, z: seq<Byte>, k: nat)
    requires k + 2 <= |y|
    ensures Int16At(x + y + z, |x| + k) == Int16At(y, k)
  {
    assert (x + y + z)[|x| + k] == y[k] && (x + y + z)[|x| + k + 1] == y[k + 1];
  }

  /** A 32-bit read inside a piece of a file depends on that piece alone. */
  lemma Int32Within(x: seq<Byte>, y: seq<Byte>, z: seq<Byte>, k: nat)
    requires k + 4 <= |y|
    ensures Int32At(x + y + z, |x| + k) == Int32At(y, k)
  {
    assert (x + y + z)[|x| + k] == y[k] && (x + y + z)[|x| + k + 1] == y[k + 1];
    assert (x + y + z)[|x| + k + 2] == y[k + 2] && (x + y + z)[|x| + k + 3] == y[k + 3];
  }

  /** The fields the method reads, where a "fmt " body stores them. */
  lemma FmtFields(f: Format)
    requires Fits(f)
    ensures Int16At(FmtBody(f), 2) == f.channels && Int32At(FmtBody(f), 4) == f.sampleRate
            && Int16At(FmtBody(f), 14) == f.bitDepth
  {
    var a, c, r := Encode16(f.audioFormat), Encode16(f.channels), Encode32(f.sampleRate);
    var br, ba, bd := Encode32(f.byteRate), Encode16(f.blockAlign), Encode16(f.bitDepth);
    assert FmtBody(f) == a + c + (r + br + ba + bd);
    Int16RoundTrip(a, f.channels, r + br + ba + bd);
    assert FmtBody(f) == (a + c) + r + (br + ba + bd);
    Int32RoundTrip(a + c, f.sampleRate, br + ba + bd);
    assert FmtBody(f) == (a + c + r + br + ba) + bd + [];
    Int16RoundTrip(a + c + r + br + ba, f.bitDepth, []);
  }

  lemma {:induction false} SampleBytesAppend(vs: seq<int>, ws: seq<int>)
    ensures SampleBytes(vs + ws) == SampleBytes(vs) + SampleBytes(ws)
  {
    if |vs| > 0 {
      assert (vs + ws)[1..] == vs[1..] + ws;
      SampleBytesAppend(vs[1..], ws);
    } else {
      assert vs + ws == ws;
    }
  }

  /** The chunks a written file holds before its "data" chunk. */
  function ChunksOf(f: Format, others: seq<Chunk>): seq<Chunk> {
    [Chunk(FmtTag, FmtBody(f))] + others
  }

  /** A file laid out as a 12-byte RIFF header, a "fmt " chunk with body `fmt`, other
      chunks, and a "data" chunk whose size field is `size` and whose samples run to the
      end of the file. */
  function Layout(pre: seq<Byte>, fmt: seq<Byte>, others: seq<Chunk>, size: seq<Byte>, vs: seq<int>): seq<Byte> {
    pre + ChunksBytes([Chunk(FmtTag, fmt)] + others) + (DataTag + size + SampleBytes(vs))
  }

  /** Such a file holds its chunks from offset 12 on, then the "data" tag. */
  lemma LayoutChunks(pre: seq<Byte>, fmt: seq<Byte>, others: seq<Chunk>, rest: seq<Byte>)
    requires |pre| == 12 && |fmt| == 16 && |rest| >= 4 && DataAt(rest, 0)
    requires forall i :: 0 <= i < |others| ==> Skippable(others[i])
    ensures var cs := [Chunk(FmtTag, fmt)] + others;
            ChunksThenData(pre + ChunksBytes(cs) + rest, 12, cs) && EndOfChunks(12, cs) == 12 + |ChunksBytes(cs)|
  {
    var cs := [Chunk(FmtTag, fmt)] + others;
    assert forall i :: 0 <= i < |cs| ==> Skippable(cs[i]) by {
      forall i | 0 <= i < |cs| ensures Skippable(cs[i]) {
        if i > 0 {
          assert cs[i] == others[i - 1];
        }
      }
    }
    WrittenChunks(pre, cs, rest);
    EndOfWrittenChunks(12, cs);
  }

  /** Such a file's header fields are those of its "fmt " body. */
  lemma LayoutHeader(pre: seq<Byte>, fmt: seq<Byte>, others: seq<Chunk>, rest: seq<Byte>)
    requires |pre| == 12 && |fmt| == 16
    ensures var b := pre + ChunksBytes([Chunk(FmtTag, fmt)] + others) + rest;
            |b| >= 36 && Int16At(b, 22) == Int16At(fmt, 2) && Int32At(b, 24) == Int32At(fmt, 4)
            && Int16At(b, 34) == Int16At(fmt, 14)
  {
    var cs := [Chunk(FmtTag, fmt)] + others;
    var b := pre + ChunksBytes(cs) + rest;
    var head := pre + FmtTag + Encode32(16);
    assert cs[1..] == others;
    assert b == head + fmt + (ChunksBytes(others) + rest);
    Int16Within(head, fmt, ChunksBytes(others) + rest, 2);
    Int32Within(head, fmt, ChunksBytes(others) + rest, 4);
    Int16Within(head, fmt, ChunksBytes(others) + rest, 14);
  }

  /** Decoding such a file gives the fields of its "fmt " body and its samples. */
  lemma DecodeLayout(pre: seq<Byte>, fmt: seq<Byte>, others: seq<Chunk>, size: seq<Byte>, vs: seq<int>)
    requires |pre| == 12 && |fmt| == 16 && |size| == 4 && AllInt16(vs)
    requires forall i :: 0 <= i < |others| ==> Skippable(others[i])
    ensures var b := Layout(pre, fmt, others, size, vs);
            var cs := [Chunk(FmtTag, fmt)] + others;
            ChunksThenData(b, 12, cs) && 36 <= |b| && EndOfChunks(12, cs) + 4 <= |b|
            && DecodeFrom(b, EndOfChunks(12, cs))
               == Some(Wave(Int16At(fmt, 2), Int32At(fmt, 4), Int16At(fmt, 14), Amplitudes(vs)))
  {
    var b := Layout(pre, fmt, others, size, vs);
    var cs := [Chunk(FmtTag, fmt)] + others;
    var rest := DataTag + size + SampleBytes(vs);
    LayoutChunks(pre, fmt, others, rest);
    LayoutHeader(pre, fmt, others, rest);
    var x := pre + ChunksBytes(cs) + (DataTag + size);
    assert b == x + SampleBytes(vs);
    SamplesOfWritten(b, x, vs);
    DecodeSamples(b, x, Amplitudes(vs));
  }

  /** Decoding from a tag followed by its size field and an even number of bytes up to the
      end of the file gives the samples those bytes hold. */
  lemma DecodeSamples(b: seq<Byte>, x: seq<Byte>, data: seq<real>)
    requires 36 <= |b| && 8 <= |x| && |x| + 2 * |data| == |b| && Samples(b, |x|, |data|) == data
    ensures DecodeFrom(b, |x| - 8) == Some(Wave(Int16At(b, 22), Int32At(b, 24), Int16At(b, 34), data))
  {
    var tag := |x| - 8;
    assert tag + 8 == |x|;
    assert CsDiv(2 * |data|, 2) == |data|;
  }

  /** A written file is such a layout. */
  lemma WrittenLayout(riffSize: int, f: Format, others: seq<Chunk>, samples: seq<int>, more: seq<int>)
    ensures WaveFile(riffSize, f, others, samples, SampleBytes(more))
            == Layout(RiffTag + Encode32(riffSize) + WaveTag, FmtBody(f), others, Encode32(2 * |samples|), samples + more)
  {
    SampleBytesAppend(samples, more);
  }

  /** A written file has the shape both walks expect. */
  lemma WrittenFileShape(riffSize: int, f: Format, others: seq<Chunk>, samples: seq<int>, more: seq<int>)
    requires AllInt16(samples) && AllInt16(more)
    requires forall i :: 0 <= i < |others| ==> Skippable(others[i])
    ensures var b := WaveFile(riffSize, f, others, samples, SampleBytes(more));
            var cs := ChunksOf(f, others);
            ChunksThenData(b, 12, cs) && 36 <= |b| && EndOfChunks(12, cs) + 4 <= |b|
  {
    WrittenLayout(riffSize, f, others, samples, more);
    assert AllInt16(samples + more);
    DecodeLayout(RiffTag + Encode32(riffSize) + WaveTag, FmtBody(f), others, Encode32(2 * |samples|), samples + more);
  }

  /** Decoding a written file from its "data" tag gives the header fields and every
      sample after the tag. */
  lemma WrittenFileDecodes(riffSize: int, f: Format, others: seq<Chunk>, samples: seq<int>, more: seq<int>)
    requires Fits(f) && AllInt16(samples) && AllInt16(more)
    requires forall i :: 0 <= i < |others| ==> Skippable(others[i])
    requires var b := WaveFile(riffSize, f, others, samples, SampleBytes(more));
             36 <= |b| && EndOfChunks(12, ChunksOf(f, others)) + 4 <= |b|
    ensures DecodeFrom(WaveFile(riffSize, f, others, samples, SampleBytes(more)), EndOfChunks(12, ChunksOf(f, others)))
            == Some(Wave(f.channels, f.sampleRate, f.bitDepth, Amplitudes(samples + more)))
  {
    WrittenLayout(riffSize, f, others, samples, more);
    assert AllInt16(samples + more);
    DecodeLayout(RiffTag + Encode32(riffSize) + WaveTag, FmtBody(f), others, Encode32(2 * |samples|), samples + more);
    FmtFields(f);
  }

  /** Decoding reads back a written file: its channels, rate, bit depth and samples, and
      any bytes after the "data" chunk as further samples, since the chunk's own size is
      never read. */
  lemma ReadsWrittenFile(riffSize: int, f: Format, others: seq<Chunk>, samples: seq<int>, more: seq<int>)
    requires Fits(f) && AllInt16(samples) && AllInt16(more)
    requires forall i :: 0 <= i < |others| ==> Skippable(others[i])
    ensures ToAudioData(WaveFile(riffSize, f, others, samples, SampleBytes(more)))
            == Some(Wave(f.channels, f.sampleRate, f.bitDepth, Amplitudes(samples + more)))
  {
    var b := WaveFile(riffSize, f, others, samples, SampleBytes(more));
    var cs := ChunksOf(f, others);
    WrittenFileShape(riffSize, f, others, samples, more);
    WrittenFileDecodes(riffSize, f, others, samples, more);
    FindDataAfterChunks(b, 12, cs);
  }

  /** The loop as written decodes such a file the same way, as long as the file fits its
      32-bit offsets and it may make one iteration per chunk before "data". */
  lemma AsWrittenReadsWrittenFile(riffSize: int, f: Format, others: seq<Chunk>, samples: seq<int>,
                                  more: seq<int>, fuel: nat)
    requires Fits(f) && AllInt16(samples) && AllInt16(more)
    requires forall i :: 0 <= i < |others| ==> Skippable(others[i])
    requires |WaveFile(riffSize, f, others, samples, SampleBytes(more))| <= Int32Max
    requires |others| < fuel
    ensures ToAudioDataAsWritten(WaveFile(riffSize, f, others, samples, SampleBytes(more)), fuel)
            == Decoded(Wave(f.channels, f.sampleRate, f.bitDepth, Amplitudes(samples + more)))
  {
    var b := WaveFile(riffSize, f, others, samples, SampleBytes(more));
    var cs := ChunksOf(f, others);
    WrittenFileShape(riffSize, f, others, samples, more);
    WrittenFileDecodes(riffSize, f, others, samples, more);
    WalkAfterChunks(b, 12, cs, fuel);
  }

  /** The looping file, padded to a full header: a RIFF header, then a "JUNK" chunk whose
      size field holds -8, then zeros. */
  const LoopingWave: seq<Byte> :=
    RiffTag + [0x1C, 0, 0, 0] + WaveTag + [0x4A, 0x55, 0x4E, 0x4B, 0xF8, 0xFF, 0xFF, 0xFF]
    + [0, 0, 0, 0, 0, 0, 0, 0, 0, 0, 0, 0, 0, 0, 0, 0]

  /** On it the method as written never returns, however long it runs, while the intended
      walk gives up. */
  lemma {:induction false} LoopingWaveHangs(fuel: nat)
    ensures ToAudioDataAsWritten(LoopingWave, fuel) == Looping
    ensures ToAudioData(LoopingWave) == None
  {
    LoopingWaveLoops(fuel);
  }

  lemma {:induction false} LoopingWaveLoops(fuel: nat)
    ensures WalkAsWritten(LoopingWave, 12, fuel) == Running
    decreases fuel
  {
    var b := LoopingWave;
    assert |b| == 36 && b[12] == 0x4A && b[16] == 0xF8 && b[17] == 0xFF && b[18] == 0xFF && b[19] == 0xFF;
    assert ReadInt32(b, 16) == Some(-8);
    if fuel > 0 {
      assert Add32(12, 4) == 16 && Add32(4, -8) == -4 && Add32(16, -4) == 12;
      LoopingWaveLoops(fuel - 1);
    }
  }
}

=== FILE: word_text.dfy ===
/** The word-level regular expressions of the keyword chatbots: `[^\w\s]` → " ",
    `\s+` → " " and `\bw\b` → replacement, written as scans over a string, with the
    facts that connect them to the list of words of the string. */
module WordText {
  import opened Strings
  import opened Seqs

  /** `\w`: a letter, a digit or the underscore. */
  predicate IsWordChar(c: char) {
    IsLetterOrDigit(c) || c == '_'
  }

  /** Only word characters and white space. */
  predicate Clean(s: String) {
    forall i :: 0 <= i < |s| ==> IsWordChar(s[i]) || IsWhiteSpace(s[i])
  }

  /** A non-empty run of word characters: the shape of every slang key and stop word. */
  predicate WordOfWordChars(w: String) {
    w != [] && forall i :: 0 <= i < |w| ==> IsWordChar(w[i])
  }

  lemma {:induction false} WordCharIsNotSpace(c: char)
    ensures IsWordChar(c) ==> !IsWhiteSpace(c)
  {
  }

  // ---------------------------------------------------------------------------
  // `[^\w\s]` → " "
  // ---------------------------------------------------------------------------

  /** `Regex.Replace(s, @"[^\w\s]", " ")`: every other character becomes a space. */
  function Unpunctuate(s: String): (r: String)
    ensures |r| == |s| && Clean(r)
    ensures forall i :: 0 <= i < |s| ==> r[i] == s[i] || r[i] == ' '
    ensures Clean(s) ==> r == s
  {
    seq(|s|, i requires 0 <= i < |s| => if IsWordChar(s[i]) || IsWhiteSpace(s[i]) then s[i] else ' ')
  }

  // ---------------------------------------------------------------------------
  // `\s+` → " "
  // ---------------------------------------------------------------------------

  /** `Regex.Replace(s, @"\s+", " ")`: each maximal run of white space becomes one
      space, and the text between runs is copied. */
  function Collapse(s: String): String
    decreases |s|
  {
    if |s| == 0 then []
    else if IsWhiteSpace(s[0]) then
      var t := TrimStart(s);
      assert |t| < |s|;
      " " + Collapse(t)
    else
      var n := WordLength(s);
      s[..n] + Collapse(s[n..])
  }

  /** `Regex.Replace(s, @"\s+", " ").Trim()`. */
  function Squash(s: String): (r: String)
    ensures r == Join(SplitWords(s), " ")
  {
    SquashJoinsWords(s);
    Trim(Collapse(s))
  }

  /** A leading run of white space holds no word. */
  lemma {:induction false} SplitWordsTrimStart(s: String)
    ensures SplitWords(TrimStart(s)) == SplitWords(s)
    decreases |s|
  {
    if |s| > 0 && IsWhiteSpace(s[0]) {
      SplitWordsTrimStart(s[1..]);
    }
  }

  /** A string without words is all white space. */
  lemma {:induction false} NoWordsAllSpace(s: String)
    requires SplitWords(s) == []
    ensures AllWhiteSpace(s)
    decreases |s|
  {
    if |s| > 0 {
      NoWordsAllSpace(s[1..]);
    }
  }

  /** Joining one more word in front. */
  lemma {:induction false} JoinCons(u: String, rest: seq<String>)
    requires rest != []
    ensures Join([u] + rest, " ") == u + " " + Join(rest, " ")
  {
    assert ([u] + rest)[1..] == rest;
  }

  /** The join of words starts and ends with a word character. */
  lemma {:induction false} JoinOfWordsEnds(words: seq<String>)
    requires forall i :: 0 <= i < |words| ==> IsWord(words[i])
    ensures var j := Join(words, " ");
            (words == [] <==> j == []) && (j == [] || (!IsWhiteSpace(j[0]) && !IsWhiteSpace(j[|j| - 1])))
    decreases |words|
  {
    if |words| > 1 {
      JoinOfWordsEnds(words[1..]);
    }
  }

  /** `" "` when `s` opens with white space. */
  function Lead(s: String): String {
    if |s| > 0 && IsWhiteSpace(s[0]) then " " else []
  }

  /** `" "` when `s` holds a word and closes with white space. */
  function Tail(s: String): String {
    if SplitWords(s) != [] && IsWhiteSpace(s[|s| - 1]) then " " else []
  }

  /** The collapsed string is the words joined by single spaces, with one space in
      front and one behind when the original had white space there. */
  lemma {:induction false} CollapseShape(s: String)
    ensures Collapse(s) == Lead(s) + Join(SplitWords(s), " ") + Tail(s)
    decreases |s|
  {
    if |s| == 0 {
    } else if IsWhiteSpace(s[0]) {
      CollapseShape(TrimStart(s));
      CollapseShapeSpace(s);
    } else {
      CollapseShape(s[WordLength(s)..]);
      CollapseShapeWord(s);
    }
  }

  /** `CollapseShape` for a string opening with white space, given it for the rest. */
  lemma {:induction false} CollapseShapeSpace(s: String)
    requires |s| > 0 && IsWhiteSpace(s[0])
    requires var t := TrimStart(s); Collapse(t) == Lead(t) + Join(SplitWords(t), " ") + Tail(t)
    ensures Collapse(s) == Lead(s) + Join(SplitWords(s), " ") + Tail(s)
  {
    var t := TrimStart(s);
    SpaceRunFacts(s);
    RegroupSpace(Collapse(s), Collapse(t), Lead(t), Join(SplitWords(t), " "), Tail(t), Lead(s));
  }

  /** What a leading run of white space contributes to the shape. */
  lemma {:induction false} SpaceRunFacts(s: String)
    requires |s| > 0 && IsWhiteSpace(s[0])
    ensures Collapse(s) == " " + Collapse(TrimStart(s))
    ensures Lead(s) == " " && Lead(TrimStart(s)) == []
    ensures SplitWords(TrimStart(s)) == SplitWords(s) && Tail(TrimStart(s)) == Tail(s)
  {
    var t := TrimStart(s);
    SplitWordsTrimStart(s);
    TailOfSuffix(s, t);
  }

  /** A suffix with the same words has the same trailing pad. */
  lemma TailOfSuffix(s: String, t: String)
    requires |t| <= |s| && t == s[|s| - |t|..] && SplitWords(t) == SplitWords(s)
    ensures Tail(t) == Tail(s)
  {
    if t != [] {
      assert t[|t| - 1] == s[|s| - 1];
    }
  }

  lemma {:induction false} RegroupSpace(cs: String, ct: String, lt: String, j: String, tl: String, ls: String)
    requires cs == " " + ct && ct == lt + j + tl && lt == [] && ls == " "
    ensures cs == ls + j + tl
  {
  }

  /** `CollapseShape` for a string opening with a word, given it for the rest. */
  lemma {:induction false} CollapseShapeWord(s: String)
    requires |s| > 0 && !IsWhiteSpace(s[0])
    requires var rest := s[WordLength(s)..];
             Collapse(rest) == Lead(rest) + Join(SplitWords(rest), " ") + Tail(rest)
    ensures Collapse(s) == Lead(s) + Join(SplitWords(s), " ") + Tail(s)
  {
    var rest := s[WordLength(s)..];
    if |rest| == 0 {
      CollapseLastWord(s);
    } else if SplitWords(rest) == [] {
      CollapseTrailingSpace(s);
    } else {
      CollapseMoreWords(s);
    }
  }

  /** The shape of a string that is a single word. */
  lemma {:induction false} CollapseLastWord(s: String)
    requires |s| > 0 && !IsWhiteSpace(s[0]) && WordLength(s) == |s|
    ensures Collapse(s) == Lead(s) + Join(SplitWords(s), " ") + Tail(s)
  {
    var n := WordLength(s);
    var u, rest := s[..n], s[n..];
    LeadingWordFacts(s);
    RegroupLastWord(Collapse(s), u, Collapse(rest), Lead(rest), Join(SplitWords(rest), " "), Tail(rest),
                    Lead(s), Join(SplitWords(s), " "), Tail(s));
  }

  /** The shape of a word followed by white space only. */
  lemma {:induction false} CollapseTrailingSpace(s: String)
    requires |s| > 0 && !IsWhiteSpace(s[0])
    requires var rest := s[WordLength(s)..];
             |rest| > 0 && SplitWords(rest) == []
             && Collapse(rest) == Lead(rest) + Join(SplitWords(rest), " ") + Tail(rest)
    ensures Collapse(s) == Lead(s) + Join(SplitWords(s), " ") + Tail(s)
  {
    var n := WordLength(s);
    var u, rest := s[..n], s[n..];
    LeadingWordFacts(s);
    NoWordsAllSpace(rest);
    assert s[|s| - 1] == rest[|rest| - 1];
    RegroupTrailingSpace(Collapse(s), u, Collapse(rest), Lead(rest), Join(SplitWords(rest), " "), Tail(rest),
                         Lead(s), Join(SplitWords(s), " "), Tail(s));
  }

  /** The shape of a word followed by more words. */
  lemma {:induction false} CollapseMoreWords(s: String)
    requires |s| > 0 && !IsWhiteSpace(s[0])
    requires var rest := s[WordLength(s)..];
             |rest| > 0 && SplitWords(rest) != []
             && Collapse(rest) == Lead(rest) + Join(SplitWords(rest), " ") + Tail(rest)
    ensures Collapse(s) == Lead(s) + Join(SplitWords(s), " ") + Tail(s)
  {
    var n := WordLength(s);
    var u, rest := s[..n], s[n..];
    LeadingWordFacts(s);
    JoinCons(u, SplitWords(rest));
    assert s[|s| - 1] == rest[|rest| - 1];
    RegroupMoreWords(Collapse(s), u, Collapse(rest), Lead(rest), Join(SplitWords(rest), " "), Tail(rest),
                     Lead(s), Join(SplitWords(s), " "), Tail(s));
  }

  /** What a leading word contributes to the shape. */
  lemma {:induction false} LeadingWordFacts(s: String)
    requires |s| > 0 && !IsWhiteSpace(s[0])
    ensures var n := WordLength(s);
            n > 0 && Collapse(s) == s[..n] + Collapse(s[n..]) && Lead(s) == []
            && SplitWords(s) == [s[..n]] + SplitWords(s[n..])
            && (n == |s| ==> s[..n] == s && Tail(s) == [])
  {
  }

  lemma {:induction false} RegroupLastWord(cs: String, u: String, cr: String, lr: String, jr: String, tr: String, ls: String, js: String, ts: String)
    requires cs == u + cr && cr == [] && ls == [] && js == u && ts == []
    ensures cs == ls + js + ts
  {
  }

  lemma {:induction false} RegroupTrailingSpace(cs: String, u: String, cr: String, lr: String, jr: String, tr: String, ls: String, js: String, ts: String)
    requires cs == u + cr && cr == lr + jr + tr && lr == " " && jr == [] && tr == []
    requires ls == [] && js == u && ts == " "
    ensures cs == ls + js + ts
  {
  }

  lemma {:induction false} RegroupMoreWords(cs: String, u: String, cr: String, lr: String, jr: String, tr: String, ls: String, js: String, ts: String)
    requires cs == u + cr && cr == lr + jr + tr && lr == " "
    requires ls == [] && js == u + " " + jr && ts == tr
    ensures cs == ls + js + ts
  {
  }

  /** Leading white space in front of a word-opening string is dropped. */
  lemma {:induction false} TrimStartSkips(a: String, t: String)
    requires AllWhiteSpace(a)
    requires t == [] || !IsWhiteSpace(t[0])
    ensures TrimStart(a + t) == t
    decreases |a|
  {
    if |a| > 0 {
      assert (a + t)[1..] == a[1..] + t;
      TrimStartSkips(a[1..], t);
    } else {
      assert a + t == t;
    }
  }

  /** Trailing white space behind a word-closing string is dropped. */
  lemma {:induction false} TrimEndSkips(t: String, b: String)
    requires AllWhiteSpace(b)
    requires t == [] || !IsWhiteSpace(t[|t| - 1])
    ensures TrimEnd(t + b) == t
    decreases |b|
  {
    if |b| > 0 {
      assert (t + b)[..|t + b| - 1] == t + b[..|b| - 1];
      TrimEndSkips(t, b[..|b| - 1]);
    } else {
      assert t + b == t;
    }
  }

  /** Trimming white space around a string that has none at its ends. */
  lemma {:induction false} TrimAround(a: String, m: String, b: String)
    requires AllWhiteSpace(a) && AllWhiteSpace(b)
    requires m == [] || (!IsWhiteSpace(m[0]) && !IsWhiteSpace(m[|m| - 1]))
    ensures Trim(a + m + b) == m
  {
    if m == [] {
      assert a + m + b == a + b;
      TrimAllWhiteSpace(a + b);
    } else {
      assert a + m + b == a + (m + b);
      TrimStartSkips(a, m + b);
      TrimEndSkips(m, b);
    }
  }

  /** Collapsing then trimming leaves exactly the words, one space apart. */
  lemma {:induction false} SquashJoinsWords(s: String)
    ensures Trim(Collapse(s)) == Join(SplitWords(s), " ")
  {
    var words := SplitWords(s);
    var lead, j, tail := Lead(s), Join(words, " "), Tail(s);
    CollapseShape(s);
    JoinOfWordsEnds(words);
    PadsAreWhiteSpace(s);
    TrimAround(lead, j, tail);
  }

  /** The single spaces `Collapse` keeps at either end are white space. */
  lemma PadsAreWhiteSpace(s: String)
    ensures AllWhiteSpace(Lead(s)) && AllWhiteSpace(Tail(s))
  {
  }

  /** Collapsing and trimming keeps the words. */
  lemma {:induction false} SquashKeepsWords(s: String)
    ensures SplitWords(Squash(s)) == SplitWords(s)
  {
    SplitWordsJoin(SplitWords(s));
  }

  /** Collapsing and trimming twice is collapsing and trimming once. */
  lemma {:induction false} SquashIdempotent(s: String)
    ensures Squash(Squash(s)) == Squash(s)
  {
    SquashKeepsWords(s);
  }

  // ---------------------------------------------------------------------------
  // Words of a concatenation
  // ---------------------------------------------------------------------------

  /** The leading word of `a` is unchanged by appending when it ends inside `a`. */
  lemma {:induction false} WordLengthAppend(a: String, b: String)
    requires WordLength(a) < |a|
    ensures WordLength(a + b) == WordLength(a)
    decreases |a|
  {
    if !IsWhiteSpace(a[0]) {
      assert (a + b)[1..] == a[1..] + b;
      WordLengthAppend(a[1..], b);
    }
  }

  /** Words split at white space: the words of a concatenation are the words of the
      parts when the join point falls on white space or an end. */
  lemma {:induction false} SplitWordsAppend(a: String, b: String)
    requires a == [] || b == [] || IsWhiteSpace(a[|a| - 1]) || IsWhiteSpace(b[0])
    ensures SplitWords(a + b) == SplitWords(a) + SplitWords(b)
    decreases |a|
  {
    var ab := a + b;
    if |a| == 0 {
      assert ab == b;
    } else if IsWhiteSpace(a[0]) {
      assert ab[1..] == a[1..] + b;
      SplitWordsAppend(a[1..], b);
      assert SplitWords(ab) == SplitWords(a[1..] + b);
    } else {
      var rest := a[WordLength(a)..];
      assert rest != [] ==> rest[|rest| - 1] == a[|a| - 1];
      SplitWordsAppend(rest, b);
      SplitWordsAppendWord(a, b);
    }
  }

  /** The step of `SplitWordsAppend` past a leading word. */
  lemma {:induction false} SplitWordsAppendWord(a: String, b: String)
    requires a != [] && !IsWhiteSpace(a[0])
    requires b == [] || IsWhiteSpace(a[|a| - 1]) || IsWhiteSpace(b[0])
    requires SplitWords(a[WordLength(a)..] + b) == SplitWords(a[WordLength(a)..]) + SplitWords(b)
    ensures SplitWords(a + b) == SplitWords(a) + SplitWords(b)
  {
    var n := WordLength(a);
    var rest := a[n..];
    var w, x, y := [a[..n]], SplitWords(rest), SplitWords(b);
    LeadingWordOfAppend(a, b);
    SplitWordsLead(a);
    AppendAssoc(w, x, y);
  }

  /** A string opening with a word splits into that word and the words after it. */
  lemma SplitWordsLead(a: String)
    requires a != [] && !IsWhiteSpace(a[0])
    ensures SplitWords(a) == [a[..WordLength(a)]] + SplitWords(a[WordLength(a)..])
  {
  }

  /** The leading word of `a` leads `a + b` too, and the rest follows it. */
  lemma {:induction false} LeadingWordOfAppend(a: String, b: String)
    requires a != [] && !IsWhiteSpace(a[0])
    requires b == [] || IsWhiteSpace(a[|a| - 1]) || IsWhiteSpace(b[0])
    ensures SplitWords(a + b) == [a[..WordLength(a)]] + SplitWords(a[WordLength(a)..] + b)
  {
    var ab := a + b;
    var n := WordLength(a);
    WordOfAppend(a, b);
    assert ab[0] == a[0];
    assert SplitWords(ab) == [ab[..n]] + SplitWords(ab[n..]);
    assert ab[..n] == a[..n];
    assert ab[n..] == a[n..] + b;
  }

  /** The leading word of `a + b` is the leading word of `a` when the join point
      falls on white space or an end. */
  lemma {:induction false} WordOfAppend(a: String, b: String)
    requires a != [] && !IsWhiteSpace(a[0])
    requires b == [] || IsWhiteSpace(a[|a| - 1]) || IsWhiteSpace(b[0])
    ensures WordLength(a + b) == WordLength(a)
  {
    var n := WordLength(a);
    if n < |a| {
      WordLengthAppend(a, b);
    } else {
      assert a[..n] == a;
      WordLengthOfWord(a, b);
    }
  }

  // ---------------------------------------------------------------------------
  // `\bw\b` → rep, and a literal pattern → rep
  // ---------------------------------------------------------------------------

  /** Does a match of `w` start at the head of `t`? With `boundary` the pattern is
      `\bw\b`: the character before the match (`prevWord` says whether it was a word
      character; the start of the string counts as not) must differ in kind from the
      first character of `w`, and the character after (the end counts as not a word
      character) from the last. */
  predicate MatchesHere(t: String, w: String, prevWord: bool, boundary: bool)
    requires |w| > 0
  {
    |w| <= |t| && t[..|w|] == w
    && (boundary ==> prevWord != IsWordChar(w[0])
                     && IsWordChar(w[|w| - 1]) != (|w| < |t| && IsWordChar(t[|w|])))
  }

  /** `Regex.Replace` of a pattern without metacharacters: scan left to right,
      replace each match and resume after it, copy every other character. */
  function ReplaceScan(t: String, w: String, rep: String, prevWord: bool, boundary: bool): String
    requires |w| > 0
    decreases |t|
  {
    if |t| == 0 then []
    else if MatchesHere(t, w, prevWord, boundary) then
      rep + ReplaceScan(t[|w|..], w, rep, IsWordChar(w[|w| - 1]), boundary)
    else
      [t[0]] + ReplaceScan(t[1..], w, rep, IsWordChar(t[0]), boundary)
  }

  /** `Regex.Replace(s, $@"\b{w}\b", rep)`. */
  function ReplaceWord(s: String, w: String, rep: String): String
    requires |w| > 0
  {
    ReplaceScan(s, w, rep, false, true)
  }

  /** `Regex.Replace(s, pattern, rep)` for a pattern that matches only itself. */
  function ReplaceText(s: String, pattern: String, rep: String): String
    requires |pattern| > 0
  {
    ReplaceScan(s, pattern, rep, false, false)
  }

  /** A pattern holding a character the text lacks never matches: the text comes
      back unchanged. */
  lemma {:induction false} ReplaceScanAbsent(t: String, w: String, rep: String, prevWord: bool, boundary: bool, c: char)
    requires |w| > 0 && c in w && c !in t
    ensures ReplaceScan(t, w, rep, prevWord, boundary) == t
    decreases |t|
  {
    if |t| > 0 {
      ReplaceScanAbsent(t[1..], w, rep, IsWordChar(t[0]), boundary, c);
    }
  }

  /** Inside a word (the previous character a word character) `\bw\b` cannot start,
      so the scan copies the rest of the word. */
  lemma {:induction false} ScanCopiesWord(x: String, w: String, rep: String, k: nat)
    requires WordOfWordChars(w)
    requires k <= |x| && forall i :: 0 <= i < k ==> IsWordChar(x[i])
    ensures ReplaceScan(x, w, rep, true, true) == x[..k] + ReplaceScan(x[k..], w, rep, true, true)
    decreases k
  {
    if k > 0 {
      var y := x[1..];
      var m: nat :| m + 1 == k;
      var rx := ReplaceScan(x, w, rep, true, true);
      var r1 := ReplaceScan(y, w, rep, true, true);
      var tail := ReplaceScan(x[k..], w, rep, true, true);
      ScanCopiesChar(x, w, rep);
      assert forall i :: 0 <= i < m ==> IsWordChar(y[i]) by {
        forall i | 0 <= i < m ensures IsWordChar(y[i]) {
          assert y[i] == x[i + 1];
        }
      }
      ScanCopiesWord(y, w, rep, m);
      TailSlices(x, k);
      RegroupCopy(rx, x[0], r1, x[1..k], tail, x[..k]);
    } else {
      assert x[..0] + x[0..] == x;
    }
  }

  /** A word character right after a word character is copied. */
  lemma ScanCopiesChar(x: String, w: String, rep: String)
    requires WordOfWordChars(w) && |x| > 0 && IsWordChar(x[0])
    ensures ReplaceScan(x, w, rep, true, true) == [x[0]] + ReplaceScan(x[1..], w, rep, true, true)
  {
    assert !MatchesHere(x, w, true, true);
  }

  /** Each occurrence of `w` in `words` replaced by the list `repl`. */
  function Subst(words: seq<String>, w: String, repl: seq<String>): (r: seq<String>)
    ensures w !in repl ==> w !in r
    ensures forall x :: x in r && x != w ==> x in words || x in repl
  {
    if |words| == 0 then []
    else (if words[0] == w then repl else [words[0]]) + Subst(words[1..], w, repl)
  }

  /** The replacement keeps text clean and turns its words into `Subst` of them. */
  predicate WordsReplaced(t: String, w: String, rep: String, prevWord: bool)
    requires |w| > 0
  {
    var r := ReplaceScan(t, w, rep, prevWord, true);
    Clean(r) && SplitWords(r) == Subst(SplitWords(t), w, SplitWords(rep))
  }

  /** Substituting a word that does not occur changes nothing. */
  lemma {:induction false} SubstAbsent(words: seq<String>, w: String, repl: seq<String>)
    requires w !in words
    ensures Subst(words, w, repl) == words
    decreases |words|
  {
    if |words| > 0 {
      SubstAbsent(words[1..], w, repl);
    }
  }

  /** On text made of words and white space, `\bw\b` → `rep` replaces exactly the
      whole words equal to `w`, each by the words of `rep`. */
  lemma {:induction false} ReplaceWordWords(t: String, w: String, rep: String, prevWord: bool)
    requires Clean(t) && Clean(rep) && WordOfWordChars(w)
    requires prevWord ==> t == [] || IsWhiteSpace(t[0])
    ensures var r := ReplaceScan(t, w, rep, prevWord, true);
            Clean(r) && SplitWords(r) == Subst(SplitWords(t), w, SplitWords(rep))
    decreases |t|
  {
    if |t| == 0 {
    } else if IsWhiteSpace(t[0]) {
      ReplaceWordWords(t[1..], w, rep, false);
      ReplaceStepSpace(t, w, rep, prevWord);
    } else {
      var n := WordLength(t);
      ReplaceWordWords(t[n..], w, rep, true);
      if t[..n] == w {
        ReplaceStepMatch(t, w, rep, prevWord);
      } else {
        ReplaceStepCopy(t, w, rep, prevWord);
      }
    }
  }

  /** White space is copied and holds no word. */
  lemma {:induction false} ReplaceStepSpace(t: String, w: String, rep: String, prevWord: bool)
    requires Clean(t) && WordOfWordChars(w) && |t| > 0 && IsWhiteSpace(t[0])
    requires WordsReplaced(t[1..], w, rep, false)
    ensures WordsReplaced(t, w, rep, prevWord)
  {
    ScanAtSpace(t, w, rep, prevWord);
    var r' := ReplaceScan(t[1..], w, rep, false, true);
    assert ([t[0]] + r')[1..] == r';
    assert SplitWords(t) == SplitWords(t[1..]);
  }

  /** At white space `\bw\b` cannot match: the scan copies it. */
  lemma {:induction false} ScanAtSpace(t: String, w: String, rep: String, prevWord: bool)
    requires WordOfWordChars(w) && |t| > 0 && IsWhiteSpace(t[0])
    ensures ReplaceScan(t, w, rep, prevWord, true) == [t[0]] + ReplaceScan(t[1..], w, rep, false, true)
  {
    assert !MatchesHere(t, w, prevWord, true) by { WordCharIsNotSpace(w[0]); }
  }

  /** What follows a word is empty or white space, and so is its replacement. */
  lemma {:induction false} AfterWord(t: String, w: String, rep: String)
    requires Clean(t) && WordOfWordChars(w) && |t| > 0 && !IsWhiteSpace(t[0])
    ensures var rest := t[WordLength(t)..];
            var r' := ReplaceScan(rest, w, rep, true, true);
            (rest == [] ==> r' == []) && (rest != [] ==> r' != [] && IsWhiteSpace(r'[0]))
  {
    var rest := t[WordLength(t)..];
    if rest != [] {
      ScanAtSpace(rest, w, rep, true);
    }
  }

  /** A whole word equal to `w` becomes `rep`. */
  lemma {:induction false} ReplaceStepMatch(t: String, w: String, rep: String, prevWord: bool)
    requires Clean(t) && Clean(rep) && WordOfWordChars(w) && |t| > 0 && !IsWhiteSpace(t[0])
    requires prevWord ==> IsWhiteSpace(t[0])
    requires t[..WordLength(t)] == w
    requires WordsReplaced(t[WordLength(t)..], w, rep, true)
    ensures WordsReplaced(t, w, rep, prevWord)
  {
    var n := WordLength(t);
    var rest := t[n..];
    var r' := ReplaceScan(rest, w, rep, true, true);
    assert MatchesHere(t, w, prevWord, true) by {
      if n < |t| {
        WordCharIsNotSpace(t[n]);
      }
    }
    AfterWord(t, w, rep);
    SplitWordsAppend(rep, r');
    SubstHead(w, SplitWords(rest), w, SplitWords(rep));
  }

  /** A whole word other than `w` is copied. */
  lemma {:induction false} ReplaceStepCopy(t: String, w: String, rep: String, prevWord: bool)
    requires Clean(t) && WordOfWordChars(w) && |t| > 0 && !IsWhiteSpace(t[0])
    requires prevWord ==> IsWhiteSpace(t[0])
    requires t[..WordLength(t)] != w
    requires WordsReplaced(t[WordLength(t)..], w, rep, true)
    ensures WordsReplaced(t, w, rep, prevWord)
  {
    var n := WordLength(t);
    var u := t[..n];
    var rest := t[n..];
    var r' := ReplaceScan(rest, w, rep, true, true);
    var r := ReplaceScan(t, w, rep, prevWord, true);
    assert forall i :: 0 <= i < n ==> IsWordChar(t[i]);
    NoMatchInWord(t, w, prevWord);
    ScanCopiesLeadingWord(t, w, rep, prevWord);
    assert r == u + r';
    AfterWord(t, w, rep);
    SplitWordsAppend(u, r');
    SplitWordsOfWord(u);
    SubstHead(u, SplitWords(rest), w, SplitWords(rep));
    assert SplitWords(r) == [u] + SplitWords(r');
    assert SplitWords(t) == [u] + SplitWords(rest);
    CleanAppend(u, r', r);
  }

  /** Two clean strings join into a clean one. */
  lemma CleanAppend(a: String, b: String, c: String)
    requires Clean(a) && Clean(b) && c == a + b
    ensures Clean(c)
  {
    forall i | 0 <= i < |c| ensures IsWordChar(c[i]) || IsWhiteSpace(c[i]) {
      if i >= |a| {
        assert c[i] == b[i - |a|];
      }
    }
  }

  /** The scan copies a leading word other than `w`. */
  lemma {:induction false} ScanCopiesLeadingWord(t: String, w: String, rep: String, prevWord: bool)
    requires WordOfWordChars(w) && 0 < WordLength(t)
    requires forall i :: 0 <= i < WordLength(t) ==> IsWordChar(t[i])
    requires !MatchesHere(t, w, prevWord, true)
    ensures ReplaceScan(t, w, rep, prevWord, true)
            == t[..WordLength(t)] + ReplaceScan(t[WordLength(t)..], w, rep, true, true)
  {
    var n := WordLength(t);
    var x := t[1..];
    var k := n - 1;
    var r1 := ReplaceScan(x, w, rep, true, true);
    var rt := ReplaceScan(t, w, rep, prevWord, true);
    ScanStepCopy(t, w, rep, prevWord);
    assert IsWordChar(t[0]);
    assert rt == [t[0]] + r1;
    assert forall i :: 0 <= i < k ==> IsWordChar(x[i]) by {
      forall i | 0 <= i < k ensures IsWordChar(x[i]) {
        assert x[i] == t[i + 1];
      }
    }
    ScanCopiesWord(x, w, rep, k);
    TailSlices(t, n);
    RegroupCopy(rt, t[0], r1, t[1..n], ReplaceScan(t[n..], w, rep, true, true), t[..n]);
  }

  /** Where the scan finds no match it copies the first character. */
  lemma ScanStepCopy(t: String, w: String, rep: String, prevWord: bool)
    requires |w| > 0 && |t| > 0 && !MatchesHere(t, w, prevWord, true)
    ensures ReplaceScan(t, w, rep, prevWord, true) == [t[0]] + ReplaceScan(t[1..], w, rep, IsWordChar(t[0]), true)
  {
  }

  /** The slices of a sequence's tail in terms of the sequence. */
  lemma TailSlices<T>(t: seq<T>, n: nat)
    requires 0 < n <= |t|
    ensures t[1..][..n - 1] == t[1..n] && t[1..][n - 1..] == t[n..] && t[..n] == [t[0]] + t[1..n]
  {
  }

  lemma {:induction false} RegroupCopy(rt: String, c: char, r1: String, mid: String, r': String, u: String)
    requires rt == [c] + r1 && r1 == mid + r' && u == [c] + mid
    ensures rt == u + r'
  {
  }

  /** A match of `\bw\b` at the head of clean text covers a whole word. */
  lemma {:induction false} NoMatchInWord(t: String, w: String, prevWord: bool)
    requires Clean(t) && WordOfWordChars(w) && |t| > 0 && !IsWhiteSpace(t[0])
    requires t[..WordLength(t)] != w
    ensures !MatchesHere(t, w, prevWord, true)
  {
    var n := WordLength(t);
    if MatchesHere(t, w, prevWord, true) {
      if |w| > n {
        assert t[n] == w[n];
        WordCharIsNotSpace(w[n]);
      }
    }
  }

  /** A word splits into itself. */
  lemma {:induction false} SplitWordsOfWord(u: String)
    requires IsWord(u)
    ensures SplitWords(u) == [u]
  {
    WordLengthOfWord(u, []);
    assert u + [] == u;
    assert u[..|u|] == u;
  }

  /** `Subst` of a list with a known head. */
  lemma {:induction false} SubstHead(u: String, rest: seq<String>, w: String, repl: seq<String>)
    ensures Subst([u] + rest, w, repl) == (if u == w then repl else [u]) + Subst(rest, w, repl)
  {
    assert ([u] + rest)[1..] == rest;
  }

  // ---------------------------------------------------------------------------
  // A list of words replaced in turn
  // ---------------------------------------------------------------------------

  /** `foreach (var w in ws) s = Regex.Replace(s, $@"\b{w}\b", rep);` */
  function ReplaceEach(s: String, ws: seq<String>, rep: String): String
    requires forall i :: 0 <= i < |ws| ==> WordOfWordChars(ws[i])
    decreases |ws|
  {
    if |ws| == 0 then s
    else
      assert WordOfWordChars(ws[0]);
      ReplaceEach(ReplaceWord(s, ws[0], rep), ws[1..], rep)
  }

  /** The words of `words` that are not in `stops`, in order. */
  function Keep(words: seq<String>, stops: seq<String>): (r: seq<String>)
    ensures |r| <= |words|
    ensures forall x :: x in r <==> x in words && x !in stops
  {
    if |words| == 0 then []
    else (if words[0] in stops then [] else [words[0]]) + Keep(words[1..], stops)
  }

  /** `Keep` of a list with a known head. */
  lemma {:induction false} KeepHead(u: String, rest: seq<String>, stops: seq<String>)
    ensures Keep([u] + rest, stops) == (if u in stops then [] else [u]) + Keep(rest, stops)
  {
    assert ([u] + rest)[1..] == rest;
  }

  /** Deleting `w` and then the words of `stops` deletes the words of `[w] + stops`. */
  lemma {:induction false} KeepAfterDelete(words: seq<String>, w: String, stops: seq<String>)
    ensures Keep(Subst(words, w, []), stops) == Keep(words, [w] + stops)
    decreases |words|
  {
    if |words| > 0 {
      KeepAfterDelete(words[1..], w, stops);
      var x := words[0];
      if x == w {
        assert Subst(words, w, []) == Subst(words[1..], w, []);
      } else {
        KeepHead(x, Subst(words[1..], w, []), stops);
      }
    }
  }

  /** A space holds no word. */
  lemma {:induction false} SpaceHasNoWords()
    ensures SplitWords(" ") == [] && Clean(" ")
  {
    assert " "[1..] == [];
  }

  /** On clean text, replacing each word of `stops` by a space removes exactly the
      words that are in `stops`, and leaves the text clean. */
  lemma {:induction false} RemoveWords(s: String, stops: seq<String>)
    requires Clean(s)
    requires forall i :: 0 <= i < |stops| ==> WordOfWordChars(stops[i])
    ensures var r := ReplaceEach(s, stops, " ");
            Clean(r) && SplitWords(r) == Keep(SplitWords(s), stops)
    decreases |stops|
  {
    if |stops| == 0 {
      KeepNothing(SplitWords(s));
    } else {
      var s' := ReplaceWord(s, stops[0], " ");
      SpaceHasNoWords();
      ReplaceWordWords(s, stops[0], " ", false);
      RemoveWords(s', stops[1..]);
      KeepAfterDelete(SplitWords(s), stops[0], stops[1..]);
      assert [stops[0]] + stops[1..] == stops;
    }
  }

  /** Keeping against no stop words keeps everything. */
  lemma {:induction false} KeepNothing(words: seq<String>)
    ensures Keep(words, []) == words
    decreases |words|
  {
    if |words| > 0 {
      KeepNothing(words[1..]);
    }
  }

  // ---------------------------------------------------------------------------
  // Lower case
  // ---------------------------------------------------------------------------

  /** Every word in lower case. */
  function LowerAll(words: seq<String>): (r: seq<String>)
    ensures |r| == |words| && forall i :: 0 <= i < |words| ==> r[i] == Lower(words[i])
  {
    seq(|words|, i requires 0 <= i < |words| => Lower(words[i]))
  }

  /** Lower-casing keeps text clean. */
  lemma {:induction false} LowerKeepsClean(s: String)
    requires Clean(s)
    ensures Clean(Lower(s))
  {
  }

  /** Lower-casing a join of words lower-cases each word. */
  lemma {:induction false} LowerJoin(words: seq<String>)
    ensures Lower(Join(words, " ")) == Join(LowerAll(words), " ")
    decreases |words|
  {
    if |words| > 1 {
      LowerJoin(words[1..]);
      LowerAppend(words[0] + " ", Join(words[1..], " "));
      LowerAppend(words[0], " ");
      assert LowerAll(words)[1..] == LowerAll(words[1..]);
    }
  }

  /** The words of lower-cased text are the lower-cased words. */
  lemma {:induction false} LowerWords(s: String)
    ensures SplitWords(Lower(Squash(s))) == LowerAll(SplitWords(s))
  {
    var words := SplitWords(s);
    LowerJoin(words);
    forall i | 0 <= i < |words|
      ensures IsWord(Lower(words[i]))
    {
    }
    SplitWordsJoin(LowerAll(words));
  }
}
